=== FILE: README.md ===
# Solar service desk — a Dafny model of its decision rules

The modelled system is a field-service application for a solar installation company. It has an
Express/Sequelize backend and a React front end. Technicians get tasks (plain tasks and periodic
services) with subtasks, and an hourly job reminds them by e-mail of tasks due within the hour.
Clients open support tickets on topics; know-how articles answer them. Reports record visits,
the op codes of the client's installation and the material taken from the warehouse. Users have
roles (`admin`, `technician`, `client`, `user`). The user, client, topic, know-how and ticket
routers check a signed token and then the caller's role on most routes; the topic router does so
for all of its routes at once. Within the user router, e-mail validation, the password-reset
request and login are open, and a password change needs only a valid token. The report, task,
subtask, warehouse, settings, file, component and system routes check nothing. On the client
side, pages are wrapped in route guards that admit listed roles.

This project restates the rules those handlers, models and pages apply, and proves what they
guarantee. Each database table is a `map<Id, Record>` keyed by positive auto-increment ids. Time
is integer milliseconds. Everything outside the process is a parameter: the outcome of sending
mail, saving a file or writing a row, the password hash and the decoded token claims. A handler
is a pure function from the tables and the request to a status code and the new tables.

Modules, following the source layout:

- `Tables`, `Text`, `Sorting`: shared vocabulary. This covers options, results carrying an HTTP
  status, `findOne`/`findAll` over a table, and the delete-by-id rule that every resource's
  delete route follows. It also covers the JavaScript string operations
  `trim`, `toLowerCase`, `includes` and `split`/`join`, and a stable insertion sort.
- `Access`: the role middleware.
- `UserModel`, `UserRoutes`: accounts, the hash-once guard, password change and reset, the login
  payload, user updates.
- `ClientModel`, `ClientRoutes`, `ClientPage`: the client record and its op-code rule, the client
  routes, the client list page's op-code parser and search.
- `Tasks`, `Subtasks`, `Reminders`, `Notifications`, `TaskPages`:
  - task records and their creation hook;
  - task and subtask routes;
  - the hourly sweep and the count sent on connect;
  - the front-end counter driven by socket events;
  - the Tasks and Calendar pages.
- `Tickets`, `Topics`, `KnowHows`, `Priority`: ticket triage, the topic and know-how registries,
  and the technician dashboard's priority score, filter and sort.
- `Reports`, `ReportForm`, `Warehouse`, `Settings`: report routes with version numbering and
  op-code assignment, the report form, stock items and rate settings.
- `ClientFiles`, `FileManager`: upload metadata and directory listing, and the file browser.
- `LoginPage`, `AppRoutes`: the sign-in form and the front end's route table with its guards.

Where the code does something other than what its own comments, messages and screens suggest,
the model follows the code:

- Task updates are unconditional writes, with no compare-and-swap on the current status. The
  sweep never marks a task missed. Editing a due date does not reset `emailSent`, so a
  rescheduled task gets no second reminder.
- The report list's `status` parameter names a column the report table does not have, so any
  query with it fails with 500.
- An upload for an unknown client fails with 500 in the client lookup in front of the file
  routes, not with 404.
- On the report form, emptying the op-code field is not reverted to the client's first code;
  only a different non-empty value is.

## Model

| member | source | states |
|---|---|---|
| Tables.Destroy | solar-servis-backend/routes/tasks.js:109-124 | the delete rule shared by tasks, subtasks, clients, users, topics, know-how entries, reports and warehouse items: 404 exactly when no row has the id, otherwise exactly that row is removed and every other row is kept as it was. The task, subtask, client, report and warehouse deletes apply it to every caller; the user, topic and know-how deletes first admit administrators only (`UserRoutes.DeleteUser`, `Topics.DeleteTopic`, `KnowHows.DeleteKnowHow`) |
| Tables.DestroyUndoesInsert | solar-servis-backend/routes/tasks.js:109-124 | deleting a row just added under a fresh id restores the table |
| Tables.DestroyTwice | solar-servis-backend/routes/tasks.js:109-124 | deleting the same id a second time is 404 |
| Access.ParseRole | solar-servis-backend/models/User.js:19-21 | a role string is accepted exactly when it is one of the four enum names, and is read back as the same name |
| Access.RoleNamesInjective | solar-servis-backend/models/User.js:19-21 | distinct roles have distinct names, so a name check identifies one role |
| Access.Authorize | solar-servis-backend/middleware/authorizeRole.js:2-9 | the request reaches the handler exactly when the caller's role is included in the route's roles, and is otherwise answered 403 |
| Access.ListAdmitsExactlyNamed | solar-servis-backend/middleware/authorizeRole.js:4 | with an array of names the middleware admits exactly the roles named |
| Access.AdminStringAdmitsOnlyAdmin | solar-servis-backend/routes/users.js:24 | the bare-string form `'admin'` is a substring test, yet over the four roles it still admits only administrators |
| Access.Guarded | solar-servis-backend/middleware/authorizeRole.js:2-9 | a guarded handler's answer is 403 for an excluded role and the handler's own answer otherwise |
| Access.RouteListsAdmit | solar-servis-backend/routes/knowHow.js:11 | the staff list admits exactly administrators and technicians, the all-users list everyone but a plain user, and the one-role lists only that role |
| Text.TrimEmptyIffBlank | solar-servis-backend/routes/tickets.js:215 | a trimmed text is empty exactly when the text is only white space |
| Text.TrimKeepsNonSpace | solar-servis-frontend/src/pages/Login.jsx:107 | trimming neither removes nor adds any character other than white space |
| Text.JoinSplit | solar-servis-frontend/src/components/FileManager.js:313-315 | joining the segments of a path with `/` gives the path back |
| Text.SplitJoin | solar-servis-frontend/src/components/FileManager.js:313-315 | splitting a `/`-join of segments free of `/` gives the segments back |
| Text.SplitConcat | solar-servis-frontend/src/components/FileManager.js:313 | the segments of `a/b` are the segments of `a` followed by those of `b` |
| Text.JoinCommaSpace | solar-servis-frontend/src/pages/Clients.jsx:416 | joining with `, ` is joining with `,` after padding every piece but the first with one space |
| Text.LowerIdempotent | solar-servis-frontend/src/pages/Tasks.jsx:78 | lower-casing twice is lower-casing once (for the letters the model folds, see Left out) |
| Text.LowerChar | solar-servis-frontend/src/pages/Tasks.jsx:78 | an upper-case letter of ASCII, Latin-1 or Latin Extended-A becomes a different, lower-case character, every other character is kept, and a character is ASCII exactly when its lower-case form is |
| Text.LowerCzech | solar-servis-frontend/src/pages/Tasks.jsx:78 | Czech words with háček and čárka letters lower-case to their Czech lower-case spelling |
| Sorting.Insert | solar-servis-backend/routes/tickets.js:140 | inserting one row into a listing yields the listing's rows plus that row, nothing lost or duplicated |
| Sorting.InsertSorted | solar-servis-backend/routes/tickets.js:140 | inserting into a listing already in `ORDER BY` order keeps it in order |
| Sorting.SortBy | solar-servis-backend/routes/tickets.js:140 | a two-column `ORDER BY` yields a permutation of the rows in which every earlier row ranks no higher than every later one |
| Sorting.SortByKeepsMembers | solar-servis-frontend/src/pages/TechnicianDashboard.jsx:181 | sorting neither drops nor invents a row |
| Sorting.InsertWithRank | solar-servis-frontend/src/pages/TechnicianDashboard.jsx:181 | an inserted element comes before every element of its own rank already in the list, and the order among the others is kept |
| Sorting.SortByStable | solar-servis-frontend/src/pages/TechnicianDashboard.jsx:181 | sorting is stable, as `Array.prototype.sort` is: the elements of each rank come out in the order they went in |
| ClientModel.DefaultsValid | solar-servis-backend/models/Client.js:43-47 | the column's default, an empty OP-code list, passes its own validator |
| ClientModel.AppendKeepsValid | solar-servis-backend/models/Client.js:48-57 | adding a code of letters, digits and dashes to a valid list keeps it valid |
| ClientModel.AppendInvalidRejected | solar-servis-backend/models/Client.js:52-55 | one code outside `[a-zA-Z0-9-]+` makes the whole list invalid |
| ClientModel.ReportCodeIsClientCode | solar-servis-backend/models/Report.js:38-45 | every OP code a report accepts is also accepted on a client |
| ClientModel.ClientCodeNotAlwaysReportCode | solar-servis-backend/models/Report.js:41 | the converse fails: a lower-case client code is not a report code |
| ClientRoutes.LinkNewUser | solar-servis-backend/routes/clients.js:110-135 | account creation either writes nothing (failed insert) or adds exactly one client-role user with the given username and links the client to it; a 200 needs a free username and a sent mail, and a failed mail keeps the account |
| ClientRoutes.Register | solar-servis-backend/routes/clients.js:96-139 | 403 with nothing written exactly when the caller is neither an administrator nor a technician; past that guard, 404 for an unknown client and 400 for a client that already has an account, both writing nothing; a 200 needs an administrator or technician, and on 200 the client is linked to a new client-role user named by the client's e-mail |
| ClientRoutes.RegisterOnce | solar-servis-backend/routes/clients.js:106-108 | after a successful registration, registering the same client again is refused with 400 |
| ClientRoutes.RegisterStoresHashOnce | solar-servis-backend/routes/clients.js:114-119 | the bcrypt string handed to the insert is stored as is, not hashed a second time |
| ClientRoutes.ClientByEmail | solar-servis-backend/routes/clients.js:318 | the e-mail lookup finds a client with exactly that address, and nothing exactly when no client has it |
| ClientRoutes.RegisterByEmail | solar-servis-backend/routes/clients.js:308-356 | a missing or empty address is 400, an unknown one 404, an already registered client 400, none of which writes anything; a 200 creates a user named by an address some client holds |
| ClientRoutes.CreateClient | solar-servis-backend/routes/clients.js:184-200 | an absent or unknown system is 400 before anything else; a row failing the model's validation is 500; otherwise exactly one client is added, carrying every column the body names, the account link, file list and both dates included, with an empty file list and OP-code list when they are absent; no other client changes |
| ClientRoutes.CreatedClientFoundByEmail | solar-servis-backend/routes/clients.js:195 | a created client is what the e-mail lookup of the registration and password-reset routes finds for its address |
| ClientRoutes.DeleteUndoesCreate | solar-servis-backend/routes/clients.js:240-252 | deleting a client just created gives back the table as it was |
| ClientRoutes.PatchClient | solar-servis-backend/routes/clients.js:272-276 | every column the body names, the file list, account link and both dates included, takes the body's value, and every column it does not name keeps its value |
| ClientRoutes.UpdateClient | solar-servis-backend/routes/clients.js:259-282 | 404 for an unknown client, 400 for a supplied unknown system; it succeeds exactly when the client exists, a supplied system exists, a supplied email is well formed and not another client's, and the resulting OP codes are valid; on success only that client changes, by the patch rule over every column the body names, and the OP codes it ends with are valid |
| ClientRoutes.EmptyUpdateNoChange | solar-servis-backend/routes/clients.js:259-282 | an update with an empty body leaves the table as it was |
| ClientRoutes.AssignOp | solar-servis-backend/routes/clients.js:285-305 | 404 for an unknown client; a code breaking the element rule is refused by the validator with 500, and every other request for an existing client succeeds; on success the code is appended after the existing codes (a null list becomes a one-element list) and nothing else changes |
| ClientRoutes.AssignOpDoesNotDedupe | solar-servis-backend/routes/clients.js:296-297 | a code already on the client's list is appended a second time |
| UserModel.StoredPassword | solar-servis-backend/models/User.js:42-47 | a password already carrying a bcrypt prefix is stored as given, any other is stored hashed |
| UserModel.HookHashesOnce | solar-servis-backend/models/User.js:42-47 | when hashing yields bcrypt strings, the stored password is hashed and running the hook on it again changes nothing |
| UserModel.CreateUser | solar-servis-backend/models/User.js:50-57 | the insert succeeds exactly when username and password are given, the username is free and the role (default `user`) is one of the enum names; it adds one row with those values, the hooked password and no forced change, and changes no other row |
| UserModel.CreateUserKeepsUnique | solar-servis-backend/models/User.js:10-14 | creating a user keeps usernames unique |
| UserModel.CreateUserDefaults | solar-servis-backend/models/User.js:50 | with only credentials given, a plain `user` without a technician and without a forced change is made |
| UserRoutes.CreateUserRoute | solar-servis-backend/routes/users.js:24-40 | 403 exactly when the caller is not an administrator (the guard names the single role `'admin'`); for an administrator, a supplied unknown technician is 400 and nothing else is; the request succeeds exactly when the caller is an administrator, the technician is absent or exists, name and password are given, the name is free and the role (default `user`) is in the enum, and otherwise fails with 400 or 500; a created user refers to no technician or an existing one |
| UserRoutes.SetPassword | solar-servis-backend/routes/users.js:43-61 | 403 exactly for a caller who is not an administrator; for an administrator, 404 for an unknown user and 500 for a body without a password (hashing `undefined` throws); it succeeds exactly for an administrator otherwise, and then only that user's password changes, to the hash of the new one |
| UserRoutes.SetPasswordThenLogin | solar-servis-backend/routes/users.js:43-61 | after an administrator sets a password, signing in with it succeeds for that user |
| UserRoutes.SetRole | solar-servis-backend/routes/users.js:96-113 | 403 exactly for a caller who is not an administrator; for an administrator, 404 for an unknown user and 500 for a role outside the enum; success exactly for an administrator otherwise; then only that user's role changes, to the named one |
| UserRoutes.SetRoleChangesAccess | solar-servis-backend/routes/users.js:96-113 | after a role change the user signs in with the same credentials and the token carries the new role, which every role-guarded route then admits exactly when it names that role |
| UserRoutes.ValidateEmail | solar-servis-backend/routes/users.js:80-93 | 200 exactly when some client holds the address, 404 when none does, 500 when no address is sent |
| UserRoutes.ValidateAgreesWithRegistration | solar-servis-backend/routes/users.js:80-93 | the address check and registration by e-mail reject exactly the same addresses as unknown |
| UserRoutes.ForgotPassword | solar-servis-backend/routes/users.js:128-175 | a missing address is 400; an unknown address, or one whose client has no account, is 200 with nothing written; a link to a missing account is 500; otherwise only that account changes, to the hashed temporary password with a forced change, and the answer is 200 exactly when the mail is sent and 500 otherwise |
| UserRoutes.ResetThenLogin | solar-servis-backend/routes/users.js:150-166 | after a reset, signing in with the temporary password succeeds for that account, and the token asks for a password change |
| UserRoutes.ForgotPasswordHidesAccounts | solar-servis-backend/routes/users.js:137-141 | an unknown address, or one whose client has no account, gets the same 200 as a real reset and changes nothing |
| UserRoutes.ChangePassword | solar-servis-backend/routes/users.js:178-220 | a missing new password is 400 and an unknown caller 404; without the forced-change flag a missing or empty old password is 400 and a wrong one 401; it succeeds exactly when the new password is given, the caller exists and either the flag is set or the old password matches; on success only the caller's row changes, to the hashed new password with the forced-change flag cleared, and without the flag the old password was given and matched |
| UserRoutes.ResetThenChange | solar-servis-backend/routes/users.js:193-198 | after a reset the account can set a new password without knowing any old one |
| UserRoutes.WrongOldPasswordRefused | solar-servis-backend/routes/users.js:207-210 | without the forced-change flag, a wrong old password is 401 |
| UserRoutes.UserByName | solar-servis-backend/routes/users.js:230-236 | the username lookup finds a user with exactly that name, and nothing exactly when no user has it |
| UserRoutes.LinkedClient | solar-servis-backend/routes/users.js:250-252 | the account's client is a client row linked to that user, and is absent exactly when no row is |
| UserRoutes.Login | solar-servis-backend/routes/users.js:223-266 | missing credentials are 400, an unknown name 404, a wrong password 401, and sign-in succeeds exactly for a known name with a matching password; the token carries the matched user's id, role and technician, a client id exactly for a client-role user with a linked row, and the forced-change claim exactly when the flag is set (never as false) |
| UserRoutes.UpdateUser | solar-servis-backend/routes/users.js:283-311 | 403 exactly for a caller who is not an administrator, and success only for an administrator; for an administrator, 404 for an unknown user, 400 exactly for a supplied unknown technician; for a known user with an acceptable technician it succeeds exactly when a non-empty role is in the enum and the resulting name is held by no other user; on success only that user changes: username and role when non-empty, technician when defined (null included), password and flag never |
| UserRoutes.DeleteUser | solar-servis-backend/routes/users.js:64-78 | 403 exactly for a caller who is not an administrator, 404 for an administrator naming an unknown user; success removes exactly that user and keeps every other one |
| UserRoutes.DeletedUserCannotLogin | solar-servis-backend/routes/users.js:223-266 | once an administrator deletes a user, signing in with that user's name is 404 |
| UserRoutes.UpdateUserKeepsUnique | solar-servis-backend/routes/users.js:300-304 | a successful update keeps usernames unique |
| UserRoutes.AssignTechnician | solar-servis-backend/routes/users.js:314-345 | 403 exactly for a caller who is not an administrator; for an administrator, a missing technician is 400, an unknown user 404, an unknown technician 400; success needs an administrator and sets only that user's technician |
| UserRoutes.TechnicianReferencesExist | solar-servis-backend/routes/users.js:294-299 | every technician reference written by assignment or update points at an existing technician |
| Tasks.ParseStatus | solar-servis-backend/models/Task.js:31-35 | a submitted status is accepted exactly when it is one of the four enum names, and then maps to the status stored under that name |
| Tasks.ParseKind | solar-servis-backend/models/Task.js:26-30 | a submitted type is accepted exactly when it is `task` or `service`, and then maps to the kind stored under that name |
| Tasks.EnumNamesRoundTrip | solar-servis-backend/models/Task.js:26-35 | every stored status and type name parses back to the value it came from |
| Tasks.PendingCount | solar-servis-backend/index.js:213-219 | the outstanding count is the number of rows whose status is neither completed nor missed, never more than the rows stored |
| Tasks.PendingCountByStatus | solar-servis-backend/index.js:213-219 | the outstanding count depends only on which ids exist and on their statuses |
| Tasks.AfterCreate | solar-servis-backend/models/Task.js:48-77 | the creation hook changes nothing but `emailSent`, and sets it exactly when the technician has an address and the send succeeds |
| Tasks.CreateTask | solar-servis-backend/routes/tasks.js:9-23 | a plain task naming a client is refused with 400, a row that fails model validation with 500; otherwise exactly one new row holds the submitted fields with the model defaults (`task`, `upcoming`) and the hook's flag, and every other row is kept |
| Tasks.CreateDefaults | solar-servis-backend/models/Task.js:26-44 | a body with only the required fields creates an upcoming plain task without client or reason, flagged only if the creation mail went out |
| Tasks.AutoMiss | solar-servis-backend/routes/tasks.js:46-52 | only the status can change, and it becomes missed exactly for an overdue service that is not completed |
| Tasks.AutoMissStable | solar-servis-backend/routes/tasks.js:48-50 | applying the overdue rule twice at one time is the same as once; completed and missed rows and plain tasks are never changed by it |
| Tasks.ListTasks | solar-servis-backend/routes/tasks.js:28-58 | the listing holds exactly the rows of the requested technician (or all), each after the overdue rule, and the store keeps those rewritten rows and every other row unchanged |
| Tasks.ListTasksIdempotent | solar-servis-backend/routes/tasks.js:28-58 | listing again at the same time changes neither the store nor the listing |
| Tasks.ApplyPatch | solar-servis-backend/routes/tasks.js:89 | every key present in the body is written and every absent key keeps its stored value |
| Tasks.UpdateTask | solar-servis-backend/routes/tasks.js:75-94 | 404 for an unknown id, 400 for a body the enum validation refuses; otherwise only that row changes, by the patch, and the log-only warning fires exactly for `missed` without a reason |
| Tasks.UpdateAnyTransition | solar-servis-backend/routes/tasks.js:89 | there is no transition guard: any stored task can be moved to any status, nothing else in it changing |
| Tasks.RescheduleKeepsEmailSent | solar-servis-backend/routes/tasks.js:89 | an update that does not name `emailSent` keeps the flag, whatever else it changes |
| Reminders.Summary | solar-servis-backend/index.js:193-203 | a notification carries the task's id, description, due date, client, technician and type, each as stored |
| Reminders.DispatchFlags | solar-servis-backend/index.js:171-210 | the loop changes nothing but `emailSent`, and sets it exactly for the listed tasks whose technician has an address and whose mail is sent |
| Reminders.MailedFacts | solar-servis-backend/index.js:171-210 | the mailed tasks keep the list order and are exactly the listed tasks whose technician has an address and whose mail is sent |
| Reminders.MailedIgnoresFlag | solar-servis-backend/index.js:173-177 | whether a listed task is mailed depends on its technician only |
| Reminders.DispatchIds | solar-servis-backend/index.js:188-206 | the loop emits one notification per mailed task, in list order |
| Reminders.DispatchShape | solar-servis-backend/index.js:193-203 | every event the loop emits is an `upcomingTask` notification carrying its task's summary |
| Reminders.Candidates | solar-servis-backend/index.js:154-163 | a task is selected exactly when it is due within the next hour (both ends included), not completed or missed, and not yet reminded |
| Reminders.CandidateOrder | solar-servis-backend/index.js:154-171 | the loop visits exactly the selected tasks, each once, in ascending id order |
| Reminders.Sweep | solar-servis-backend/index.js:148-227 | a run changes only `emailSent`, never a status, ends with the outstanding count, and leaves that count unchanged |
| Reminders.CandidateDispatch | solar-servis-backend/index.js:154-210 | after a run, a task's flag is set exactly when it was set before or it was selected and mailed |
| Reminders.SweepEvents | solar-servis-backend/index.js:171-222 | a run emits one notification per mailed candidate, in id order and with its summary, followed by the count |
| Reminders.QuietSweep | solar-servis-backend/index.js:148-227 | a run that mails nobody leaves every row as it was and only broadcasts the count |
| Reminders.NoSecondReminder | solar-servis-backend/index.js:162 | a task reminded by one run is not reminded by any later run, whatever the time or the mail outcome |
| Reminders.SweepIdempotent | solar-servis-backend/index.js:148-227 | a second run at the same time with the same mail outcome mails nothing and changes no row |
| Reminders.CreationMailSuppressesReminder | solar-servis-backend/models/Task.js:72-73 | a task whose creation mail was sent is never reminded by any run |
| Reminders.RescheduleGetsNoReminder | solar-servis-backend/routes/tasks.js:89 | moving the due date of an already reminded task does not bring a new reminder |
| Reminders.OnConnect | solar-servis-backend/index.js:266-289 | a new connection receives the outstanding count, or 0 when counting fails |
| Reminders.ConnectAgreesWithSweep | solar-servis-backend/index.js:213-222 | a connection right after a run receives the count that run broadcast |
| Reminders.SweepWithIncludes | solar-servis-backend/index.js:164-169 | an include naming an undeclared alias makes the run change nothing and emit nothing; with resolvable includes it is the run above |
| Reminders.ReminderLostAsWritten | solar-servis-backend/index.js:165 | with the include as written, a task that should be reminded is neither flagged nor notified, while the corrected run reminds it |
| Reminders.CorrectedSweepIsSweep | solar-servis-backend/models/associations.js:49 | with the alias as declared, the job is the run specified by `Reminders.Sweep` |
| Subtasks.ListSubtasks | solar-servis-backend/routes/subtasks.js:7-15 | the listing holds exactly the subtasks whose task is the one in the path, unchanged |
| Subtasks.CreateSubtask | solar-servis-backend/routes/subtasks.js:18-33 | a missing description fails with 500 and every other request succeeds, adding exactly one new subtask, under the task of the path, with `completed` false unless the body says true, and every other subtask kept |
| Subtasks.UpdateSubtask | solar-servis-backend/routes/subtasks.js:36-49 | 404 exactly for an unknown id or a body that sets no column (Sequelize then skips the query and reports no affected row); every other request succeeds, and only that subtask changes, each field taking the body's value when given |
| Subtasks.UpdateMovesListing | solar-servis-backend/routes/subtasks.js:7-49 | after an update the subtask is listed, with its patched values, under the task it now belongs to and under no other task |
| Subtasks.CreateKeepsOtherListings | solar-servis-backend/routes/subtasks.js:18-33 | creating a subtask under one task leaves every other task's listing as it was |
| TaskPages.FrontAutoMiss | solar-servis-frontend/src/pages/Tasks.jsx:49-53 | only the status can change; a task of either type that is past due and not completed is shown as missed, any other task is left as it is |
| TaskPages.LoadTasks | solar-servis-frontend/src/pages/Tasks.jsx:46-56 | the loaded list keeps its order and length with each task after the page's overdue rule, and a missed update is sent exactly for the overdue, non-completed tasks |
| TaskPages.FrontRuleCoversServerRule | solar-servis-frontend/src/pages/Tasks.jsx:49 | whatever the list handler marks missed the page marks missed too, and a plain task past due is marked missed by the page only |
| TaskPages.UiPendingIsPending | solar-servis-frontend/src/pages/Tasks.jsx:65 | the page's pending test (upcoming or in progress) is the server's (neither completed nor missed) |
| TaskPages.PendingIds | solar-servis-frontend/src/pages/Tasks.jsx:65 | the pending ids are exactly the ids of the list's pending tasks |
| TaskPages.UiPendingCountIsIdCount | solar-servis-frontend/src/pages/Tasks.jsx:65 | on a list without repeated ids the page's count is the number of pending ids |
| TaskPages.UiPendingCountMatchesServer | solar-servis-frontend/src/pages/Tasks.jsx:65 | a page showing every stored row once computes the same outstanding count as the server's broadcast |
| TaskPages.PendingIdsAreServerPending | solar-servis-frontend/src/pages/Tasks.jsx:65 | on such a page the pending ids are exactly the server's outstanding rows |
| TaskPages.ToggleSubtask | solar-servis-frontend/src/pages/Tasks.jsx:136-172 | the chosen subtask becomes completed and no other changes; the task becomes completed exactly when every subtask is (or it already was), and otherwise keeps its status |
| TaskPages.ToggleLastOpenCompletes | solar-servis-frontend/src/pages/Tasks.jsx:141 | completing the last open subtask completes the task |
| TaskPages.ToggleSubtaskIsStored | solar-servis-frontend/src/services/api.js:523-540 | the PUT that `updateTask` sends for the toggled subtask succeeds, and the store then holds that subtask completed under the same task with nothing else changed, so the task's subtask listing shows what the page shows |
| TaskPages.ToggleResendsOthersUnchanged | solar-servis-frontend/src/services/api.js:523-540 | the other subtasks the toggle sends again succeed and leave the store as it was |
| TaskPages.ChangeStatus | solar-servis-frontend/src/pages/Tasks.jsx:191-212 | moving a task without a reason to missed needs a non-empty answer to the prompt, otherwise nothing is sent; what is sent is the task with the new status and, for missed, a non-empty reason |
| TaskPages.RowPatchStoresRow | solar-servis-backend/routes/tasks.js:75-93 | a body carrying every column of a row is valid and stores exactly that row |
| TaskPages.ChangeStatusIsStored | solar-servis-frontend/src/pages/Tasks.jsx:191-199 | what the page sends for a status change is stored on the server exactly as the page shows it, and never draws the missing-reason warning |
| TaskPages.RemoveTask | solar-servis-frontend/src/pages/Tasks.jsx:174-189 | the local list keeps exactly the tasks with another id |
| TaskPages.FilterKeepsDistinct | solar-servis-frontend/src/pages/Tasks.jsx:177 | filtering a list without repeated ids leaves a list without repeated ids |
| TaskPages.RemoveTaskShowsKeptRows | solar-servis-frontend/src/pages/Tasks.jsx:177 | after the delete, every task the filtered list shows is a row the store keeps, as stored |
| TaskPages.RemoveTaskShowsEveryKeptRow | solar-servis-frontend/src/pages/Tasks.jsx:177 | after the delete, every row the store keeps is shown by the filtered list |
| TaskPages.RemoveTaskMirrorsDelete | solar-servis-frontend/src/pages/Tasks.jsx:174-183 | on a page that shows the store, the filtered list shows the store after the server's delete, so the pending count the page broadcasts is the server's |
| TaskPages.SearchTasks | solar-servis-frontend/src/pages/Tasks.jsx:76-93 | the result keeps exactly the tasks whose description, technician name or client name contains the lower-cased query |
| TaskPages.SearchEmptyKeepsAll | solar-servis-frontend/src/pages/Tasks.jsx:76-93 | an empty query keeps the whole list, in order |
| TaskPages.SearchIgnoresQueryCase | solar-servis-frontend/src/pages/Tasks.jsx:78 | a query and its lower-cased form match the same tasks (for the letters the model folds, see Left out) |
| TaskPages.CapDescription | solar-servis-frontend/src/pages/Tasks.jsx:34 | the field holds at most 255 characters, a prefix of what was typed, and all of it when it fits |
| TaskPages.StatusColor | solar-servis-frontend/src/pages/Calendar.jsx:118-130 | each status has its own colour: missed red, in progress blue, completed green, upcoming gray |
| TaskPages.ToEvents | solar-servis-frontend/src/pages/Calendar.jsx:199-209 | one event per task, in order, carrying its id, description, due date and status colour |
| TaskPages.ClickEvent | solar-servis-frontend/src/pages/Calendar.jsx:66-82 | a click opens a task with the event's id, and nothing exactly when no task has it |
| TaskPages.ClickOpensItsTask | solar-servis-frontend/src/pages/Calendar.jsx:66-82 | on a list without repeated ids, clicking a task's event opens that task |
| TaskPages.CalendarToggle | solar-servis-frontend/src/pages/Calendar.jsx:132-166 | without a selected task nothing happens; otherwise it is the task list's toggle |
| TaskPages.CalendarToggleIdempotent | solar-servis-frontend/src/pages/Calendar.jsx:132-166 | toggling the same subtask of the selected task again changes nothing more |
| TaskPages.CalendarDelete | solar-servis-frontend/src/pages/Calendar.jsx:179-197 | without a selected task the store is unchanged; otherwise the selected task is deleted as by the delete route |
| TaskPages.CalendarDeleteAgreesWithListPage | solar-servis-frontend/src/pages/Calendar.jsx:179-190 | deleting the selected task from the calendar leaves the store that the list page's filtered list shows, and the task's event can no longer be clicked |
| Notifications.Mount | solar-servis-frontend/src/components/Notifications.js:21-34 | mounting registers the listeners and keeps the count |
| Notifications.Unmount | solar-servis-frontend/src/components/Notifications.js:51-55 | the cleanup removes the listeners and keeps the count |
| Notifications.Receive | solar-servis-frontend/src/components/Notifications.js:28-49 | while listening, `initialData` replaces the count and an `upcomingTask` notification adds one; any other notification, and every event after unmount, changes nothing |
| Notifications.RunWithoutInitialData | solar-servis-frontend/src/components/Notifications.js:34-49 | without a count event, the counter grows by exactly the number of reminders received |
| Notifications.CountAfterLastInitialData | solar-servis-frontend/src/components/Notifications.js:28-49 | the counter shows the last broadcast count plus the reminders received after it |
| Notifications.UnmountedIgnoresEvents | solar-servis-frontend/src/components/Notifications.js:51-55 | after unmount no sequence of events changes the counter |
| Notifications.SweepResetsCounter | solar-servis-backend/index.js:222 | whatever it showed before, a listening counter that receives a whole run's broadcast ends at the server's outstanding count |
| Tickets.ParseTicketStatus | solar-servis-backend/models/Ticket.js:36-39 | a submitted ticket status is accepted exactly when it is one of the four enum names |
| Tickets.CreateTicket | solar-servis-backend/routes/tickets.js:59-110 | non-clients get 403; a missing topic or system, an unknown topic or an unknown Know-How id get 400; it succeeds exactly when none of these holds, the status (default `open`) is in the enum, the token carries a client id and the topic's severity is in range; a created ticket carries the topic's severity, the caller's client id and the defaults, links the Know-How exactly when one was given, and gets the system notice exactly when none was |
| Tickets.GetTicket | solar-servis-backend/routes/tickets.js:151-178 | a ticket is returned exactly to staff and to the client who owns it; otherwise 403 or, for an unknown id, 404 |
| Tickets.ClientsSeeOnlyOwnTickets | solar-servis-backend/routes/tickets.js:168-171 | a client asking for another client's ticket gets 403 |
| Tickets.UpdateTicket | solar-servis-backend/routes/tickets.js:181-208 | after the access rule of reading, only that ticket's status and response change, each only when given, and a status outside the enum fails |
| Tickets.EmptyTicketUpdateNoChange | solar-servis-backend/routes/tickets.js:197-201 | an update naming neither field leaves every ticket and message as it was |
| Tickets.SetTicketStatus | solar-servis-backend/routes/tickets.js:278-301 | staff only (403); a missing status is 400 before the lookup; otherwise exactly that ticket's status changes to the submitted enum value |
| Tickets.ClientsCannotSetStatus | solar-servis-backend/routes/tickets.js:278 | a client never reaches the staff status endpoint, not even for an own ticket |
| Tickets.MessagesOf | solar-servis-backend/routes/tickets.js:246-260 | a ticket's messages are exactly the stored messages that point to it |
| Tickets.ListMessages | solar-servis-backend/routes/tickets.js:246-275 | the messages are returned exactly when the ticket itself may be read, with the same error otherwise |
| Tickets.PostedMessageIsListed | solar-servis-backend/routes/tickets.js:211-275 | after a message is posted, anyone who may read the ticket gets its earlier messages plus the new one, with the posted text |
| Tickets.PostMessageAsWritten | solar-servis-backend/routes/tickets.js:211-243 | as written, a message can only ever be stored for a client caller |
| Tickets.StaffMessagesFailAsWritten | solar-servis-backend/routes/tickets.js:233 | as written, every non-blank staff message on an existing ticket fails with 500, because `technician` is not a value of the sender column |
| Tickets.PostMessageWith | solar-servis-backend/routes/tickets.js:211-243 | 403 for a role outside the route, 400 for a blank message; a stored message has the caller-dependent sender, which the column accepts, and nothing else changes |
| Tickets.PostMessage | solar-servis-backend/models/TicketMessage.js:12-15 | with a sender the column accepts, a message is stored exactly when the ticket may be read and the message is not blank |
| Tickets.EveryPermittedMessageIsStored | solar-servis-backend/routes/tickets.js:211-243 | with the corrected sender every permitted non-blank message, from staff or client, is stored on its ticket with its text |
| Tickets.RowsOf | solar-servis-backend/routes/tickets.js:134-141 | the rows are exactly the stored tickets, once each |
| Tickets.StaffList | solar-servis-backend/routes/tickets.js:132-147 | exactly staff get the list (everyone else 403); every stored ticket exactly once, ordered by severity ascending and then oldest first |
| Tickets.MyTickets | solar-servis-backend/routes/tickets.js:112-129 | non-clients get 403 and a client without a client id 500; a client with one gets exactly its own tickets, newest first |
| Tickets.MyTicketsAreReadable | solar-servis-backend/routes/tickets.js:112-178 | every ticket the client listing shows is one the client may open |
| Tickets.TopicsForClient | solar-servis-backend/routes/tickets.js:16-56 | a plain user is refused with 403 by the role list; otherwise the topic list for the new-ticket form needs a client id in the token (400) naming an existing client (404), and is then the whole topic registry |
| Tickets.ListedTopicsAreAccepted | solar-servis-backend/routes/tickets.js:16-110 | any topic offered by the topic list, submitted by name with a system, creates a ticket carrying that topic's severity |
| Topics.TopicByName | solar-servis-backend/routes/topics.js:63-66 | the name lookup finds a topic with that name, and finds nothing exactly when no topic has it |
| Topics.TopicByNameUnique | solar-servis-backend/models/Topic.js:10-14 | with unique names, the lookup returns the one topic holding the name |
| Topics.CreateTopic | solar-servis-backend/routes/topics.js:12-74 | 403 exactly for a caller who is not an administrator (the router-wide guard); for an administrator, a missing or out-of-range severity is 400 before the name is looked at; a name in use is 400; otherwise exactly one topic is added with the given name and severity |
| Topics.UpdateTopic | solar-servis-backend/routes/topics.js:12-111 | 403 exactly for a caller who is not an administrator (the router-wide guard); for an administrator, 404 for an unknown topic, and a non-empty name held by another topic and an out-of-range severity are 400; every other administrator's request succeeds; on success only that topic changes, its name only when a non-empty one is given and its severity only when one is given |
| Topics.RenameClashRefused | solar-servis-backend/routes/topics.js:88-93 | renaming a topic to another topic's name is always refused |
| Topics.DeleteTopic | solar-servis-backend/routes/topics.js:12-130 | 403 exactly for a caller who is not an administrator (the router-wide guard), 404 for an administrator naming an unknown topic; success removes exactly that topic and keeps every other one |
| Topics.HandlersKeepWellFormed | solar-servis-backend/models/Topic.js:10-23 | create, update and delete keep topic names unique and every severity in 1..10 |
| KnowHows.SystemByName | solar-servis-backend/routes/knowHow.js:36-40 | the system lookup finds a system of that name, and finds nothing exactly when none has it |
| KnowHows.CreateKnowHow | solar-servis-backend/routes/knowHow.js:11-71 | 403 with nothing written exactly when the author is neither a technician nor an administrator; for those two roles, a non-string topic or system, or a system outside the four allowed names, is 400 with nothing written, and so is an unknown system; past those checks the answer is 400 exactly when an entry already exists for the pair, 500 exactly when there is none and the content is missing, and 201 exactly when there is none and the content is given; only a 201 adds an entry, and that entry is for an existing system and the named topic, with the given content and visibility defaulting to hidden, and no entry existed for the pair; the topic table is unchanged or gains exactly the named topic with severity 1 |
| KnowHows.CreateKeepsInvariants | solar-servis-backend/routes/knowHow.js:43-55 | creation keeps topic names unique and at most one entry per (topic, system) |
| KnowHows.DuplicateRefused | solar-servis-backend/routes/knowHow.js:51-55 | repeating a successful create is refused with 400 |
| KnowHows.HiddenByDefault | solar-servis-backend/routes/knowHow.js:58-63 | an entry created without a visibility flag is not available to clients |
| KnowHows.Search | solar-servis-backend/routes/knowHow.js:75-112 | a plain user is refused with 403; otherwise every hit matches the `ILIKE '%q%'` pattern in topic name or content, so `%`, `_` and a backslash in the query act as pattern characters; staff get every match; a client gets exactly the matches visible to clients for their own system, or nothing when they have no client row |
| KnowHows.ClientSearchShowsOnlyPublic | solar-servis-backend/routes/knowHow.js:88-96 | a client never receives an entry hidden from clients |
| KnowHows.UnderscoreQueryFindsAllContent | solar-servis-backend/routes/knowHow.js:80-83 | a staff search for `_` finds every entry with non-empty content, whatever the content holds |
| KnowHows.PlainQueryIsSubstring | solar-servis-backend/routes/knowHow.js:80-83 | for a query without pattern characters, the search condition is a case-insensitive substring test |
| Like.EndsWithPercentParses | solar-servis-backend/routes/knowHow.js:80-83 | a pattern that ends in `%` always parses, so the search pattern never ends in a lone escape |
| Like.Around | solar-servis-backend/routes/knowHow.js:80-83 | the pattern `%q%` parses, and starts with a match-anything token |
| Like.AnyRunSkips | solar-servis-backend/routes/knowHow.js:80-83 | a leading `%` matches exactly when the rest of the pattern matches some suffix of the text |
| Like.LiteralsMatchPrefix | solar-servis-backend/routes/knowHow.js:80-83 | literal characters match exactly a text that starts with them, the rest of the pattern matching what follows |
| Like.EscapedIsSubstring | solar-servis-backend/routes/knowHow.js:80-83 | with its pattern characters escaped, `%q%` matches exactly the texts that contain `q` |
| Like.PlainQueryIsSubstring | solar-servis-backend/routes/knowHow.js:80-83 | a query without `%`, `_` or a backslash matches exactly the texts that contain it |
| Like.UnderscoreFindsAnyText | solar-servis-backend/routes/knowHow.js:80-83 | the query `_` matches every non-empty text, with or without an underscore |
| Like.PercentFindsEverything | solar-servis-backend/routes/knowHow.js:80-83 | the query `%` matches every text |
| KnowHows.ForTopic | solar-servis-backend/routes/knowHow.js:116-161 | a plain user is refused with 403; otherwise an unknown topic is 404, a token without client id 400, an unknown client 404, and every other request succeeds with exactly the client-visible entries of that topic for the client's system |
| KnowHows.ForTopicListsCreatedPublic | solar-servis-backend/routes/knowHow.js:116-161 | an entry created visible to clients is listed on its topic page for a client whose row runs that system |
| KnowHows.UpdateKnowHow | solar-servis-backend/routes/knowHow.js:164-186 | 403 exactly for a caller who is neither a technician nor an administrator; for those two roles, 404 for an unknown entry; success exactly for those roles and a known entry; only that entry changes: content when a non-empty one is given, visibility when one is given, never its topic or system |
| KnowHows.DeleteKnowHow | solar-servis-backend/routes/knowHow.js:189-204 | 403 exactly for a caller who is not an administrator, 404 for an administrator naming an unknown entry; success removes exactly that entry and keeps every other one |
| KnowHows.DetailAfterDelete | solar-servis-backend/routes/knowHow.js:269-289 | after an administrator deletes an entry, its detail page is 404 for every role the route admits |
| KnowHows.UpdateKeepsOnePerPair | solar-servis-backend/routes/knowHow.js:164-186 | an update keeps at most one entry per (topic, system) |
| KnowHows.Detail | solar-servis-backend/routes/knowHow.js:269-289 | a plain user is refused with 403; otherwise an existing entry is returned as stored and an unknown one is 404 |
| KnowHows.DetailAfterCreate | solar-servis-backend/routes/knowHow.js:269-289 | a created entry is shown on its detail page, with the content, visibility and topic it was created with, to every role the route admits |
| KnowHows.TopicCounts | solar-servis-backend/routes/topics.js:12-51 | 403 exactly for a caller who is not an administrator (the router-wide guard), success for every administrator; every topic is listed, including those with no entry, with the number of entries written for it |
| KnowHows.CreateCountsOnce | solar-servis-backend/routes/topics.js:27-51 | a successful create raises the count of its topic by one and leaves every other topic's count unchanged |
| Priority.DaysOld | solar-servis-frontend/src/pages/TechnicianDashboard.jsx:40 | the age in days is the whole number of days elapsed, rounded down, and is never negative for a ticket created in the past |
| Priority.DaysOldMonotone | solar-servis-frontend/src/pages/TechnicianDashboard.jsx:40 | a later clock never gives a smaller age |
| Priority.ScoreMonotone | solar-servis-frontend/src/pages/TechnicianDashboard.jsx:36-42 | the score never falls when severity or the clock increases |
| Priority.SeverityOutweighsDays | solar-servis-frontend/src/pages/TechnicianDashboard.jsx:37-41 | among tickets under ten days old, one more severity point always ranks higher than any difference in age |
| Priority.LevelOf | solar-servis-frontend/src/pages/TechnicianDashboard.jsx:46-48 | the level is high exactly from 100, medium exactly from 50 below 100, low below 50 |
| Priority.LevelMonotone | solar-servis-frontend/src/pages/TechnicianDashboard.jsx:46-48 | a higher score never has a lower level |
| Priority.LevelNeverDropsWithAge | solar-servis-frontend/src/pages/TechnicianDashboard.jsx:36-48 | a ticket's level never drops as time passes |
| Priority.FreshTicketLevel | solar-servis-frontend/src/pages/TechnicianDashboard.jsx:36-48 | on its first day a ticket is high exactly at severity 10, medium exactly at 5..9, low exactly below 5 |
| Priority.SeverityColor | solar-servis-frontend/src/pages/TechnicianDashboard.jsx:83-91 | the tag is red exactly from 8, orange exactly from 5 below 8, green below 5 |
| Priority.WarmTagIsNotLowPriority | solar-servis-frontend/src/pages/TechnicianDashboard.jsx:83-91 | a ticket with an orange or red tag never has the low level |
| Priority.DecimalText | solar-servis-frontend/src/pages/TechnicianDashboard.jsx:169-173 | a number's text is a non-empty run of decimal digits |
| Priority.Visible | solar-servis-frontend/src/pages/TechnicianDashboard.jsx:160-179 | the visible tickets are exactly those of the list that pass every active filter, and are no more than the list |
| Priority.NoFiltersShowAll | solar-servis-frontend/src/pages/TechnicianDashboard.jsx:161-176 | with every filter cleared the list is shown unchanged |
| Priority.SearchFindsId | solar-servis-frontend/src/pages/TechnicianDashboard.jsx:167-176 | searching for a ticket's id keeps that ticket |
| Priority.Displayed | solar-servis-frontend/src/pages/TechnicianDashboard.jsx:181 | the displayed list is a permutation of the visible tickets ordered by non-increasing score |
| ClientPage.ParseOps | solar-servis-frontend/src/pages/Clients.jsx:417-421 | every parsed code passes the element rule, and the parsed codes are exactly the trimmed comma-separated pieces that pass it |
| ClientPage.ParsedOpsAreValid | solar-servis-frontend/src/pages/Clients.jsx:417-421 | whatever is typed, the parsed list passes the Client model's validator |
| ClientPage.OpCodeClean | solar-servis-backend/models/Client.js:53 | an OP code has no white space at its edges and no comma |
| ClientPage.ParseEmptyText | solar-servis-frontend/src/pages/Clients.jsx:417-421 | an empty field parses to no codes |
| ClientPage.ParseShowRoundTrip | solar-servis-frontend/src/pages/Clients.jsx:416-421 | parsing the displayed `, `-joined text of a valid list gives back the same list in the same order |
| ClientPage.SinglePiece | solar-servis-frontend/src/pages/Clients.jsx:418-421 | text without a comma gives its trimmed self when that is a valid code, and nothing otherwise |
| ClientPage.SearchClients | solar-servis-frontend/src/pages/Clients.jsx:76-87 | a blank term shows every client; otherwise exactly the clients whose name or e-mail contains the term case-insensitively, in table order |
| ClientPage.SearchByEmailFindsClient | solar-servis-frontend/src/pages/Clients.jsx:80-84 | searching for a client's exact e-mail shows that client |
| ClientPage.RegisterOfferedAgreesWithEndpoint | solar-servis-frontend/src/pages/Clients.jsx:275-291 | on a listing that carries the account link, the register button is shown exactly for the clients the registration endpoint does not refuse as already registered |
| ClientPage.Listed | solar-servis-backend/routes/clients.js:224-236 | a listed client keeps every column the listing selects and carries neither files nor, unless the listing selects it, the account link |
| ClientPage.ListClients | solar-servis-backend/routes/clients.js:224-236 | the listing has one row per client, and a row is listed exactly when it is some client's projection under its own id |
| ClientPage.RegisterOfferedForRegisteredClient | solar-servis-backend/routes/clients.js:226-227 | the listing as written leaves out the account link, so a client that already has an account is still offered the register button, and pressing it is refused with 400 |
| Reports.CreateReport | solar-servis-backend/routes/reports.js:23-97 | every refusal is 400; a report is created exactly when date, technician, client, system and component are all given and the OP code is absent, empty or well formed; it adds one row with the submitted values and changes no other |
| Reports.MissingFieldRefused | solar-servis-backend/routes/reports.js:43-73 | a body missing any of the five required fields is refused with 400 |
| Reports.CompleteWithoutCodeCreated | solar-servis-backend/models/Report.js:36-46 | a complete body without an OP code is always accepted |
| Reports.ListReports | solar-servis-backend/routes/reports.js:138-166 | each present parameter adds exactly its condition and the rows come back unchanged; a status parameter names a column the table lacks and fails with 500, and the request succeeds exactly without one |
| Reports.EmptyQueryListsAll | solar-servis-backend/routes/reports.js:141-150 | without parameters every report is listed |
| Reports.MoreParametersListFewer | solar-servis-backend/routes/reports.js:143-150 | adding or tightening a parameter never lists more reports |
| Reports.UpdateReport | solar-servis-backend/routes/reports.js:192-213 | 404 for an unknown report, 500 for a malformed OP code, success exactly otherwise; on success only that report changes, each supplied field replacing its column, and exactly one change-log entry with the submitted body is appended |
| Reports.EmptyUpdateIsLoggedOnly | solar-servis-backend/routes/reports.js:200-207 | an empty body changes no report but is still logged |
| Reports.UpdateLogsOnce | solar-servis-backend/routes/reports.js:203-207 | a successful update adds exactly one log entry for its report and none for any other |
| Reports.LastVersion | solar-servis-backend/routes/reports.js:292-295 | the latest version of a report is the highest number among its versions, and absent exactly when it has none |
| Reports.NextNumber | solar-servis-backend/routes/reports.js:297 | the next number is 1 for a report without versions and otherwise one more than its highest |
| Reports.SaveVersion | solar-servis-backend/routes/reports.js:282-310 | 404 exactly for an unknown report and success otherwise, adding exactly one version with the next number |
| Reports.SaveVersionKeepsNumbering | solar-servis-backend/routes/reports.js:292-304 | saving keeps every report's version numbers positive and distinct |
| Reports.NextAfterSave | solar-servis-backend/routes/reports.js:297 | after a save, the next number is one more than the number just saved |
| Reports.ConsecutiveSaves | solar-servis-backend/routes/reports.js:292-304 | two saves in a row on one report get consecutive numbers |
| Reports.AssignOpOnce | solar-servis-backend/routes/reports.js:342-375 | an empty code is 400, an unknown client 404, a code the client already has 400, a list the validator refuses 500; it succeeds exactly when none of these holds, and success appends the new code after the existing ones, changes nothing else and leaves a valid list |
| Reports.AssignOpOnceKeepsDistinct | solar-servis-backend/routes/reports.js:359-366 | a duplicate-free list stays duplicate-free |
| Reports.AssignOpOnceTwice | solar-servis-backend/routes/reports.js:359-362 | assigning the same code a second time is refused with 400 |
| Warehouse.CreateItem | solar-servis-backend/routes/warehouse.js:20-29 | exactly one item is added, as sent, and no other item changes |
| Warehouse.CreateThenUpdateSame | solar-servis-backend/routes/warehouse.js:20-55 | updating an item just created with the same fields succeeds exactly when the quantity is absent or not negative, and a negative quantity is 400 |
| Warehouse.UpdateItem | solar-servis-backend/routes/warehouse.js:32-54 | a negative quantity is 400 before the item is looked up, an unknown item 404, and every other request succeeds; on success only that item changes, each supplied field replacing its value |
| Warehouse.UpdateKeepsStockNonNegative | solar-servis-backend/routes/warehouse.js:37-40 | if no stored quantity is negative, none is after an update |
| Warehouse.UpdateWithSameValues | solar-servis-backend/routes/warehouse.js:47 | writing an item's own values back leaves the table unchanged |
| Warehouse.UpdateAfterDelete | solar-servis-backend/routes/warehouse.js:42-45 | a deleted item can no longer be updated (404) |
| Settings.GetSettings | solar-servis-backend/routes/settings.js:7-24 | reading always yields settings: the stored ones, or the defaults 1500/8/100 created on first read |
| Settings.GetSettingsIdempotent | solar-servis-backend/routes/settings.js:7-24 | reading twice is reading once |
| Settings.PutSettings | solar-servis-backend/routes/settings.js:27-48 | each supplied rate replaces the stored one (or the default when nothing is stored) and each left-out rate is kept; a null rate fails with 500 and writes nothing |
| Settings.EmptyPutKeepsSettings | solar-servis-backend/routes/settings.js:37-39 | a body without rates leaves stored settings unchanged |
| Settings.PutSettingsIdempotent | solar-servis-backend/routes/settings.js:27-48 | sending the same update twice has the effect of sending it once |
| Settings.ResetSettings | solar-servis-backend/routes/settings.js:51-72 | a reset always leaves the default rates |
| Settings.ResetIdempotent | solar-servis-backend/routes/settings.js:51-72 | resetting twice is resetting once, and equals an update sending the three defaults |
| ReportForm.Clamp | solar-servis-frontend/src/pages/Reports.jsx:702-708 | the quantity input keeps a value between 0 and the stock shown, and leaves an in-range value as typed |
| ReportForm.SetUsed | solar-servis-frontend/src/pages/Reports.jsx:622-628 | editing a used quantity changes that field of the rows with that id only, and keeps every id, stock and other row |
| ReportForm.SetUsedKeepsBounds | solar-servis-frontend/src/pages/Reports.jsx:622-628 | with non-negative stock, every row stays within its input bounds after an edit |
| ReportForm.UsedMaterials | solar-servis-frontend/src/pages/Reports.jsx:552-560 | the used-material list holds exactly the rows with a used quantity above zero, each with stock minus use as the remainder |
| ReportForm.UsedMaterialsAppend | solar-servis-frontend/src/pages/Reports.jsx:552-560 | the list keeps table order |
| ReportForm.RemainderNonNegative | solar-servis-frontend/src/pages/Reports.jsx:558 | with the input bounds respected, no used material leaves a negative remainder |
| ReportForm.StockUpdates | solar-servis-frontend/src/pages/Reports.jsx:605-609 | one stock request per used material, in order, setting its quantity to the remainder |
| ReportForm.StockRequestsAccepted | solar-servis-frontend/src/pages/Reports.jsx:605-609 | every stock request the form sends passes the warehouse's negative-quantity check, and for an item still stored it sets only the quantity |
| ReportForm.OpCodeOnSelect | solar-servis-frontend/src/pages/Reports.jsx:206-216 | selecting a client puts its first OP code in the field, or empties the field when it has none |
| ReportForm.OpCodeOnEdit | solar-servis-frontend/src/pages/Reports.jsx:230-238 | while the selected client has codes, a non-empty edit is put back to the first code; emptying the field, or editing with no such client, is kept |
| ReportForm.FieldStaysOnFirstCode | solar-servis-frontend/src/pages/Reports.jsx:230-238 | after selecting a client with codes the field only ever holds its first code or nothing |
| ReportForm.FormKeepsCodesDistinct | solar-servis-frontend/src/pages/Reports.jsx:585-595 | although the endpoint the form calls appends without a duplicate check, the form's own check keeps a duplicate-free list duplicate-free |
| ReportForm.SearchReports | solar-servis-frontend/src/pages/Reports.jsx:165-189 | a blank term restores the full list; otherwise exactly the reports whose client name, technician name, OP code or formatted date contains the lower-cased trimmed term, in list order |
| ReportForm.BlankLower | solar-servis-frontend/src/pages/Reports.jsx:166 | lower-casing never turns a text blank or non-blank |
| ReportForm.SearchByOpCodeFindsReport | solar-servis-frontend/src/pages/Reports.jsx:175-184 | searching for a report's own OP code keeps that report |
| ClientFiles.FileTypeOf | solar-servis-backend/routes/files.js:126 | the file type is the sent one when it is non-empty and `normal` otherwise |
| ClientFiles.JoinPath | solar-servis-backend/routes/files.js:161 | a joined path ends in the entry's name and, below the root, starts with the folder followed by `/` |
| ClientFiles.JoinPathSegments | solar-servis-backend/routes/files.js:50 | the segments of a joined path are the folder's segments followed by the name's |
| ClientFiles.Upload | solar-servis-backend/routes/files.js:121-175 | the intended upload: an unknown client is 500 (the lookup middleware throws); no file, a revision without expiry date or a contract without next service date is 400 before anything is written; success appends exactly one metadata entry with the name, joined path and type, carries a date only for the matching type, updates only the matching date column and changes no other client |
| ClientFiles.UploadAsWritten | solar-servis-backend/routes/files.js:158-168 | the upload as written answers as the intended one and saves the same date columns, but the client's stored file list is unchanged |
| ClientFiles.UploadNotRecordedAsWritten | solar-servis-backend/routes/files.js:167-168 | for a client without files, a successful upload as written leaves the stored list empty where the intended one records the new entry |
| ClientFiles.NormalUploadKeepsDates | solar-servis-backend/routes/files.js:126-148 | an ordinary upload is stored as `normal` and leaves both date columns as they were |
| ClientFiles.TwoUploadsKeepBoth | solar-servis-backend/routes/files.js:159-168 | with the intended upload, two uploads keep both entries in upload order after the existing ones; the later revision date wins |
| ClientFiles.ListEntry | solar-servis-backend/routes/files.js:44-52 | each listed entry keeps the item's name, is a folder exactly when the item is a directory, has a size exactly for files, and its path joins the queried folder and the name |
| ClientFiles.Listing | solar-servis-backend/routes/files.js:36-57 | the listing has one entry per directory item, in order |
| ClientFiles.UploadedFileIsListedAtItsPath | solar-servis-backend/routes/files.js:50 | an uploaded file is listed, in the folder it was uploaded to, under the path its metadata records |
| FileManager.Extension | solar-servis-frontend/src/components/FileManager.js:110 | the extension holds no dot, and a name without a dot is its own lower-cased extension |
| FileManager.ExtensionAfterLastDot | solar-servis-frontend/src/components/FileManager.js:110 | the extension is the lower-cased text after the last dot |
| FileManager.PreviewOf | solar-servis-frontend/src/components/FileManager.js:101-134 | no preview for a missing or unnamed file; an image for the six image extensions; a frame exactly for `pdf`; a download link otherwise |
| FileManager.PreviewIgnoresCase | solar-servis-frontend/src/components/FileManager.js:110-116 | the extension's letter case does not change the preview |
| FileManager.DotlessNameIsItsOwnExtension | solar-servis-frontend/src/components/FileManager.js:110 | a file named just `pdf` is previewed as a PDF |
| FileManager.Open | solar-servis-frontend/src/components/FileManager.js:136-145 | opening a folder makes it the current folder; opening a file downloads its path and stays put |
| FileManager.NewFolderPath | solar-servis-frontend/src/components/FileManager.js:147-155 | a blank name creates nothing; otherwise the folder path joins the current folder and the name |
| FileManager.BreadcrumbLabels | solar-servis-frontend/src/components/FileManager.js:313-326 | the breadcrumbs after Home are the non-empty segments of the current path, one each, in order |
| FileManager.CrumbTargets | solar-servis-frontend/src/components/FileManager.js:315-318 | each crumb opens the path made of the segments up to and including its own |
| FileManager.CrumbsFromAppend | solar-servis-frontend/src/components/FileManager.js:313-326 | one more segment keeps the existing crumbs and adds at most one |
| FileManager.OpenFolderAddsOneCrumb | solar-servis-frontend/src/components/FileManager.js:136-145 | opening a folder listed in the current folder adds exactly one crumb, named after it and leading to it, after the current ones |
| FileManager.NewFolderAddsOneCrumb | solar-servis-frontend/src/components/FileManager.js:154 | entering a newly created folder adds exactly one crumb, for that folder, after the current ones |
| FileManager.FolderAtRootCrumb | solar-servis-frontend/src/components/FileManager.js:313-326 | at the root there are no crumbs, and a top-level folder has one crumb opening itself |
| FileManager.FolderBelowCrumb | solar-servis-frontend/src/components/FileManager.js:313-326 | a subfolder's crumbs are its parent's followed by one for itself |
| FileManager.LastCrumbIsCurrentFolder | solar-servis-frontend/src/components/FileManager.js:315-318 | for a path without empty segments the last crumb opens the current folder |
| FileManager.FilterFiles | solar-servis-frontend/src/components/FileManager.js:214-216 | exactly the entries whose name contains the search text, ignoring case |
| FileManager.EmptyTermShowsAll | solar-servis-frontend/src/components/FileManager.js:214-216 | an empty search text shows every entry |
| FileManager.LongerTermNarrows | solar-servis-frontend/src/components/FileManager.js:214-216 | typing more never shows an entry that was hidden |
| FileManager.UploadFields | solar-servis-frontend/src/components/FileManager.js:187-197 | the form always sends file, folder and type, an expiry date exactly for a dated revision and a next service date exactly for a dated contract |
| FileManager.FormUploadAccepted | solar-servis-frontend/src/components/FileManager.js:187-200 | an upload from the form is accepted exactly when the date its type needs was chosen, is otherwise refused with 400, and is recorded under the current folder with the chosen type |
| LoginPage.Finish | solar-servis-frontend/src/pages/Login.jsx:84-107 | the client tab refuses a name without `@`, the technician tab one with `@`, an empty field is refused after that; credentials are sent exactly when all three checks pass, and then trimmed |
| LoginPage.SignInKeepsTabRule | solar-servis-frontend/src/pages/Login.jsx:88-107 | the trimmed name that is sent still satisfies its tab's `@` rule |
| LoginPage.EmptyUsernameRefused | solar-servis-frontend/src/pages/Login.jsx:88-103 | the handler on its own refuses an empty name on both tabs, on the client tab with the missing-address message because that check runs first; the form's required rule keeps this from being reached (see LoginPage.EmptyUsernameBlockedByForm) |
| LoginPage.BlankUsernameSentEmpty | solar-servis-frontend/src/pages/Login.jsx:100-107 | a name of spaces passes the emptiness check and is sent as the empty string |
| LoginPage.Submit | solar-servis-frontend/src/pages/Login.jsx:84-104 | submitting keeps the tab, shows the refusal when there is one and leaves the error line otherwise |
| LoginPage.Validate | solar-servis-frontend/src/pages/Login.jsx:190-216 | the form blocks submission exactly when a field is empty, marking which, and otherwise hands the values to the submit handler |
| LoginPage.Press | solar-servis-frontend/src/pages/Login.jsx:84-104 | a blocked form keeps its error line; otherwise pressing the button is the handler's submit |
| LoginPage.FieldsRequiredNeverShown | solar-servis-frontend/src/pages/Login.jsx:100-104 | the handler's empty-field refusal never reaches the screen; what the handler refuses is exactly a name that breaks its tab's `@` rule |
| LoginPage.EmptyUsernameBlockedByForm | solar-servis-frontend/src/pages/Login.jsx:190-201 | an empty name is stopped by the form on either tab and the error line stays as it was |
| LoginPage.SelectTab | solar-servis-frontend/src/pages/Login.jsx:172-175 | choosing a tab selects it and clears the error line |
| LoginPage.SwitchingClearsRefusal | solar-servis-frontend/src/pages/Login.jsx:172-175 | a refusal shown on one tab is gone after switching tabs |
| LoginPage.EmailRequest | solar-servis-frontend/src/pages/Login.jsx:37-45 | the registration and forgotten-password dialogs send nothing for an empty address and the address itself otherwise |
| LoginPage.DialogRegistrationRefusal | solar-servis-frontend/src/pages/Login.jsx:37-51 | what the registration dialog sends is never refused as missing: a 400 from the server means a client with that address already has an account |
| LoginPage.DialogResetNeverMissing | solar-servis-frontend/src/pages/Login.jsx:65-73 | what the forgotten-password dialog sends is never answered with the missing-address 400 |
| AppRoutes.PathOfRoutes | solar-servis-frontend/src/App.js:170-311 | every page's path matches that page's route in the routing table |
| AppRoutes.RouteGuards | solar-servis-frontend/src/App.js:170-311 | a page's own route shows the page exactly when the session belongs to the page's audience |
| AppRoutes.RenderIsGuarded | solar-servis-frontend/src/App.js:170-311 | whatever path is asked for, a page is shown only to that page's audience |
| AppRoutes.RedirectTargets | solar-servis-frontend/src/App.js:170-311 | every redirect of the table goes to `/login`, `/dashboard` or `/client-dashboard`, and to the client dashboard only for a client |
| AppRoutes.VisitSettles | solar-servis-frontend/src/App.js:170-199 | following redirects from any path never loops: at most two redirects lead to a page or to no route |
| AppRoutes.TargetSettles | solar-servis-frontend/src/App.js:170-193 | from the sign-in page or a dashboard at most one more redirect leads to a page |
| AppRoutes.VisitIsGuarded | solar-servis-frontend/src/App.js:170-311 | after any number of redirects the page shown belongs to the session's audience |
| AppRoutes.SignedOutSeesOnlyLogin | solar-servis-frontend/src/App.js:170-311 | signed out, every path ends at the sign-in page or at no route |
| AppRoutes.ElementSignedOut | solar-servis-frontend/src/App.js:170-311 | signed out, a route shows the sign-in page, redirects to it, or does not exist |
| AppRoutes.SignedInLoginRedirects | solar-servis-frontend/src/App.js:170-180 | signed in, the sign-in page sends a client to the client dashboard and anyone else to the dashboard, where that page shows |
| AppRoutes.StaffPagesMatchBackend | solar-servis-frontend/src/App.js:200-205 | the staff pages admit exactly the roles that the backend's staff route lists admit |
| AppRoutes.SignIn | solar-servis-frontend/src/App.js:88-96 | after the server accepts, the session is signed in with the token's role (`unknown` when it has none) and goes to its home page |
| AppRoutes.SignInLands | solar-servis-frontend/src/App.js:88-96 | signing in lands on the client dashboard for a client and on the dashboard for anyone else, and that page shows |
| AppRoutes.SignOut | solar-servis-frontend/src/App.js:103-109 | signing out clears the session and the pending-task count and leaves a consistent session |
| AppRoutes.SignedOutAfterLogout | solar-servis-frontend/src/App.js:103-109 | after signing out no page except the sign-in page can be reached |
| AppRoutes.Restore | solar-servis-frontend/src/App.js:58-70 | start-up signs in exactly when a non-empty stored token decodes, with the token's role claim as it is, and leaves a consistent session with no pending tasks |
| AppRoutes.RestoreAgreesWithSignIn | solar-servis-frontend/src/App.js:58-96 | a restored token and a fresh sign-in with the same non-empty role give the same session |
| AppRoutes.RoleLessTokenSeesDashboardOnly | solar-servis-frontend/src/App.js:58-70 | a restored token without a role claim reaches the dashboard but no page reserved for clients, technicians or admins |

## Left out

- Mail transport, Socket.IO and the cron timer are not modelled. A send is a boolean outcome
  parameter, and emitted events are returned as a sequence.
- Concurrency is not modelled. The sweep and the HTTP handlers are separate steps, and nothing
  is assumed about interleaving. The gap between sending a reminder and setting `emailSent` is
  not closed.
- bcrypt, JWT signing and verification, and uuid are function or value parameters. The token
  check in front of the routes is represented by the caller's role. A missing token (401) and a
  token that fails verification (403) are not modelled. The role check that follows is modelled
  on every guarded handler of the model.
- The Sequelize layer is reduced to maps:
  - Foreign-key constraints, `sync` and the association graph are not modelled, except the one
    alias the reminder query needs.
  - `findOne` without an order is taken to return the matching row with the smallest id, and
    `findAll` without an order to return its rows in ascending id order. PostgreSQL promises
    neither. This order is what `Tables.SortedIds`, `Reminders.CandidateOrder`,
    `Reminders.SweepEvents` and `Reminders.MailedFacts` state about the sweep's mails and events.
  - Typed enums replace unchecked strings wherever the source relies on the column type.
- Dates are integer timestamps; parsing and formatting through dayjs, moment and
  `toLocaleString` are left out.
- Money and rates are integers. Travel, work and material costs, VAT and the Google Maps distance
  lookup in `Reports.jsx` and `index.js` are floating-point or external and are left out.
- File-system effects are left out:
  - creating, deleting and downloading folders and files;
  - report document generation and upload;
  - sending a report by e-mail.
  A successful move-and-save is one boolean. `path.join` is modelled only for a relative folder
  and a plain name, without `..` normalisation.
- Read-only GET routes are left out: the client, user and report detail and list lookups in
  `clients.js`, `users.js` and `reports.js`, and the plain topic listing in `topics.js`. They
  return rows as stored and decide nothing.
- Three know-how routes are never reached and are left out:
  - the second `DELETE /:id` and `PUT /:id` (`knowHow.js` lines 226-266), registered after identical routes that answer first;
  - `GET /topics` (lines 207-220), which `GET /:topic` matches first.
- Two 400 answers for a client row without a system are left out, because `systemId` is NOT NULL
  (`Client.js` lines 26-28), so a stored client always carries a system:
  - `KnowHows.ForTopic`: the missing-`systemId` check (`knowHow.js` lines 139-143);
  - `Tickets.TopicsForClient`: the same check (`tickets.js` lines 33-36).
- The topic listing with entry counts is a map from topic id to count, so its ordering by name is
  left out.
- Tickets.TopicsForClient: the topics come back as a map from id to topic, so the ordering by name
  (`tickets.js` line 48) is left out.
- Creating the admin user and the default settings at start-up in `index.js` is left out. The
  settings route's get-or-create covers the defaults.
- Subtasks.UpdateSubtask: the affected-row count is modelled only as far as the answer needs it (an unknown id, or a body that sets no column); body keys outside the three columns are not modelled, so a body naming only such keys is not represented.
- Route matching in the front end is exact. React Router's case-insensitive and trailing-slash
  matching is left out.
- Explicit `null` values in request bodies are not distinguished from absent ones, except for a
  user's `technicianId`, where the source treats them differently.
- The splash screen, the change log dialog, the navigation bar and the other rendering-only pages
  are left out.
- `Warehouse.js`, `ChangeLog.js` and `Version.js` (the model files) are not part of this model;
  their rows are shaped from the routes that use them.
- Reports.ListReports: the date filter is written with the string operators `$gte` and `$lte`
  (`reports.js` lines 146-150). Sequelize accepts these only when `operatorsAliases` is
  configured; the model takes them as `Op.gte` and `Op.lte` and does not model the failure
  without that setting.
- ClientRoutes.CreateClient, ClientRoutes.UpdateClient: a body `id`, `createdAt` or `updatedAt`
  key is not modelled; the model's rows have no such columns. A `userId` naming no user would fail
  on the foreign key, which is left out with the other foreign-key constraints.
- Case folding in `Text.Lower` covers ASCII, Latin-1 and Latin Extended-A (U+0000 to U+017F),
  which holds every Czech letter. JavaScript's `toLowerCase` also folds Greek, Cyrillic,
  Latin Extended-B and the other scripts, and turns U+0130 into two characters. The model keeps
  those characters unchanged. Each member below inherits this narrower folding:
- Text.LowerIdempotent: proved for the model's folding only.
- TaskPages.SearchIgnoresQueryCase: proved for the model's folding only.
- TaskPages.SearchTasks: matches case-insensitively for the model's folding only.
- ClientPage.SearchClients: matches case-insensitively for the model's folding only.
- ReportForm.SearchReports: matches case-insensitively for the model's folding only.
- FileManager.FilterFiles: matches case-insensitively for the model's folding only.
- Priority.Visible: its text filter matches case-insensitively for the model's folding only.
- KnowHows.Search: PostgreSQL's `ILIKE` folds case by the database's locale. The model folds
  both sides with `Text.Lower` and then applies `LIKE`.
- TaskPages.CapDescription: lengths count Unicode scalar values. JavaScript counts UTF-16 code
  units, so the two differ for characters outside the Basic Multilingual Plane.
- LoginPage.Validate: the form's required rule is taken to refuse only the empty string. The
  browser-side form state (touched fields, an untouched field being undefined) is not modelled.
- UserRoutes.ValidateAgreesWithRegistration: only the unknown-address case of the two handlers is
  related. The other outcomes of registration (already registered, mail failure) have no
  counterpart in the address check.

## Findings

| source | as written | input that shows it | evidently intended | confidence | as-written member | corrected member |
|---|---|---|---|---|---|---|
| solar-servis-backend/index.js:165 | the reminder query includes the technician under the alias `Technician`, but the association is declared as `technician` (associations.js:49), so the query throws and the outer catch only logs | any task due within the hour, not completed or missed, with `emailSent` false and a technician with an e-mail address | include `{ model: Technician, as: 'technician' }`, so the due task is mailed, flagged and announced | not executed | Reminders.ReminderLostAsWritten | Reminders.CorrectedSweepIsSweep |
| solar-servis-backend/routes/tickets.js:233 | a staff message is stored with sender `technician`, which is not one of the sender column's values `client`, `admin`, `user`, `system` (TicketMessage.js:13), so the insert fails with 500 | an admin or technician posting a non-blank message to an existing ticket | store staff messages with a sender the column accepts (`admin`) | not executed | Tickets.StaffMessagesFailAsWritten | Tickets.EveryPermittedMessageIsStored |
| solar-servis-frontend/src/pages/Clients.jsx:275 | the register button is shown when `client.userId` is falsy, but the client listing the page loads selects no `userId` column (clients.js:226-227), so the field is always missing | any client that already has an account, as listed by `GET /clients` | select `userId` in the listing, so the button is shown only for clients the registration route would accept | not executed | ClientPage.RegisterOfferedForRegisteredClient | ClientPage.RegisterOfferedAgreesWithEndpoint |
| solar-servis-backend/routes/files.js:167 | the new entry is pushed into the `files` array in place and then `client.save()` is called; Sequelize compares against a shallow copy that shares the array, so `files` is not marked changed and the entry is not written | an upload of any file for a client whose stored `files` is `[]`: the answer is 200 and the stored list stays `[]` | assign a new array (`client.files = [...client.files, meta]`) or call `client.changed('files', true)` before saving | not executed | ClientFiles.UploadNotRecordedAsWritten | ClientFiles.TwoUploadsKeepBoth |

=== FILE: access.dfy ===
/**
 * Roles and the backend role middleware `authorizeRole(roles)`, which every
 * protected route runs after the token check.
 */
module Access {
  import opened Tables
  import opened Text

  /** The User role enum. */
  datatype Role = UserRole | Admin | ClientRole | TechnicianRole

  function RoleName(r: Role): string {
    match r
    case UserRole => "user"
    case Admin => "admin"
    case ClientRole => "client"
    case TechnicianRole => "technician"
  }

  /** Enum validation of a role string: exactly the four names are accepted. */
  function ParseRole(s: string): (r: Option<Role>)
    ensures r.Some? ==> RoleName(r.value) == s
    ensures r.None? <==> s !in {"user", "admin", "client", "technician"}
  {
    if s == "user" then Some(UserRole)
    else if s == "admin" then Some(Admin)
    else if s == "client" then Some(ClientRole)
    else if s == "technician" then Some(TechnicianRole)
    else None
  }

  /** Distinct roles have distinct names. */
  lemma RoleNamesInjective(a: Role, b: Role)
    ensures RoleName(a) == RoleName(b) <==> a == b
  {
  }

  /**
   * The `roles` argument: routes pass an array of role names, and one
   * route passes a bare string. Both answer `includes`, with different
   * meanings (array membership versus substring containment).
   */
  datatype Roles = RoleList(names: seq<string>) | RoleText(text: string)

  /** `roles.includes(req.user.role)`. */
  predicate Includes(roles: Roles, role: Role) {
    match roles
    case RoleList(names) => RoleName(role) in names
    case RoleText(text) => Contains(text, RoleName(role))
  }

  /**
   * The middleware: the request goes on to the handler (`Ok(())`, `next()`
   * is called) iff the role is included; otherwise 403 and the handler
   * never runs.
   */
  function Authorize(roles: Roles, role: Role): (r: Result<()>)
    ensures r.Ok? || r == Err(403)
    ensures r.Ok? <==> Includes(roles, role)
  {
    if Includes(roles, role) then Ok(()) else Err(403)
  }

  /** A role list admits exactly the roles named in it. */
  lemma ListAdmitsExactlyNamed(names: seq<string>, role: Role)
    ensures Authorize(RoleList(names), role).Ok? <==> RoleName(role) in names
  {
  }

  /**
   * The string form `authorizeRole('admin')` is a substring test, and over
   * the role enum only `admin` is a substring of "admin".
   */
  lemma AdminStringAdmitsOnlyAdmin(role: Role)
    ensures Authorize(RoleText("admin"), role).Ok? <==> role == Admin
  {
    if role == Admin {
      assert OccursAt("admin", "admin", 0);
    } else if role == UserRole {
      forall i | 0 <= i <= 1 ensures !OccursAt("admin", "user", i) {
        assert "admin"[i] != "user"[0];
      }
    }
  }

  /** Guards compose: a handler behind a guard answers 403 for the excluded roles. */
  function Guarded<T>(roles: Roles, role: Role, handler: Result<T>): (r: Result<T>)
    ensures !Includes(roles, role) ==> r == Err(403)
    ensures Includes(roles, role) ==> r == handler
  {
    if Includes(roles, role) then handler else Err(403)
  }

  /** The route-level lists used by the handlers in this model. */
  const Staff: Roles := RoleList(["admin", "technician"])
  const Everyone: Roles := RoleList(["client", "admin", "technician"])
  const ClientsOnly: Roles := RoleList(["client"])
  const AdminsOnly: Roles := RoleList(["admin"])
  /** The string form the user routes pass: `authorizeRole('admin')`. */
  const AdminText: Roles := RoleText("admin")

  /** Who passes each list: staff lists exclude clients and plain users. */
  lemma RouteListsAdmit(role: Role)
    ensures Includes(Staff, role) <==> role == Admin || role == TechnicianRole
    ensures Includes(Everyone, role) <==> role != UserRole
    ensures Includes(ClientsOnly, role) <==> role == ClientRole
    ensures Includes(AdminsOnly, role) <==> role == Admin
  {
  }
}

=== FILE: app_routes.dfy ===
/**
 * The application shell: the session it keeps (signed in or not, the role
 * read from the token, the pending-task badge), sign-in and sign-out, and
 * the route table with the guard every page carries. Paths are matched
 * exactly; `/tickets/:id` matches one non-empty segment after `/tickets/`.
 */
module AppRoutes {
  import opened Tables
  import Access

  /** The shell's state. The role is the token's `role` claim as text. */
  datatype Session = Session(authenticated: bool, role: Option<string>, pendingTasks: int)

  /** Nobody is signed out with a role: start-up, a bad token and sign-out all clear it. */
  predicate Consistent(s: Session) {
    !s.authenticated ==> s.role.None?
  }

  datatype Page =
    | LoginScreen | Dashboard | ClientDashboard | ChangePassword | Technicians | Clients
    | Reports | Tasks | Calendar | Warehouse | Systems | Components | CreateUser
    | UserManagement | CreateTicket | TicketDetails | TechnicianDashboard | AddKnowHow
    | SettingsPage | KnowHowList | KnowHowHelp

  /** What a route shows: a page, a redirect, or nothing when no route matches. */
  datatype Outcome = Render(page: Page) | Redirect(to: string) | NoRoute

  predicate IsRole(s: Session, name: string) {
    s.role == Some(name)
  }

  predicate Staff(s: Session) {
    s.authenticated && (IsRole(s, "admin") || IsRole(s, "technician"))
  }

  predicate AdminSession(s: Session) {
    s.authenticated && IsRole(s, "admin")
  }

  predicate ClientSession(s: Session) {
    s.authenticated && IsRole(s, "client")
  }

  /** `/tickets/:id`. */
  predicate TicketPath(path: string) {
    |path| > 9 && path[..9] == "/tickets/" && '/' !in path[9..]
  }

  /** Where a signed-in user lands. */
  function Home(s: Session): string {
    if IsRole(s, "client") then "/client-dashboard" else "/dashboard"
  }

  /** A route of the table: the root, which only redirects, or the route of a page. */
  datatype Route = Root | PageRoute(page: Page)

  /** The route whose path matches. */
  function RouteOf(path: string): Option<Route> {
    if path == "/login" then Some(PageRoute(LoginScreen))
    else if path == "/" then Some(Root)
    else if path == "/dashboard" then Some(PageRoute(Dashboard))
    else if path == "/client-dashboard" then Some(PageRoute(ClientDashboard))
    else if path == "/change-password" then Some(PageRoute(ChangePassword))
    else if path == "/technicians" then Some(PageRoute(Technicians))
    else if path == "/clients" then Some(PageRoute(Clients))
    else if path == "/reports" then Some(PageRoute(Reports))
    else if path == "/tasks" then Some(PageRoute(Tasks))
    else if path == "/calendar" then Some(PageRoute(Calendar))
    else if path == "/warehouse" then Some(PageRoute(Warehouse))
    else if path == "/systems" then Some(PageRoute(Systems))
    else if path == "/components" then Some(PageRoute(Components))
    else if path == "/create-user" then Some(PageRoute(CreateUser))
    else if path == "/user-management" then Some(PageRoute(UserManagement))
    else if path == "/create-ticket" then Some(PageRoute(CreateTicket))
    else if TicketPath(path) then Some(PageRoute(TicketDetails))
    else if path == "/technician-dashboard" then Some(PageRoute(TechnicianDashboard))
    else if path == "/add-know-how" then Some(PageRoute(AddKnowHow))
    else if path == "/settings" then Some(PageRoute(SettingsPage))
    else if path == "/know-how-list" then Some(PageRoute(KnowHowList))
    else if path == "/know-how-help" then Some(PageRoute(KnowHowHelp))
    else None
  }

  /** The element of a page's route: the page when its guard passes, otherwise a redirect. */
  function Guard(s: Session, p: Page): Outcome {
    match p
    case LoginScreen => if s.authenticated then Redirect(Home(s)) else Render(LoginScreen)
    case Dashboard =>
      if s.authenticated && !IsRole(s, "client") then Render(Dashboard)
      else Redirect(if IsRole(s, "client") then "/client-dashboard" else "/login")
    case ClientDashboard => if ClientSession(s) then Render(ClientDashboard) else Redirect("/login")
    case ChangePassword => if s.authenticated then Render(ChangePassword) else Redirect("/login")
    case Technicians => if Staff(s) then Render(Technicians) else Redirect("/login")
    case Clients => if AdminSession(s) then Render(Clients) else Redirect("/login")
    case Reports => if Staff(s) then Render(Reports) else Redirect("/login")
    case Tasks => if Staff(s) then Render(Tasks) else Redirect("/login")
    case Calendar => if Staff(s) then Render(Calendar) else Redirect("/login")
    case Warehouse => if Staff(s) then Render(Warehouse) else Redirect("/login")
    case Systems => if Staff(s) then Render(Systems) else Redirect("/login")
    case Components => if Staff(s) then Render(Components) else Redirect("/login")
    case CreateUser => if AdminSession(s) then Render(CreateUser) else Redirect("/login")
    case UserManagement => if AdminSession(s) then Render(UserManagement) else Redirect("/login")
    case CreateTicket => if ClientSession(s) then Render(CreateTicket) else Redirect("/login")
    case TicketDetails => if s.authenticated then Render(TicketDetails) else Redirect("/login")
    case TechnicianDashboard => if Staff(s) then Render(TechnicianDashboard) else Redirect("/login")
    case AddKnowHow => if AdminSession(s) then Render(AddKnowHow) else Redirect("/login")
    case SettingsPage => if s.authenticated then Render(SettingsPage) else Redirect("/login")
    case KnowHowList => if Staff(s) then Render(KnowHowList) else Redirect("/login")
    case KnowHowHelp => if ClientSession(s) then Render(KnowHowHelp) else Redirect("/login")
  }

  /** What visiting `path` shows before any redirect is followed. */
  function Element(s: Session, path: string): Outcome {
    match RouteOf(path)
    case None => NoRoute
    case Some(Root) => Redirect("/login")
    case Some(PageRoute(p)) => Guard(s, p)
  }

  /** Following redirects, at most `hops` of them. */
  function Follow(s: Session, path: string, hops: nat): Outcome
    decreases hops
  {
    match Element(s, path)
    case Redirect(to) => if hops == 0 then Redirect(to) else Follow(s, to, hops - 1)
    case other => other
  }

  /** Visiting a path: two redirects are always enough (see `VisitSettles`). */
  function Visit(s: Session, path: string): Outcome {
    Follow(s, path, 2)
  }

  // ---------------------------------------------------------------------
  // Who may see what
  // ---------------------------------------------------------------------

  /** Who each page is for. */
  datatype Audience = SignedOut | AnySignedIn | NotClient | ClientsOnly | StaffOnly | AdminsOnly

  function AudienceOf(p: Page): Audience {
    match p
    case LoginScreen => SignedOut
    case ChangePassword | TicketDetails | SettingsPage => AnySignedIn
    case Dashboard => NotClient
    case ClientDashboard | CreateTicket | KnowHowHelp => ClientsOnly
    case Clients | CreateUser | UserManagement | AddKnowHow => AdminsOnly
    case Technicians | Reports | Tasks | Calendar | Warehouse | Systems | Components
       | TechnicianDashboard | KnowHowList => StaffOnly
  }

  predicate Admits(a: Audience, s: Session) {
    match a
    case SignedOut => !s.authenticated
    case AnySignedIn => s.authenticated
    case NotClient => s.authenticated && !IsRole(s, "client")
    case ClientsOnly => s.authenticated && IsRole(s, "client")
    case StaffOnly => s.authenticated && (IsRole(s, "admin") || IsRole(s, "technician"))
    case AdminsOnly => s.authenticated && IsRole(s, "admin")
  }

  /** A path of each page. */
  function PathOf(p: Page): string {
    match p
    case LoginScreen => "/login"
    case Dashboard => "/dashboard"
    case ClientDashboard => "/client-dashboard"
    case ChangePassword => "/change-password"
    case Technicians => "/technicians"
    case Clients => "/clients"
    case Reports => "/reports"
    case Tasks => "/tasks"
    case Calendar => "/calendar"
    case Warehouse => "/warehouse"
    case Systems => "/systems"
    case Components => "/components"
    case CreateUser => "/create-user"
    case UserManagement => "/user-management"
    case CreateTicket => "/create-ticket"
    case TicketDetails => "/tickets/1"
    case TechnicianDashboard => "/technician-dashboard"
    case AddKnowHow => "/add-know-how"
    case SettingsPage => "/settings"
    case KnowHowList => "/know-how-list"
    case KnowHowHelp => "/know-how-help"
  }

  /** Each page's path leads to that page's route. */
  lemma PathOfRoutes(p: Page)
    ensures RouteOf(PathOf(p)) == Some(PageRoute(p))
  {
    match p
    case LoginScreen | Dashboard | ClientDashboard | ChangePassword | Technicians | Clients
       | Reports | Tasks => EarlyPathsRoute(p);
    case Calendar | Warehouse | Systems | Components | CreateUser | UserManagement
       | CreateTicket => MiddlePathsRoute(p);
    case TicketDetails =>
      assert "/tickets/1"[..9] == "/tickets/";
      assert TicketPath("/tickets/1");
    case TechnicianDashboard => TechnicianDashboardRoutes();
    case AddKnowHow => AddKnowHowRoutes();
    case SettingsPage => SettingsPageRoutes();
    case KnowHowList => KnowHowListRoutes();
    case KnowHowHelp => KnowHowHelpRoutes();
  }

  lemma TechnicianDashboardRoutes()
    ensures RouteOf(PathOf(TechnicianDashboard)) == Some(PageRoute(TechnicianDashboard))
  {
    NotTicket(PathOf(TechnicianDashboard));
  }

  lemma AddKnowHowRoutes()
    ensures RouteOf(PathOf(AddKnowHow)) == Some(PageRoute(AddKnowHow))
  {
    NotTicket(PathOf(AddKnowHow));
  }

  lemma SettingsPageRoutes()
    ensures RouteOf(PathOf(SettingsPage)) == Some(PageRoute(SettingsPage))
  {
    NotTicket(PathOf(SettingsPage));
  }

  lemma KnowHowListRoutes()
    ensures RouteOf(PathOf(KnowHowList)) == Some(PageRoute(KnowHowList))
  {
    NotTicket(PathOf(KnowHowList));
  }

  lemma KnowHowHelpRoutes()
    ensures RouteOf(PathOf(KnowHowHelp)) == Some(PageRoute(KnowHowHelp))
  {
    NotTicket(PathOf(KnowHowHelp));
  }

  lemma EarlyPathsRoute(p: Page)
    requires p == LoginScreen || p == Dashboard || p == ClientDashboard || p == ChangePassword || p == Technicians || p == Clients || p == Reports || p == Tasks
    ensures RouteOf(PathOf(p)) == Some(PageRoute(p))
  {
  }

  lemma MiddlePathsRoute(p: Page)
    requires p == Calendar || p == Warehouse || p == Systems || p == Components || p == CreateUser || p == UserManagement || p == CreateTicket
    ensures RouteOf(PathOf(p)) == Some(PageRoute(p))
  {
  }

  /** A path not starting with `/ti` is not a ticket path. */
  lemma NotTicket(path: string)
    requires |path| >= 3 && (path[1] != 't' || path[2] != 'i')
    ensures !TicketPath(path)
  {
    if |path| > 9 {
      assert path[..9][1] == path[1] && path[..9][2] == path[2];
    }
  }

  /** Each page's own route shows it exactly to its audience. */
  lemma RouteGuards(s: Session, p: Page)
    ensures Element(s, PathOf(p)) == Render(p) <==> Admits(AudienceOf(p), s)
  {
    PathOfRoutes(p);
    GuardAdmits(s, p);
  }

  lemma GuardAdmits(s: Session, p: Page)
    ensures Guard(s, p) == Render(p) <==> Admits(AudienceOf(p), s)
  {
  }

  /** A route renders only the page it belongs to, and only to that page's audience. */
  lemma RenderIsGuarded(s: Session, path: string, p: Page)
    requires Element(s, path) == Render(p)
    ensures Admits(AudienceOf(p), s)
  {
    var route := RouteOf(path);
    assert route.Some? && route.value.PageRoute?;
    GuardRendersOwnPage(s, route.value.page);
  }

  lemma GuardRendersOwnPage(s: Session, q: Page)
    ensures Guard(s, q).Render? ==> Guard(s, q).page == q && Admits(AudienceOf(q), s)
  {
  }

  /** Every redirect of the table leads to the sign-in page or to a dashboard. */
  lemma RedirectTargets(s: Session, path: string)
    requires Element(s, path).Redirect?
    ensures Element(s, path).to in {"/login", "/dashboard", "/client-dashboard"}
    ensures Element(s, path).to == "/client-dashboard" ==> IsRole(s, "client")
  {
    var route := RouteOf(path);
    if route.value.PageRoute? {
      GuardRedirects(s, route.value.page);
    }
  }

  lemma GuardRedirects(s: Session, q: Page)
    ensures Guard(s, q).Redirect? ==> Guard(s, q).to in {"/login", "/dashboard", "/client-dashboard"}
    ensures Guard(s, q) == Redirect("/client-dashboard") ==> IsRole(s, "client")
  {
  }

  /** Following redirects never loops: after at most two, a page or nothing is shown. */
  lemma VisitSettles(s: Session, path: string)
    requires Consistent(s)
    ensures !Visit(s, path).Redirect?
  {
    if Element(s, path).Redirect? {
      RedirectTargets(s, path);
      TargetSettles(s, Element(s, path).to);
    }
  }

  /** From the sign-in page or a dashboard, one more redirect at most leads to a page. */
  lemma TargetSettles(s: Session, to: string)
    requires Consistent(s) && to in {"/login", "/dashboard", "/client-dashboard"}
    requires to == "/client-dashboard" ==> IsRole(s, "client")
    ensures !Follow(s, to, 1).Redirect?
  {
    LandingElements(s);
    if to == "/login" {
      assert Follow(s, to, 1) == if s.authenticated then Element(s, Home(s)) else Render(LoginScreen);
    } else if to == "/dashboard" {
      assert Follow(s, to, 1) == if s.authenticated && !IsRole(s, "client") then Render(Dashboard)
                                 else Element(s, if IsRole(s, "client") then "/client-dashboard" else "/login");
    } else {
      assert Follow(s, to, 1) == if ClientSession(s) then Render(ClientDashboard) else Element(s, "/login");
    }
  }

  /** The three redirect targets and what each shows. */
  lemma LandingElements(s: Session)
    ensures Element(s, "/login") == Guard(s, LoginScreen)
    ensures Element(s, "/dashboard") == Guard(s, Dashboard)
    ensures Element(s, "/client-dashboard") == Guard(s, ClientDashboard)
  {
  }

  /** A page shown at the end of a redirect chain belongs to the session's audience. */
  predicate ShownToAudience(s: Session, o: Outcome) {
    o.Render? ==> Admits(AudienceOf(o.page), s)
  }

  /** Whatever is visited, after any number of redirects, a page is shown only to its audience. */
  lemma {:induction false} VisitIsGuarded(s: Session, path: string, hops: nat)
    ensures ShownToAudience(s, Follow(s, path, hops))
    decreases hops
  {
    if Element(s, path).Redirect? && hops > 0 {
      VisitIsGuarded(s, Element(s, path).to, hops - 1);
      RedirectCase(s, path, hops);
    } else {
      ShownCase(s, path, hops);
    }
  }

  /** Following a redirect shows what the target shows with one hop fewer. */
  lemma RedirectCase(s: Session, path: string, hops: nat)
    requires hops > 0 && Element(s, path).Redirect?
    requires ShownToAudience(s, Follow(s, Element(s, path).to, hops - 1))
    ensures ShownToAudience(s, Follow(s, path, hops))
  {
    FollowStep(s, path, hops);
  }

  /** Without a redirect to follow, what is shown is the route's own element. */
  lemma ShownCase(s: Session, path: string, hops: nat)
    requires !(Element(s, path).Redirect? && hops > 0)
    ensures ShownToAudience(s, Follow(s, path, hops))
  {
    FollowStep(s, path, hops);
    ElementGuarded(s, path);
  }

  lemma ElementGuarded(s: Session, path: string)
    ensures ShownToAudience(s, Element(s, path))
  {
    if Element(s, path).Render? {
      RenderIsGuarded(s, path, Element(s, path).page);
    }
  }

  /** One step of following: a redirect is followed with one hop fewer, anything else is shown. */
  lemma FollowStep(s: Session, path: string, hops: nat)
    ensures Element(s, path).Redirect? && hops > 0 ==> Follow(s, path, hops) == Follow(s, Element(s, path).to, hops - 1)
    ensures !Element(s, path).Redirect? || hops == 0 ==> Follow(s, path, hops) == Element(s, path)
  {
  }

  /** Signed out, every path ends at the sign-in page or at nothing. */
  lemma SignedOutSeesOnlyLogin(s: Session, path: string)
    requires Consistent(s) && !s.authenticated
    ensures Visit(s, path) in {Render(LoginScreen), NoRoute}
  {
    ElementSignedOut(s, path);
    LandingElements(s);
    GuardSignedOut(s, LoginScreen);
  }

  /** Signed out, a route shows the sign-in page, sends there, or does not exist. */
  lemma ElementSignedOut(s: Session, path: string)
    requires Consistent(s) && !s.authenticated
    ensures Element(s, path) in {Render(LoginScreen), NoRoute, Redirect("/login")}
  {
    var route := RouteOf(path);
    if route.Some? && route.value.PageRoute? {
      GuardSignedOut(s, route.value.page);
    }
  }

  /** Signed out, every guarded page sends to the sign-in page, which itself shows. */
  lemma GuardSignedOut(s: Session, q: Page)
    requires Consistent(s) && !s.authenticated
    ensures Guard(s, q) == (if q == LoginScreen then Render(LoginScreen) else Redirect("/login"))
  {
  }

  /** Signed in, the sign-in page sends a client to the client dashboard and everyone else to the dashboard. */
  lemma SignedInLoginRedirects(s: Session)
    requires s.authenticated
    ensures Element(s, "/login") == Redirect(if IsRole(s, "client") then "/client-dashboard" else "/dashboard")
    ensures Visit(s, "/login") == Render(if IsRole(s, "client") then ClientDashboard else Dashboard)
  {
  }

  /** The front end's staff pages admit exactly the roles the backend's staff route list admits. */
  lemma StaffPagesMatchBackend(role: Access.Role, pending: int)
    ensures Staff(Session(true, Some(Access.RoleName(role)), pending))
            <==> Access.Includes(Access.Staff, role)
  {
    Access.RouteListsAdmit(role);
  }

  // ---------------------------------------------------------------------
  // Signing in and out
  // ---------------------------------------------------------------------

  datatype SignedIn = SignedIn(session: Session, next: string)

  /**
   * handleLogin after the server accepted the credentials: signed in with
   * the token's role (`"unknown"` when it has none) and sent home.
   */
  function SignIn(s: Session, tokenRole: Option<string>): (r: SignedIn)
    ensures r.session.authenticated && r.session.pendingTasks == s.pendingTasks
    ensures tokenRole.Some? && tokenRole.value != "" ==> r.session.role == tokenRole
    ensures tokenRole.None? || tokenRole.value == "" ==> r.session.role == Some("unknown")
    ensures r.next == Home(r.session)
  {
    var role := if tokenRole.Some? && tokenRole.value != "" then tokenRole.value else "unknown";
    var after := s.(authenticated := true, role := Some(role));
    SignedIn(after, Home(after))
  }

  /** Signing in lands on a page that then shows: the client dashboard for a client, the dashboard otherwise. */
  lemma SignInLands(s: Session, tokenRole: Option<string>)
    ensures var r := SignIn(s, tokenRole);
            Visit(r.session, r.next)
            == Render(if tokenRole == Some("client") then ClientDashboard else Dashboard)
  {
  }

  /**
   * Start-up: the shell begins signed out; a stored token (a non-empty
   * string) whose payload decodes signs it in with the payload's role claim
   * as it is, and one that does not decode leaves it signed out.
   * `decoded` is the decoded payload's `role` claim, `None` when decoding
   * failed; unlike sign-in, a missing claim is not replaced by `"unknown"`.
   */
  function Restore(storedToken: Option<string>, decoded: Option<Option<string>>): (r: Session)
    ensures r.pendingTasks == 0 && Consistent(r)
    ensures r.authenticated <==> storedToken.Some? && storedToken.value != "" && decoded.Some?
    ensures r.authenticated ==> r.role == decoded.value
  {
    if storedToken.None? || storedToken.value == "" then Session(false, None, 0)
    else if decoded.None? then Session(false, None, 0)
    else Session(true, decoded.value, 0)
  }

  /** A restored token and a fresh sign-in with the same non-empty role claim give the same session. */
  lemma RestoreAgreesWithSignIn(token: string, role: string)
    requires token != "" && role != ""
    ensures Restore(Some(token), Some(Some(role))) == SignIn(Restore(None, None), Some(role)).session
  {
  }

  /**
   * A restored token without a role claim reaches the dashboard, because
   * that guard only excludes clients, but no page reserved for a role.
   */
  lemma RoleLessTokenSeesDashboardOnly(token: string, p: Page)
    requires token != ""
    requires AudienceOf(p).StaffOnly? || AudienceOf(p).AdminsOnly? || AudienceOf(p).ClientsOnly?
    ensures Visit(Restore(Some(token), Some(None)), "/dashboard") == Render(Dashboard)
    ensures Element(Restore(Some(token), Some(None)), PathOf(p)) != Render(p)
  {
    var s := Restore(Some(token), Some(None));
    assert s == Session(true, None, 0);
    LandingElements(s);
    RouteGuards(s, p);
  }

  /** handleLogout: signed out, no role, and the pending-task badge back to zero. */
  function SignOut(s: Session): (r: Session)
    ensures !r.authenticated && r.role.None? && r.pendingTasks == 0
    ensures Consistent(r)
  {
    Session(false, None, 0)
  }

  /** After signing out no page but the sign-in page can be reached. */
  lemma SignedOutAfterLogout(s: Session, path: string)
    ensures Visit(SignOut(s), path) in {Render(LoginScreen), NoRoute}
  {
    SignedOutSeesOnlyLogin(SignOut(s), path);
  }
}

=== FILE: client_model.dfy ===
/**
 * The Client record with its OP-code validator, and the Report OP-code
 * format rule. OP codes ("odběrné místo", the supply-point code) are plain
 * strings; the two models check them with different regular expressions.
 */
module ClientModel {
  import opened Tables
  import opened Text

  /** One entry of a client's `files` array, as the upload handler writes it. */
  datatype FileMeta = FileMeta(
    name: string,
    path: string,
    fileType: string,
    expirationDate: Option<string>,
    nextServiceDate: Option<string>)

  /**
   * A Client row. `name`, `email`, `phone`, `address`, `systemId` and
   * `files` are NOT NULL; `opCodes` may be null.
   */
  datatype Client = Client(
    name: string,
    email: string,
    phone: string,
    address: string,
    systemId: Id,
    company: Option<string>,
    files: seq<FileMeta>,
    opCodes: Option<seq<string>>,
    userId: Option<Id>,
    revisionExpirationDate: Option<string>,
    contractNextServiceDate: Option<string>)

  predicate AsciiLetter(c: char) {
    'a' <= c <= 'z' || 'A' <= c <= 'Z'
  }

  predicate AsciiDigit(c: char) {
    '0' <= c <= '9'
  }

  /** One character of `[a-zA-Z0-9-]`. */
  predicate OpCodeChar(c: char) {
    AsciiLetter(c) || AsciiDigit(c) || c == '-'
  }

  /** `/^[a-zA-Z0-9-]+$/`: non-empty, only letters, digits and '-'. */
  predicate ClientOpCode(s: string) {
    |s| >= 1 && forall i :: 0 <= i < |s| ==> OpCodeChar(s[i])
  }

  /**
   * The `isArrayOfStrings` validator: every element matches the element
   * rule. A null column is not validated, so `None` is accepted.
   */
  predicate OpCodesValid(codes: Option<seq<string>>) {
    codes.None? || forall i :: 0 <= i < |codes.value| ==> ClientOpCode(codes.value[i])
  }

  /** The column defaults: no files and an empty OP-code list, which is valid. */
  lemma DefaultsValid()
    ensures OpCodesValid(Some([]))
  {
  }

  /** Validity is element-wise: appending a valid code keeps a valid list valid. */
  lemma AppendKeepsValid(codes: seq<string>, code: string)
    requires OpCodesValid(Some(codes)) && ClientOpCode(code)
    ensures OpCodesValid(Some(codes + [code]))
  {
    assert forall i :: 0 <= i < |codes| ==> (codes + [code])[i] == codes[i];
  }

  /** Appending an invalid code makes the list invalid, whatever came before. */
  lemma AppendInvalidRejected(codes: seq<string>, code: string)
    requires !ClientOpCode(code)
    ensures !OpCodesValid(Some(codes + [code]))
  {
    assert (codes + [code])[|codes|] == code;
  }

  /**
   * The Report format `/^[A-Z]{2}-\d{3}-\d{3}$/`: two capital ASCII letters,
   * a dash, three digits, a dash, three digits.
   */
  predicate ReportFormat(s: string) {
    |s| == 10
    && 'A' <= s[0] <= 'Z' && 'A' <= s[1] <= 'Z' && s[2] == '-'
    && AsciiDigit(s[3]) && AsciiDigit(s[4]) && AsciiDigit(s[5]) && s[6] == '-'
    && AsciiDigit(s[7]) && AsciiDigit(s[8]) && AsciiDigit(s[9])
  }

  /**
   * `isValidFormat` on a Report: a null or empty OP code passes, any other
   * value must have the format.
   */
  predicate ReportOpCodeValid(code: Option<string>) {
    code.None? || code.value == "" || ReportFormat(code.value)
  }

  /** Every well-formed report OP code is also acceptable as a client OP code. */
  lemma ReportCodeIsClientCode(s: string)
    requires ReportFormat(s)
    ensures ClientOpCode(s)
  {
  }

  /** The converse fails: a lower-case code is a client code but not a report code. */
  lemma ClientCodeNotAlwaysReportCode()
    ensures ClientOpCode("ab-123-456") && !ReportFormat("ab-123-456")
  {
  }
}

=== FILE: client_page.dfy ===
/**
 * The client administration page: the comma-separated OP-code field, the
 * client search box and the register action offered per row.
 */
module ClientPage {
  import opened Tables
  import opened Text
  import opened ClientModel
  import opened Access
  import ClientRoutes

  /**
   * The field's change handler: split on ',', trim every piece and keep
   * the pieces that are whole OP codes; empty and malformed pieces vanish.
   */
  function ParseOps(text: string): (codes: seq<string>)
    ensures forall i :: 0 <= i < |codes| ==> ClientOpCode(codes[i])
    ensures forall c :: c in codes <==> c in TrimAll(Split(text, ',')) && ClientOpCode(c)
  {
    Filter(TrimAll(Split(text, ',')), ClientOpCode)
  }

  /** Whatever is typed, the parsed list passes the model's validator. */
  lemma ParsedOpsAreValid(text: string)
    ensures OpCodesValid(Some(ParseOps(text)))
  {
  }

  /** The field's text: the list joined with ", ". */
  function ShowOps(codes: seq<string>): string {
    Join(codes, ", ")
  }

  /** An OP code has no white space at its edges and no comma anywhere. */
  lemma OpCodeClean(c: string)
    requires ClientOpCode(c)
    ensures EdgeClean(c) && ',' !in c
  {
    assert forall i :: 0 <= i < |c| ==> c[i] != ',';
  }

  /** An empty field parses to the empty list. */
  lemma ParseEmptyText()
    ensures ParseOps("") == []
  {
    assert Split("", ',') == [""];
    var trimmed := TrimAll([""]);
    assert trimmed == [Trim("")];
    FilterDropsAll(trimmed, ClientOpCode);
  }

  /** The padded pieces of a valid list contain no comma. */
  lemma PaddedCommaFree(codes: seq<string>)
    requires |codes| >= 1
    requires forall i :: 0 <= i < |codes| ==> ClientOpCode(codes[i])
    ensures forall i :: 0 <= i < |codes| ==> ',' !in Padded(codes)[i]
  {
    var padded := Padded(codes);
    forall i | 0 <= i < |padded| ensures ',' !in padded[i] {
      OpCodeClean(codes[i]);
      PaddedAt(codes, i);
    }
  }

  /** Trimming the padded pieces of a valid list gives the list. */
  lemma TrimPadded(codes: seq<string>)
    requires |codes| >= 1
    requires forall i :: 0 <= i < |codes| ==> ClientOpCode(codes[i])
    ensures TrimAll(Padded(codes)) == codes
  {
    forall i | 0 <= i < |codes| ensures EdgeClean(codes[i]) {
      OpCodeClean(codes[i]);
    }
    TrimPaddedClean(codes);
  }

  /**
   * Round trip: parsing the field's text of a valid list gives the list
   * back, so reopening the form does not change a client's OP codes.
   */
  lemma ParseShowRoundTrip(codes: seq<string>)
    requires forall i :: 0 <= i < |codes| ==> ClientOpCode(codes[i])
    ensures ParseOps(ShowOps(codes)) == codes
  {
    if codes == [] {
      ParseEmptyText();
    } else {
      var padded := Padded(codes);
      JoinCommaSpace(codes);
      assert ShowOps(codes) == Join(padded, [',']);
      PaddedCommaFree(codes);
      SplitJoin(padded, ',');
      TrimPadded(codes);
      assert TrimAll(Split(ShowOps(codes), ',')) == codes;
      FilterKeepsAll(codes, ClientOpCode);
    }
  }

  /** Text without a comma is one piece: kept, trimmed, when it is an OP code, dropped otherwise. */
  lemma SinglePiece(text: string)
    requires ',' !in text
    ensures ParseOps(text) == if ClientOpCode(Trim(text)) then [Trim(text)] else []
  {
    assert Split(text, ',') == [text];
    var trimmed := TrimAll([text]);
    assert trimmed == [Trim(text)];
    assert trimmed[1..] == [];
    assert Filter(trimmed[1..], ClientOpCode) == [];
    assert ParseOps(text) == Filter(trimmed, ClientOpCode);
  }

  /** A row of the client table. */
  datatype Row = Row(id: Id, client: Client)

  /**
   * The search box: a blank term shows every client; otherwise a client is
   * shown when its name or email contains the lower-cased term, ignoring case.
   */
  function SearchClients(rows: seq<Row>, term: string): (r: seq<Row>)
    ensures Blank(term) ==> r == rows
    ensures !Blank(term) ==> forall row :: row in r <==>
              row in rows && (Contains(Lower(row.client.name), Lower(term))
                              || Contains(Lower(row.client.email), Lower(term)))
    ensures |r| <= |rows|
  {
    TrimEmptyIffBlank(term);
    if Trim(term) == "" then rows
    else Filter(rows, (row: Row) => Contains(Lower(row.client.name), Lower(term))
                                    || Contains(Lower(row.client.email), Lower(term)))
  }

  /** Searching for a client's exact email always shows that client. */
  lemma SearchByEmailFindsClient(rows: seq<Row>, row: Row)
    requires row in rows
    ensures row in SearchClients(rows, row.client.email)
  {
    var term := row.client.email;
    assert OccursAt(Lower(term), Lower(term), 0);
  }

  /**
   * The row GET /clients sends for a client. Its `attributes` list names
   * neither `userId` nor `files`, so the row has no account link and no
   * files; `withAccount` is the listing with `userId` added to that list.
   * The list leaves out `systemId` too, but the row includes the client's
   * system, and the page reads the system's id from there: the same value,
   * which is why the model keeps `systemId` on the row.
   */
  function Listed(c: Client, withAccount: bool): (r: Client)
    ensures r.name == c.name && r.email == c.email && r.phone == c.phone && r.address == c.address
    ensures r.company == c.company && r.systemId == c.systemId && r.opCodes == c.opCodes
    ensures r.revisionExpirationDate == c.revisionExpirationDate
    ensures r.contractNextServiceDate == c.contractNextServiceDate
    ensures r.files == []
    ensures r.userId == (if withAccount then c.userId else None)
  {
    c.(userId := if withAccount then c.userId else None, files := [])
  }

  /** The row of `clients` the listing sends for `row.id`. */
  predicate ListedRow(clients: map<Id, Client>, row: Row, withAccount: bool) {
    row.id in clients && row.client == Listed(clients[row.id], withAccount)
  }

  /** The listing's rows for the given ids, in that order. */
  function RowsFor(clients: map<Id, Client>, ids: seq<Id>, withAccount: bool): (rows: seq<Row>)
    requires forall i :: 0 <= i < |ids| ==> ids[i] in clients
    ensures |rows| == |ids|
    ensures forall row :: row in rows <==> row.id in ids && ListedRow(clients, row, withAccount)
    decreases |ids|
  {
    if ids == [] then []
    else [Row(ids[0], Listed(clients[ids[0]], withAccount))] + RowsFor(clients, ids[1..], withAccount)
  }

  /** GET /clients as the page loads it: one row per client, in id order. */
  function ListClients(clients: map<Id, Client>, withAccount: bool): (rows: seq<Row>)
    ensures |rows| == |clients|
    ensures forall row :: row in rows <==> ListedRow(clients, row, withAccount)
  {
    RowsFor(clients, SortedIds(clients.Keys), withAccount)
  }

  /** The register action is offered exactly for rows without an account link (`!client.userId`). */
  predicate RegisterOffered(row: Row) {
    row.client.userId.None?
  }

  /**
   * As written, the page offers registration for every client it lists,
   * also for one that already has an account, and the endpoint refuses
   * that registration with 400.
   */
  lemma RegisterOfferedForRegisteredClient(caller: Role, s: ClientRoutes.Stores, id: Id, newUserId: Id,
                                           generated: string, hash: string -> string, mailOk: bool)
    requires caller == Admin || caller == TechnicianRole
    requires newUserId !in s.users
    requires id in s.clients && s.clients[id].userId.Some?
    ensures var row := Row(id, Listed(s.clients[id], false));
            row in ListClients(s.clients, false) && RegisterOffered(row)
            && ClientRoutes.Register(caller, s, id, newUserId, generated, hash, mailOk) == Reply(400, s)
  {
  }

  /**
   * With `userId` in the listing, the page offers the action exactly when
   * the endpoint would not refuse the client as already registered.
   */
  lemma RegisterOfferedAgreesWithEndpoint(caller: Role, s: ClientRoutes.Stores, row: Row, newUserId: Id,
                                          generated: string, hash: string -> string, mailOk: bool)
    requires caller == Admin || caller == TechnicianRole
    requires newUserId !in s.users
    requires row in ListClients(s.clients, true)
    ensures RegisterOffered(row) <==> ClientRoutes.Register(caller, s, row.id, newUserId, generated, hash, mailOk).status != 400
  {
    var r := ClientRoutes.Register(caller, s, row.id, newUserId, generated, hash, mailOk);
    if RegisterOffered(row) {
      assert r != Reply(400, s);
      assert r.status != 400;
    }
  }
}

=== FILE: clients.dfy ===
/**
 * The client request handlers: account registration (by id and by e-mail),
 * create, update, delete and the OP-code append.
 *
 * `generated` is the temporary password cut from a UUID, `hash` is bcrypt,
 * `isEmail` is the e-mail validator of the Client model, and `mailOk` says
 * whether the mail transport accepted the credentials mail.
 */
module ClientRoutes {
  import opened Tables
  import opened Access
  import opened UserModel
  import opened ClientModel

  /** The two tables the registration handlers write. */
  datatype Stores = Stores(clients: map<Id, Client>, users: map<Id, User>)

  /**
   * Shared tail of both registration handlers: insert a client-role user
   * named `username` with the hashed temporary password, link it to the
   * client, then send the mail. A failed insert writes nothing (500); a
   * failed mail leaves the account in place and answers 500.
   */
  function LinkNewUser(s: Stores, clientId: Id, username: string, newUserId: Id, generated: string,
                       hash: string -> string, mailOk: bool): (r: Reply<Stores>)
    requires clientId in s.clients && s.clients[clientId].userId.None? && newUserId !in s.users
    ensures r.status in {200, 500}
    ensures var made := CreateUser(s.users, Some(username), Some(hash(generated)), Some("client"), None, newUserId, hash);
            made.Err? <==> r == Reply(500, s)
    ensures r.status == 200 <==> UsernameFree(s.users, username) && mailOk
    ensures r.status == 200 ==> r.state != s
    ensures r.state != s ==> r.state.clients == s.clients[clientId := s.clients[clientId].(userId := Some(newUserId))]
    ensures r.state != s ==> r.state.users.Keys == s.users.Keys + {newUserId}
    ensures r.state != s ==> forall k :: k in s.users ==> r.state.users[k] == s.users[k]
    ensures r.state != s ==> r.state.users[newUserId].username == username
    ensures r.state != s ==> r.state.users[newUserId].role == ClientRole
  {
    var made := CreateUser(s.users, Some(username), Some(hash(generated)), Some("client"), None, newUserId, hash);
    if made.Err? then Reply(500, s)
    else
      var linked := s.clients[clientId := s.clients[clientId].(userId := Some(newUserId))];
      assert linked != s.clients by { assert linked[clientId].userId != s.clients[clientId].userId; }
      Reply(if mailOk then 200 else 500, Stores(linked, made.value))
  }

  /**
   * POST /clients/:id/register, behind `authorizeRole(['admin',
   * 'technician'])`: 404 for an unknown client, 400 when the client already
   * has an account; otherwise the client's e-mail becomes the username of a
   * new client-role user linked to the client.
   */
  function Register(caller: Role, s: Stores, clientId: Id, newUserId: Id, generated: string,
                    hash: string -> string, mailOk: bool): (r: Reply<Stores>)
    requires newUserId !in s.users
    ensures caller !in {Admin, TechnicianRole} <==> r == Reply(403, s)
    ensures caller in {Admin, TechnicianRole} && clientId !in s.clients <==> r == Reply(404, s)
    ensures caller in {Admin, TechnicianRole} && clientId in s.clients && s.clients[clientId].userId.Some?
            <==> r == Reply(400, s)
    ensures r.status in {200, 400, 403, 404, 500}
    ensures r.status == 200 ==> caller in {Admin, TechnicianRole}
    ensures r.status == 200 ==> clientId in r.state.clients && newUserId in r.state.users
    ensures r.status == 200 ==> r.state.clients[clientId].userId == Some(newUserId)
    ensures r.status == 200 ==> r.state.users[newUserId].username == s.clients[clientId].email
    ensures r.status == 200 ==> r.state.users[newUserId].role == ClientRole
  {
    RouteListsAdmit(caller);
    if !Includes(Staff, caller) then Reply(403, s)
    else if clientId !in s.clients then Reply(404, s)
    else if s.clients[clientId].userId.Some? then Reply(400, s)
    else LinkNewUser(s, clientId, s.clients[clientId].email, newUserId, generated, hash, mailOk)
  }

  /** A client is registered at most once: after an account is linked, registering again is refused. */
  lemma RegisterOnce(caller: Role, s: Stores, clientId: Id, newUserId: Id, other: Id, generated: string,
                     hash: string -> string, mailOk: bool)
    requires newUserId !in s.users
    requires var r := Register(caller, s, clientId, newUserId, generated, hash, mailOk);
             r.state != s && other !in r.state.users
    ensures var r := Register(caller, s, clientId, newUserId, generated, hash, mailOk);
            Register(caller, r.state, clientId, other, generated, hash, mailOk) == Reply(400, r.state)
  {
  }

  /** The registration account password is the bcrypt string itself: the hook does not hash it again. */
  lemma RegisterStoresHashOnce(caller: Role, s: Stores, clientId: Id, newUserId: Id, generated: string,
                               hash: string -> string, mailOk: bool)
    requires newUserId !in s.users && IsHashed(hash(generated))
    requires Register(caller, s, clientId, newUserId, generated, hash, mailOk).status == 200
    ensures Register(caller, s, clientId, newUserId, generated, hash, mailOk).state.users[newUserId].password
            == hash(generated)
  {
  }

  /** The client whose e-mail is exactly `email`, if any. */
  function ClientByEmail(clients: map<Id, Client>, email: string): (r: Option<Id>)
    ensures r.Some? ==> r.value in clients && clients[r.value].email == email
    ensures r.None? <==> forall k :: k in clients ==> clients[k].email != email
  {
    FirstWhere(clients, (c: Client) => c.email == email)
  }

  /**
   * POST /clients/register-email: a missing or empty e-mail is 400, an
   * unknown e-mail 404, an already registered client 400; none of these
   * writes anything.
   */
  function RegisterByEmail(s: Stores, email: Option<string>, newUserId: Id, generated: string,
                           hash: string -> string, mailOk: bool): (r: Reply<Stores>)
    requires newUserId !in s.users
    ensures (email.None? || email.value == "") ==> r == Reply(400, s)
    ensures email.Some? && email.value != "" && ClientByEmail(s.clients, email.value).None? <==> r == Reply(404, s)
    ensures r.status in {400, 404} ==> r.state == s
    ensures r.status == 200 ==> exists k :: k in s.clients && s.clients[k].email == email.value
                                  && s.clients[k].userId.None? && k in r.state.clients
                                  && r.state.clients[k].userId == Some(newUserId)
    ensures r.status == 200 ==> newUserId in r.state.users && r.state.users[newUserId].username == email.value
  {
    if email.None? || email.value == "" then Reply(400, s)
    else
      var found := ClientByEmail(s.clients, email.value);
      if found.None? then Reply(404, s)
      else if s.clients[found.value].userId.Some? then Reply(400, s)
      else LinkNewUser(s, found.value, email.value, newUserId, generated, hash, mailOk)
  }

  /**
   * Body of POST /clients and PUT /clients/:id; absent keys are `None`.
   * Both handlers spread every other body key into the row, so the file
   * list, the account link and the two dates can be written too.
   */
  datatype ClientInput = ClientInput(
    name: Option<string>,
    email: Option<string>,
    phone: Option<string>,
    address: Option<string>,
    company: Option<string>,
    systemId: Option<Id>,
    opCodes: Option<seq<string>>,
    files: Option<seq<FileMeta>>,
    userId: Option<Id>,
    revisionExpirationDate: Option<string>,
    contractNextServiceDate: Option<string>)

  /** A body with no keys at all. */
  const NoFields := ClientInput(None, None, None, None, None, None, None, None, None, None, None)

  /** No other client holds `email` (the column is unique). */
  predicate EmailFree(clients: map<Id, Client>, email: string, except: Option<Id>) {
    forall k :: k in clients && Some(k) != except ==> clients[k].email != email
  }

  /** The model validations of an insert: required columns, e-mail format and uniqueness, OP codes. */
  predicate Insertable(clients: map<Id, Client>, input: ClientInput, isEmail: string -> bool) {
    input.name.Some? && input.email.Some? && input.phone.Some? && input.address.Some?
    && isEmail(input.email.value) && EmailFree(clients, input.email.value, None)
    && OpCodesValid(Some(input.opCodes.GetOr([])))
  }

  /**
   * POST /clients: the system must exist (400, checked first); the insert
   * then validates the row (500). Every column comes from the body; unless
   * given, a new client has no files, no account and an empty OP-code list.
   */
  function CreateClient(clients: map<Id, Client>, systems: set<Id>, input: ClientInput, newId: Id,
                        isEmail: string -> bool): (r: Result<map<Id, Client>>)
    requires newId !in clients
    ensures input.systemId.None? || input.systemId.value !in systems <==> r == Err(400)
    ensures r.Ok? <==> input.systemId.Some? && input.systemId.value in systems && Insertable(clients, input, isEmail)
    ensures r.Ok? || r == Err(400) || r == Err(500)
    ensures r.Ok? ==> r.value.Keys == clients.Keys + {newId}
    ensures r.Ok? ==> forall k :: k in clients ==> r.value[k] == clients[k]
    ensures r.Ok? ==> var c := r.value[newId];
                      c.name == input.name.value && c.email == input.email.value
                      && c.systemId == input.systemId.value && c.files == input.files.GetOr([])
                      && c.userId == input.userId && c.opCodes == Some(input.opCodes.GetOr([]))
                      && c.revisionExpirationDate == input.revisionExpirationDate
                      && c.contractNextServiceDate == input.contractNextServiceDate
    ensures r.Ok? ==> OpCodesValid(r.value[newId].opCodes)
  {
    if input.systemId.None? || input.systemId.value !in systems then Err(400)
    else if !Insertable(clients, input, isEmail) then Err(500)
    else
      Ok(clients[newId := Client(input.name.value, input.email.value, input.phone.value, input.address.value,
                                 input.systemId.value, input.company, input.files.GetOr([]),
                                 Some(input.opCodes.GetOr([])), input.userId, input.revisionExpirationDate,
                                 input.contractNextServiceDate)])
  }

  /** Keeps the old value when the body leaves the key out. */
  function Over<T>(given: Option<T>, kept: Option<T>): Option<T> {
    if given.Some? then given else kept
  }

  /** A present field replaces the column; an absent one keeps it. */
  function PatchClient(c: Client, input: ClientInput): (r: Client)
    ensures r.name == input.name.GetOr(c.name) && r.email == input.email.GetOr(c.email)
    ensures r.phone == input.phone.GetOr(c.phone) && r.address == input.address.GetOr(c.address)
    ensures r.systemId == input.systemId.GetOr(c.systemId)
    ensures r.company == (if input.company.Some? then input.company else c.company)
    ensures r.opCodes == (if input.opCodes.Some? then input.opCodes else c.opCodes)
    ensures r.files == input.files.GetOr(c.files)
    ensures r.userId == (if input.userId.Some? then input.userId else c.userId)
    ensures r.revisionExpirationDate == (if input.revisionExpirationDate.Some? then input.revisionExpirationDate
                                         else c.revisionExpirationDate)
    ensures r.contractNextServiceDate == (if input.contractNextServiceDate.Some? then input.contractNextServiceDate
                                          else c.contractNextServiceDate)
  {
    c.(name := input.name.GetOr(c.name), email := input.email.GetOr(c.email),
       phone := input.phone.GetOr(c.phone), address := input.address.GetOr(c.address),
       company := Over(input.company, c.company),
       systemId := input.systemId.GetOr(c.systemId),
       opCodes := Over(input.opCodes, c.opCodes),
       files := input.files.GetOr(c.files),
       userId := Over(input.userId, c.userId),
       revisionExpirationDate := Over(input.revisionExpirationDate, c.revisionExpirationDate),
       contractNextServiceDate := Over(input.contractNextServiceDate, c.contractNextServiceDate))
  }

  /**
   * PUT /clients/:id: 404 for an unknown client; a supplied system must
   * exist (400); then the instance update validates what changes (500).
   */
  function UpdateClient(clients: map<Id, Client>, systems: set<Id>, id: Id, input: ClientInput,
                        isEmail: string -> bool): (r: Result<map<Id, Client>>)
    ensures id !in clients <==> r == Err(404)
    ensures id in clients && input.systemId.Some? && input.systemId.value !in systems <==> r == Err(400)
    ensures r.Ok? || r == Err(400) || r == Err(404) || r == Err(500)
    ensures r.Ok? <==> && id in clients
                       && (input.systemId.None? || input.systemId.value in systems)
                       && (input.email.None? || (isEmail(input.email.value) && EmailFree(clients, input.email.value, Some(id))))
                       && OpCodesValid(input.opCodes)
    ensures r.Ok? ==> r.value == clients[id := PatchClient(clients[id], input)]
    ensures r.Ok? ==> OpCodesValid(input.opCodes)
  {
    if id !in clients then Err(404)
    else if input.systemId.Some? && input.systemId.value !in systems then Err(400)
    else if input.email.Some? && (!isEmail(input.email.value) || !EmailFree(clients, input.email.value, Some(id)))
    then Err(500)
    else if !OpCodesValid(input.opCodes) then Err(500)
    else Ok(clients[id := PatchClient(clients[id], input)])
  }

  /** An update without fields leaves the table as it was. */
  lemma EmptyUpdateNoChange(clients: map<Id, Client>, systems: set<Id>, id: Id, isEmail: string -> bool)
    requires id in clients
    ensures UpdateClient(clients, systems, id, NoFields, isEmail) == Ok(clients)
  {
    var c := clients[id];
    assert PatchClient(c, NoFields) == c;
    assert clients[id := c] == clients;
  }

  /** A created client is the one the e-mail registration looks up: its address is unique. */
  lemma CreatedClientFoundByEmail(clients: map<Id, Client>, systems: set<Id>, input: ClientInput, newId: Id,
                                  isEmail: string -> bool)
    requires newId !in clients
    requires CreateClient(clients, systems, input, newId, isEmail).Ok?
    ensures ClientByEmail(CreateClient(clients, systems, input, newId, isEmail).value, input.email.value)
            == Some(newId)
  {
    var t := CreateClient(clients, systems, input, newId, isEmail).value;
    var found := ClientByEmail(t, input.email.value);
    assert t[newId].email == input.email.value;
  }

  /** Deleting a client right after creating it gives back the table as it was. */
  lemma DeleteUndoesCreate(clients: map<Id, Client>, systems: set<Id>, input: ClientInput, newId: Id,
                           isEmail: string -> bool)
    requires newId !in clients
    requires CreateClient(clients, systems, input, newId, isEmail).Ok?
    ensures Destroy(CreateClient(clients, systems, input, newId, isEmail).value, newId) == Ok(clients)
  {
    var t := CreateClient(clients, systems, input, newId, isEmail).value;
    DestroyUndoesInsert(clients, newId, t[newId]);
    assert t == clients[newId := t[newId]];
  }

  /**
   * POST /clients/:id/assign-op: appends the code to the client's list (a
   * null list becomes a one-element list) without looking for duplicates;
   * the validator rejects the write (500) when the code breaks the rule.
   */
  function AssignOp(clients: map<Id, Client>, id: Id, code: string): (r: Result<map<Id, Client>>)
    ensures id !in clients <==> r == Err(404)
    ensures id in clients && !ClientOpCode(code) && OpCodesValid(clients[id].opCodes) ==> r == Err(500)
    ensures r.Ok? || r == Err(404) || r == Err(500)
    ensures r.Ok? <==> id in clients && OpCodesValid(Some(clients[id].opCodes.GetOr([]) + [code]))
    ensures id in clients && ClientOpCode(code) && OpCodesValid(clients[id].opCodes) ==> r.Ok?
    ensures r.Ok? ==> r.value.Keys == clients.Keys
    ensures r.Ok? ==> forall k :: k in clients && k != id ==> r.value[k] == clients[k]
    ensures r.Ok? ==> r.value[id].opCodes == Some(clients[id].opCodes.GetOr([]) + [code])
    ensures r.Ok? ==> OpCodesValid(r.value[id].opCodes)
  {
    if id !in clients then Err(404)
    else
      var updated := clients[id].opCodes.GetOr([]) + [code];
      if !OpCodesValid(Some(updated)) then Err(500)
      else
        assert updated[|updated| - 1] == code;
        Ok(clients[id := clients[id].(opCodes := Some(updated))])
  }

  /** A valid code is accepted onto a valid list, and it is appended even when already present. */
  lemma AssignOpDoesNotDedupe(clients: map<Id, Client>, id: Id, code: string)
    requires id in clients && clients[id].opCodes.Some? && OpCodesValid(clients[id].opCodes)
    requires code in clients[id].opCodes.value && ClientOpCode(code)
    ensures AssignOp(clients, id, code).Ok?
    ensures |AssignOp(clients, id, code).value[id].opCodes.value| == |clients[id].opCodes.value| + 1
  {
    AppendKeepsValid(clients[id].opCodes.value, code);
  }
}

=== FILE: file_manager.dfy ===
/**
 * The client file browser: the current folder and its breadcrumbs, folder
 * creation, the name filter, the preview chosen from the file extension,
 * and the fields of an upload form.
 */
module FileManager {
  import opened Tables
  import opened Text
  import ClientFiles
  import ClientModel

  // ---------------------------------------------------------------------
  // Extension and preview
  // ---------------------------------------------------------------------

  function Last(parts: seq<string>): string
    requires |parts| >= 1
  {
    parts[|parts| - 1]
  }

  /** `name.split('.').pop().toLowerCase()`: the text after the last dot, or the whole name. */
  function Extension(name: string): (ext: string)
    ensures '.' !in ext
    ensures '.' !in name ==> ext == Lower(name)
  {
    var parts := Split(name, '.');
    LowerKeepsOther(Last(parts), '.');
    Lower(Last(parts))
  }

  /** A name with a dot has the lower-cased text after its last dot as extension. */
  lemma ExtensionAfterLastDot(base: string, ext: string)
    requires '.' !in ext
    ensures Extension(base + "." + ext) == Lower(ext)
  {
    assert base + "." + ext == base + ['.'] + ext;
    SplitConcat(base, '.', ext);
  }

  const ImageExtensions: seq<string> := ["jpg", "jpeg", "png", "gif", "bmp", "svg"]

  /** What the preview dialog shows. */
  datatype Preview = Unavailable | Image | Frame | DownloadLink

  /**
   * handleFilePreview: no file or a file without a name gives the
   * "not available" text; otherwise images are shown inline, PDFs in a
   * frame, and anything else as a download link.
   */
  function PreviewOf(file: Option<ClientFiles.Entry>): (p: Preview)
    ensures p == Unavailable <==> file.None? || file.value.name == ""
    ensures p == Image <==> file.Some? && file.value.name != "" && Extension(file.value.name) in ImageExtensions
    ensures p == Frame <==> file.Some? && file.value.name != "" && Extension(file.value.name) == "pdf"
  {
    if file.None? || file.value.name == "" then Unavailable
    else
      var ext := Extension(file.value.name);
      if ext in ImageExtensions then Image
      else if ext == "pdf" then Frame
      else DownloadLink
  }

  /** The extension's letter case does not matter: `PLAN.PDF` is shown like `plan.pdf`. */
  lemma PreviewIgnoresCase(e: ClientFiles.Entry, base: string, ext: string)
    requires e.name == base + "." + ext && '.' !in ext
    ensures PreviewOf(Some(e)) == PreviewOf(Some(e.(name := base + "." + Lower(ext))))
  {
    ExtensionAfterLastDot(base, ext);
    LowerKeepsOther(ext, '.');
    ExtensionAfterLastDot(base, Lower(ext));
    LowerIdempotent(ext);
  }

  /** A name without a dot is its own extension, so a file called `pdf` is previewed in a frame. */
  lemma DotlessNameIsItsOwnExtension(e: ClientFiles.Entry)
    requires e.name == "pdf"
    ensures PreviewOf(Some(e)) == Frame
  {
    assert '.' !in e.name;
  }

  // ---------------------------------------------------------------------
  // Navigation
  // ---------------------------------------------------------------------

  /** Opening an entry: the folder to show next, and the path downloaded, if any. */
  datatype Opened = Opened(currentPath: string, download: Option<string>)

  /** handleFileOpen: a folder becomes the current folder; a file is downloaded and the folder stays. */
  function Open(currentPath: string, e: ClientFiles.Entry): (r: Opened)
    ensures e.kind == "folder" ==> r.currentPath == e.path && r.download.None?
    ensures e.kind != "folder" ==> r.currentPath == currentPath && r.download == Some(e.path)
  {
    if e.kind == "folder" then Opened(e.path, None) else Opened(currentPath, Some(e.path))
  }

  /**
   * handleCreateFolder: a name that is blank after trimming sends nothing;
   * otherwise the untrimmed name is put under the current folder.
   */
  function NewFolderPath(currentPath: string, name: string): (r: Option<string>)
    ensures r.None? <==> Blank(name)
    ensures r.Some? ==> r.value == ClientFiles.JoinPath(currentPath, name)
  {
    TrimEmptyIffBlank(name);
    if Trim(name) == "" then None
    else if currentPath != "" then Some(currentPath + "/" + name)
    else Some(name)
  }

  // ---------------------------------------------------------------------
  // Breadcrumbs
  // ---------------------------------------------------------------------

  /** A breadcrumb: the folder name shown and the path it opens. */
  datatype Crumb = Crumb(folder: string, target: string)

  /** The crumbs for segments `i..` of the current path: empty segments give none. */
  function CrumbsFrom(parts: seq<string>, i: nat): seq<Crumb>
    requires i <= |parts|
    decreases |parts| - i
  {
    if i == |parts| then []
    else (if parts[i] != "" then [Crumb(parts[i], Join(parts[..i + 1], "/"))] else []) + CrumbsFrom(parts, i + 1)
  }

  /** The breadcrumb trail after "Home" for the current path. */
  function Breadcrumbs(currentPath: string): seq<Crumb> {
    CrumbsFrom(Split(currentPath, '/'), 0)
  }

  function Labels(crumbs: seq<Crumb>): (r: seq<string>)
    ensures |r| == |crumbs|
    decreases |crumbs|
  {
    if crumbs == [] then [] else [crumbs[0].folder] + Labels(crumbs[1..])
  }

  predicate NonEmpty(s: string) {
    s != ""
  }

  lemma LabelsAppend(a: seq<Crumb>, b: seq<Crumb>)
    ensures Labels(a + b) == Labels(a) + Labels(b)
    decreases |a|
  {
    if a == [] {
      assert a + b == b;
    } else {
      assert (a + b)[1..] == a[1..] + b;
      LabelsAppend(a[1..], b);
    }
  }

  /** The labels from position `i` on are the non-empty segments from `i` on, in order. */
  lemma {:induction false} CrumbLabels(parts: seq<string>, i: nat)
    requires i <= |parts|
    ensures Labels(CrumbsFrom(parts, i)) == Filter(parts[i..], NonEmpty)
    decreases |parts| - i
  {
    if i < |parts| {
      CrumbLabels(parts, i + 1);
      var head := if parts[i] != "" then [Crumb(parts[i], Join(parts[..i + 1], "/"))] else [];
      LabelsAppend(head, CrumbsFrom(parts, i + 1));
      assert parts[i..][0] == parts[i];
      assert parts[i..][1..] == parts[i + 1..];
    }
  }

  /** The breadcrumbs are labelled with the non-empty segments of the current path, one each, in order. */
  lemma BreadcrumbLabels(currentPath: string)
    ensures Labels(Breadcrumbs(currentPath)) == Filter(Split(currentPath, '/'), NonEmpty)
  {
    var parts := Split(currentPath, '/');
    CrumbLabels(parts, 0);
    assert parts[0..] == parts;
  }

  /** Each crumb links to the segments up to its own, joined by `/`. */
  lemma {:induction false} CrumbTargets(parts: seq<string>, i: nat, c: Crumb)
    requires i <= |parts| && c in CrumbsFrom(parts, i)
    ensures exists j :: i <= j < |parts| && c == Crumb(parts[j], Join(parts[..j + 1], "/")) && parts[j] != ""
    decreases |parts| - i
  {
    if parts[i] != "" && c == Crumb(parts[i], Join(parts[..i + 1], "/")) {
    } else {
      CrumbTargets(parts, i + 1, c);
    }
  }

  /** A path with one more segment has the same crumbs and then one for the new segment. */
  lemma {:induction false} CrumbsFromAppend(parts: seq<string>, extra: string, i: nat)
    requires i <= |parts|
    ensures CrumbsFrom(parts + [extra], i)
            == CrumbsFrom(parts, i) + (if extra != "" then [Crumb(extra, Join(parts + [extra], "/"))] else [])
    decreases |parts| - i
  {
    var longer := parts + [extra];
    if i == |parts| {
      assert longer[..i + 1] == longer;
      assert CrumbsFrom(longer, i + 1) == [];
    } else {
      assert longer[i] == parts[i];
      assert longer[..i + 1] == parts[..i + 1];
      CrumbsFromAppend(parts, extra, i + 1);
    }
  }

  /**
   * Opening a folder entry of the current folder's listing extends the
   * breadcrumb trail by one crumb, labelled with its name and leading to it.
   */
  lemma OpenFolderAddsOneCrumb(currentPath: string, item: ClientFiles.DirItem)
    requires item.isDirectory && item.name != "" && '/' !in item.name
    ensures var o := Open(currentPath, ClientFiles.ListEntry(Some(currentPath), item));
            o.download.None? && Breadcrumbs(o.currentPath) == Breadcrumbs(currentPath) + [Crumb(item.name, o.currentPath)]
  {
    if currentPath == "" {
      FolderAtRootCrumb(item.name);
    } else {
      FolderBelowCrumb(currentPath, item.name);
    }
  }

  /**
   * Creating a folder and opening it adds exactly one breadcrumb, labelled
   * with the folder's name and leading to the new folder.
   */
  lemma NewFolderAddsOneCrumb(currentPath: string, name: string)
    requires !Blank(name) && '/' !in name
    ensures var path := NewFolderPath(currentPath, name).value;
            Breadcrumbs(path) == Breadcrumbs(currentPath) + [Crumb(name, path)]
  {
    assert name != "" by {
      if name == "" { assert Blank(name); }
    }
    if currentPath == "" {
      FolderAtRootCrumb(name);
    } else {
      FolderBelowCrumb(currentPath, name);
    }
  }

  lemma FolderAtRootCrumb(name: string)
    requires name != "" && '/' !in name
    ensures Breadcrumbs(name) == [Crumb(name, name)]
    ensures Breadcrumbs("") == []
  {
    assert Split(name, '/') == [name];
    assert [name][..1] == [name];
    assert Join([name], "/") == name;
    assert CrumbsFrom([name], 1) == [];
    assert CrumbsFrom([name], 0) == [Crumb(name, name)];
    assert Split("", '/') == [""];
  }

  lemma FolderBelowCrumb(currentPath: string, name: string)
    requires currentPath != "" && name != "" && '/' !in name
    ensures Breadcrumbs(currentPath + "/" + name) == Breadcrumbs(currentPath) + [Crumb(name, currentPath + "/" + name)]
  {
    var parts := Split(currentPath, '/');
    var path := currentPath + "/" + name;
    ClientFiles.JoinPathSegments(currentPath, name);
    assert Split(name, '/') == [name];
    assert Split(path, '/') == parts + [name];
    CrumbsFromAppend(parts, name, 0);
    JoinAppend(parts, name, "/");
    JoinSplit(currentPath, '/');
  }

  /**
   * For a path with no empty segment, the last breadcrumb opens the current
   * folder itself.
   */
  lemma LastCrumbIsCurrentFolder(currentPath: string)
    requires currentPath != ""
    requires forall i :: 0 <= i < |Split(currentPath, '/')| ==> Split(currentPath, '/')[i] != ""
    ensures |Breadcrumbs(currentPath)| >= 1
    ensures Breadcrumbs(currentPath)[|Breadcrumbs(currentPath)| - 1].target == currentPath
  {
    var parts := Split(currentPath, '/');
    var n := |parts|;
    var init := parts[..n - 1];
    assert parts == init + [parts[n - 1]];
    CrumbsFromAppend(init, parts[n - 1], 0);
    JoinSplit(currentPath, '/');
  }

  // ---------------------------------------------------------------------
  // Filter and upload form
  // ---------------------------------------------------------------------

  predicate NameMatches(e: ClientFiles.Entry, term: string) {
    Contains(Lower(e.name), Lower(term))
  }

  /** filteredFiles: the entries whose name contains the search text, ignoring letter case. */
  function FilterFiles(files: seq<ClientFiles.Entry>, term: string): (r: seq<ClientFiles.Entry>)
    ensures |r| <= |files|
    ensures forall e :: e in r <==> e in files && NameMatches(e, term)
  {
    Filter(files, (e: ClientFiles.Entry) => NameMatches(e, term))
  }

  /** An empty search text shows every entry. */
  lemma EmptyTermShowsAll(files: seq<ClientFiles.Entry>)
    ensures FilterFiles(files, "") == files
  {
    forall e | e in files ensures NameMatches(e, "") {
      ContainsTrivia(Lower(e.name));
    }
    FilterKeepsAll(files, (e: ClientFiles.Entry) => NameMatches(e, ""));
  }

  /** Typing more narrows the list: an entry shown for a longer text is shown for its prefix. */
  lemma LongerTermNarrows(files: seq<ClientFiles.Entry>, term: string, more: string)
    ensures forall e :: e in FilterFiles(files, term + more) ==> e in FilterFiles(files, term)
  {
    LowerAppend(term, more);
    forall e | e in FilterFiles(files, term + more) ensures NameMatches(e, term) {
      var s := Lower(e.name);
      var t := Lower(term);
      var i :| 0 <= i <= |s| - |t + Lower(more)| && OccursAt(s, t + Lower(more), i);
      assert s[i..i + |t|] == (t + Lower(more))[..|t|];
      assert OccursAt(s, t, i);
    }
  }

  /**
   * customUploadRequest: file, current folder and type are always sent; the
   * expiry date only for a revision report with a date picked, the next
   * service date only for a contract with a date picked. Picked dates
   * arrive as their `YYYY-MM-DD` text.
   */
  function UploadFields(fileName: string, currentPath: string, fileType: string,
                        expiration: Option<string>, nextService: Option<string>)
    : (req: ClientFiles.UploadRequest)
    ensures req.file == Some(fileName) && req.path == Some(currentPath) && req.fileType == Some(fileType)
    ensures req.expirationDate.Some? <==> fileType == "revision" && expiration.Some?
    ensures req.nextServiceDate.Some? <==> fileType == "contract" && nextService.Some?
    ensures req.expirationDate.Some? ==> req.expirationDate == expiration
    ensures req.nextServiceDate.Some? ==> req.nextServiceDate == nextService
  {
    ClientFiles.UploadRequest(
      Some(fileName), Some(currentPath), Some(fileType),
      if fileType == "revision" && expiration.Some? then expiration else None,
      if fileType == "contract" && nextService.Some? then nextService else None)
  }

  /**
   * What the form sends is accepted exactly when a revision report has its
   * date and a contract has its date; the form itself does not stop the
   * upload. Accepted, it is stored under the current folder.
   */
  lemma FormUploadAccepted(clients: map<Id, ClientModel.Client>, id: Id, fileName: string, currentPath: string,
                           fileType: string, expiration: Option<string>, nextService: Option<string>)
    requires id in clients && fileType != ""
    requires expiration.Some? ==> expiration.value != ""
    requires nextService.Some? ==> nextService.value != ""
    ensures var r := ClientFiles.Upload(clients, id, UploadFields(fileName, currentPath, fileType, expiration, nextService), true);
      && (r.Ok? <==> (fileType == "revision" ==> expiration.Some?) && (fileType == "contract" ==> nextService.Some?))
      && (!r.Ok? ==> r == Err(400))
      && (r.Ok? ==> r.value.meta.path == ClientFiles.JoinPath(currentPath, fileName) && r.value.meta.fileType == fileType)
  {
    var req := UploadFields(fileName, currentPath, fileType, expiration, nextService);
    assert ClientFiles.FileTypeOf(req) == fileType;
  }
}

=== FILE: files.dfy ===
/**
 * The client file store: the upload handler with its metadata rules and the
 * shape of a directory listing. The file system is not modelled: moving the
 * uploaded file and saving the client row are one outcome the caller
 * supplies, and a directory is the list of items it reads.
 */
module ClientFiles {
  import opened Tables
  import opened Text
  import opened ClientModel

  /** A form value JavaScript treats as true: present and not the empty string. */
  predicate Given(v: Option<string>) {
    v.Some? && v.value != ""
  }

  /**
   * `path.join(dir, name)` for a relative directory and an entry name:
   * the name alone under the root, otherwise the two joined by `/`.
   */
  function JoinPath(dir: string, name: string): (p: string)
    ensures |p| >= |name| && p[|p| - |name|..] == name
    ensures dir != "" ==> |p| > |dir| && p[..|dir|] == dir && p[|dir|] == '/'
  {
    if dir == "" then name else dir + "/" + name
  }

  /** Read back by segments, a joined path ends in the entry's name. */
  lemma JoinPathSegments(dir: string, name: string)
    ensures Split(JoinPath(dir, name), '/')
            == (if dir == "" then [] else Split(dir, '/')) + Split(name, '/')
  {
    if dir != "" {
      assert dir + "/" + name == dir + ['/'] + name;
      SplitConcat(dir, '/', name);
    }
  }

  // ---------------------------------------------------------------------
  // Upload
  // ---------------------------------------------------------------------

  /** The multipart body of an upload; `file` is the uploaded file's name, `None` when no file came. */
  datatype UploadRequest = UploadRequest(
    file: Option<string>,
    path: Option<string>,
    fileType: Option<string>,
    expirationDate: Option<string>,
    nextServiceDate: Option<string>)

  /** `req.body.fileType || 'normal'`. */
  function FileTypeOf(req: UploadRequest): (t: string)
    ensures t != ""
    ensures Given(req.fileType) ==> t == req.fileType.value
  {
    if Given(req.fileType) then req.fileType.value else "normal"
  }

  /** A revision report needs its expiry date and a service contract its next service date. */
  predicate DatesPresent(req: UploadRequest) {
    && (FileTypeOf(req) == "revision" ==> Given(req.expirationDate))
    && (FileTypeOf(req) == "contract" ==> Given(req.nextServiceDate))
  }

  datatype Uploaded = Uploaded(clients: map<Id, Client>, meta: FileMeta)

  /**
   * POST /clients/:clientId/files/upload. The client lookup in front of the
   * router throws for an unknown id, which answers 500. Then: no file is
   * 400; a revision without expiry date or a contract without next service
   * date is 400 before anything is written; a failed move or save is 500.
   * On success the client gets one more metadata entry, and the matching
   * date column for a revision or a contract.
   */
  function Upload(clients: map<Id, Client>, id: Id, req: UploadRequest, stored: bool): (r: Result<Uploaded>)
    ensures id !in clients ==> r == Err(500)
    ensures r == Err(400) <==> id in clients && (req.file.None? || !DatesPresent(req))
    ensures r.Ok? <==> id in clients && req.file.Some? && DatesPresent(req) && stored
    ensures r.Ok? ==> r.value.clients.Keys == clients.Keys
    ensures r.Ok? ==> forall k :: k in clients && k != id ==> r.value.clients[k] == clients[k]
    ensures r.Ok? ==>
      var c := clients[id];
      var after := r.value.clients[id];
      var meta := r.value.meta;
      && after.files == c.files + [meta]
      && meta.name == req.file.value
      && meta.path == JoinPath(req.path.GetOr(""), req.file.value)
      && meta.fileType == FileTypeOf(req)
      && (meta.expirationDate.Some? <==> meta.fileType == "revision")
      && (meta.nextServiceDate.Some? <==> meta.fileType == "contract")
      && after.revisionExpirationDate
         == (if meta.fileType == "revision" then meta.expirationDate else c.revisionExpirationDate)
      && after.contractNextServiceDate
         == (if meta.fileType == "contract" then meta.nextServiceDate else c.contractNextServiceDate)
      && after.(files := c.files, revisionExpirationDate := c.revisionExpirationDate,
                contractNextServiceDate := c.contractNextServiceDate) == c
  {
    if id !in clients then Err(500)
    else if req.file.None? then Err(400)
    else
      var fileType := FileTypeOf(req);
      if fileType == "revision" && !Given(req.expirationDate) then Err(400)
      else if fileType == "contract" && !Given(req.nextServiceDate) then Err(400)
      else if !stored then Err(500)
      else
        var c := clients[id];
        var expiration := if fileType == "revision" then req.expirationDate else None;
        var nextService := if fileType == "contract" then req.nextServiceDate else None;
        var name := req.file.value;
        var meta := FileMeta(name, JoinPath(req.path.GetOr(""), name), fileType, expiration, nextService);
        var after := c.(files := c.files + [meta],
                        revisionExpirationDate :=
                          if fileType == "revision" then expiration else c.revisionExpirationDate,
                        contractNextServiceDate :=
                          if fileType == "contract" then nextService else c.contractNextServiceDate);
        Ok(Uploaded(clients[id := after], meta))
  }

  /** An upload of an ordinary file leaves both date columns as they were. */
  lemma NormalUploadKeepsDates(clients: map<Id, Client>, id: Id, req: UploadRequest)
    requires id in clients && req.file.Some? && !Given(req.fileType)
    ensures var r := Upload(clients, id, req, true);
      && r.Ok?
      && r.value.meta.fileType == "normal"
      && r.value.clients[id].revisionExpirationDate == clients[id].revisionExpirationDate
      && r.value.clients[id].contractNextServiceDate == clients[id].contractNextServiceDate
  {
  }

  /**
   * Two successful uploads keep both entries, in upload order, after the
   * files already there; the second revision date replaces the first.
   */
  lemma TwoUploadsKeepBoth(clients: map<Id, Client>, id: Id, first: UploadRequest, second: UploadRequest)
    requires Upload(clients, id, first, true).Ok?
    requires Upload(Upload(clients, id, first, true).value.clients, id, second, true).Ok?
    ensures var one := Upload(clients, id, first, true).value;
            var two := Upload(one.clients, id, second, true).value;
      && two.clients[id].files == clients[id].files + [one.meta, two.meta]
      && (FileTypeOf(second) == "revision" ==> two.clients[id].revisionExpirationDate == second.expirationDate)
      && (FileTypeOf(first) == "revision" && FileTypeOf(second) != "revision" ==>
            two.clients[id].revisionExpirationDate == first.expirationDate)
  {
    var one := Upload(clients, id, first, true).value;
    var two := Upload(one.clients, id, second, true).value;
    assert clients[id].files + [one.meta] + [two.meta] == clients[id].files + [one.meta, two.meta];
  }

  /**
   * The upload as written: `client.files.push(meta)` changes the array in
   * place, and `client.save()` writes only the attributes assigned through
   * a setter, so only the date columns reach the table. The reply still
   * carries the new metadata.
   */
  function UploadAsWritten(clients: map<Id, Client>, id: Id, req: UploadRequest, stored: bool)
    : (r: Result<Uploaded>)
    ensures r.Err? ==> r == Upload(clients, id, req, stored)
    ensures r.Ok? <==> Upload(clients, id, req, stored).Ok?
    ensures r.Ok? ==> r.value.meta == Upload(clients, id, req, stored).value.meta
    ensures r.Ok? ==> id in clients && id in r.value.clients && r.value.clients[id].files == clients[id].files
    ensures r.Ok? ==> var intended := Upload(clients, id, req, stored).value.clients;
                      r.value.clients == intended[id := intended[id].(files := clients[id].files)]
  {
    match Upload(clients, id, req, stored)
    case Err(status) => Err(status)
    case Ok(u) =>
      var after := u.clients[id].(files := clients[id].files);
      Ok(Uploaded(u.clients[id := after], u.meta))
  }

  /**
   * As written, an upload to a client without files answers with the new
   * metadata, yet the stored client still has no files.
   */
  lemma UploadNotRecordedAsWritten(clients: map<Id, Client>, id: Id, req: UploadRequest)
    requires id in clients && clients[id].files == []
    requires req.file.Some? && DatesPresent(req)
    ensures var r := UploadAsWritten(clients, id, req, true);
            r.Ok? && r.value.clients[id].files == [] && r.value.meta.name == req.file.value
            && Upload(clients, id, req, true).value.clients[id].files == [r.value.meta]
  {
    assert [] + [Upload(clients, id, req, true).value.meta] == [Upload(clients, id, req, true).value.meta];
  }

  // ---------------------------------------------------------------------
  // Listing
  // ---------------------------------------------------------------------

  /** A directory item as the directory read returns it. */
  datatype DirItem = DirItem(name: string, isDirectory: bool, size: int)

  /** A listing entry; `kind` is the JSON `type`, `size` is null for a folder. */
  datatype Entry = Entry(name: string, kind: string, path: string, size: Option<int>)

  /** GET /clients/:clientId/files: one entry per item of the directory at `query`. */
  function ListEntry(query: Option<string>, item: DirItem): (e: Entry)
    ensures e.name == item.name
    ensures e.kind in {"folder", "file"}
    ensures e.kind == "folder" <==> item.isDirectory
    ensures e.size.None? <==> e.kind == "folder"
    ensures e.size.Some? ==> e.size.value == item.size
    ensures e.path == JoinPath(query.GetOr(""), item.name)
  {
    Entry(item.name, if item.isDirectory then "folder" else "file",
          JoinPath(query.GetOr(""), item.name),
          if item.isDirectory then None else Some(item.size))
  }

  function Listing(query: Option<string>, items: seq<DirItem>): (r: seq<Entry>)
    ensures |r| == |items|
    ensures forall i :: 0 <= i < |r| ==> r[i] == ListEntry(query, items[i])
    decreases |items|
  {
    if items == [] then [] else [ListEntry(query, items[0])] + Listing(query, items[1..])
  }

  /**
   * An uploaded file is listed, in the folder it was uploaded to, under the
   * path its metadata records.
   */
  lemma UploadedFileIsListedAtItsPath(clients: map<Id, Client>, id: Id, req: UploadRequest, size: int)
    requires Upload(clients, id, req, true).Ok?
    ensures var meta := Upload(clients, id, req, true).value.meta;
            var e := ListEntry(req.path, DirItem(meta.name, false, size));
            e.path == meta.path && e.kind == "file" && e.size == Some(size)
  {
  }
}

=== FILE: knowhow.dfy ===
/**
 * The Know-How registry: help articles keyed by (topic, system), some of
 * which clients may read. Creation finds or creates the topic by name.
 */
module KnowHows {
  import opened Tables
  import opened Text
  import opened Access
  import opened Topics
  import opened ClientModel
  import Like

  datatype KnowHow = KnowHow(topicId: Id, systemId: Id, content: string, availableForClients: bool)

  datatype System = System(name: string)

  /** The systems a Know-How may be written for. */
  const AllowedSystems: seq<string> := ["Solar Edge", "Solax", "GoodWe", "Victron"]

  /** The registry invariant: at most one entry per (topic, system). */
  predicate OnePerPair(knowHows: map<Id, KnowHow>) {
    forall a, b ::
      (a in knowHows && b in knowHows && knowHows[a].topicId == knowHows[b].topicId
       && knowHows[a].systemId == knowHows[b].systemId) ==> a == b
  }

  /** An entry for this (topic, system) pair exists. */
  predicate HasPair(knowHows: map<Id, KnowHow>, topicId: Id, systemId: Id) {
    exists k :: k in knowHows && knowHows[k].topicId == topicId && knowHows[k].systemId == systemId
  }

  /** The tables the create handler writes. */
  datatype Registry = Registry(topics: map<Id, Topic>, knowHows: map<Id, KnowHow>)

  /**
   * Body of POST /know-how. `topic` and `system` are `None` when the body
   * value is not a string.
   */
  datatype KnowHowInput = KnowHowInput(
    topic: Option<string>,
    system: Option<string>,
    content: Option<string>,
    availableForClients: Option<bool>)

  /** `System.findOne({ where: { name } })`. */
  function SystemByName(systems: map<Id, System>, name: string): (r: Option<Id>)
    ensures r.Some? ==> r.value in systems && systems[r.value].name == name
    ensures r.None? <==> forall k :: k in systems ==> systems[k].name != name
  {
    FirstWhere(systems, (s: System) => s.name == name)
  }

  /**
   * POST /know-how, behind `authorizeRole(['technician', 'admin'])`. Type
   * and allow-list checks on topic and system (400),
   * then the system must exist (400). The topic is looked up by name and
   * created with the default severity 1 if missing; that creation stays
   * even when the request then fails. A second entry for the same (topic,
   * system) is 400; a missing content fails the insert (500).
   */
  function CreateKnowHow(author: Role, reg: Registry, systems: map<Id, System>, input: KnowHowInput,
                         newTopicId: Id, newId: Id): (r: Reply<Registry>)
    requires newTopicId !in reg.topics && newId !in reg.knowHows
    ensures author !in {Admin, TechnicianRole} <==> r == Reply(403, reg)
    ensures (author in {Admin, TechnicianRole}
             && (input.topic.None? || input.system.None? || input.system.value !in AllowedSystems)) ==> r == Reply(400, reg)
    ensures r.status in {201, 400, 403, 500}
    ensures r.state.knowHows != reg.knowHows <==> r.status == 201
    ensures r.status == 201 ==> author in {Admin, TechnicianRole}
    ensures r.status == 201 ==> var sys := SystemByName(systems, input.system.value);
                                var tid := TopicByName(r.state.topics, input.topic.value);
                                sys.Some? && tid.Some? && input.content.Some? && !HasPair(reg.knowHows, tid.value, sys.value)
                                && r.state.knowHows == reg.knowHows[newId := KnowHow(tid.value, sys.value,
                                     input.content.value, input.availableForClients.GetOr(false))]
    ensures r.state.topics == reg.topics || r.state.topics == reg.topics[newTopicId := Topic(input.topic.value, 1)]
    ensures (author in {Admin, TechnicianRole} && input.topic.Some? && input.system.Some?
             && input.system.value in AllowedSystems
             && SystemByName(systems, input.system.value).None?) ==> r == Reply(400, reg)
    ensures (author in {Admin, TechnicianRole} && input.topic.Some? && input.system.Some?
             && input.system.value in AllowedSystems
             && SystemByName(systems, input.system.value).Some?) ==>
              var found := TopicByName(reg.topics, input.topic.value);
              var tid := if found.Some? then found.value else newTopicId;
              var clash := HasPair(reg.knowHows, tid, SystemByName(systems, input.system.value).value);
              && (r.status == 201 <==> !clash && input.content.Some?)
              && (r.status == 400 <==> clash)
              && (r.status == 500 <==> !clash && input.content.None?)
  {
    RouteListsAdmit(author);
    if !Includes(Staff, author) then Reply(403, reg)
    else if input.topic.None? || input.system.None? || input.system.value !in AllowedSystems then Reply(400, reg)
    else match SystemByName(systems, input.system.value)
      case None => Reply(400, reg)
      case Some(sid) =>
        var name := input.topic.value;
        var topics := if TopicByName(reg.topics, name).Some? then reg.topics
                      else reg.topics[newTopicId := Topic(name, 1)];
        assert TopicByName(topics, name).Some? by {
          if TopicByName(reg.topics, name).None? { assert topics[newTopicId].name == name; }
        }
        var tid := TopicByName(topics, name).value;
        if HasPair(reg.knowHows, tid, sid) then Reply(400, Registry(topics, reg.knowHows))
        else if input.content.None? then Reply(500, Registry(topics, reg.knowHows))
        else
          var entry := KnowHow(tid, sid, input.content.value, input.availableForClients.GetOr(false));
          assert newId in reg.knowHows[newId := entry];
          Reply(201, Registry(topics, reg.knowHows[newId := entry]))
  }

  /** Creation keeps the topic registry well formed and the Know-How table one-per-pair. */
  lemma CreateKeepsInvariants(author: Role, reg: Registry, systems: map<Id, System>, input: KnowHowInput,
                              newTopicId: Id, newId: Id)
    requires newTopicId !in reg.topics && newId !in reg.knowHows
    requires WellFormed(reg.topics) && OnePerPair(reg.knowHows)
    ensures var r := CreateKnowHow(author, reg, systems, input, newTopicId, newId);
            WellFormed(r.state.topics) && OnePerPair(r.state.knowHows)
  {
  }

  /** A second create for the same topic name and system is refused. */
  lemma DuplicateRefused(author: Role, reg: Registry, systems: map<Id, System>, input: KnowHowInput,
                         newTopicId: Id, newId: Id, newTopicId2: Id, newId2: Id)
    requires newTopicId !in reg.topics && newId !in reg.knowHows
    requires var r := CreateKnowHow(author, reg, systems, input, newTopicId, newId);
             r.status == 201 && newTopicId2 !in r.state.topics && newId2 !in r.state.knowHows
    ensures var r := CreateKnowHow(author, reg, systems, input, newTopicId, newId);
            CreateKnowHow(author, r.state, systems, input, newTopicId2, newId2).status == 400
  {
    var r := CreateKnowHow(author, reg, systems, input, newTopicId, newId);
    var sid := SystemByName(systems, input.system.value).value;
    var tid := TopicByName(r.state.topics, input.topic.value).value;
    assert r.state.knowHows[newId].topicId == tid && r.state.knowHows[newId].systemId == sid;
  }

  /** An entry created without a visibility flag is hidden from clients. */
  lemma HiddenByDefault(author: Role, reg: Registry, systems: map<Id, System>, topic: string, system: string,
                        content: string, newTopicId: Id, newId: Id)
    requires newTopicId !in reg.topics && newId !in reg.knowHows
    requires CreateKnowHow(author, reg, systems, KnowHowInput(Some(topic), Some(system), Some(content), None),
                           newTopicId, newId).status == 201
    ensures !CreateKnowHow(author, reg, systems, KnowHowInput(Some(topic), Some(system), Some(content), None),
                           newTopicId, newId).state.knowHows[newId].availableForClients
  {
  }

  /** `text ILIKE '%q%'`: the LIKE pattern `%q%` matched against lower-cased text. */
  predicate ILike(text: string, q: string) {
    Like.ContainsLike(Lower(text), Lower(q))
  }

  /** The search condition: the topic name or the content matches the query. */
  predicate SearchHit(k: KnowHow, topics: map<Id, Topic>, q: string) {
    (k.topicId in topics && ILike(topics[k.topicId].name, q)) || ILike(k.content, q)
  }

  /** Who is asking: role, user id and (for clients) the client id from the token. */
  datatype Caller = Caller(role: Role, userId: Id, clientId: Option<Id>)

  /**
   * GET /know-how/search?q=, behind `authorizeRole(['client', 'technician',
   * 'admin'])`. The query is put between `%` signs as it is, so `%`, `_`
   * and a backslash in it keep their pattern meaning. An absent query is
   * interpolated as the text "undefined". Staff see every hit. A client
   * sees only hits that are available to clients and belong to their own
   * client row's system; a client-role user without a client row gets an
   * empty list.
   */
  function Search(knowHows: map<Id, KnowHow>, topics: map<Id, Topic>, clients: map<Id, Client>,
                  caller: Caller, q: Option<string>): (r: Result<map<Id, KnowHow>>)
    ensures r.Err? <==> caller.role == UserRole
    ensures r.Err? ==> r.status == 403
    ensures r.Ok? ==> forall k :: k in r.value ==>
              k in knowHows && r.value[k] == knowHows[k] && SearchHit(knowHows[k], topics, q.GetOr("undefined"))
    ensures r.Ok? && caller.role != ClientRole ==>
              forall k :: k in knowHows && SearchHit(knowHows[k], topics, q.GetOr("undefined")) ==> k in r.value
    ensures r.Ok? && caller.role == ClientRole ==>
              var own := FirstWhere(clients, (c: Client) => c.userId == Some(caller.userId));
              (own.None? ==> r.value == map[])
              && (own.Some? ==> forall k :: k in knowHows ==>
                    (k in r.value <==> SearchHit(knowHows[k], topics, q.GetOr("undefined"))
                                       && knowHows[k].availableForClients
                                       && knowHows[k].systemId == clients[own.value].systemId))
  {
    RouteListsAdmit(caller.role);
    var text := q.GetOr("undefined");
    Guarded(Everyone, caller.role,
      if caller.role == ClientRole then
        match FirstWhere(clients, (c: Client) => c.userId == Some(caller.userId))
        case None => Ok(map[])
        case Some(cid) =>
          Ok(Where(knowHows, (k: KnowHow) => SearchHit(k, topics, text) && k.availableForClients
                                             && k.systemId == clients[cid].systemId))
      else Ok(Where(knowHows, (k: KnowHow) => SearchHit(k, topics, text))))
  }

  /** The query `_` is a wildcard: staff searching for it get every entry whose content is not empty. */
  lemma UnderscoreQueryFindsAllContent(knowHows: map<Id, KnowHow>, topics: map<Id, Topic>,
                                       clients: map<Id, Client>, caller: Caller, k: Id)
    requires caller.role == Admin || caller.role == TechnicianRole
    requires k in knowHows && knowHows[k].content != ""
    ensures var r := Search(knowHows, topics, clients, caller, Some("_"));
            r.Ok? && k in r.value
  {
    assert Lower("_") == "_";
    Like.UnderscoreFindsAnyText(Lower(knowHows[k].content));
  }

  /** A query without `%`, `_` or a backslash is a case-insensitive substring test. */
  lemma PlainQueryIsSubstring(text: string, q: string)
    requires forall i :: 0 <= i < |q| ==> !Like.Special(q[i])
    ensures ILike(text, q) <==> Contains(Lower(text), Lower(q))
  {
    forall i | 0 <= i < |q| ensures !Like.Special(Lower(q)[i]) {
      assert Lower(q)[i] == LowerChar(q[i]);
    }
    Like.PlainQueryIsSubstring(Lower(text), Lower(q));
  }

  /** A client never sees an entry that is hidden from clients. */
  lemma ClientSearchShowsOnlyPublic(knowHows: map<Id, KnowHow>, topics: map<Id, Topic>,
                                    clients: map<Id, Client>, caller: Caller, q: Option<string>, k: Id)
    requires caller.role == ClientRole
    requires Search(knowHows, topics, clients, caller, q).Ok?
    requires k in Search(knowHows, topics, clients, caller, q).value
    ensures knowHows[k].availableForClients
  {
  }

  /**
   * GET /know-how/:topic, behind `authorizeRole(['client', 'technician',
   * 'admin'])`. 404 for an unknown topic, 400 when the token carries no
   * client id, 404 for an unknown client. The result is every entry for
   * that topic and the client's system that clients may see.
   */
  function ForTopic(knowHows: map<Id, KnowHow>, topics: map<Id, Topic>, clients: map<Id, Client>,
                    caller: Caller, topic: string): (r: Result<map<Id, KnowHow>>)
    ensures caller.role == UserRole ==> r == Err(403)
    ensures caller.role != UserRole && TopicByName(topics, topic).None? ==> r == Err(404)
    ensures caller.role != UserRole && TopicByName(topics, topic).Some? && caller.clientId.None? ==> r == Err(400)
    ensures (caller.role != UserRole && TopicByName(topics, topic).Some? && caller.clientId.Some?
             && caller.clientId.value !in clients) ==> r == Err(404)
    ensures r.Ok? <==> caller.role != UserRole && TopicByName(topics, topic).Some?
                       && caller.clientId.Some? && caller.clientId.value in clients
    ensures r.Ok? ==> caller.role != UserRole && caller.clientId.Some? && caller.clientId.value in clients
    ensures r.Ok? ==> forall k :: k in r.value <==>
              k in knowHows && knowHows[k].topicId == TopicByName(topics, topic).value
              && knowHows[k].systemId == clients[caller.clientId.value].systemId && knowHows[k].availableForClients
    ensures r.Ok? ==> forall k :: k in r.value ==> r.value[k] == knowHows[k]
  {
    RouteListsAdmit(caller.role);
    Guarded(Everyone, caller.role,
      match TopicByName(topics, topic)
      case None => Err(404)
      case Some(tid) =>
        if caller.clientId.None? then Err(400)
        else if caller.clientId.value !in clients then Err(404)
        else
          var sys := clients[caller.clientId.value].systemId;
          Ok(Where(knowHows, (k: KnowHow) => k.topicId == tid && k.systemId == sys && k.availableForClients)))
  }

  /**
   * PUT /know-how/:id, behind `authorizeRole(['technician', 'admin'])`: a
   * non-empty content replaces the old one; a defined visibility flag
   * replaces the old one.
   */
  function UpdateKnowHow(caller: Role, knowHows: map<Id, KnowHow>, id: Id, content: Option<string>,
                         availableForClients: Option<bool>): (r: Result<map<Id, KnowHow>>)
    ensures caller !in {Admin, TechnicianRole} <==> r == Err(403)
    ensures caller in {Admin, TechnicianRole} && id !in knowHows <==> r == Err(404)
    ensures r.Ok? <==> caller in {Admin, TechnicianRole} && id in knowHows
    ensures r.Ok? || r in {Err(403), Err(404)}
    ensures r.Ok? ==> r.value.Keys == knowHows.Keys
    ensures r.Ok? ==> forall k :: k in knowHows && k != id ==> r.value[k] == knowHows[k]
    ensures r.Ok? ==> r.value[id].content == (if content.Some? && content.value != "" then content.value
                                              else knowHows[id].content)
    ensures r.Ok? ==> r.value[id].availableForClients == availableForClients.GetOr(knowHows[id].availableForClients)
    ensures r.Ok? ==> r.value[id].topicId == knowHows[id].topicId && r.value[id].systemId == knowHows[id].systemId
  {
    RouteListsAdmit(caller);
    Guarded(Staff, caller,
      if id !in knowHows then Err(404)
      else
        var k := knowHows[id];
        Ok(knowHows[id := k.(content := if content.Some? && content.value != "" then content.value else k.content,
                             availableForClients := availableForClients.GetOr(k.availableForClients))]))
  }

  /** DELETE /know-how/:id, behind `authorizeRole(['admin'])`: the shared delete rule. */
  function DeleteKnowHow(caller: Role, knowHows: map<Id, KnowHow>, id: Id): (r: Result<map<Id, KnowHow>>)
    ensures caller != Admin <==> r == Err(403)
    ensures caller == Admin && id !in knowHows <==> r == Err(404)
    ensures r.Ok? <==> caller == Admin && id in knowHows
    ensures r.Ok? ==> r.value.Keys == knowHows.Keys - {id}
    ensures r.Ok? ==> forall k :: k in r.value ==> r.value[k] == knowHows[k]
  {
    RouteListsAdmit(caller);
    Guarded(AdminsOnly, caller, Destroy(knowHows, id))
  }

  /** After a delete the entry's detail page answers 404 to everyone the route admits. */
  lemma DetailAfterDelete(knowHows: map<Id, KnowHow>, id: Id, role: Role)
    requires id in knowHows && role != UserRole
    ensures var r := DeleteKnowHow(Admin, knowHows, id);
            r.Ok? && Detail(r.value, role, id) == Err(404)
  {
  }

  /** An update never touches the (topic, system) key, so the registry stays one-per-pair. */
  lemma UpdateKeepsOnePerPair(caller: Role, knowHows: map<Id, KnowHow>, id: Id, content: Option<string>,
                              availableForClients: Option<bool>)
    requires OnePerPair(knowHows)
    ensures var r := UpdateKnowHow(caller, knowHows, id, content, availableForClients);
            r.Ok? ==> OnePerPair(r.value)
  {
  }

  /** GET /know-how/detail/:id, behind the same role list: the entry, or 404. */
  function Detail(knowHows: map<Id, KnowHow>, role: Role, id: Id): (r: Result<KnowHow>)
    ensures r.Ok? <==> role != UserRole && id in knowHows
    ensures r.Err? ==> r.status == (if role == UserRole then 403 else 404)
    ensures r.Ok? ==> r.value == knowHows[id]
  {
    RouteListsAdmit(role);
    Guarded(Everyone, role, if id in knowHows then Ok(knowHows[id]) else Err(404))
  }

  /** A created entry is what its detail page shows, to everyone the route admits. */
  lemma DetailAfterCreate(author: Role, reg: Registry, systems: map<Id, System>, input: KnowHowInput,
                          newTopicId: Id, newId: Id, role: Role)
    requires newTopicId !in reg.topics && newId !in reg.knowHows
    requires CreateKnowHow(author, reg, systems, input, newTopicId, newId).status == 201
    ensures var after := CreateKnowHow(author, reg, systems, input, newTopicId, newId).state;
            var shown := Detail(after.knowHows, role, newId);
            && (shown.Ok? <==> role != UserRole)
            && (shown.Ok? ==> shown.value.content == input.content.value
                              && shown.value.availableForClients == input.availableForClients.GetOr(false)
                              && after.topics[shown.value.topicId].name == input.topic.value)
  {
  }

  /**
   * An entry created visible to clients is listed on its topic page for a
   * caller whose client runs that system.
   */
  lemma ForTopicListsCreatedPublic(author: Role, reg: Registry, systems: map<Id, System>, input: KnowHowInput,
                                   newTopicId: Id, newId: Id, clients: map<Id, Client>, caller: Caller)
    requires newTopicId !in reg.topics && newId !in reg.knowHows
    requires CreateKnowHow(author, reg, systems, input, newTopicId, newId).status == 201
    requires input.availableForClients == Some(true)
    requires caller.role != UserRole && caller.clientId.Some? && caller.clientId.value in clients
    requires SystemByName(systems, input.system.value) == Some(clients[caller.clientId.value].systemId)
    ensures var after := CreateKnowHow(author, reg, systems, input, newTopicId, newId).state;
            var listed := ForTopic(after.knowHows, after.topics, clients, caller, input.topic.value);
            listed.Ok? && newId in listed.value && listed.value[newId].content == input.content.value
  {
  }

  /** The entries written for a topic. */
  function EntriesOf(knowHows: map<Id, KnowHow>, topicId: Id): set<Id> {
    set k | k in knowHows && knowHows[k].topicId == topicId
  }

  /**
   * GET /topics/with-count, behind the topic router's admin guard: every
   * topic with the number of entries written for it (the outer join counts
   * no entry as 0).
   */
  function TopicCounts(caller: Role, topics: map<Id, Topic>, knowHows: map<Id, KnowHow>): (r: Result<map<Id, nat>>)
    ensures caller != Admin <==> r == Err(403)
    ensures r.Ok? <==> caller == Admin
    ensures r.Ok? ==> r.value.Keys == topics.Keys
    ensures r.Ok? ==> forall t :: t in r.value ==> r.value[t] == |EntriesOf(knowHows, t)|
  {
    RouteListsAdmit(caller);
    Guarded(AdminsOnly, caller, Ok(map t | t in topics :: |EntriesOf(knowHows, t)|))
  }

  /** A successful create adds one to the count of its topic and leaves every other count alone. */
  lemma CreateCountsOnce(author: Role, reg: Registry, systems: map<Id, System>, input: KnowHowInput,
                         newTopicId: Id, newId: Id)
    requires newTopicId !in reg.topics && newId !in reg.knowHows
    requires CreateKnowHow(author, reg, systems, input, newTopicId, newId).status == 201
    ensures var r := CreateKnowHow(author, reg, systems, input, newTopicId, newId);
            var tid := r.state.knowHows[newId].topicId;
            var before := TopicCounts(Admin, r.state.topics, reg.knowHows).value;
            var after := TopicCounts(Admin, r.state.topics, r.state.knowHows).value;
            tid in after && after[tid] == before[tid] + 1
            && forall t :: t in after && t != tid ==> after[t] == before[t]
  {
    var r := CreateKnowHow(author, reg, systems, input, newTopicId, newId);
    var entry := r.state.knowHows[newId];
    var tid := entry.topicId;
    assert r.state.knowHows == reg.knowHows[newId := entry];
    assert EntriesOf(r.state.knowHows, tid) == EntriesOf(reg.knowHows, tid) + {newId};
    forall t | t != tid
      ensures EntriesOf(r.state.knowHows, t) == EntriesOf(reg.knowHows, t)
    {
    }
  }
}

=== FILE: like.dfy ===
/**
 * PostgreSQL `LIKE` patterns, which the Know-How search builds as `%q%`
 * from the user's query (section 9.7.1 of the PostgreSQL manual). In a
 * pattern `%` matches any run of characters, `_` matches any one
 * character, and a backslash makes the character after it literal; a
 * pattern that ends with a lone backslash is an error.
 */
module Like {
  import opened Tables
  import opened Text

  datatype Token = AnyRun | AnyOne | Literal(c: char)

  function Prepend(t: Token, rest: Option<seq<Token>>): Option<seq<Token>> {
    match rest
    case None => None
    case Some(ts) => Some([t] + ts)
  }

  /** The tokens of a pattern, or `None` when it ends with a lone escape. */
  function Tokens(p: string): Option<seq<Token>>
    decreases |p|
  {
    if p == [] then Some([])
    else if p[0] == '\\' then (if |p| == 1 then None else Prepend(Literal(p[1]), Tokens(p[2..])))
    else if p[0] == '%' then Prepend(AnyRun, Tokens(p[1..]))
    else if p[0] == '_' then Prepend(AnyOne, Tokens(p[1..]))
    else Prepend(Literal(p[0]), Tokens(p[1..]))
  }

  /** The whole text matches the tokens. */
  predicate Matches(ts: seq<Token>, s: string)
    decreases |ts|, |s|
  {
    if ts == [] then s == []
    else match ts[0]
      case AnyRun => Matches(ts[1..], s) || (s != [] && Matches(ts, s[1..]))
      case AnyOne => s != [] && Matches(ts[1..], s[1..])
      case Literal(c) => s != [] && s[0] == c && Matches(ts[1..], s[1..])
  }

  /** A pattern that ends with `%` always parses: a trailing escape takes the `%` as a literal. */
  lemma {:induction false} EndsWithPercentParses(s: string)
    ensures Tokens(s + "%").Some?
    decreases |s|
  {
    var p := s + "%";
    if s != [] {
      if s[0] == '\\' {
        if |s| >= 2 {
          assert p[2..] == s[2..] + "%";
          EndsWithPercentParses(s[2..]);
        } else {
          assert p[2..] == [];
        }
      } else {
        assert p[1..] == s[1..] + "%";
        EndsWithPercentParses(s[1..]);
      }
    }
  }

  /** The tokens of `%q%`, the pattern the search builds around a query. */
  function Around(q: string): (ts: seq<Token>)
    ensures Tokens("%" + q + "%") == Some(ts)
    ensures |ts| >= 2 && ts[0] == AnyRun
  {
    EndsWithPercentParses(q);
    assert ("%" + q + "%")[1..] == q + "%";
    Tokens("%" + q + "%").value
  }

  /** `text LIKE '%q%'`. */
  predicate ContainsLike(text: string, q: string) {
    Matches(Around(q), text)
  }

  /** A `%` in front matches the rest at some position of the text. */
  predicate MatchesFrom(ts: seq<Token>, s: string, k: int) {
    0 <= k <= |s| && Matches(ts, s[k..])
  }

  lemma {:induction false} AnyRunSkips(rest: seq<Token>, s: string)
    ensures Matches([AnyRun] + rest, s) <==> exists k :: MatchesFrom(rest, s, k)
    decreases |s|
  {
    var ts := [AnyRun] + rest;
    assert ts[1..] == rest;
    if Matches(ts, s) {
      if Matches(rest, s) {
        assert s[0..] == s;
        assert MatchesFrom(rest, s, 0);
      } else {
        AnyRunSkips(rest, s[1..]);
        var k :| MatchesFrom(rest, s[1..], k);
        assert s[1..][k..] == s[k + 1..];
        assert MatchesFrom(rest, s, k + 1);
      }
    }
    if exists k :: MatchesFrom(rest, s, k) {
      var k :| MatchesFrom(rest, s, k);
      if k == 0 {
        assert s[0..] == s;
      } else {
        assert s[1..][k - 1..] == s[k..];
        assert MatchesFrom(rest, s[1..], k - 1);
        AnyRunSkips(rest, s[1..]);
      }
    }
  }

  /** A lone `%` matches every text. */
  lemma {:induction false} AnyRunMatchesAll(s: string)
    ensures Matches([AnyRun], s)
    decreases |s|
  {
    if s != [] {
      AnyRunMatchesAll(s[1..]);
    }
  }

  /** The literal tokens of a string. */
  function Literals(q: string): (ts: seq<Token>)
    ensures |ts| == |q|
    decreases |q|
  {
    if q == [] then [] else [Literal(q[0])] + Literals(q[1..])
  }

  /** Literal tokens match exactly their own text, at the front. */
  lemma {:induction false} LiteralsMatchPrefix(q: string, rest: seq<Token>, s: string)
    ensures Matches(Literals(q) + rest, s) <==> StartsWith(s, q) && Matches(rest, s[|q|..])
    decreases |q|
  {
    if q != [] {
      var ts := Literals(q) + rest;
      assert ts[0] == Literal(q[0]);
      assert ts[1..] == Literals(q[1..]) + rest;
      if s != [] {
        LiteralsMatchPrefix(q[1..], rest, s[1..]);
        assert Matches(ts, s) <==> s[0] == q[0] && Matches(ts[1..], s[1..]);
        if |q| <= |s| {
          assert s[1..][|q| - 1..] == s[|q|..];
          assert s[..|q|] == [s[0]] + s[1..][..|q| - 1];
          assert q == [q[0]] + q[1..];
          assert StartsWith(s, q) <==> s[0] == q[0] && StartsWith(s[1..], q[1..]);
        }
      } else {
        assert !Matches(ts, s);
      }
    } else {
      assert Literals(q) + rest == rest && s[0..] == s;
    }
  }

  /** The pattern characters of LIKE. */
  predicate Special(c: char) {
    c == '%' || c == '_' || c == '\\'
  }

  /** `q` with a backslash in front of every pattern character, so that it means itself. */
  function Escape(q: string): (r: string)
    decreases |q|
  {
    if q == [] then [] else (if Special(q[0]) then ['\\', q[0]] else [q[0]]) + Escape(q[1..])
  }

  /** An escaped string parses to its literal tokens, followed by the tokens of what comes after. */
  lemma {:induction false} EscapeParses(q: string, rest: string)
    requires Tokens(rest).Some?
    ensures Tokens(Escape(q) + rest).Some? && Tokens(Escape(q) + rest).value == Literals(q) + Tokens(rest).value
    decreases |q|
  {
    if q != [] {
      EscapeParses(q[1..], rest);
      var p := Escape(q) + rest;
      var tail := Escape(q[1..]) + rest;
      if Special(q[0]) {
        assert p == ['\\', q[0]] + tail;
        assert p[2..] == tail;
        assert Tokens(p) == Prepend(Literal(q[0]), Tokens(tail));
      } else {
        assert p == [q[0]] + tail;
        assert p[1..] == tail;
        assert Tokens(p) == Prepend(Literal(q[0]), Tokens(tail));
      }
      assert Literals(q) + Tokens(rest).value == [Literal(q[0])] + (Literals(q[1..]) + Tokens(rest).value);
    } else {
      assert Escape(q) + rest == rest;
      assert Literals(q) + Tokens(rest).value == Tokens(rest).value;
    }
  }

  /** The pattern around an escaped query is a `%`, the query's literals and a `%`. */
  lemma AroundEscaped(q: string)
    ensures Around(Escape(q)) == [AnyRun] + Literals(q) + [AnyRun]
  {
    var p := "%" + Escape(q) + "%";
    assert p[1..] == Escape(q) + "%";
    EscapeParses(q, "%");
  }

  /** An escaped query is a plain substring test: `text LIKE '%' || escape(q) || '%'` iff `text.includes(q)`. */
  lemma EscapedIsSubstring(s: string, q: string)
    ensures ContainsLike(s, Escape(q)) <==> Contains(s, q)
  {
    AroundEscaped(q);
    var tail := Literals(q) + [AnyRun];
    assert [AnyRun] + Literals(q) + [AnyRun] == [AnyRun] + tail;
    AnyRunSkips(tail, s);
    if Contains(s, q) {
      var i :| 0 <= i <= |s| - |q| && OccursAt(s, q, i);
      LiteralsMatchPrefix(q, [AnyRun], s[i..]);
      assert s[i..][..|q|] == s[i..i + |q|];
      AnyRunMatchesAll(s[i..][|q|..]);
      assert MatchesFrom(tail, s, i);
    }
    if exists k :: MatchesFrom(tail, s, k) {
      var k :| MatchesFrom(tail, s, k);
      LiteralsMatchPrefix(q, [AnyRun], s[k..]);
      assert s[k..][..|q|] == s[k..k + |q|];
      assert OccursAt(s, q, k);
    }
  }

  /** A query without pattern characters is its own escape. */
  lemma {:induction false} PlainEscape(q: string)
    requires forall i :: 0 <= i < |q| ==> !Special(q[i])
    ensures Escape(q) == q
    decreases |q|
  {
    if q != [] {
      PlainEscape(q[1..]);
    }
  }

  /** A query without `%`, `_` or a backslash finds exactly the texts that contain it. */
  lemma PlainQueryIsSubstring(s: string, q: string)
    requires forall i :: 0 <= i < |q| ==> !Special(q[i])
    ensures ContainsLike(s, q) <==> Contains(s, q)
  {
    PlainEscape(q);
    EscapedIsSubstring(s, q);
  }

  /** The query `_` is a wildcard: it finds every non-empty text, whether or not it holds an underscore. */
  lemma UnderscoreFindsAnyText(s: string)
    ensures ContainsLike(s, "_") <==> s != []
  {
    var ts := Around("_");
    assert Tokens("%").value == [AnyRun] by { assert "%"[1..] == []; }
    assert Tokens("_%").value == [AnyOne, AnyRun] by { assert "_%"[1..] == "%"; }
    assert Tokens("%_%").value == [AnyRun, AnyOne, AnyRun] by { assert "%_%"[1..] == "_%"; }
    assert "%" + "_" + "%" == "%_%";
    assert ts == [AnyRun, AnyOne, AnyRun];
    assert ts[1..] == [AnyOne, AnyRun];
    assert ts[1..][1..] == [AnyRun];
    if s != [] {
      AnyRunMatchesAll(s[1..]);
      assert Matches(ts[1..], s);
    } else {
      assert !Matches(ts[1..], s);
    }
  }

  /** The query `%` finds every text. */
  lemma PercentFindsEverything(s: string)
    ensures ContainsLike(s, "%")
  {
    var ts := Around("%");
    assert Tokens("%").value == [AnyRun] by { assert "%"[1..] == []; }
    assert Tokens("%%").value == [AnyRun, AnyRun] by { assert "%%"[1..] == "%"; }
    assert Tokens("%%%").value == [AnyRun, AnyRun, AnyRun] by { assert "%%%"[1..] == "%%"; }
    assert "%" + "%" + "%" == "%%%";
    assert ts == [AnyRun, AnyRun, AnyRun];
    AnyRunMatchesAll(s);
    assert [AnyRun, AnyRun, AnyRun][1..] == [AnyRun, AnyRun];
    assert [AnyRun, AnyRun][1..] == [AnyRun];
  }
}

=== FILE: login_page.dfy ===
/**
 * The login screen: the client/technician tab, the checks run before the
 * credentials are handed to the application, and the two e-mail dialogs
 * (registration and forgotten password) that refuse an empty address.
 */
module LoginPage {
  import opened Tables
  import opened Text
  import opened ClientModel
  import ClientRoutes
  import UserRoutes
  import UserModel

  /** The client tab expects an e-mail address, the technician tab a user name. */
  datatype Tab = ClientTab | TechnicianTab

  datatype Refusal = EmailRequired | UsernameRequired | FieldsRequired

  /** What submitting the form does: an error shown, or a sign-in with the given credentials. */
  datatype Attempt = Refused(reason: Refusal) | SignIn(username: string, password: string)

  /**
   * handleFinish. The checks run in this order: on the client tab the
   * username must contain `@`; on the technician tab it must not; then
   * neither field may be empty. Only then are the trimmed credentials sent.
   */
  function Finish(tab: Tab, username: string, password: string): (a: Attempt)
    ensures tab == ClientTab && '@' !in username ==> a == Refused(EmailRequired)
    ensures tab == TechnicianTab && '@' in username ==> a == Refused(UsernameRequired)
    ensures a.SignIn? <==> && (tab == ClientTab ==> '@' in username)
                           && (tab == TechnicianTab ==> '@' !in username)
                           && username != "" && password != ""
    ensures a.SignIn? ==> a.username == Trim(username) && a.password == Trim(password)
  {
    if tab == ClientTab && '@' !in username then Refused(EmailRequired)
    else if tab == TechnicianTab && '@' in username then Refused(UsernameRequired)
    else if username == "" || password == "" then Refused(FieldsRequired)
    else SignIn(Trim(username), Trim(password))
  }

  /**
   * Trimming never removes the `@`: what the client tab signs in with is an
   * address-like name, what the technician tab signs in with has no `@`.
   */
  lemma SignInKeepsTabRule(tab: Tab, username: string, password: string)
    requires Finish(tab, username, password).SignIn?
    ensures var name := Finish(tab, username, password).username;
            (tab == ClientTab ==> '@' in name) && (tab == TechnicianTab ==> '@' !in name)
  {
    TrimKeepsNonSpace(username, '@');
  }

  /**
   * An empty username is refused on both tabs; because of the check order
   * the client tab reports the missing `@`, not the empty field.
   */
  lemma EmptyUsernameRefused(tab: Tab, password: string)
    ensures Finish(tab, "", password) == Refused(if tab == ClientTab then EmailRequired else FieldsRequired)
  {
  }

  /** A username of spaces passes the emptiness check and is sent as the empty string. */
  lemma BlankUsernameSentEmpty(password: string)
    requires password != ""
    ensures Finish(TechnicianTab, " ", password) == SignIn("", Trim(password))
  {
    assert '@' !in " ";
    assert Blank(" ");
    TrimEmptyIffBlank(" ");
  }

  /** The form's state: the selected tab and the error line. */
  datatype Form = Form(tab: Tab, error: Option<Refusal>)

  /** Submitting shows the refusal, or leaves the error line for the sign-in to fill. */
  function Submit(f: Form, username: string, password: string): (g: Form)
    ensures g.tab == f.tab
    ensures Finish(f.tab, username, password).Refused? ==> g.error == Some(Finish(f.tab, username, password).reason)
    ensures Finish(f.tab, username, password).SignIn? ==> g.error == f.error
  {
    match Finish(f.tab, username, password)
    case Refused(reason) => f.(error := Some(reason))
    case SignIn(_, _) => f
  }

  /**
   * Both form fields carry a `required` rule: the form library refuses to
   * call the submit handler while either value is empty, and marks the
   * empty fields instead. A value of spaces is not empty for this rule.
   */
  datatype Outcome = Blocked(usernameMissing: bool, passwordMissing: bool) | Handled(attempt: Attempt)

  function Validate(tab: Tab, username: string, password: string): (o: Outcome)
    ensures o.Blocked? <==> username == "" || password == ""
    ensures o.Blocked? ==> (o.usernameMissing <==> username == "") && (o.passwordMissing <==> password == "")
    ensures o.Handled? ==> o.attempt == Finish(tab, username, password)
  {
    if username == "" || password == "" then Blocked(username == "", password == "")
    else Handled(Finish(tab, username, password))
  }

  /** Pressing the sign-in button: a blocked form keeps its error line, a handled one runs the handler. */
  function Press(f: Form, username: string, password: string): (g: Form)
    ensures Validate(f.tab, username, password).Blocked? ==> g == f
    ensures Validate(f.tab, username, password).Handled? ==> g == Submit(f, username, password)
  {
    if Validate(f.tab, username, password).Blocked? then f else Submit(f, username, password)
  }

  /**
   * The handler's own emptiness check can never fire: what reaches it has
   * passed the required rules, so its refusals are only about the `@`.
   */
  lemma FieldsRequiredNeverShown(f: Form, username: string, password: string)
    requires f.error != Some(FieldsRequired)
    ensures Press(f, username, password).error != Some(FieldsRequired)
    ensures Validate(f.tab, username, password).Handled? ==>
              (Validate(f.tab, username, password).attempt.Refused? <==>
                 (f.tab == ClientTab) == ('@' !in username))
  {
  }

  /** An empty name is stopped by the form, on either tab, before the handler's `@` check. */
  lemma EmptyUsernameBlockedByForm(f: Form, password: string)
    ensures Validate(f.tab, "", password) == Blocked(true, password == "")
    ensures Press(f, "", password) == f
  {
  }

  /** Choosing a tab clears the error. */
  function SelectTab(f: Form, tab: Tab): (g: Form)
    ensures g.tab == tab && g.error.None?
  {
    Form(tab, None)
  }

  /** A refusal on one tab does not stay on screen after switching to the other. */
  lemma SwitchingClearsRefusal(f: Form, username: string, password: string, other: Tab)
    requires Submit(f, username, password).error.Some?
    ensures SelectTab(Submit(f, username, password), other).error.None?
    ensures SelectTab(Submit(f, username, password), other).tab == other
  {
  }

  /** The registration and forgotten-password dialogs: an empty address sends nothing. */
  function EmailRequest(email: string): (r: Option<string>)
    ensures r.None? <==> email == ""
    ensures r.Some? ==> r.value == email
  {
    if email == "" then None else Some(email)
  }

  /**
   * What the registration dialog sends never hits the server's
   * missing-address refusal: a 400 can only mean the client with that
   * address is already registered.
   */
  lemma DialogRegistrationRefusal(s: ClientRoutes.Stores, email: string, newUserId: Id, generated: string,
                                  hash: string -> string, mailOk: bool)
    requires newUserId !in s.users && EmailRequest(email).Some?
    ensures var r := ClientRoutes.RegisterByEmail(s, EmailRequest(email), newUserId, generated, hash, mailOk);
            r.status == 400 ==> exists k :: k in s.clients && s.clients[k].email == email && s.clients[k].userId.Some?
  {
    var r := ClientRoutes.RegisterByEmail(s, EmailRequest(email), newUserId, generated, hash, mailOk);
    var found := ClientRoutes.ClientByEmail(s.clients, email);
    if r.status == 400 && found.Some? {
      assert s.clients[found.value].email == email;
    }
  }

  /** What the forgotten-password dialog sends is never refused as a missing address. */
  lemma DialogResetNeverMissing(users: map<Id, UserModel.User>, clients: map<Id, Client>, email: string,
                                temp: string, hash: string -> string, mailOk: bool)
    requires EmailRequest(email).Some?
    ensures UserRoutes.ForgotPassword(users, clients, EmailRequest(email), temp, hash, mailOk).status != 400
  {
  }
}

=== FILE: notifications.dfy ===
/**
 * The client-side pending-task counter, driven by the socket events the
 * backend broadcasts: 'initialData' replaces the count, an 'upcomingTask'
 * notification adds one, and after unmount the listeners are gone.
 */
module Notifications {
  import opened Tables
  import opened Tasks
  import opened Reminders

  datatype Counter = Counter(count: int, listening: bool)

  /** Mounting the component registers the listeners. */
  function Mount(c: Counter): (r: Counter)
    ensures r.listening && r.count == c.count
  {
    c.(listening := true)
  }

  /** The cleanup function removes the listeners; the count is kept. */
  function Unmount(c: Counter): (r: Counter)
    ensures !r.listening && r.count == c.count
  {
    c.(listening := false)
  }

  /** One received event. */
  function Receive(c: Counter, e: Event): (r: Counter)
    ensures r.listening == c.listening
    ensures !c.listening ==> r == c
    ensures c.listening && e.InitialData? ==> r.count == e.pendingTasks
    ensures c.listening && e.Notification? && e.kind == "upcomingTask" ==> r.count == c.count + 1
    ensures c.listening && e.Notification? && e.kind != "upcomingTask" ==> r == c
  {
    if !c.listening then c
    else match e
      case InitialData(n) => c.(count := n)
      case Notification(kind, _) => if kind == "upcomingTask" then c.(count := c.count + 1) else c
  }

  /** A sequence of events, received in order. */
  function Run(c: Counter, events: seq<Event>): (r: Counter)
    decreases |events|
  {
    if events == [] then c else Run(Receive(c, events[0]), events[1..])
  }

  /** Number of 'upcomingTask' notifications among the events. */
  function UpcomingCount(events: seq<Event>): (n: nat)
    ensures n <= |events|
  {
    if events == [] then 0
    else (if events[0].Notification? && events[0].kind == "upcomingTask" then 1 else 0)
         + UpcomingCount(events[1..])
  }

  predicate NoInitialData(events: seq<Event>) {
    forall i :: 0 <= i < |events| ==> !events[i].InitialData?
  }

  /** Without an 'initialData', the count grows by the number of reminders received. */
  lemma {:induction false} RunWithoutInitialData(c: Counter, events: seq<Event>)
    requires c.listening && NoInitialData(events)
    ensures Run(c, events).listening
    ensures Run(c, events).count == c.count + UpcomingCount(events)
    decreases |events|
  {
    if events != [] {
      assert NoInitialData(events[1..]) by {
        forall i | 0 <= i < |events[1..]|
          ensures !events[1..][i].InitialData?
        {
          assert events[1..][i] == events[i + 1];
        }
      }
      RunWithoutInitialData(Receive(c, events[0]), events[1..]);
    }
  }

  lemma {:induction false} RunAppend(c: Counter, a: seq<Event>, b: seq<Event>)
    ensures Run(c, a + b) == Run(Run(c, a), b)
    decreases |a|
  {
    if a == [] {
      assert a + b == b;
    } else {
      assert (a + b)[0] == a[0];
      assert (a + b)[1..] == a[1..] + b;
      RunAppend(Receive(c, a[0]), a[1..], b);
    }
  }

  /**
   * The count equals the value of the last 'initialData' plus the number of
   * 'upcomingTask' notifications received after it.
   */
  lemma {:induction false} CountAfterLastInitialData(c: Counter, before: seq<Event>, n: int, after: seq<Event>)
    requires c.listening && NoInitialData(after)
    ensures Run(c, before + [InitialData(n)] + after).count == n + UpcomingCount(after)
  {
    RunAppend(c, before + [InitialData(n)], after);
    RunAppend(c, before, [InitialData(n)]);
    RunListening(c, before);
    var mid := Run(c, before + [InitialData(n)]);
    assert Run(Run(c, before), [InitialData(n)]) == Run(Receive(Run(c, before), InitialData(n)), []);
    RunWithoutInitialData(mid, after);
  }

  lemma {:induction false} RunListening(c: Counter, events: seq<Event>)
    ensures Run(c, events).listening == c.listening
    decreases |events|
  {
    if events != [] {
      RunListening(Receive(c, events[0]), events[1..]);
    }
  }

  /** After unmount, no event changes the counter. */
  lemma {:induction false} UnmountedIgnoresEvents(c: Counter, events: seq<Event>)
    ensures Run(Unmount(c), events) == Unmount(c)
    decreases |events|
  {
    if events != [] {
      UnmountedIgnoresEvents(c, events[1..]);
    }
  }

  /**
   * Whatever it showed before, a listening counter that receives a whole
   * sweep's broadcast ends at the backend's outstanding count.
   */
  lemma SweepResetsCounter(c: Counter, tasks: map<Id, Task>, technicians: map<Id, Technician>,
                           now: int, mailOk: Id -> bool)
    requires c.listening
    ensures Run(c, Sweep(tasks, technicians, now, mailOk).events).count == PendingCount(tasks)
  {
    EndsAtLastCount(c, Sweep(tasks, technicians, now, mailOk).events, PendingCount(tasks));
  }

  /** A listening counter whose last event is a count shows that count. */
  lemma EndsAtLastCount(c: Counter, events: seq<Event>, n: int)
    requires c.listening && |events| >= 1 && events[|events| - 1] == InitialData(n)
    ensures Run(c, events).count == n
  {
    var before := events[..|events| - 1];
    assert events == before + [InitialData(n)] + [];
    CountAfterLastInitialData(c, before, n, []);
  }
}

=== FILE: priority.dfy ===
/**
 * The technician dashboard's triage view: an integer priority score per
 * ticket (severity weighted by ten, plus whole days of age), a three-step
 * priority level, the severity tag colour, the filter bar and the
 * descending sort by score. `now` is the page's clock in milliseconds.
 */
module Priority {
  import opened Tables
  import opened Text
  import opened Sorting

  const DayMs: int := 86_400_000
  const SeverityWeight: int := 10
  const DateWeight: int := 1

  /** Whole days since creation, rounded down like `Math.floor`. */
  function DaysOld(now: int, createdAt: int): (d: int)
    ensures DayMs * d <= now - createdAt < DayMs * (d + 1)
    ensures now >= createdAt ==> d >= 0
  {
    (now - createdAt) / DayMs
  }

  /** Later clocks never give a smaller age. */
  lemma DaysOldMonotone(now1: int, now2: int, createdAt: int)
    requires now1 <= now2
    ensures DaysOld(now1, createdAt) <= DaysOld(now2, createdAt)
  {
  }

  function Score(severity: int, now: int, createdAt: int): int {
    severity * SeverityWeight + DaysOld(now, createdAt) * DateWeight
  }

  /** The score grows with severity and with age. */
  lemma ScoreMonotone(sev1: int, sev2: int, now1: int, now2: int, createdAt: int)
    requires sev1 <= sev2 && now1 <= now2
    ensures Score(sev1, now1, createdAt) <= Score(sev2, now2, createdAt)
  {
    DaysOldMonotone(now1, now2, createdAt);
  }

  /** One more severity point outweighs up to nine days of age. */
  lemma SeverityOutweighsDays(sev: int, now: int, createdAt1: int, createdAt2: int)
    requires 0 <= DaysOld(now, createdAt1) < 10 && 0 <= DaysOld(now, createdAt2) < 10
    ensures Score(sev, now, createdAt1) < Score(sev + 1, now, createdAt2)
  {
  }

  datatype Level = Low | Medium | High

  function LevelName(l: Level): string {
    match l
    case Low => "Nízká"
    case Medium => "Střední"
    case High => "Vysoká"
  }

  function LevelRank(l: Level): int {
    match l
    case Low => 0
    case Medium => 1
    case High => 2
  }

  /** The level starts low and is raised at 50 and again at 100. */
  function LevelOf(score: int): (l: Level)
    ensures l == High <==> score >= 100
    ensures l == Medium <==> 50 <= score < 100
    ensures l == Low <==> score < 50
  {
    var l := if score >= 50 then Medium else Low;
    if score >= 100 then High else l
  }

  /** A higher score never has a lower level. */
  lemma LevelMonotone(s1: int, s2: int)
    requires s1 <= s2
    ensures LevelRank(LevelOf(s1)) <= LevelRank(LevelOf(s2))
  {
  }

  /** A ticket's level never drops as it ages. */
  lemma LevelNeverDropsWithAge(severity: int, createdAt: int, now1: int, now2: int)
    requires now1 <= now2
    ensures LevelRank(LevelOf(Score(severity, now1, createdAt)))
            <= LevelRank(LevelOf(Score(severity, now2, createdAt)))
  {
    ScoreMonotone(severity, severity, now1, now2, createdAt);
    LevelMonotone(Score(severity, now1, createdAt), Score(severity, now2, createdAt));
  }

  /** On the day of creation the level is set by severity alone: 10 is high, 5..9 medium, lower is low. */
  lemma FreshTicketLevel(severity: int, now: int, createdAt: int)
    requires 1 <= severity <= 10 && createdAt <= now < createdAt + DayMs
    ensures LevelOf(Score(severity, now, createdAt)) == High <==> severity == 10
    ensures LevelOf(Score(severity, now, createdAt)) == Medium <==> 5 <= severity <= 9
    ensures LevelOf(Score(severity, now, createdAt)) == Low <==> severity <= 4
  {
    assert DaysOld(now, createdAt) == 0;
  }

  datatype TagColor = Green | Orange | Red

  /** The severity tag: red from 8, orange from 5, green below. */
  function SeverityColor(severity: int): (c: TagColor)
    ensures c == Red <==> severity >= 8
    ensures c == Orange <==> 5 <= severity < 8
    ensures c == Green <==> severity < 5
  {
    if severity >= 8 then Red
    else if severity >= 5 then Orange
    else Green
  }

  /** A ticket tagged orange or red is never of low priority once it exists. */
  lemma WarmTagIsNotLowPriority(severity: int, now: int, createdAt: int)
    requires SeverityColor(severity) != Green && now >= createdAt
    ensures LevelOf(Score(severity, now, createdAt)) != Low
  {
  }

  /** A ticket as the staff list delivers it, with its client's name and address when included. */
  datatype DashTicket = DashTicket(
    id: Id,
    topic: string,
    severity: int,
    status: string,
    createdAt: int,
    clientName: Option<string>,
    clientAddress: Option<string>)

  /** The filter bar; each control is inactive while cleared (falsy). */
  datatype Filters = Filters(
    severity: Option<int>,
    level: Option<Level>,
    topic: Option<string>,
    dateRange: Option<(int, int)>,
    search: string)

  const NoFilters: Filters := Filters(None, None, None, None, "")

  function DigitChar(d: int): (c: char)
    requires 0 <= d < 10
    ensures '0' <= c <= '9'
  {
    ('0' as int + d) as char
  }

  /** The decimal text of a number, as `Array.prototype.join` renders it. */
  function DecimalText(n: nat): (r: string)
    ensures |r| >= 1
    ensures forall i :: 0 <= i < |r| ==> '0' <= r[i] <= '9'
  {
    if n < 10 then [DigitChar(n)] else DecimalText(n / 10) + [DigitChar(n % 10)]
  }

  /** Id, client name and client address joined by spaces; a missing client contributes empty text. */
  function SearchText(t: DashTicket): string {
    Join([DecimalText(t.id), t.clientName.GetOr(""), t.clientAddress.GetOr("")], " ")
  }

  predicate Matches(f: Filters, t: DashTicket, now: int) {
    (f.severity.Some? && f.severity.value != 0 ==> t.severity == f.severity.value)
    && (f.level.Some? ==> LevelOf(Score(t.severity, now, t.createdAt)) == f.level.value)
    && (f.topic.Some? && f.topic.value != "" ==> t.topic == f.topic.value)
    && (f.dateRange.Some? ==> f.dateRange.value.0 <= t.createdAt <= f.dateRange.value.1)
    && (f.search != "" ==> Contains(Lower(SearchText(t)), Lower(f.search)))
  }

  /** The tickets that pass every active filter, in their delivered order. */
  function Visible(tickets: seq<DashTicket>, f: Filters, now: int): (r: seq<DashTicket>)
    ensures |r| <= |tickets|
    ensures forall t :: t in r <==> t in tickets && Matches(f, t, now)
  {
    Filter(tickets, (t: DashTicket) => Matches(f, t, now))
  }

  /** With every control cleared the whole list is shown. */
  lemma NoFiltersShowAll(tickets: seq<DashTicket>, now: int)
    ensures Visible(tickets, NoFilters, now) == tickets
  {
    FilterKeepsAll(tickets, (t: DashTicket) => Matches(NoFilters, t, now));
  }

  lemma LowerDigits(s: string)
    requires forall i :: 0 <= i < |s| ==> '0' <= s[i] <= '9'
    ensures Lower(s) == s
  {
  }

  /** Typing a ticket's id into the search box keeps that ticket. */
  lemma SearchFindsId(t: DashTicket, now: int)
    ensures Matches(Filters(None, None, None, None, DecimalText(t.id)), t, now)
  {
    var idText := DecimalText(t.id);
    var parts := [idText, t.clientName.GetOr(""), t.clientAddress.GetOr("")];
    var rest := " " + Join(parts[1..], " ");
    assert SearchText(t) == idText + rest;
    LowerAppend(idText, rest);
    LowerDigits(idText);
    assert OccursAt(Lower(SearchText(t)), Lower(idText), 0);
  }

  /** Descending score as an ascending rank. */
  function ByScore(t: DashTicket, now: int): Rank {
    Rank(-Score(t.severity, now, t.createdAt), 0)
  }

  /** The displayed list: the visible tickets, highest score first. */
  function Displayed(tickets: seq<DashTicket>, f: Filters, now: int): (r: seq<DashTicket>)
    ensures multiset(r) == multiset(Visible(tickets, f, now))
    ensures forall i, j :: 0 <= i < j < |r| ==>
              Score(r[i].severity, now, r[i].createdAt) >= Score(r[j].severity, now, r[j].createdAt)
    ensures forall t :: t in r <==> t in tickets && Matches(f, t, now)
  {
    var shown := Visible(tickets, f, now);
    var key := (t: DashTicket) => ByScore(t, now);
    var r := SortBy(shown, key);
    assert forall i, j :: 0 <= i < j < |r| ==> RankLe(key(r[i]), key(r[j]));
    SortByKeepsMembers(shown, key);
    r
  }
}

=== FILE: report_form.dfy ===
/**
 * The report page: the used-material table and the stock deduction it
 * sends, the OP-code field tied to the selected client, the OP-code
 * assignment it requests before creating a report, and the search box over
 * the report list.
 */
module ReportForm {
  import opened Tables
  import opened Text
  import opened ClientModel
  import Reports
  import Warehouse
  import ClientRoutes

  // ---------------------------------------------------------------------
  // Materials and stock
  // ---------------------------------------------------------------------

  /** A warehouse row in the form, with the quantity typed in for this report. */
  datatype Material = Material(id: Id, name: string, quantity: int, usedQuantity: Option<int>)

  /** The input's bounds: a used quantity never above the stock shown. */
  predicate Bounded(m: Material) {
    m.usedQuantity.None? || (0 <= m.usedQuantity.value <= m.quantity)
  }

  /** The number input with `min={0}` and `max={quantity}`: out-of-range values are pulled back to the bounds. */
  function Clamp(v: int, quantity: int): (r: int)
    ensures quantity >= 0 ==> 0 <= r <= quantity
    ensures 0 <= v <= quantity ==> r == v
  {
    if v > quantity then quantity else if v < 0 then 0 else v
  }

  /** handleMaterialChange for the used quantity: every row with that id takes the new value. */
  function SetUsed(materials: seq<Material>, id: Id, v: int): (r: seq<Material>)
    ensures |r| == |materials|
    ensures forall i :: 0 <= i < |r| ==> r[i].id == materials[i].id && r[i].quantity == materials[i].quantity
    ensures forall i :: 0 <= i < |r| && materials[i].id != id ==> r[i] == materials[i]
    ensures forall i :: 0 <= i < |r| && materials[i].id == id ==>
              r[i].usedQuantity == Some(Clamp(v, materials[i].quantity))
    decreases |materials|
  {
    if materials == [] then []
    else
      var m := materials[0];
      var head := if m.id == id then m.(usedQuantity := Some(Clamp(v, m.quantity))) else m;
      var rest := SetUsed(materials[1..], id, v);
      assert forall i :: 1 <= i < |materials| ==> materials[i] == materials[1..][i - 1];
      [head] + rest
  }

  /** Editing a quantity keeps every row within its bounds, as long as stock is not negative. */
  lemma SetUsedKeepsBounds(materials: seq<Material>, id: Id, v: int)
    requires forall i :: 0 <= i < |materials| ==> Bounded(materials[i]) && materials[i].quantity >= 0
    ensures forall i :: 0 <= i < |materials| ==> Bounded(SetUsed(materials, id, v)[i])
  {
  }

  predicate IsUsed(m: Material) {
    m.usedQuantity.Some? && m.usedQuantity.value > 0
  }

  function ToUsed(m: Material): Reports.UsedMaterial
    requires IsUsed(m)
  {
    Reports.UsedMaterial(m.id, m.name, m.usedQuantity.value, m.quantity - m.usedQuantity.value)
  }

  /**
   * The used-material list of handleSubmit: the rows with a used quantity
   * above zero, in table order, each with what remains in stock.
   */
  function UsedMaterials(materials: seq<Material>): (r: seq<Reports.UsedMaterial>)
    ensures |r| <= |materials|
    ensures forall u :: u in r <==> exists m :: m in materials && IsUsed(m) && u == ToUsed(m)
    ensures forall u :: u in r ==> u.usedQuantity > 0
    decreases |materials|
  {
    if materials == [] then []
    else
      var rest := UsedMaterials(materials[1..]);
      assert forall m :: m in materials <==> m == materials[0] || m in materials[1..];
      if IsUsed(materials[0]) then [ToUsed(materials[0])] + rest else rest
  }

  /** The list keeps table order: the rows of a longer table come after those of its first part. */
  lemma {:induction false} UsedMaterialsAppend(a: seq<Material>, b: seq<Material>)
    ensures UsedMaterials(a + b) == UsedMaterials(a) + UsedMaterials(b)
    decreases |a|
  {
    if a == [] {
      assert a + b == b;
    } else {
      assert (a + b)[0] == a[0];
      assert (a + b)[1..] == a[1..] + b;
      UsedMaterialsAppend(a[1..], b);
    }
  }

  /** With the input bounds respected, no used material leaves a negative remainder. */
  lemma {:induction false} RemainderNonNegative(materials: seq<Material>)
    requires forall i :: 0 <= i < |materials| ==> Bounded(materials[i])
    ensures forall u :: u in UsedMaterials(materials) ==> u.remainingQuantity >= 0
    decreases |materials|
  {
    if materials != [] {
      assert forall i :: 0 <= i < |materials| - 1 ==> materials[1..][i] == materials[i + 1];
      RemainderNonNegative(materials[1..]);
    }
  }

  /** The stock requests after a report is created: the remainder of each used material. */
  function StockUpdates(used: seq<Reports.UsedMaterial>): (r: seq<(Id, int)>)
    ensures |r| == |used|
    ensures forall i :: 0 <= i < |r| ==> r[i] == (used[i].id, used[i].remainingQuantity)
    decreases |used|
  {
    if used == [] then []
    else [(used[0].id, used[0].remainingQuantity)] + StockUpdates(used[1..])
  }

  /**
   * Every stock request the form sends passes the warehouse's quantity
   * check; for an item still in store it sets the quantity and keeps the
   * name and price.
   */
  lemma StockRequestsAccepted(materials: seq<Material>, items: map<Id, Warehouse.Item>, i: nat)
    requires forall j :: 0 <= j < |materials| ==> Bounded(materials[j])
    requires i < |StockUpdates(UsedMaterials(materials))|
    ensures var (id, q) := StockUpdates(UsedMaterials(materials))[i];
      && q >= 0
      && Warehouse.UpdateItem(items, id, None, None, Some(q)) != Err(400)
      && (id in items ==> Warehouse.UpdateItem(items, id, None, None, Some(q))
                          == Ok(items[id := items[id].(quantity := Some(q))]))
  {
    var used := UsedMaterials(materials);
    RemainderNonNegative(materials);
    assert used[i] in used;
  }

  // ---------------------------------------------------------------------
  // OP code of the selected client
  // ---------------------------------------------------------------------

  /** A client as the page loads it. */
  datatype ClientView = ClientView(id: Id, opCodes: Option<seq<string>>)

  predicate HasCodes(c: ClientView) {
    c.opCodes.Some? && |c.opCodes.value| > 0
  }

  /** handleClientChange: the field takes the client's first OP code, or is emptied. */
  function OpCodeOnSelect(c: ClientView): (code: string)
    ensures HasCodes(c) ==> code == c.opCodes.value[0]
    ensures !HasCodes(c) ==> code == ""
  {
    if HasCodes(c) then c.opCodes.value[0] else ""
  }

  /**
   * handleValuesChange for the OP field: while the selected client has
   * codes, a non-empty value other than its first code is put back to the
   * first code. Emptying the field is not reverted.
   */
  function OpCodeOnEdit(selected: Option<ClientView>, typed: string): (code: string)
    ensures selected.Some? && HasCodes(selected.value) && typed != "" ==> code == selected.value.opCodes.value[0]
    ensures selected.None? || !HasCodes(selected.value) || typed == "" ==> code == typed
  {
    if typed != "" && selected.Some? && HasCodes(selected.value) && typed != selected.value.opCodes.value[0]
    then selected.value.opCodes.value[0]
    else typed
  }

  /** Whatever is typed after selecting a client with codes, the field holds the first code or nothing. */
  lemma FieldStaysOnFirstCode(c: ClientView, typed: string)
    requires HasCodes(c)
    ensures OpCodeOnEdit(Some(c), typed) in {OpCodeOnSelect(c), ""}
  {
  }

  /** handleSubmit: the assign request is sent only for a non-empty code the client does not have yet. */
  predicate AssignSent(selected: Option<ClientView>, code: string) {
    selected.Some? && code != "" && code !in selected.value.opCodes.GetOr([])
  }

  /**
   * The endpoint the form calls appends without checking for duplicates;
   * the form's own check keeps a client's list free of repeats.
   */
  lemma FormKeepsCodesDistinct(clients: map<Id, Client>, c: ClientView, code: string)
    requires c.id in clients && clients[c.id].opCodes == c.opCodes
    requires Reports.NoDuplicates(c.opCodes.GetOr([]))
    ensures var after := if AssignSent(Some(c), code) then ClientRoutes.AssignOp(clients, c.id, code)
                         else Ok(clients);
            after.Ok? ==> Reports.NoDuplicates(after.value[c.id].opCodes.GetOr([]))
  {
    if AssignSent(Some(c), code) {
      var r := ClientRoutes.AssignOp(clients, c.id, code);
      if r.Ok? {
        var existing := c.opCodes.GetOr([]);
        var updated := r.value[c.id].opCodes.value;
        assert updated == existing + [code];
        forall i, j | 0 <= i < j < |updated| ensures updated[i] != updated[j] {
          if j == |existing| {
            assert updated[i] == existing[i];
            assert existing[i] in existing;
          }
        }
      }
    }
  }

  // ---------------------------------------------------------------------
  // Search
  // ---------------------------------------------------------------------

  /** A row of the report list; `date` is shown through the page's DD.MM.YYYY formatter. */
  datatype ReportRow = ReportRow(clientName: Option<string>, technicianName: Option<string>,
                                 opCode: Option<string>, date: int)

  predicate RowMatches(row: ReportRow, value: string, dateText: int -> string) {
    Contains(Lower(row.clientName.GetOr("")), value)
    || Contains(Lower(row.technicianName.GetOr("")), value)
    || Contains(Lower(row.opCode.GetOr("")), value)
    || Contains(Lower(dateText(row.date)), value)
  }

  /**
   * handleSearch: the term is lower-cased and trimmed; an empty term
   * restores the full list, otherwise a row stays when its client name,
   * technician name, OP code or formatted date contains the term.
   */
  function SearchReports(rows: seq<ReportRow>, typed: string, dateText: int -> string): (r: seq<ReportRow>)
    ensures Blank(typed) ==> r == rows
    ensures |r| <= |rows|
    ensures !Blank(typed) ==> forall row :: row in r <==> row in rows && RowMatches(row, Trim(Lower(typed)), dateText)
  {
    var value := Trim(Lower(typed));
    BlankLower(typed);
    TrimEmptyIffBlank(Lower(typed));
    if value == "" then rows
    else Filter(rows, (row: ReportRow) => RowMatches(row, value, dateText))
  }

  /** Lower-casing never turns text blank or non-blank. */
  lemma BlankLower(s: string)
    ensures Blank(Lower(s)) <==> Blank(s)
  {
    assert forall i :: 0 <= i < |s| ==> (IsSpace(Lower(s)[i]) <==> IsSpace(s[i]));
  }

  /** Searching for a report's own OP code, in any letter case, keeps that report. */
  lemma SearchByOpCodeFindsReport(rows: seq<ReportRow>, row: ReportRow, dateText: int -> string)
    requires row in rows && row.opCode.Some? && ReportFormat(row.opCode.value)
    ensures row in SearchReports(rows, row.opCode.value, dateText)
  {
    var code := row.opCode.value;
    var low := Lower(code);
    assert EdgeClean(low);
    TrimClean(low);
    assert OccursAt(low, low, 0);
  }
}

=== FILE: reports.dfy ===
/**
 * The service-report handlers: creation with its required fields, the
 * filtered listing, update with its change log, deletion, the version
 * history numbering and the de-duplicating OP-code assignment.
 *
 * Dates are integer timestamps; a field the request leaves out (or sends
 * falsy) is `None`. Costs are floating point and are not part of the model.
 */
module Reports {
  import opened Tables
  import opened ClientModel

  /** One warehouse material as the report form records it. */
  datatype UsedMaterial = UsedMaterial(id: Id, name: string, usedQuantity: int, remainingQuantity: int)

  /** A material typed in by hand. */
  datatype CustomMaterial = CustomMaterial(name: string, quantity: int, chargeCustomer: bool)

  /** The `materialUsed` JSON column. */
  datatype MaterialUse = MaterialUse(warehouse: seq<UsedMaterial>, custom: seq<CustomMaterial>)

  /** A Report row; `date` and the four references are NOT NULL. */
  datatype Report = Report(
    date: int,
    description: Option<string>,
    technicianId: Id,
    clientId: Id,
    opCode: Option<string>,
    systemId: Id,
    componentId: Id,
    materialUsed: Option<MaterialUse>)

  /** The body of POST /reports. */
  datatype ReportInput = ReportInput(
    date: Option<int>,
    description: Option<string>,
    technicianId: Option<Id>,
    clientId: Option<Id>,
    opCode: Option<string>,
    systemId: Option<Id>,
    componentId: Option<Id>,
    materialUsed: Option<MaterialUse>)

  /** The five fields the handler insists on. */
  predicate Complete(input: ReportInput) {
    input.date.Some? && input.technicianId.Some? && input.clientId.Some?
    && input.systemId.Some? && input.componentId.Some?
  }

  // ---------------------------------------------------------------------
  // Create
  // ---------------------------------------------------------------------

  /**
   * POST /reports: the five required fields are checked in the order date,
   * technician, client, system, component, each missing one giving 400.
   * The model's OP-code rule then rejects a malformed code, which the
   * handler's catch also answers with 400.
   */
  function CreateReport(reports: map<Id, Report>, input: ReportInput, newId: Id): (r: Result<map<Id, Report>>)
    requires newId !in reports
    ensures r.Err? ==> r.status == 400
    ensures r.Ok? <==> Complete(input) && ReportOpCodeValid(input.opCode)
    ensures r.Ok? ==> r.value.Keys == reports.Keys + {newId}
    ensures r.Ok? ==> forall k :: k in reports ==> r.value[k] == reports[k]
    ensures r.Ok? ==>
      var made := r.value[newId];
      && Some(made.date) == input.date
      && Some(made.technicianId) == input.technicianId
      && Some(made.clientId) == input.clientId
      && Some(made.systemId) == input.systemId
      && Some(made.componentId) == input.componentId
      && made.opCode == input.opCode
      && made.description == input.description
      && made.materialUsed == input.materialUsed
  {
    if input.date.None? then Err(400)
    else if input.technicianId.None? then Err(400)
    else if input.clientId.None? then Err(400)
    else if input.systemId.None? then Err(400)
    else if input.componentId.None? then Err(400)
    else if !ReportOpCodeValid(input.opCode) then Err(400)
    else
      Ok(reports[newId := Report(input.date.value, input.description, input.technicianId.value,
                                 input.clientId.value, input.opCode, input.systemId.value,
                                 input.componentId.value, input.materialUsed)])
  }

  /**
   * The checks are independent of the store and of the other fields: a
   * missing date is refused whatever else is sent, and so is every other
   * missing required field.
   */
  lemma MissingFieldRefused(reports: map<Id, Report>, input: ReportInput, newId: Id)
    requires newId !in reports
    requires !Complete(input)
    ensures CreateReport(reports, input, newId) == Err(400)
  {
  }

  /** A complete report without an OP code is always created. */
  lemma CompleteWithoutCodeCreated(reports: map<Id, Report>, input: ReportInput, newId: Id)
    requires newId !in reports
    requires Complete(input) && input.opCode.None?
    ensures CreateReport(reports, input, newId).Ok?
  {
  }

  // ---------------------------------------------------------------------
  // List
  // ---------------------------------------------------------------------

  /** The query string of GET /reports; an absent or empty parameter is `None`. */
  datatype ReportQuery = ReportQuery(
    technicianId: Option<Id>,
    clientId: Option<Id>,
    status: Option<string>,
    fromDate: Option<int>,
    toDate: Option<int>)

  const NoQuery: ReportQuery := ReportQuery(None, None, None, None, None)

  predicate InRange(q: ReportQuery, date: int) {
    (q.fromDate.Some? ==> q.fromDate.value <= date) && (q.toDate.Some? ==> date <= q.toDate.value)
  }

  predicate Selected(q: ReportQuery, rep: Report) {
    (q.technicianId.Some? ==> rep.technicianId == q.technicianId.value)
    && (q.clientId.Some? ==> rep.clientId == q.clientId.value)
    && InRange(q, rep.date)
  }

  /**
   * GET /reports: each present parameter adds one condition. The Report
   * table has no status column, so a status parameter makes the query
   * fail (500).
   */
  function ListReports(reports: map<Id, Report>, q: ReportQuery): (r: Result<map<Id, Report>>)
    ensures q.status.Some? <==> r == Err(500)
    ensures r.Ok? <==> q.status.None?
    ensures r.Ok? ==> forall k :: k in r.value ==> k in reports && r.value[k] == reports[k]
    ensures r.Ok? ==> forall k :: k in reports ==>
      (k in r.value <==>
        && (q.technicianId.Some? ==> reports[k].technicianId == q.technicianId.value)
        && (q.clientId.Some? ==> reports[k].clientId == q.clientId.value)
        && (q.fromDate.Some? ==> q.fromDate.value <= reports[k].date)
        && (q.toDate.Some? ==> reports[k].date <= q.toDate.value))
  {
    if q.status.Some? then Err(500)
    else Ok(Where(reports, (rep: Report) => Selected(q, rep)))
  }

  /** Without parameters every report is listed. */
  lemma EmptyQueryListsAll(reports: map<Id, Report>)
    ensures ListReports(reports, NoQuery) == Ok(reports)
  {
    var r := ListReports(reports, NoQuery).value;
    assert forall k :: k in reports ==> k in r;
    assert forall k :: k in r ==> r[k] == reports[k];
    assert r == reports;
  }

  /** `b` asks for everything `a` asks for, and perhaps more. */
  predicate Refines(a: ReportQuery, b: ReportQuery) {
    && (a.technicianId.Some? ==> b.technicianId == a.technicianId)
    && (a.clientId.Some? ==> b.clientId == a.clientId)
    && (a.fromDate.Some? ==> b.fromDate.Some? && b.fromDate.value >= a.fromDate.value)
    && (a.toDate.Some? ==> b.toDate.Some? && b.toDate.value <= a.toDate.value)
    && b.status == a.status
  }

  /** Adding or tightening a parameter never lists more reports. */
  lemma MoreParametersListFewer(reports: map<Id, Report>, a: ReportQuery, b: ReportQuery)
    requires Refines(a, b) && a.status.None?
    ensures ListReports(reports, b).value.Keys <= ListReports(reports, a).value.Keys
  {
  }

  // ---------------------------------------------------------------------
  // Update and change log
  // ---------------------------------------------------------------------

  /** The body of PUT /reports/:id; a field left out keeps its value. */
  datatype ReportPatch = ReportPatch(
    date: Option<int>,
    description: Option<string>,
    technicianId: Option<Id>,
    clientId: Option<Id>,
    opCode: Option<string>,
    systemId: Option<Id>,
    componentId: Option<Id>,
    materialUsed: Option<MaterialUse>)

  const EmptyPatch: ReportPatch := ReportPatch(None, None, None, None, None, None, None, None)

  /** One ChangeLog row: the report, the submitted body and the time. */
  datatype Change = Change(reportId: Id, changes: ReportPatch, changedAt: int)

  datatype Ledger = Ledger(reports: map<Id, Report>, log: seq<Change>)

  function Patched(rep: Report, p: ReportPatch): Report {
    Report(p.date.GetOr(rep.date),
           if p.description.Some? then p.description else rep.description,
           p.technicianId.GetOr(rep.technicianId),
           p.clientId.GetOr(rep.clientId),
           if p.opCode.Some? then p.opCode else rep.opCode,
           p.systemId.GetOr(rep.systemId),
           p.componentId.GetOr(rep.componentId),
           if p.materialUsed.Some? then p.materialUsed else rep.materialUsed)
  }

  /**
   * PUT /reports/:id: 404 for an unknown report; a supplied OP code that
   * breaks the format fails validation (500). Otherwise the supplied fields
   * are written and exactly one ChangeLog entry records the body.
   */
  function UpdateReport(l: Ledger, id: Id, p: ReportPatch, now: int): (r: Result<Ledger>)
    ensures id !in l.reports <==> r == Err(404)
    ensures r.Ok? || r in {Err(404), Err(500)}
    ensures id in l.reports && p.opCode.Some? && !ReportOpCodeValid(p.opCode) ==> r == Err(500)
    ensures r.Ok? <==> id in l.reports && (p.opCode.None? || ReportOpCodeValid(p.opCode))
    ensures r.Ok? ==> r.value.log == l.log + [Change(id, p, now)]
    ensures r.Ok? ==> r.value.reports.Keys == l.reports.Keys
    ensures r.Ok? ==> forall k :: k in l.reports && k != id ==> r.value.reports[k] == l.reports[k]
    ensures r.Ok? ==>
      var before := l.reports[id];
      var after := r.value.reports[id];
      && after.date == p.date.GetOr(before.date)
      && after.technicianId == p.technicianId.GetOr(before.technicianId)
      && after.clientId == p.clientId.GetOr(before.clientId)
      && after.systemId == p.systemId.GetOr(before.systemId)
      && after.componentId == p.componentId.GetOr(before.componentId)
      && (p.opCode.Some? ==> after.opCode == p.opCode)
      && (p.opCode.None? ==> after.opCode == before.opCode)
      && after.description == (if p.description.Some? then p.description else before.description)
      && after.materialUsed == (if p.materialUsed.Some? then p.materialUsed else before.materialUsed)
  {
    if id !in l.reports then Err(404)
    else if p.opCode.Some? && !ReportOpCodeValid(p.opCode) then Err(500)
    else Ok(Ledger(l.reports[id := Patched(l.reports[id], p)], l.log + [Change(id, p, now)]))
  }

  /**
   * An empty body changes no report, yet it is still logged as a change:
   * the log records requests, not differences.
   */
  lemma EmptyUpdateIsLoggedOnly(l: Ledger, id: Id, now: int)
    requires id in l.reports
    ensures UpdateReport(l, id, EmptyPatch, now) == Ok(Ledger(l.reports, l.log + [Change(id, EmptyPatch, now)]))
  {
    assert Patched(l.reports[id], EmptyPatch) == l.reports[id];
    assert l.reports[id := l.reports[id]] == l.reports;
  }

  /** Entries of a log that belong to one report. */
  function Entries(log: seq<Change>, id: Id): (n: nat)
    ensures n <= |log|
  {
    if log == [] then 0
    else Entries(log[..|log| - 1], id) + (if log[|log| - 1].reportId == id then 1 else 0)
  }

  /**
   * Every successful update adds one entry to the updated report's history
   * and none to any other report's.
   */
  lemma {:induction false} UpdateLogsOnce(l: Ledger, id: Id, p: ReportPatch, now: int, other: Id)
    requires UpdateReport(l, id, p, now).Ok?
    ensures Entries(UpdateReport(l, id, p, now).value.log, id) == Entries(l.log, id) + 1
    ensures other != id ==> Entries(UpdateReport(l, id, p, now).value.log, other) == Entries(l.log, other)
  {
    var log := UpdateReport(l, id, p, now).value.log;
    assert log[..|log| - 1] == l.log;
  }

  // ---------------------------------------------------------------------
  // Version history
  // ---------------------------------------------------------------------

  datatype Version = Version(reportId: Id, versionNumber: int, changes: string, createdBy: string)

  /** The highest version number of a report among the listed rows, if it has any. */
  function HighestAmong(versions: map<Id, Version>, reportId: Id, ids: seq<Id>): (r: Option<int>)
    requires forall k :: k in ids ==> k in versions
    ensures r.None? <==> forall k :: k in ids ==> versions[k].reportId != reportId
    ensures r.Some? ==> exists k :: k in ids && versions[k].reportId == reportId
                                    && versions[k].versionNumber == r.value
    ensures r.Some? ==> forall k :: k in ids && versions[k].reportId == reportId ==>
                          versions[k].versionNumber <= r.value
    decreases |ids|
  {
    if ids == [] then None
    else
      assert forall k :: k in ids <==> k == ids[0] || k in ids[1..];
      var rest := HighestAmong(versions, reportId, ids[1..]);
      var v := versions[ids[0]];
      if v.reportId != reportId then rest
      else if rest.Some? && rest.value >= v.versionNumber then rest
      else Some(v.versionNumber)
  }

  /** `Version.findOne({ where: { reportId }, order: [['versionNumber', 'DESC']] })`, by its number. */
  function LastVersion(versions: map<Id, Version>, reportId: Id): (r: Option<int>)
    ensures r.None? <==> forall k :: k in versions ==> versions[k].reportId != reportId
    ensures r.Some? ==> exists k :: k in versions && versions[k].reportId == reportId
                                    && versions[k].versionNumber == r.value
    ensures r.Some? ==> forall k :: k in versions && versions[k].reportId == reportId ==>
                          versions[k].versionNumber <= r.value
  {
    HighestAmong(versions, reportId, SortedIds(versions.Keys))
  }

  /** The number the next version of a report gets: one past its highest, or 1. */
  function NextNumber(versions: map<Id, Version>, reportId: Id): (n: int)
    ensures (forall k :: k in versions ==> versions[k].reportId != reportId) ==> n == 1
    ensures forall k :: k in versions && versions[k].reportId == reportId ==> versions[k].versionNumber < n
    ensures (exists k :: k in versions && versions[k].reportId == reportId) ==>
              exists k :: k in versions && versions[k].reportId == reportId && versions[k].versionNumber == n - 1
  {
    var last := LastVersion(versions, reportId);
    if last.Some? then last.value + 1 else 1
  }

  /**
   * POST /reports/:id/save-version: 404 for an unknown report; otherwise a
   * new row numbered one past the report's highest number, or 1 for its
   * first version.
   */
  function SaveVersion(reports: map<Id, Report>, versions: map<Id, Version>, id: Id,
                       changes: string, createdBy: string, newId: Id): (r: Result<map<Id, Version>>)
    requires newId !in versions
    ensures id !in reports <==> r == Err(404)
    ensures r.Ok? <==> id in reports
    ensures r.Ok? ==> r.value == versions[newId := Version(id, NextNumber(versions, id), changes, createdBy)]
  {
    if id !in reports then Err(404)
    else Ok(versions[newId := Version(id, NextNumber(versions, id), changes, createdBy)])
  }

  /** The numbering invariant: positive numbers, never repeated within a report. */
  predicate Numbered(versions: map<Id, Version>) {
    && (forall k :: k in versions ==> versions[k].versionNumber >= 1)
    && (forall a, b :: a in versions && b in versions && a != b && versions[a].reportId == versions[b].reportId
          ==> versions[a].versionNumber != versions[b].versionNumber)
  }

  /** Saving a version keeps the numbering invariant. */
  lemma SaveVersionKeepsNumbering(reports: map<Id, Report>, versions: map<Id, Version>, id: Id,
                                  changes: string, createdBy: string, newId: Id)
    requires newId !in versions && Numbered(versions)
    ensures var r := SaveVersion(reports, versions, id, changes, createdBy, newId);
            r.Ok? ==> Numbered(r.value)
  {
    var r := SaveVersion(reports, versions, id, changes, createdBy, newId);
    if r.Ok? {
      var n := NextNumber(versions, id);
      assert n >= 1 by {
        if exists k :: k in versions && versions[k].reportId == id {
          var k :| k in versions && versions[k].reportId == id && versions[k].versionNumber == n - 1;
        }
      }
      InsertKeepsNumbering(versions, newId, Version(id, n, changes, createdBy));
    }
  }

  /** A new row numbered above every row of its report keeps the numbering invariant. */
  lemma InsertKeepsNumbering(versions: map<Id, Version>, newId: Id, nv: Version)
    requires newId !in versions && Numbered(versions) && nv.versionNumber >= 1
    requires forall k :: k in versions && versions[k].reportId == nv.reportId ==>
               versions[k].versionNumber < nv.versionNumber
    ensures Numbered(versions[newId := nv])
  {
    var v := versions[newId := nv];
    forall a, b | a in v && b in v && a != b && v[a].reportId == v[b].reportId
      ensures v[a].versionNumber != v[b].versionNumber
    {
      if a == newId {
        assert v[b] == versions[b];
      } else if b == newId {
        assert v[a] == versions[a];
      } else {
        assert v[a] == versions[a] && v[b] == versions[b];
      }
    }
  }

  /** Adding a report's next version moves its next number on by one. */
  lemma NextAfterSave(versions: map<Id, Version>, id: Id, newId: Id, v: Version)
    requires newId !in versions && v.reportId == id && v.versionNumber == NextNumber(versions, id)
    ensures NextNumber(versions[newId := v], id) == v.versionNumber + 1
  {
    var after := versions[newId := v];
    NextIsOnePastTop(versions, after, id, newId, v, NextNumber(after, id));
  }

  /** The step behind `NextAfterSave`, stated over the bounds alone. */
  lemma NextIsOnePastTop(versions: map<Id, Version>, after: map<Id, Version>, id: Id, newId: Id,
                         v: Version, m: int)
    requires after == versions[newId := v] && newId !in versions && v.reportId == id
    requires forall k :: k in versions && versions[k].reportId == id ==> versions[k].versionNumber < v.versionNumber
    requires forall k :: k in after && after[k].reportId == id ==> after[k].versionNumber < m
    requires (exists k :: k in after && after[k].reportId == id) ==>
               exists k :: k in after && after[k].reportId == id && after[k].versionNumber == m - 1
    ensures m == v.versionNumber + 1
  {
    assert after[newId] == v;
    assert newId in after && after[newId].reportId == id;
    var k :| k in after && after[k].reportId == id && after[k].versionNumber == m - 1;
  }

  /** Two saves in a row on the same report are numbered consecutively. */
  lemma ConsecutiveSaves(reports: map<Id, Report>, versions: map<Id, Version>, id: Id,
                         c1: string, u1: string, id1: Id, c2: string, u2: string, id2: Id)
    requires id in reports && id1 !in versions && id2 !in versions && id1 != id2
    ensures
      var first := SaveVersion(reports, versions, id, c1, u1, id1).value;
      var second := SaveVersion(reports, first, id, c2, u2, id2).value;
      second[id2].versionNumber == first[id1].versionNumber + 1
  {
    var v := Version(id, NextNumber(versions, id), c1, u1);
    NextAfterSave(versions, id, id1, v);
  }

  // ---------------------------------------------------------------------
  // OP-code assignment (the de-duplicating variant)
  // ---------------------------------------------------------------------

  predicate NoDuplicates(codes: seq<string>) {
    forall i, j :: 0 <= i < j < |codes| ==> codes[i] != codes[j]
  }

  /**
   * POST /reports/clients/:clientId/assign-op: an empty code is 400, an
   * unknown client 404, a code the client already has 400. Otherwise the
   * code is appended (a null list counts as empty) and the Client model's
   * validator refuses a list with a malformed code (500).
   */
  function AssignOpOnce(clients: map<Id, Client>, id: Id, code: Option<string>): (r: Result<map<Id, Client>>)
    ensures code.None? || code.value == "" ==> r == Err(400)
    ensures code.Some? && code.value != "" && id !in clients ==> r == Err(404)
    ensures code.Some? && id in clients && code.value in clients[id].opCodes.GetOr([]) ==> r == Err(400)
    ensures r.Ok? || r in {Err(400), Err(404), Err(500)}
    ensures r.Ok? <==> && code.Some? && code.value != "" && id in clients
                       && code.value !in clients[id].opCodes.GetOr([])
                       && OpCodesValid(Some(clients[id].opCodes.GetOr([]) + [code.value]))
    ensures r.Ok? ==> r.value.Keys == clients.Keys
    ensures r.Ok? ==> forall k :: k in clients && k != id ==> r.value[k] == clients[k]
    ensures r.Ok? ==> r.value[id] == clients[id].(opCodes := Some(clients[id].opCodes.GetOr([]) + [code.value]))
    ensures r.Ok? ==> code.value !in clients[id].opCodes.GetOr([]) && OpCodesValid(r.value[id].opCodes)
  {
    if code.None? || code.value == "" then Err(400)
    else if id !in clients then Err(404)
    else
      var existing := clients[id].opCodes.GetOr([]);
      if code.value in existing then Err(400)
      else
        var updated := existing + [code.value];
        if !OpCodesValid(Some(updated)) then Err(500)
        else Ok(clients[id := clients[id].(opCodes := Some(updated))])
  }

  /** The check keeps a client's list free of duplicates. */
  lemma AssignOpOnceKeepsDistinct(clients: map<Id, Client>, id: Id, code: Option<string>)
    requires id in clients && NoDuplicates(clients[id].opCodes.GetOr([]))
    ensures var r := AssignOpOnce(clients, id, code);
            r.Ok? ==> NoDuplicates(r.value[id].opCodes.value)
  {
    var r := AssignOpOnce(clients, id, code);
    if r.Ok? {
      var existing := clients[id].opCodes.GetOr([]);
      var updated := r.value[id].opCodes.value;
      forall i, j | 0 <= i < j < |updated| ensures updated[i] != updated[j] {
        if j == |existing| {
          assert updated[i] == existing[i];
          assert existing[i] in existing;
        }
      }
    }
  }

  /** Assigning the same code twice: the second request is refused and nothing changes. */
  lemma AssignOpOnceTwice(clients: map<Id, Client>, id: Id, code: string)
    requires AssignOpOnce(clients, id, Some(code)).Ok?
    ensures var once := AssignOpOnce(clients, id, Some(code)).value;
            AssignOpOnce(once, id, Some(code)) == Err(400)
  {
    var once := AssignOpOnce(clients, id, Some(code)).value;
    var codes := once[id].opCodes.value;
    assert codes[|codes| - 1] == code;
  }
}

=== FILE: settings.dfy ===
/**
 * The rate settings: hourly work rate, kilometre rate and travel-time rate.
 * The store is the row `findOne()` returns, or `None` while there is none.
 * Rates are floating point in the system and whole numbers here.
 */
module Settings {
  import opened Tables

  datatype Rates = Rates(hourlyRate: int, kilometerRate: int, travelTimeRate: int)

  /** The column defaults, which are also what a reset writes. */
  const Defaults: Rates := Rates(1500, 8, 100)

  /** One rate of a PUT body: left out, sent as null, or a value. */
  datatype RateInput = Missing | Null | Given(v: int)

  /** GET /settings: with no row, a row of defaults is created and returned. */
  function GetSettings(store: Option<Rates>): (r: Reply<Option<Rates>>)
    ensures r.status == 200 && r.state.Some?
    ensures store.None? ==> r.state == Some(Defaults)
    ensures store.Some? ==> r.state == store
  {
    Reply(200, Some(store.GetOr(Defaults)))
  }

  /** Reading twice answers the same and writes nothing more. */
  lemma GetSettingsIdempotent(store: Option<Rates>)
    ensures GetSettings(GetSettings(store).state) == GetSettings(store)
  {
  }

  /**
   * One rate of a PUT: a supplied value replaces, a left-out one keeps
   * `current` (the column default when a row is being created), and null
   * breaks the NOT NULL constraint.
   */
  function Merge(input: RateInput, current: int): Option<int> {
    match input
    case Missing => Some(current)
    case Null => None
    case Given(v) => Some(v)
  }

  /**
   * PUT /settings: with a row, each supplied rate replaces the stored one
   * and each left-out rate is kept; with no row, one is created from the
   * supplied rates and the column defaults. A null rate fails (500) and
   * nothing is written.
   */
  function PutSettings(store: Option<Rates>, hourly: RateInput, kilometer: RateInput, travel: RateInput)
    : (r: Reply<Option<Rates>>)
    ensures r.status in {200, 500}
    ensures r.status == 500 <==> hourly.Null? || kilometer.Null? || travel.Null?
    ensures r.status == 500 ==> r.state == store
    ensures r.status == 200 ==>
      var base := store.GetOr(Defaults);
      && r.state.Some?
      && r.state.value.hourlyRate == (if hourly.Given? then hourly.v else base.hourlyRate)
      && r.state.value.kilometerRate == (if kilometer.Given? then kilometer.v else base.kilometerRate)
      && r.state.value.travelTimeRate == (if travel.Given? then travel.v else base.travelTimeRate)
  {
    var base := store.GetOr(Defaults);
    var h := Merge(hourly, base.hourlyRate);
    var k := Merge(kilometer, base.kilometerRate);
    var t := Merge(travel, base.travelTimeRate);
    if h.None? || k.None? || t.None? then Reply(500, store)
    else Reply(200, Some(Rates(h.value, k.value, t.value)))
  }

  /** A PUT with no fields leaves existing settings as they are. */
  lemma EmptyPutKeepsSettings(s: Rates)
    ensures PutSettings(Some(s), Missing, Missing, Missing) == Reply(200, Some(s))
  {
  }

  /** Sending the same PUT twice has the effect of sending it once. */
  lemma PutSettingsIdempotent(store: Option<Rates>, hourly: RateInput, kilometer: RateInput, travel: RateInput)
    ensures var once := PutSettings(store, hourly, kilometer, travel);
            PutSettings(once.state, hourly, kilometer, travel).state == once.state
  {
  }

  /** POST /settings/reset: every rate back to its default, whatever was stored. */
  function ResetSettings(store: Option<Rates>): (r: Reply<Option<Rates>>)
    ensures r.status == 200 && r.state == Some(Defaults)
  {
    Reply(200, Some(Defaults))
  }

  /**
   * Resetting twice is resetting once, and a reset is what a PUT of the
   * three default values gives.
   */
  lemma ResetIdempotent(store: Option<Rates>)
    ensures ResetSettings(ResetSettings(store).state) == ResetSettings(store)
    ensures ResetSettings(store).state
            == PutSettings(store, Given(Defaults.hourlyRate), Given(Defaults.kilometerRate),
                           Given(Defaults.travelTimeRate)).state
  {
  }
}

=== FILE: sorting.dfy ===
/**
 * Ordering of listings. Database `ORDER BY` clauses and the dashboard's
 * `Array.prototype.sort` both order rows by a key; a key here is a pair
 * compared lexicographically, which covers one- and two-column orders
 * (a descending column is represented by its negation).
 */
module Sorting {

  datatype Rank = Rank(major: int, minor: int)

  /** Lexicographic order on ranks: a total preorder. */
  predicate RankLe(a: Rank, b: Rank) {
    a.major < b.major || (a.major == b.major && a.minor <= b.minor)
  }

  /** Every earlier element has a rank no greater than every later one. */
  predicate SortedBy<T>(xs: seq<T>, key: T -> Rank) {
    forall i, j :: 0 <= i < j < |xs| ==> RankLe(key(xs[i]), key(xs[j]))
  }

  /** Inserts `x` before the first element ranked above it. */
  function Insert<T>(x: T, xs: seq<T>, key: T -> Rank): (r: seq<T>)
    ensures multiset(r) == multiset(xs) + multiset{x}
    ensures |r| == |xs| + 1
  {
    if xs == [] then [x]
    else if RankLe(key(x), key(xs[0])) then [x] + xs
    else
      assert xs == [xs[0]] + xs[1..];
      [xs[0]] + Insert(x, xs[1..], key)
  }

  /** Inserting into an ordered list keeps it ordered. */
  lemma {:induction false} InsertSorted<T>(x: T, xs: seq<T>, key: T -> Rank)
    requires SortedBy(xs, key)
    ensures SortedBy(Insert(x, xs, key), key)
    decreases |xs|
  {
    if xs != [] && !RankLe(key(x), key(xs[0])) {
      var rest := Insert(x, xs[1..], key);
      InsertSorted(x, xs[1..], key);
      forall k | 0 <= k < |rest| ensures RankLe(key(xs[0]), key(rest[k])) {
        assert rest[k] in multiset(rest);
        if rest[k] != x {
          assert rest[k] in multiset(xs[1..]);
          var m :| 0 <= m < |xs[1..]| && xs[1..][m] == rest[k];
          assert xs[1..][m] == xs[m + 1];
        }
      }
      assert Insert(x, xs, key) == [xs[0]] + rest;
    }
  }

  /** Insertion sort: an ordered permutation of the input. */
  function SortBy<T>(xs: seq<T>, key: T -> Rank): (r: seq<T>)
    ensures SortedBy(r, key)
    ensures multiset(r) == multiset(xs)
    ensures |r| == |xs|
  {
    if xs == [] then []
    else
      assert xs == [xs[0]] + xs[1..];
      var sorted := SortBy(xs[1..], key);
      InsertSorted(xs[0], sorted, key);
      Insert(xs[0], sorted, key)
  }

  /** The elements of `xs` whose rank is `k`, in their order in `xs`. */
  function WithRank<T>(xs: seq<T>, key: T -> Rank, k: Rank): (r: seq<T>)
    ensures |r| <= |xs|
    ensures forall i :: 0 <= i < |r| ==> key(r[i]) == k
  {
    if xs == [] then []
    else (if key(xs[0]) == k then [xs[0]] else []) + WithRank(xs[1..], key, k)
  }

  /** `WithRank` on a list with a known head. */
  lemma WithRankCons<T>(a: T, xs: seq<T>, key: T -> Rank, k: Rank)
    ensures WithRank([a] + xs, key, k) == (if key(a) == k then [a] else []) + WithRank(xs, key, k)
  {
    assert ([a] + xs)[1..] == xs;
  }

  /**
   * `x` stops at the first element ranked at or above it, so among the
   * elements of its own rank it comes first.
   */
  lemma {:induction false} InsertWithRank<T>(x: T, xs: seq<T>, key: T -> Rank, k: Rank)
    ensures WithRank(Insert(x, xs, key), key, k) == (if key(x) == k then [x] else []) + WithRank(xs, key, k)
    decreases |xs|
  {
    if xs == [] {
      WithRankCons(x, [], key, k);
    } else if RankLe(key(x), key(xs[0])) {
      WithRankCons(x, xs, key, k);
    } else {
      var head := xs[0];
      var rest := Insert(x, xs[1..], key);
      assert Insert(x, xs, key) == [head] + rest;
      assert xs == [head] + xs[1..];
      InsertWithRank(x, xs[1..], key, k);
      PassHead(x, head, rest, xs[1..], key, k);
    }
  }

  /**
   * The step past a head ranked below `x`: the head and `x` never share a
   * rank, so which of them comes first does not show in any one rank.
   */
  lemma PassHead<T>(x: T, head: T, rest: seq<T>, tail: seq<T>, key: T -> Rank, k: Rank)
    requires !RankLe(key(x), key(head))
    requires WithRank(rest, key, k) == (if key(x) == k then [x] else []) + WithRank(tail, key, k)
    ensures WithRank([head] + rest, key, k) == (if key(x) == k then [x] else []) + WithRank([head] + tail, key, k)
  {
    WithRankCons(head, rest, key, k);
    WithRankCons(head, tail, key, k);
    var w := WithRank(tail, key, k);
    if key(x) == k {
      assert key(head) != k;
      assert WithRank([head] + tail, key, k) == w;
    } else {
      assert WithRank(rest, key, k) == w;
    }
  }

  /**
   * Sorting is stable: the elements of any one rank come out in the order
   * they went in.
   */
  lemma {:induction false} SortByStable<T>(xs: seq<T>, key: T -> Rank, k: Rank)
    ensures WithRank(SortBy(xs, key), key, k) == WithRank(xs, key, k)
  {
    if xs != [] {
      SortByStable(xs[1..], key, k);
      InsertWithRank(xs[0], SortBy(xs[1..], key), key, k);
    }
  }

  /** Sorting keeps exactly the elements it was given. */
  lemma SortByKeepsMembers<T>(xs: seq<T>, key: T -> Rank)
    ensures forall x :: x in SortBy(xs, key) <==> x in xs
  {
    var r := SortBy(xs, key);
    assert forall x :: x in r <==> x in multiset(r);
    assert forall x :: x in xs <==> x in multiset(xs);
  }
}

=== FILE: subtasks.dfy ===
/**
 * The subtask store and its four handlers. Subtasks reference their task
 * by `taskId`, taken from the request path.
 */
module Subtasks {
  import opened Tables

  datatype Subtask = Subtask(taskId: Id, description: string, completed: bool)

  /** GET /tasks/:taskId/subtasks: exactly the subtasks of that task. */
  function ListSubtasks(subtasks: map<Id, Subtask>, taskId: Id): (r: map<Id, Subtask>)
    ensures forall k :: k in r <==> k in subtasks && subtasks[k].taskId == taskId
    ensures forall k :: k in r ==> r[k] == subtasks[k]
  {
    Where(subtasks, (s: Subtask) => s.taskId == taskId)
  }

  /** Body of POST /tasks/:taskId/subtasks. */
  datatype SubtaskInput = SubtaskInput(description: Option<string>, completed: Option<bool>)

  /**
   * POST /tasks/:taskId/subtasks: `completed` defaults to false and the task
   * comes from the path. A missing description violates NOT NULL (500).
   */
  function CreateSubtask(subtasks: map<Id, Subtask>, taskId: Id, input: SubtaskInput, newId: Id)
    : (r: Result<map<Id, Subtask>>)
    requires newId !in subtasks
    ensures input.description.None? <==> r == Err(500)
    ensures r.Ok? <==> input.description.Some?
    ensures r.Ok? ==> r.value.Keys == subtasks.Keys + {newId}
    ensures r.Ok? ==> forall k :: k in subtasks ==> r.value[k] == subtasks[k]
    ensures r.Ok? ==> r.value[newId].taskId == taskId
    ensures r.Ok? ==> r.value[newId].description == input.description.value
    ensures r.Ok? ==> (r.value[newId].completed <==> input.completed == Some(true))
  {
    if input.description.None? then Err(500)
    else Ok(subtasks[newId := Subtask(taskId, input.description.value, input.completed.GetOr(false))])
  }

  /** Body of PUT /subtasks/:subtaskId; absent keys are `None`. */
  datatype SubtaskPatch = SubtaskPatch(taskId: Option<Id>, description: Option<string>, completed: Option<bool>)

  function ApplySubtaskPatch(s: Subtask, p: SubtaskPatch): (r: Subtask)
    ensures r.taskId == p.taskId.GetOr(s.taskId)
    ensures r.description == p.description.GetOr(s.description)
    ensures r.completed == p.completed.GetOr(s.completed)
  {
    Subtask(p.taskId.GetOr(s.taskId), p.description.GetOr(s.description), p.completed.GetOr(s.completed))
  }

  /** A body that sets no column of the row. */
  const EmptySubtaskPatch := SubtaskPatch(None, None, None)

  /**
   * PUT /subtasks/:subtaskId: a bulk update restricted to that id; no
   * affected row means 404. A body that sets no column leaves only the
   * `updatedAt` stamp to write, and Sequelize then skips the query and
   * reports no affected row, so that is 404 as well. Every other subtask
   * is left alone.
   */
  function UpdateSubtask(subtasks: map<Id, Subtask>, id: Id, p: SubtaskPatch): (r: Result<map<Id, Subtask>>)
    ensures id !in subtasks || p == EmptySubtaskPatch <==> r == Err(404)
    ensures r.Ok? || r == Err(404)
    ensures r.Ok? ==> r.value.Keys == subtasks.Keys
    ensures r.Ok? ==> forall k :: k in subtasks && k != id ==> r.value[k] == subtasks[k]
    ensures r.Ok? ==> r.value[id] == ApplySubtaskPatch(subtasks[id], p)
  {
    if id !in subtasks || p == EmptySubtaskPatch then Err(404)
    else Ok(subtasks[id := ApplySubtaskPatch(subtasks[id], p)])
  }

  /**
   * After an update the subtask is listed under the task the patch leaves
   * it on, with the patched values, and under no other task.
   */
  lemma UpdateMovesListing(subtasks: map<Id, Subtask>, id: Id, p: SubtaskPatch, other: Id)
    requires UpdateSubtask(subtasks, id, p).Ok?
    ensures var r := UpdateSubtask(subtasks, id, p).value;
            var owner := p.taskId.GetOr(subtasks[id].taskId);
            && id in ListSubtasks(r, owner)
            && ListSubtasks(r, owner)[id] == ApplySubtaskPatch(subtasks[id], p)
            && (other != owner ==> id !in ListSubtasks(r, other))
  {
  }

  /** Creating a subtask under one task does not change another task's listing. */
  lemma CreateKeepsOtherListings(subtasks: map<Id, Subtask>, taskId: Id, other: Id,
                                 input: SubtaskInput, newId: Id)
    requires newId !in subtasks && other != taskId
    requires input.description.Some?
    ensures ListSubtasks(CreateSubtask(subtasks, taskId, input, newId).value, other)
            == ListSubtasks(subtasks, other)
  {
  }
}

=== FILE: sweep.dfy ===
/**
 * The hourly reminder sweep of the backend and the pending count sent to a
 * newly connected socket.
 *
 * The sweep selects every task due within the coming hour that is not
 * completed or missed and has not been mailed yet, mails its technician,
 * broadcasts one notification per successful mail, sets `emailSent`, and
 * finally broadcasts the number of outstanding tasks.
 *
 * Rows come back in ascending id order. Mail delivery is the oracle
 * `mailOk(id)`; broadcast events are returned as a sequence.
 */
module Reminders {
  import opened Tables
  import opened Tasks

  /** One hour in milliseconds: the look-ahead window of the sweep. */
  const HourMs: int := 60 * 60 * 1000

  /**
   * The query condition: due date within [now, now + 1 h] (both ends
   * inclusive), status not completed or missed, no reminder mailed yet.
   */
  predicate IsCandidate(t: Task, now: int) {
    now <= t.dueDate <= now + HourMs && !IsTerminal(t.status) && !t.emailSent
  }

  /** The task fields carried by an 'upcomingTask' notification. */
  datatype TaskSummary = TaskSummary(
    id: Id,
    description: string,
    dueDate: int,
    clientId: Option<Id>,
    technicianId: Id,
    kind: TaskKind)

  function Summary(id: Id, t: Task): (s: TaskSummary)
    ensures s.id == id && s.technicianId == t.technicianId && s.kind == t.kind
    ensures s.description == t.description && s.dueDate == t.dueDate && s.clientId == t.clientId
  {
    TaskSummary(id, t.description, t.dueDate, t.clientId, t.technicianId, t.kind)
  }

  /** Socket.IO events: `notification` and `initialData`. */
  datatype Event =
    | Notification(kind: string, task: TaskSummary)
    | InitialData(pendingTasks: int)

  /** The reminder for task `id` is mailed: its technician has an address and the send succeeds. */
  predicate WillSend(technicians: map<Id, Technician>, mailOk: Id -> bool, id: Id, t: Task) {
    HasMail(technicians, t.technicianId) && mailOk(id)
  }

  /** The task ids of the notification events, in emission order. */
  function NotifiedIds(events: seq<Event>): (r: seq<Id>)
    ensures |r| <= |events|
    ensures forall k :: k in r ==> exists e :: e in events && e.Notification? && e.task.id == k
  {
    if events == [] then []
    else
      var rest := NotifiedIds(events[1..]);
      if events[0].Notification? then [events[0].task.id] + rest else rest
  }

  lemma {:induction false} NotifiedIdsAppend(a: seq<Event>, b: seq<Event>)
    ensures NotifiedIds(a + b) == NotifiedIds(a) + NotifiedIds(b)
    decreases |a|
  {
    if a == [] {
      assert a + b == b;
    } else {
      assert (a + b)[0] == a[0];
      assert (a + b)[1..] == a[1..] + b;
      NotifiedIdsAppend(a[1..], b);
    }
  }

  /** A single notification or initialData event. */
  lemma NotifiedIdsOne(e: Event)
    ensures NotifiedIds([e]) == if e.Notification? then [e.task.id] else []
  {
    assert [e][1..] == [];
  }

  /** Only the dispatch status of a task influences whether it is mailed. */
  predicate SameButFlag(a: map<Id, Task>, b: map<Id, Task>) {
    a.Keys == b.Keys && forall k :: k in a ==> b[k] == a[k].(emailSent := b[k].emailSent)
  }

  /**
   * The loop over the selected rows, in the given order: a task whose
   * technician is missing or has no address is skipped; otherwise a
   * successful send emits one notification and sets `emailSent`, and a
   * failed send is logged and the loop goes on. What it computes is stated
   * by `DispatchFlags`, `DispatchIds` and `DispatchShape`.
   */
  function Dispatch(tasks: map<Id, Task>, technicians: map<Id, Technician>,
                    order: seq<Id>, mailOk: Id -> bool): (r: (map<Id, Task>, seq<Event>))
    requires forall i :: 0 <= i < |order| ==> order[i] in tasks
    decreases |order|
  {
    if order == [] then (tasks, [])
    else
      var id := order[0];
      var t := tasks[id];
      if WillSend(technicians, mailOk, id, t) then
        var next := tasks[id := t.(emailSent := true)];
        var (after, events) := Dispatch(next, technicians, order[1..], mailOk);
        (after, [Notification("upcomingTask", Summary(id, t))] + events)
      else
        Dispatch(tasks, technicians, order[1..], mailOk)
  }

  /** The loop changes only `emailSent`, and sets it exactly for the listed tasks that are mailed. */
  lemma {:induction false} DispatchFlags(tasks: map<Id, Task>, technicians: map<Id, Technician>,
                                         order: seq<Id>, mailOk: Id -> bool)
    requires forall i :: 0 <= i < |order| ==> order[i] in tasks
    requires Increasing(order)
    ensures SameButFlag(tasks, Dispatch(tasks, technicians, order, mailOk).0)
    ensures forall k :: k in tasks ==>
      (Dispatch(tasks, technicians, order, mailOk).0[k].emailSent <==>
         tasks[k].emailSent || (k in order && WillSend(technicians, mailOk, k, tasks[k])))
    decreases |order|
  {
    if order != [] {
      var id := order[0];
      var t := tasks[id];
      var rest := order[1..];
      assert forall i :: 0 <= i < |rest| ==> rest[i] == order[i + 1];
      assert id !in rest;
      var next := if WillSend(technicians, mailOk, id, t) then tasks[id := t.(emailSent := true)] else tasks;
      DispatchFlags(next, technicians, rest, mailOk);
      var after := Dispatch(next, technicians, rest, mailOk).0;
      assert Dispatch(tasks, technicians, order, mailOk).0 == after;
      forall k | k in tasks
        ensures after[k] == tasks[k].(emailSent := after[k].emailSent)
        ensures after[k].emailSent
                <==> tasks[k].emailSent || (k in order && WillSend(technicians, mailOk, k, tasks[k]))
      {
        assert k in order <==> k == id || k in rest;
        if k != id {
          assert next[k] == tasks[k];
        }
      }
    }
  }

  /** The ids of the listed tasks that get mailed, in list order. */
  function Mailed(tasks: map<Id, Task>, technicians: map<Id, Technician>,
                  order: seq<Id>, mailOk: Id -> bool): (r: seq<Id>)
    requires forall i :: 0 <= i < |order| ==> order[i] in tasks
    decreases |order|
  {
    if order == [] then []
    else
      var rest := Mailed(tasks, technicians, order[1..], mailOk);
      if WillSend(technicians, mailOk, order[0], tasks[order[0]]) then [order[0]] + rest else rest
  }

  /** The mailed ids keep the list order and are exactly the listed tasks that are mailed. */
  lemma {:induction false} MailedFacts(tasks: map<Id, Task>, technicians: map<Id, Technician>,
                                       order: seq<Id>, mailOk: Id -> bool)
    requires forall i :: 0 <= i < |order| ==> order[i] in tasks
    requires Increasing(order)
    ensures Increasing(Mailed(tasks, technicians, order, mailOk))
    ensures forall k :: k in Mailed(tasks, technicians, order, mailOk) <==>
      k in order && WillSend(technicians, mailOk, k, tasks[k])
    decreases |order|
  {
    if order != [] {
      var rest := order[1..];
      assert forall i :: 0 <= i < |rest| ==> rest[i] == order[i + 1];
      MailedFacts(tasks, technicians, rest, mailOk);
      assert forall k :: k in rest ==> order[0] < k;
      assert forall k :: k in order <==> k == order[0] || k in rest;
      var tail := Mailed(tasks, technicians, rest, mailOk);
      if WillSend(technicians, mailOk, order[0], tasks[order[0]]) {
        IncreasingCons(order[0], tail);
      }
    }
  }

  /** Whether a task is mailed depends on its technician only, not on its flag. */
  lemma {:induction false} MailedIgnoresFlag(a: map<Id, Task>, b: map<Id, Task>, technicians: map<Id, Technician>,
                                             order: seq<Id>, mailOk: Id -> bool)
    requires forall i :: 0 <= i < |order| ==> order[i] in a && order[i] in b
    requires forall i :: 0 <= i < |order| ==> a[order[i]].technicianId == b[order[i]].technicianId
    ensures Mailed(a, technicians, order, mailOk) == Mailed(b, technicians, order, mailOk)
    decreases |order|
  {
    if order != [] {
      var rest := order[1..];
      assert forall i :: 0 <= i < |rest| ==> rest[i] == order[i + 1];
      MailedIgnoresFlag(a, b, technicians, rest, mailOk);
    }
  }

  /** The loop emits one notification per mailed task, in list order. */
  lemma {:induction false} DispatchIds(tasks: map<Id, Task>, technicians: map<Id, Technician>,
                                       order: seq<Id>, mailOk: Id -> bool)
    requires forall i :: 0 <= i < |order| ==> order[i] in tasks
    ensures NotifiedIds(Dispatch(tasks, technicians, order, mailOk).1) == Mailed(tasks, technicians, order, mailOk)
    decreases |order|
  {
    if order != [] {
      var id := order[0];
      var t := tasks[id];
      var rest := order[1..];
      assert forall i :: 0 <= i < |rest| ==> rest[i] == order[i + 1];
      if WillSend(technicians, mailOk, id, t) {
        var next := tasks[id := t.(emailSent := true)];
        DispatchIds(next, technicians, rest, mailOk);
        MailedIgnoresFlag(next, tasks, technicians, rest, mailOk);
        var e := Notification("upcomingTask", Summary(id, t));
        var tail := Dispatch(next, technicians, rest, mailOk).1;
        assert Dispatch(tasks, technicians, order, mailOk).1 == [e] + tail;
        NotifiedIdsOne(e);
        NotifiedIdsAppend([e], tail);
      } else {
        DispatchIds(tasks, technicians, rest, mailOk);
      }
    }
  }

  /** Every event of the loop is an 'upcomingTask' notification carrying its task's summary. */
  lemma {:induction false} DispatchShape(tasks: map<Id, Task>, technicians: map<Id, Technician>,
                                         order: seq<Id>, mailOk: Id -> bool)
    requires forall i :: 0 <= i < |order| ==> order[i] in tasks
    ensures forall e :: e in Dispatch(tasks, technicians, order, mailOk).1 ==>
      && e.Notification?
      && e.kind == "upcomingTask"
      && e.task.id in tasks
      && e.task == Summary(e.task.id, tasks[e.task.id])
    decreases |order|
  {
    if order != [] {
      var id := order[0];
      var t := tasks[id];
      var rest := order[1..];
      assert forall i :: 0 <= i < |rest| ==> rest[i] == order[i + 1];
      if WillSend(technicians, mailOk, id, t) {
        var next := tasks[id := t.(emailSent := true)];
        DispatchShape(next, technicians, rest, mailOk);
        assert forall k :: k in next ==> Summary(k, next[k]) == Summary(k, tasks[k]);
      } else {
        DispatchShape(tasks, technicians, rest, mailOk);
      }
    }
  }

  /** Every event of the loop is a notification, so each one names a task. */
  lemma {:induction false} AllNotificationsCount(events: seq<Event>)
    requires forall e :: e in events ==> e.Notification?
    ensures |NotifiedIds(events)| == |events|
    decreases |events|
  {
    if events != [] {
      assert forall e :: e in events[1..] ==> e in events;
      AllNotificationsCount(events[1..]);
    }
  }

  datatype SweepResult = SweepResult(tasks: map<Id, Task>, events: seq<Event>)

  /** The rows the sweep query selects, as a set of ids. */
  function Candidates(tasks: map<Id, Task>, now: int): (s: set<Id>)
    ensures forall k :: k in s <==> k in tasks && IsCandidate(tasks[k], now)
  {
    set k | k in tasks && IsCandidate(tasks[k], now)
  }

  /** The selected rows in ascending id order, the order the loop visits them. */
  function CandidateOrder(tasks: map<Id, Task>, now: int): (order: seq<Id>)
    ensures Increasing(order)
    ensures forall i :: 0 <= i < |order| ==> order[i] in tasks
    ensures forall k :: k in order <==> k in tasks && IsCandidate(tasks[k], now)
  {
    SortedIds(Candidates(tasks, now))
  }

  /**
   * One run of the hourly job (with the include alias resolved): the
   * dispatch loop followed by the broadcast of the outstanding count.
   */
  function Sweep(tasks: map<Id, Task>, technicians: map<Id, Technician>,
                 now: int, mailOk: Id -> bool): (r: SweepResult)
    // only `emailSent` may change, so in particular no status ever changes
    ensures SameButFlag(tasks, r.tasks)
    ensures forall k :: k in tasks ==> r.tasks[k].status == tasks[k].status
    // the flag is set exactly for mailed candidates
    ensures forall k :: k in tasks ==>
      (r.tasks[k].emailSent <==>
         tasks[k].emailSent || (IsCandidate(tasks[k], now) && WillSend(technicians, mailOk, k, tasks[k])))
    // the loop's notifications, then the count, which the loop does not change
    ensures |r.events| >= 1
    ensures r.events[|r.events| - 1] == InitialData(PendingCount(tasks))
    ensures PendingCount(r.tasks) == PendingCount(tasks)
  {
    var d := Dispatch(tasks, technicians, CandidateOrder(tasks, now), mailOk);
    CandidateDispatch(tasks, technicians, now, mailOk);
    SweepResult(d.0, d.1 + [InitialData(PendingCount(d.0))])
  }

  /** The loop over the candidates in id order: what it does to the rows. */
  lemma CandidateDispatch(tasks: map<Id, Task>, technicians: map<Id, Technician>,
                          now: int, mailOk: Id -> bool)
    ensures var after := Dispatch(tasks, technicians, CandidateOrder(tasks, now), mailOk).0;
      && SameButFlag(tasks, after)
      && (forall k :: k in tasks ==> after[k].status == tasks[k].status)
      && (forall k :: k in tasks ==>
            (after[k].emailSent <==>
               tasks[k].emailSent || (IsCandidate(tasks[k], now) && WillSend(technicians, mailOk, k, tasks[k]))))
      && PendingCount(after) == PendingCount(tasks)
  {
    var order := CandidateOrder(tasks, now);
    DispatchFlags(tasks, technicians, order, mailOk);
    var after := Dispatch(tasks, technicians, order, mailOk).0;
    assert forall k :: k in tasks ==> after[k].status == tasks[k].status;
    PendingCountByStatus(tasks, after);
  }

  /**
   * The events of a sweep: one 'upcomingTask' notification per mailed
   * candidate, in ascending id order and each carrying its task's summary,
   * followed by the count.
   */
  lemma SweepEvents(tasks: map<Id, Task>, technicians: map<Id, Technician>,
                    now: int, mailOk: Id -> bool)
    ensures var r := Sweep(tasks, technicians, now, mailOk);
      && (forall i :: 0 <= i < |r.events| - 1 ==>
            && r.events[i].Notification?
            && r.events[i].kind == "upcomingTask"
            && r.events[i].task.id in tasks
            && r.events[i].task == Summary(r.events[i].task.id, tasks[r.events[i].task.id]))
      && |r.events| == |NotifiedIds(r.events)| + 1
      && Increasing(NotifiedIds(r.events))
      && (forall k :: k in NotifiedIds(r.events) <==>
            k in tasks && IsCandidate(tasks[k], now) && WillSend(technicians, mailOk, k, tasks[k]))
  {
    var order := CandidateOrder(tasks, now);
    var d := Dispatch(tasks, technicians, order, mailOk);
    var last := InitialData(PendingCount(d.0));
    DispatchIds(tasks, technicians, order, mailOk);
    MailedFacts(tasks, technicians, order, mailOk);
    DispatchShape(tasks, technicians, order, mailOk);
    CloseWithCount(d.1, last);
  }

  /** Appending the count event to a run of notifications adds no notified id. */
  lemma CloseWithCount(sent: seq<Event>, last: Event)
    requires last.InitialData?
    requires forall e :: e in sent ==> e.Notification?
    ensures NotifiedIds(sent + [last]) == NotifiedIds(sent)
    ensures |NotifiedIds(sent)| == |sent|
    ensures forall i :: 0 <= i < |sent| ==> (sent + [last])[i] == sent[i] && sent[i] in sent
  {
    AllNotificationsCount(sent);
    NotifiedIdsAppend(sent, [last]);
    NotifiedIdsOne(last);
  }

  /** A sweep that mails nobody leaves every row as it was. */
  lemma QuietSweepKeepsRows(tasks: map<Id, Task>, technicians: map<Id, Technician>,
                            now: int, mailOk: Id -> bool)
    requires forall k :: k in tasks && IsCandidate(tasks[k], now) ==> !WillSend(technicians, mailOk, k, tasks[k])
    ensures Sweep(tasks, technicians, now, mailOk).tasks == tasks
  {
    var after := Sweep(tasks, technicians, now, mailOk).tasks;
    assert forall k :: k in tasks ==> after[k].emailSent == tasks[k].emailSent;
    SameFlagsSameRows(tasks, after);
  }

  /** Rows that may differ only in the flag, and agree on it, are the same rows. */
  lemma SameFlagsSameRows(a: map<Id, Task>, b: map<Id, Task>)
    requires SameButFlag(a, b)
    requires forall k :: k in a ==> b[k].emailSent == a[k].emailSent
    ensures b == a
  {
    forall k | k in a
      ensures b[k] == a[k]
    {
      assert b[k] == a[k].(emailSent := a[k].emailSent);
    }
  }

  /** A sweep that mails nobody only broadcasts the count. */
  lemma QuietSweepOnlyCounts(tasks: map<Id, Task>, technicians: map<Id, Technician>,
                             now: int, mailOk: Id -> bool)
    requires forall k :: k in tasks && IsCandidate(tasks[k], now) ==> !WillSend(technicians, mailOk, k, tasks[k])
    ensures Sweep(tasks, technicians, now, mailOk).events == [InitialData(PendingCount(tasks))]
  {
    var events := Sweep(tasks, technicians, now, mailOk).events;
    SweepEvents(tasks, technicians, now, mailOk);
    assert forall k :: k !in NotifiedIds(events);
    assert NotifiedIds(events) == [] by {
      HeadIsMember(NotifiedIds(events));
    }
    assert events == [events[|events| - 1]];
  }

  lemma HeadIsMember(s: seq<Id>)
    ensures s != [] ==> s[0] in s
  {
  }

  /** A sweep that mails nobody leaves every row as it was and only broadcasts the count. */
  lemma QuietSweep(tasks: map<Id, Task>, technicians: map<Id, Technician>,
                   now: int, mailOk: Id -> bool)
    requires forall k :: k in tasks && IsCandidate(tasks[k], now) ==> !WillSend(technicians, mailOk, k, tasks[k])
    ensures Sweep(tasks, technicians, now, mailOk) == SweepResult(tasks, [InitialData(PendingCount(tasks))])
  {
    QuietSweepKeepsRows(tasks, technicians, now, mailOk);
    QuietSweepOnlyCounts(tasks, technicians, now, mailOk);
  }

  /** A task mailed by one sweep is never mailed again, whatever the time or the mail outcome. */
  lemma {:induction false} NoSecondReminder(tasks: map<Id, Task>, technicians: map<Id, Technician>,
                                            now1: int, ok1: Id -> bool, now2: int, ok2: Id -> bool, k: Id)
    requires k in NotifiedIds(Sweep(tasks, technicians, now1, ok1).events)
    ensures k !in NotifiedIds(Sweep(Sweep(tasks, technicians, now1, ok1).tasks, technicians, now2, ok2).events)
  {
    var first := Sweep(tasks, technicians, now1, ok1);
    SweepEvents(tasks, technicians, now1, ok1);
    SweepEvents(first.tasks, technicians, now2, ok2);
    assert first.tasks[k].emailSent;
  }

  /** With the same time and mail outcome, a second sweep mails nothing and changes nothing. */
  lemma {:induction false} SweepIdempotent(tasks: map<Id, Task>, technicians: map<Id, Technician>,
                                           now: int, mailOk: Id -> bool)
    ensures
      var first := Sweep(tasks, technicians, now, mailOk);
      Sweep(first.tasks, technicians, now, mailOk) == SweepResult(first.tasks, [InitialData(PendingCount(tasks))])
  {
    var first := Sweep(tasks, technicians, now, mailOk);
    forall k | k in first.tasks && IsCandidate(first.tasks[k], now)
      ensures !WillSend(technicians, mailOk, k, first.tasks[k])
    {
      assert first.tasks[k] == tasks[k].(emailSent := first.tasks[k].emailSent);
    }
    QuietSweep(first.tasks, technicians, now, mailOk);
  }

  /**
   * A task whose creation mail was sent has `emailSent` set and is never
   * reminded by any sweep.
   */
  lemma {:induction false} CreationMailSuppressesReminder(
    tasks: map<Id, Task>, technicians: map<Id, Technician>, input: TaskInput, newId: Id,
    now: int, mailOk: Id -> bool)
    requires newId !in tasks
    requires CreateTask(tasks, technicians, input, newId, true).Ok?
    requires HasMail(technicians, input.technicianId.value)
    ensures
      var created := CreateTask(tasks, technicians, input, newId, true).value;
      newId !in NotifiedIds(Sweep(created, technicians, now, mailOk).events)
  {
    var created := CreateTask(tasks, technicians, input, newId, true).value;
    SweepEvents(created, technicians, now, mailOk);
    assert created[newId].emailSent;
  }

  /**
   * A rescheduled task keeps a set `emailSent` (the update does not reset it),
   * so moving its due date into a later window does not bring a new reminder.
   */
  lemma {:induction false} RescheduleGetsNoReminder(
    tasks: map<Id, Task>, technicians: map<Id, Technician>, id: Id, p: TaskPatch,
    now: int, mailOk: Id -> bool)
    requires id in tasks && tasks[id].emailSent
    requires PatchValid(p) && p.emailSent.None?
    ensures UpdateTask(tasks, id, p).Ok?
    ensures id !in NotifiedIds(Sweep(UpdateTask(tasks, id, p).value.tasks, technicians, now, mailOk).events)
  {
    RescheduleKeepsEmailSent(tasks, id, p);
    var updated := UpdateTask(tasks, id, p).value.tasks;
    SweepEvents(updated, technicians, now, mailOk);
    assert updated[id].emailSent;
  }

  /** The count a newly connected socket receives: the outstanding tasks, or 0 if counting fails. */
  function OnConnect(tasks: map<Id, Task>, countOk: bool): (e: Event)
    ensures e.InitialData?
    ensures countOk ==> e.pendingTasks == |set k | k in tasks && IsPending(tasks[k])|
    ensures !countOk ==> e.pendingTasks == 0
  {
    InitialData(if countOk then PendingCount(tasks) else 0)
  }

  /** A connection right after a sweep sees the count the sweep broadcast. */
  lemma ConnectAgreesWithSweep(tasks: map<Id, Task>, technicians: map<Id, Technician>,
                               now: int, mailOk: Id -> bool)
    ensures
      var r := Sweep(tasks, technicians, now, mailOk);
      OnConnect(r.tasks, true) == r.events[|r.events| - 1]
  {
  }

  // ---------------------------------------------------------------------
  // Include aliases of the sweep query.
  // ---------------------------------------------------------------------

  /** Aliases under which Task's associations are declared. */
  const TaskAliases: set<string> := {"subtasks", "technician", "client"}

  /** The includes of the sweep query as written: 'Technician' with a capital T. */
  const SweepIncludesAsWritten: seq<string> := ["Technician", "subtasks", "client"]

  /** The includes with the technician alias as declared. */
  const SweepIncludes: seq<string> := ["technician", "subtasks", "client"]

  /** Every include names a declared alias; alias matching is exact. */
  predicate IncludesResolve(includes: seq<string>) {
    forall i :: 0 <= i < |includes| ==> includes[i] in TaskAliases
  }

  /**
   * The job with a given include list: an include that does not resolve
   * makes the query throw, and the outer catch only logs, so no row changes
   * and no event is broadcast.
   */
  function SweepWithIncludes(includes: seq<string>, tasks: map<Id, Task>,
                             technicians: map<Id, Technician>, now: int, mailOk: Id -> bool): (r: SweepResult)
    ensures !IncludesResolve(includes) ==> r == SweepResult(tasks, [])
    ensures IncludesResolve(includes) ==> r == Sweep(tasks, technicians, now, mailOk)
  {
    if IncludesResolve(includes) then Sweep(tasks, technicians, now, mailOk)
    else SweepResult(tasks, [])
  }

  /** The job as written: never mails, never sets a flag, never broadcasts. */
  function SweepAsWritten(tasks: map<Id, Task>, technicians: map<Id, Technician>,
                          now: int, mailOk: Id -> bool): (r: SweepResult)
  {
    SweepWithIncludes(SweepIncludesAsWritten, tasks, technicians, now, mailOk)
  }

  /** The job with the alias corrected. */
  function CorrectedSweep(tasks: map<Id, Task>, technicians: map<Id, Technician>,
                          now: int, mailOk: Id -> bool): (r: SweepResult)
  {
    SweepWithIncludes(SweepIncludes, tasks, technicians, now, mailOk)
  }

  /**
   * A task that should be reminded is not: the as-written job leaves its
   * flag unset and broadcasts nothing, while the corrected job mails it.
   */
  lemma ReminderLostAsWritten(tasks: map<Id, Task>, technicians: map<Id, Technician>,
                              now: int, mailOk: Id -> bool, k: Id)
    requires k in tasks && IsCandidate(tasks[k], now) && WillSend(technicians, mailOk, k, tasks[k])
    ensures SweepAsWritten(tasks, technicians, now, mailOk) == SweepResult(tasks, [])
    ensures !SweepAsWritten(tasks, technicians, now, mailOk).tasks[k].emailSent
    ensures CorrectedSweep(tasks, technicians, now, mailOk).tasks[k].emailSent
    ensures k in NotifiedIds(CorrectedSweep(tasks, technicians, now, mailOk).events)
  {
    assert SweepIncludesAsWritten[0] !in TaskAliases;
    assert !IncludesResolve(SweepIncludesAsWritten);
    CorrectedSweepIsSweep(tasks, technicians, now, mailOk);
    SweepEvents(tasks, technicians, now, mailOk);
  }

  /** The corrected job is the sweep specified above. */
  lemma CorrectedSweepIsSweep(tasks: map<Id, Task>, technicians: map<Id, Technician>,
                              now: int, mailOk: Id -> bool)
    ensures CorrectedSweep(tasks, technicians, now, mailOk) == Sweep(tasks, technicians, now, mailOk)
  {
    assert IncludesResolve(SweepIncludes) by {
      forall i | 0 <= i < |SweepIncludes|
        ensures SweepIncludes[i] in TaskAliases
      {
      }
    }
  }
}

=== FILE: tables.dfy ===
/**
 * Shared vocabulary of the model: optional values, handler results carrying an
 * HTTP status, record identifiers, and the two table queries the handlers use
 * (`findByPk` is map lookup; `findOne`/`findAll` with a condition are below).
 *
 * A database table is a `map<Id, Record>`. Identifiers are the positive
 * auto-increment keys of the relational store, so a supplied id is "truthy"
 * exactly when it is present.
 */
module Tables {

  datatype Option<+T> = None | Some(value: T) {
    function GetOr(default: T): T {
      match this
      case Some(v) => v
      case None => default
    }
  }

  /** Outcome of a request handler: a value, or the HTTP status of the refusal. */
  datatype Result<+T> = Ok(value: T) | Err(status: int)

  /**
   * Outcome of a handler that may fail after it has already written: the
   * HTTP status together with the state the stores are left in.
   */
  datatype Reply<+S> = Reply(status: int, state: S)

  /** Auto-increment primary key. */
  type Id = i: int | i > 0 witness 1

  lemma {:induction false} LeastWitness(s: set<Id>) returns (least: Id)
    requires s != {}
    ensures least in s
    ensures forall y :: y in s ==> least <= y
    decreases |s|
  {
    var x :| x in s;
    if s == {x} {
      least := x;
    } else {
      var rest := s - {x};
      var m := LeastWitness(rest);
      least := if x < m then x else m;
      forall y | y in s
        ensures least <= y
      {
        if y != x {
          assert y in rest;
        }
      }
    }
  }

  lemma LeastExists(s: set<Id>)
    requires s != {}
    ensures exists m :: m in s && forall y :: y in s ==> m <= y
  {
    var m := LeastWitness(s);
  }

  /** The smallest id of a non-empty set of ids. */
  function Least(s: set<Id>): (r: Id)
    requires s != {}
    ensures r in s
    ensures forall y :: y in s ==> r <= y
  {
    LeastExists(s);
    var m :| m in s && forall y :: y in s ==> m <= y;
    m
  }

  /**
   * `findOne({ where })` without an ORDER BY: the store returns some matching
   * row; the model fixes the choice to the matching row with the smallest id.
   */
  function FirstWhere<T>(table: map<Id, T>, cond: T -> bool): (r: Option<Id>)
    ensures r.None? <==> forall k :: k in table ==> !cond(table[k])
    ensures r.Some? ==> r.value in table && cond(table[r.value])
    ensures r.Some? ==> forall k :: k in table && cond(table[k]) ==> r.value <= k
  {
    var hits := set k | k in table && cond(table[k]);
    assert forall k :: k in table && cond(table[k]) ==> k in hits;
    if hits == {} then None else Some(Least(hits))
  }

  /** `findAll({ where })`: exactly the rows satisfying the condition. */
  function Where<T>(table: map<Id, T>, cond: T -> bool): (r: map<Id, T>)
    ensures forall k :: k in r <==> k in table && cond(table[k])
    ensures forall k :: k in r ==> r[k] == table[k]
  {
    map k | k in table && cond(table[k]) :: table[k]
  }

  /**
   * The delete handler every resource shares: `findByPk`, 404 when no row
   * has that id, otherwise `destroy` removes exactly that row.
   */
  function Destroy<T>(table: map<Id, T>, id: Id): (r: Result<map<Id, T>>)
    ensures id !in table <==> r == Err(404)
    ensures r.Ok? ==> r.value.Keys == table.Keys - {id}
    ensures r.Ok? ==> forall k :: k in r.value ==> r.value[k] == table[k]
  {
    if id in table then Ok(table - {id}) else Err(404)
  }

  /** Deleting a row just inserted under a fresh id gives back the table as it was. */
  lemma DestroyUndoesInsert<T>(table: map<Id, T>, id: Id, row: T)
    requires id !in table
    ensures Destroy(table[id := row], id) == Ok(table)
  {
    var back := table[id := row] - {id};
    assert back.Keys == table.Keys;
    assert forall k :: k in back ==> back[k] == table[k];
    assert back == table;
  }

  /** A second delete of the same id is 404 and the first one's result stands. */
  lemma DestroyTwice<T>(table: map<Id, T>, id: Id)
    requires Destroy(table, id).Ok?
    ensures Destroy(Destroy(table, id).value, id) == Err(404)
  {
  }

  /** Number of rows satisfying a condition (`count({ where })`). */
  function CountWhere<T>(table: map<Id, T>, cond: T -> bool): (n: nat)
    ensures n <= |table|
    ensures n == |Where(table, cond)|
  {
    var r := Where(table, cond);
    assert r.Keys <= table.Keys;
    SubsetCard(r.Keys, table.Keys);
    |r|
  }

  lemma SubsetCard<T>(a: set<T>, b: set<T>)
    requires a <= b
    ensures |a| <= |b|
  {
    assert b == a + (b - a);
  }

  /** Strictly ascending, hence free of duplicates. */
  predicate Increasing(xs: seq<Id>) {
    forall i, j :: 0 <= i < j < |xs| ==> xs[i] < xs[j]
  }

  /** The ids of a set in ascending order (the order rows come back in). */
  function SortedIds(s: set<Id>): (r: seq<Id>)
    ensures Increasing(r)
    ensures forall k :: k in r <==> k in s
    ensures |r| == |s|
    decreases |s|
  {
    if s == {} then []
    else
      var m := Least(s);
      var rest := SortedIds(s - {m});
      assert forall k :: k in rest ==> m < k;
      [m] + rest
  }

  lemma IncreasingCons(x: Id, rest: seq<Id>)
    requires Increasing(rest)
    requires forall k :: k in rest ==> x < k
    ensures Increasing([x] + rest)
  {
    var xs := [x] + rest;
    forall i, j | 0 <= i < j < |xs|
      ensures xs[i] < xs[j]
    {
      assert xs[j] == rest[j - 1];
      assert rest[j - 1] in rest;
      if i > 0 {
        assert xs[i] == rest[i - 1];
      }
    }
  }

  /** `xs.filter(p)`: the elements satisfying `p`, in their original order. */
  function Filter<T(!new)>(xs: seq<T>, p: T -> bool): (r: seq<T>)
    ensures |r| <= |xs|
    ensures forall x :: x in r <==> x in xs && p(x)
    decreases |xs|
  {
    if xs == [] then []
    else if p(xs[0]) then [xs[0]] + Filter(xs[1..], p)
    else Filter(xs[1..], p)
  }

  /** Filtering distributes over concatenation, so the original order is kept. */
  lemma {:induction false} FilterAppend<T(!new)>(xs: seq<T>, ys: seq<T>, p: T -> bool)
    ensures Filter(xs + ys, p) == Filter(xs, p) + Filter(ys, p)
    decreases |xs|
  {
    if xs == [] {
      assert xs + ys == ys;
    } else {
      assert (xs + ys)[0] == xs[0];
      assert (xs + ys)[1..] == xs[1..] + ys;
      FilterAppend(xs[1..], ys, p);
    }
  }

  /** `xs.map(f)`. */
  function MapSeq<A, B>(xs: seq<A>, f: A -> B): (r: seq<B>)
    ensures |r| == |xs|
    decreases |xs|
  {
    if xs == [] then [] else [f(xs[0])] + MapSeq(xs[1..], f)
  }

  /** A map is determined by its values at each position. */
  lemma {:induction false} MapSeqPointwise<A, B>(xs: seq<A>, ys: seq<B>, f: A -> B)
    requires |xs| == |ys|
    requires forall i :: 0 <= i < |xs| ==> f(xs[i]) == ys[i]
    ensures MapSeq(xs, f) == ys
    decreases |xs|
  {
    if xs != [] {
      assert forall i :: 0 <= i < |xs| - 1 ==> f(xs[1..][i]) == ys[1..][i] by {
        forall i | 0 <= i < |xs| - 1 ensures f(xs[1..][i]) == ys[1..][i] {
          assert xs[1..][i] == xs[i + 1] && ys[1..][i] == ys[i + 1];
        }
      }
      MapSeqPointwise(xs[1..], ys[1..], f);
      assert ys == [ys[0]] + ys[1..];
    }
  }

  /** A filter no element passes leaves nothing. */
  lemma FilterDropsAll<T(!new)>(xs: seq<T>, p: T -> bool)
    requires forall x :: x in xs ==> !p(x)
    ensures Filter(xs, p) == []
  {
  }

  /** A filter every element passes keeps the whole sequence. */
  lemma {:induction false} FilterKeepsAll<T(!new)>(xs: seq<T>, p: T -> bool)
    requires forall x :: x in xs ==> p(x)
    ensures Filter(xs, p) == xs
    decreases |xs|
  {
    if xs != [] {
      assert forall x :: x in xs[1..] ==> x in xs;
      FilterKeepsAll(xs[1..], p);
    }
  }

  /** `xs.findIndex(p)`: the position of the first element satisfying `p`, if any. */
  function IndexWhere<T>(xs: seq<T>, p: T -> bool): (r: Option<nat>)
    ensures r.None? <==> forall i :: 0 <= i < |xs| ==> !p(xs[i])
    ensures r.Some? ==> r.value < |xs| && p(xs[r.value])
    ensures r.Some? ==> forall j :: 0 <= j < r.value ==> !p(xs[j])
    decreases |xs|
  {
    if xs == [] then None
    else if p(xs[0]) then Some(0)
    else
      var r := IndexWhere(xs[1..], p);
      assert forall i :: 1 <= i < |xs| ==> xs[i] == xs[1..][i - 1];
      if r.Some? then Some(r.value + 1) else None
  }

  /** `xs.find(p)`: the first element satisfying `p`, if any. */
  function Find<T>(xs: seq<T>, p: T -> bool): (r: Option<T>)
    ensures r.None? <==> forall i :: 0 <= i < |xs| ==> !p(xs[i])
    ensures r.Some? ==> exists i :: 0 <= i < |xs| && xs[i] == r.value && p(xs[i])
                                    && forall j :: 0 <= j < i ==> !p(xs[j])
  {
    var i := IndexWhere(xs, p);
    if i.Some? then Some(xs[i.value]) else None
  }
}

=== FILE: task_pages.dfy ===
/**
 * The task logic of the two front-end pages that show tasks: the task
 * list (load-time overdue rule, pending count, subtask toggle, status
 * change, delete, search, description cap) and the calendar (status
 * colours, task-to-event mapping, event click, toggle and delete on the
 * selected task).
 */
module TaskPages {
  import opened Tables
  import opened Text
  import opened Tasks
  import Subtasks

  datatype SubtaskView = SubtaskView(id: Option<Id>, description: string, completed: bool)

  /** A task as the pages hold it: the row, its id and its subtasks. */
  datatype TaskView = TaskView(id: Id, row: Task, subtasks: seq<SubtaskView>)

  // ---------------------------------------------------------------------
  // Load-time overdue rule and the pending count
  // ---------------------------------------------------------------------

  /** The page's overdue rule: any task, plain or service, past due and not completed. */
  predicate FrontOverdue(v: TaskView, now: int) {
    v.row.dueDate < now && v.row.status != Completed
  }

  function FrontAutoMiss(v: TaskView, now: int): (r: TaskView)
    ensures r == v.(row := v.row.(status := r.row.status))
    ensures FrontOverdue(v, now) ==> r.row.status == Missed
    ensures !FrontOverdue(v, now) ==> r == v
  {
    if FrontOverdue(v, now) then v.(row := v.row.(status := Missed)) else v
  }

  datatype Loaded = Loaded(tasks: seq<TaskView>, sentMissed: seq<Id>)

  /**
   * fetchData: every overdue, non-completed task is shown as missed and a
   * full update with status 'missed' is sent for it (also when it already
   * is missed).
   */
  function LoadTasks(list: seq<TaskView>, now: int): (r: Loaded)
    ensures |r.tasks| == |list|
    ensures forall i :: 0 <= i < |list| ==> r.tasks[i] == FrontAutoMiss(list[i], now)
    ensures forall k :: k in r.sentMissed <==> exists i :: 0 <= i < |list| && list[i].id == k && FrontOverdue(list[i], now)
    decreases |list|
  {
    if list == [] then Loaded([], [])
    else
      var rest := LoadTasks(list[1..], now);
      assert forall i :: 1 <= i < |list| ==> list[i] == list[1..][i - 1];
      Loaded([FrontAutoMiss(list[0], now)] + rest.tasks,
             (if FrontOverdue(list[0], now) then [list[0].id] else []) + rest.sentMissed)
  }

  /**
   * The page's rule covers the server's: whatever the list handler marks
   * missed, the page marks missed too; a plain task past due is marked
   * missed only by the page.
   */
  lemma FrontRuleCoversServerRule(v: TaskView, now: int)
    ensures AutoMiss(v.row, now).status == Missed ==> FrontAutoMiss(v, now).row.status == Missed
    ensures v.row.kind == PlainTask && FrontOverdue(v, now) ==>
      AutoMiss(v.row, now) == v.row && FrontAutoMiss(v, now).row.status == Missed
  {
  }

  /** The page's notion of pending: upcoming or in progress. */
  predicate UiPending(v: TaskView) {
    v.row.status == Upcoming || v.row.status == InProgress
  }

  /** `tasks.filter(t => t.status === 'upcoming' || t.status === 'in_progress').length`. */
  function UiPendingCount(list: seq<TaskView>): nat {
    |Filter(list, UiPending)|
  }

  /** With four statuses, the page's and the server's notion of pending agree. */
  lemma UiPendingIsPending(v: TaskView)
    ensures UiPending(v) <==> IsPending(v.row)
  {
  }

  /** Ids of the pending tasks of a list. */
  function PendingIds(list: seq<TaskView>): (r: set<Id>)
    ensures forall k :: k in r <==> exists i :: 0 <= i < |list| && list[i].id == k && UiPending(list[i])
    decreases |list|
  {
    if list == [] then {}
    else
      assert forall i :: 1 <= i < |list| ==> list[i] == list[1..][i - 1];
      (if UiPending(list[0]) then {list[0].id} else {}) + PendingIds(list[1..])
  }

  predicate DistinctIds(list: seq<TaskView>) {
    forall i, j :: 0 <= i < j < |list| ==> list[i].id != list[j].id
  }

  lemma DistinctTail(list: seq<TaskView>)
    requires list != [] && DistinctIds(list)
    ensures DistinctIds(list[1..])
    ensures forall i :: 0 <= i < |list[1..]| ==> list[1..][i].id != list[0].id
  {
    var rest := list[1..];
    assert forall i :: 0 <= i < |rest| ==> rest[i] == list[i + 1];
  }

  /** On a list without repeated ids, the pending count is the number of pending ids. */
  lemma {:induction false} UiPendingCountIsIdCount(list: seq<TaskView>)
    requires DistinctIds(list)
    ensures UiPendingCount(list) == |PendingIds(list)|
    decreases |list|
  {
    if list != [] {
      var rest := list[1..];
      DistinctTail(list);
      UiPendingCountIsIdCount(rest);
      HeadIdIsNew(list);
      var head: set<Id> := if UiPending(list[0]) then {list[0].id} else {};
      assert PendingIds(list) == head + PendingIds(rest);
      assert |Filter(list, UiPending)| == |head| + |Filter(rest, UiPending)|;
    }
  }

  /** On a list without repeated ids the head's id is not among the tail's pending ids. */
  lemma HeadIdIsNew(list: seq<TaskView>)
    requires list != [] && DistinctIds(list)
    ensures list[0].id !in PendingIds(list[1..])
  {
    DistinctTail(list);
  }

  /** The list shows exactly the rows of the store, once each. */
  predicate Mirrors(list: seq<TaskView>, tasks: map<Id, Task>) {
    && DistinctIds(list)
    && (forall i :: 0 <= i < |list| ==> list[i].id in tasks && list[i].row == tasks[list[i].id])
    && (forall k :: k in tasks ==> exists i :: 0 <= i < |list| && list[i].id == k)
  }

  /** A page showing the store computes the same pending count as the server. */
  lemma UiPendingCountMatchesServer(list: seq<TaskView>, tasks: map<Id, Task>)
    requires Mirrors(list, tasks)
    ensures UiPendingCount(list) == PendingCount(tasks)
  {
    UiPendingCountIsIdCount(list);
    PendingIdsAreServerPending(list, tasks);
  }

  /** A mirroring list's pending ids are exactly the store's pending keys. */
  lemma PendingIdsAreServerPending(list: seq<TaskView>, tasks: map<Id, Task>)
    requires Mirrors(list, tasks)
    ensures PendingIds(list) == set k | k in tasks && IsPending(tasks[k])
  {
    var ids := PendingIds(list);
    var server := set k | k in tasks && IsPending(tasks[k]);
    forall k | k in ids ensures k in server {
      var i :| 0 <= i < |list| && list[i].id == k && UiPending(list[i]);
      UiPendingIsPending(list[i]);
    }
    forall k | k in server ensures k in ids {
      var i :| 0 <= i < |list| && list[i].id == k;
      UiPendingIsPending(list[i]);
    }
  }

  // ---------------------------------------------------------------------
  // Subtask toggle, status change, delete
  // ---------------------------------------------------------------------

  predicate AllDone(subtasks: seq<SubtaskView>) {
    forall i :: 0 <= i < |subtasks| ==> subtasks[i].completed
  }

  /**
   * handleSubtaskToggle: subtask `index` becomes completed; the task
   * becomes completed when every subtask is, and otherwise keeps its status.
   * The result is the body of the update that is sent.
   */
  function ToggleSubtask(v: TaskView, index: nat): (r: TaskView)
    requires index < |v.subtasks|
    ensures r.id == v.id && |r.subtasks| == |v.subtasks|
    ensures r.subtasks[index] == v.subtasks[index].(completed := true)
    ensures forall i :: 0 <= i < |v.subtasks| && i != index ==> r.subtasks[i] == v.subtasks[i]
    ensures r.row == v.row.(status := r.row.status)
    ensures r.row.status == Completed <==> AllDone(r.subtasks) || v.row.status == Completed
    ensures !AllDone(r.subtasks) ==> r.row.status == v.row.status
  {
    var subtasks := v.subtasks[index := v.subtasks[index].(completed := true)];
    var status := if AllDone(subtasks) then Completed else v.row.status;
    TaskView(v.id, v.row.(status := status), subtasks)
  }

  /** Toggling the last open subtask completes the task. */
  lemma ToggleLastOpenCompletes(v: TaskView, index: nat)
    requires index < |v.subtasks|
    requires forall i :: 0 <= i < |v.subtasks| && i != index ==> v.subtasks[i].completed
    ensures ToggleSubtask(v, index).row.status == Completed
  {
    var r := ToggleSubtask(v, index);
    assert AllDone(r.subtasks) by {
      forall i | 0 <= i < |r.subtasks|
        ensures r.subtasks[i].completed
      {
      }
    }
  }

  /**
   * The body updateTask sends for a subtask that has an id: the subtask as
   * the page holds it, with the task it was loaded under.
   */
  function SubtaskBody(taskId: Id, s: SubtaskView): Subtasks.SubtaskPatch {
    Subtasks.SubtaskPatch(Some(taskId), Some(s.description), Some(s.completed))
  }

  /** The stored subtask a shown one stands for, under its task. */
  predicate ShowsSubtask(store: map<Id, Subtasks.Subtask>, taskId: Id, s: SubtaskView) {
    s.id.Some? && s.id.value in store
    && store[s.id.value] == Subtasks.Subtask(taskId, s.description, s.completed)
  }

  /**
   * The write behind a toggle: the toggled subtask's PUT succeeds and the
   * store then holds it completed, under the same task, with nothing else
   * changed; the task's subtask listing shows it as the page does.
   */
  lemma ToggleSubtaskIsStored(v: TaskView, index: nat, store: map<Id, Subtasks.Subtask>)
    requires index < |v.subtasks| && ShowsSubtask(store, v.id, v.subtasks[index])
    ensures var shown := ToggleSubtask(v, index).subtasks[index];
            var sid := v.subtasks[index].id.value;
            var r := Subtasks.UpdateSubtask(store, sid, SubtaskBody(v.id, shown));
            && r.Ok?
            && r.value == store[sid := Subtasks.Subtask(v.id, v.subtasks[index].description, true)]
            && ShowsSubtask(r.value, v.id, shown)
            && sid in Subtasks.ListSubtasks(r.value, v.id)
            && Subtasks.ListSubtasks(r.value, v.id)[sid].completed
  {
    var shown := ToggleSubtask(v, index).subtasks[index];
    var sid := v.subtasks[index].id.value;
    var r := Subtasks.UpdateSubtask(store, sid, SubtaskBody(v.id, shown));
    assert SubtaskBody(v.id, shown) != Subtasks.EmptySubtaskPatch;
    assert r.value == store[sid := Subtasks.Subtask(v.id, v.subtasks[index].description, true)];
  }

  /**
   * The other subtasks the toggle sends again are written with the values
   * already stored, so their PUTs succeed and leave the store as it was.
   */
  lemma ToggleResendsOthersUnchanged(v: TaskView, index: nat, i: nat, store: map<Id, Subtasks.Subtask>)
    requires index < |v.subtasks| && i < |v.subtasks| && i != index
    requires ShowsSubtask(store, v.id, v.subtasks[i])
    ensures var sent := ToggleSubtask(v, index).subtasks[i];
            Subtasks.UpdateSubtask(store, sent.id.value, SubtaskBody(v.id, sent)) == Ok(store)
  {
    var sent := ToggleSubtask(v, index).subtasks[i];
    var sid := sent.id.value;
    assert SubtaskBody(v.id, sent) != Subtasks.EmptySubtaskPatch;
    assert store[sid := store[sid]] == store;
  }

  /**
   * handleUpdateTaskStatus: choosing 'missed' for a task without a reason
   * asks for one (`answer`, `None` when the prompt is cancelled); an empty
   * answer sends nothing. Otherwise the task is sent with the new status.
   */
  function ChangeStatus(v: TaskView, status: TaskStatus, answer: Option<string>): (r: Option<TaskView>)
    ensures r.None? <==>
      status == Missed && (v.row.reason.None? || v.row.reason.value == "")
      && (answer.None? || answer.value == "")
    ensures r.Some? ==> r.value.id == v.id && r.value.row.status == status
    ensures r.Some? ==> r.value.row == v.row.(status := status, reason := r.value.row.reason)
    ensures r.Some? && status == Missed ==> r.value.row.reason.Some? && r.value.row.reason.value != ""
    ensures r.Some? && status != Missed ==> r.value.row.reason == v.row.reason
  {
    if status == Missed && (v.row.reason.None? || v.row.reason.value == "") then
      if answer.None? || answer.value == "" then None
      else Some(v.(row := v.row.(reason := answer, status := status)))
    else Some(v.(row := v.row.(status := status)))
  }

  /** handleDeleteTask: the local list without that task. */
  function RemoveTask(list: seq<TaskView>, id: Id): (r: seq<TaskView>)
    ensures forall v :: v in r <==> v in list && v.id != id
  {
    Filter(list, (v: TaskView) => v.id != id)
  }

  /** The body `{ ...task, status }` that the page sends: every column of the row. */
  function RowPatch(t: Task): TaskPatch {
    TaskPatch(Some(t.description), Some(t.dueDate), Some(t.clientId), Some(t.technicianId),
              Some(KindName(t.kind)), Some(StatusName(t.status)), Some(t.reason), Some(t.emailSent))
  }

  /** Sending a whole row through PUT /api/tasks/:id stores exactly that row. */
  lemma RowPatchStoresRow(t: Task, row: Task)
    ensures PatchValid(RowPatch(row))
    ensures ApplyPatch(t, RowPatch(row)) == row
  {
    EnumNamesRoundTrip(row.status, row.kind);
    var r := ApplyPatch(t, RowPatch(row));
    EnumNamesRoundTrip(r.status, r.kind);
  }

  /**
   * A status change the page sends is stored as the page shows it, and it
   * never trips the server's missing-reason warning.
   */
  lemma ChangeStatusIsStored(tasks: map<Id, Task>, v: TaskView, status: TaskStatus, answer: Option<string>)
    requires v.id in tasks
    requires ChangeStatus(v, status, answer).Some?
    ensures var shown := ChangeStatus(v, status, answer).value;
            UpdateTask(tasks, v.id, RowPatch(shown.row)) == Ok(Updated(tasks[v.id := shown.row], false))
  {
    var shown := ChangeStatus(v, status, answer).value;
    RowPatchStoresRow(tasks[v.id], shown.row);
    EnumNamesRoundTrip(shown.row.status, shown.row.kind);
    EnumNamesRoundTrip(Missed, PlainTask);
    assert !MissedWithoutReason(RowPatch(shown.row));
  }

  /** Filtering a list without repeated ids keeps it without repeated ids. */
  lemma {:induction false} FilterKeepsDistinct(list: seq<TaskView>, p: TaskView -> bool)
    requires DistinctIds(list)
    ensures DistinctIds(Filter(list, p))
    decreases |list|
  {
    if list != [] {
      DistinctTail(list);
      var rest := Filter(list[1..], p);
      FilterKeepsDistinct(list[1..], p);
      if p(list[0]) {
        var r := [list[0]] + rest;
        forall i, j | 0 <= i < j < |r| ensures r[i].id != r[j].id {
          if i == 0 {
            assert r[j] == rest[j - 1] && r[j] in list[1..];
          } else {
            assert r[i] == rest[i - 1] && r[j] == rest[j - 1];
          }
        }
      }
    }
  }

  /** Every task the filtered list shows is a row the store keeps after the delete, as stored. */
  lemma RemoveTaskShowsKeptRows(list: seq<TaskView>, tasks: map<Id, Task>, id: Id)
    requires Mirrors(list, tasks) && id in tasks
    ensures var shown := RemoveTask(list, id);
            forall i :: 0 <= i < |shown| ==> shown[i].id in tasks - {id} && shown[i].row == tasks[shown[i].id]
  {
    var shown := RemoveTask(list, id);
    forall i | 0 <= i < |shown| ensures shown[i].id in tasks - {id} && shown[i].row == tasks[shown[i].id] {
      assert shown[i] in list;
      var j :| 0 <= j < |list| && list[j] == shown[i];
    }
  }

  /** Every row the store keeps after the delete is shown by the filtered list. */
  lemma RemoveTaskShowsEveryKeptRow(list: seq<TaskView>, tasks: map<Id, Task>, id: Id)
    requires Mirrors(list, tasks) && id in tasks
    ensures var shown := RemoveTask(list, id);
            forall k :: k in tasks - {id} ==> exists i :: 0 <= i < |shown| && shown[i].id == k
  {
    var shown := RemoveTask(list, id);
    forall k | k in tasks - {id} ensures exists i :: 0 <= i < |shown| && shown[i].id == k {
      var j :| 0 <= j < |list| && list[j].id == k;
      assert list[j] in shown;
      var i :| 0 <= i < |shown| && shown[i] == list[j];
    }
  }

  /**
   * The list page's delete agrees with the server's: once the row is
   * destroyed, the filtered list shows the store exactly, so the pending
   * count the page re-broadcasts is the server's.
   */
  lemma RemoveTaskMirrorsDelete(list: seq<TaskView>, tasks: map<Id, Task>, id: Id)
    requires Mirrors(list, tasks) && id in tasks
    ensures Destroy(tasks, id).Ok?
    ensures Mirrors(RemoveTask(list, id), Destroy(tasks, id).value)
    ensures UiPendingCount(RemoveTask(list, id)) == PendingCount(Destroy(tasks, id).value)
  {
    var after := Destroy(tasks, id).value;
    assert after == tasks - {id};
    var shown := RemoveTask(list, id);
    FilterKeepsDistinct(list, (v: TaskView) => v.id != id);
    RemoveTaskShowsKeptRows(list, tasks, id);
    RemoveTaskShowsEveryKeptRow(list, tasks, id);
    assert Mirrors(shown, after);
    UiPendingCountMatchesServer(shown, after);
  }

  // ---------------------------------------------------------------------
  // Search and the description cap
  // ---------------------------------------------------------------------

  /** Lower-cased name of the entry with that id, or '' when there is none. */
  function NameOf(names: map<Id, string>, id: Option<Id>): string {
    if id.Some? && id.value in names then Lower(names[id.value]) else ""
  }

  predicate TaskMatches(v: TaskView, q: string, technicianNames: map<Id, string>, clientNames: map<Id, string>) {
    var needle := Lower(q);
    Contains(Lower(v.row.description), needle)
    || Contains(NameOf(technicianNames, Some(v.row.technicianId)), needle)
    || Contains(NameOf(clientNames, v.row.clientId), needle)
  }

  /** handleSearch: tasks whose description, technician or client name contains the query. */
  function SearchTasks(list: seq<TaskView>, q: string,
                       technicianNames: map<Id, string>, clientNames: map<Id, string>): (r: seq<TaskView>)
    ensures forall v :: v in r <==> v in list && TaskMatches(v, q, technicianNames, clientNames)
  {
    Filter(list, (v: TaskView) => TaskMatches(v, q, technicianNames, clientNames))
  }

  /** An empty query keeps every task. */
  lemma SearchEmptyKeepsAll(list: seq<TaskView>, technicianNames: map<Id, string>, clientNames: map<Id, string>)
    ensures SearchTasks(list, "", technicianNames, clientNames) == list
  {
    forall v | v in list
      ensures TaskMatches(v, "", technicianNames, clientNames)
    {
      ContainsTrivia(Lower(v.row.description));
    }
    FilterKeepsAll(list, (v: TaskView) => TaskMatches(v, "", technicianNames, clientNames));
  }

  /** Matching ignores the case of ASCII letters in the query. */
  lemma SearchIgnoresQueryCase(v: TaskView, q: string, technicianNames: map<Id, string>, clientNames: map<Id, string>)
    ensures TaskMatches(v, q, technicianNames, clientNames) == TaskMatches(v, Lower(q), technicianNames, clientNames)
  {
    LowerIdempotent(q);
  }

  const MaxDescriptionLength: nat := 255

  /** The description field accepts at most 255 characters of what is typed. */
  function CapDescription(typed: string): (r: string)
    ensures |r| <= MaxDescriptionLength
    ensures StartsWith(typed, r)
    ensures |typed| <= MaxDescriptionLength ==> r == typed
  {
    if |typed| <= MaxDescriptionLength then typed else typed[..MaxDescriptionLength]
  }

  // ---------------------------------------------------------------------
  // Calendar
  // ---------------------------------------------------------------------

  /** getStatusColor. */
  function StatusColor(s: TaskStatus): (c: string)
    ensures s == Missed <==> c == "red"
    ensures s == InProgress <==> c == "blue"
    ensures s == Completed <==> c == "green"
    ensures s == Upcoming <==> c == "gray"
  {
    match s
    case Missed => "red"
    case InProgress => "blue"
    case Completed => "green"
    case Upcoming => "gray"
  }

  datatype CalendarEvent = CalendarEvent(id: Id, title: string, start: int, background: string, border: string)

  /** One event per task: id, description as title, due date as start, status colour. */
  function ToEvents(list: seq<TaskView>): (r: seq<CalendarEvent>)
    ensures |r| == |list|
    ensures forall i :: 0 <= i < |list| ==>
      r[i] == CalendarEvent(list[i].id, list[i].row.description, list[i].row.dueDate,
                            StatusColor(list[i].row.status), StatusColor(list[i].row.status))
  {
    seq(|list|, i requires 0 <= i < |list| =>
      CalendarEvent(list[i].id, list[i].row.description, list[i].row.dueDate,
                    StatusColor(list[i].row.status), StatusColor(list[i].row.status)))
  }

  /** handleEventClick: the first task with the event's id; nothing when there is none. */
  function ClickEvent(list: seq<TaskView>, eventId: Id): (r: Option<TaskView>)
    ensures r.None? <==> forall i :: 0 <= i < |list| ==> list[i].id != eventId
    ensures r.Some? ==> r.value in list && r.value.id == eventId
  {
    Find(list, (v: TaskView) => v.id == eventId)
  }

  /** Clicking the event of a task on a list without repeated ids opens that task. */
  lemma ClickOpensItsTask(list: seq<TaskView>, i: nat)
    requires i < |list| && DistinctIds(list)
    ensures ClickEvent(list, ToEvents(list)[i].id) == Some(list[i])
  {
    var r := ClickEvent(list, list[i].id);
    var j :| 0 <= j < |list| && list[j] == r.value;
  }

  /** The calendar's toggle: nothing happens without a selected task. */
  function CalendarToggle(selected: Option<TaskView>, index: nat): (r: Option<TaskView>)
    requires selected.Some? ==> index < |selected.value.subtasks|
    ensures selected.None? ==> r.None?
    ensures selected.Some? ==> r == Some(ToggleSubtask(selected.value, index))
  {
    if selected.None? then None else Some(ToggleSubtask(selected.value, index))
  }

  /** Toggling the same subtask again changes nothing more. */
  lemma CalendarToggleIdempotent(selected: Option<TaskView>, index: nat)
    requires selected.Some? ==> index < |selected.value.subtasks|
    ensures var once := CalendarToggle(selected, index);
            CalendarToggle(once, index) == once
  {
    if selected.Some? {
      var once := ToggleSubtask(selected.value, index);
      var twice := ToggleSubtask(once, index);
      assert twice.subtasks == once.subtasks;
    }
  }

  /** The calendar's delete: without a selected task no request is sent and the store is unchanged. */
  function CalendarDelete(tasks: map<Id, Task>, selected: Option<TaskView>): (r: Result<map<Id, Task>>)
    ensures selected.None? ==> r == Ok(tasks)
    ensures selected.Some? ==> r == Destroy(tasks, selected.value.id)
  {
    if selected.None? then Ok(tasks) else Destroy(tasks, selected.value.id)
  }

  /**
   * Deleting the selected task from the calendar does to the store what
   * the list page's delete does to its list, and its event is gone.
   */
  lemma CalendarDeleteAgreesWithListPage(list: seq<TaskView>, tasks: map<Id, Task>, i: nat)
    requires Mirrors(list, tasks) && i < |list|
    ensures CalendarDelete(tasks, Some(list[i])).Ok?
    ensures Mirrors(RemoveTask(list, list[i].id), CalendarDelete(tasks, Some(list[i])).value)
    ensures ClickEvent(RemoveTask(list, list[i].id), list[i].id).None?
  {
    RemoveTaskMirrorsDelete(list, tasks, list[i].id);
    var shown := RemoveTask(list, list[i].id);
    forall j | 0 <= j < |shown| ensures shown[j].id != list[i].id {
      assert shown[j] in shown;
    }
  }
}

=== FILE: tasks.dfy ===
/**
 * The Task record, its creation hook, and the task request handlers
 * (create, list with the overdue-service rule, update, delete).
 *
 * Time is integer milliseconds. Sending mail is an outcome oracle: the
 * boolean `mailOk` says whether the transport accepted the message.
 */
module Tasks {
  import opened Tables

  datatype TaskStatus = Upcoming | InProgress | Completed | Missed
  datatype TaskKind = PlainTask | Service

  /** Enum value as stored in the database. */
  function StatusName(s: TaskStatus): string {
    match s
    case Upcoming => "upcoming"
    case InProgress => "in_progress"
    case Completed => "completed"
    case Missed => "missed"
  }

  function KindName(k: TaskKind): string {
    match k
    case PlainTask => "task"
    case Service => "service"
  }

  /** Enum validation of a submitted status: exactly the four names are accepted. */
  function ParseStatus(s: string): (r: Option<TaskStatus>)
    ensures r.Some? ==> StatusName(r.value) == s
    ensures r.None? <==> s !in {"upcoming", "in_progress", "completed", "missed"}
  {
    if s == "upcoming" then Some(Upcoming)
    else if s == "in_progress" then Some(InProgress)
    else if s == "completed" then Some(Completed)
    else if s == "missed" then Some(Missed)
    else None
  }

  /** Enum validation of a submitted type: exactly 'task' and 'service' are accepted. */
  function ParseKind(s: string): (r: Option<TaskKind>)
    ensures r.Some? ==> KindName(r.value) == s
    ensures r.None? <==> s !in {"task", "service"}
  {
    if s == "task" then Some(PlainTask)
    else if s == "service" then Some(Service)
    else None
  }

  /** Every stored enum value parses back to itself. */
  lemma EnumNamesRoundTrip(s: TaskStatus, k: TaskKind)
    ensures ParseStatus(StatusName(s)) == Some(s)
    ensures ParseKind(KindName(k)) == Some(k)
  {
  }

  /**
   * A Task row. `description`, `dueDate`, `technicianId`, `kind`, `status`
   * and `emailSent` are NOT NULL; `clientId` and `reason` are nullable.
   */
  datatype Task = Task(
    description: string,
    dueDate: int,
    clientId: Option<Id>,
    technicianId: Id,
    kind: TaskKind,
    status: TaskStatus,
    reason: Option<string>,
    emailSent: bool)

  datatype Technician = Technician(name: string, email: Option<string>)

  /** The technician exists and has a non-empty e-mail address. */
  predicate HasMail(technicians: map<Id, Technician>, tid: Id) {
    tid in technicians && technicians[tid].email.Some? && technicians[tid].email.value != ""
  }

  predicate IsTerminal(s: TaskStatus) {
    s == Completed || s == Missed
  }

  /** The backend's notion of an outstanding task: status not in {completed, missed}. */
  predicate IsPending(t: Task) {
    !IsTerminal(t.status)
  }

  /** `Task.count({ where: { status: { notIn: ['completed', 'missed'] } } })`. */
  function PendingCount(tasks: map<Id, Task>): (n: nat)
    ensures n <= |tasks|
    ensures n == |set k | k in tasks && IsPending(tasks[k])|
  {
    var r := Where(tasks, IsPending);
    assert r.Keys == set k | k in tasks && IsPending(tasks[k]);
    CountWhere(tasks, IsPending)
  }

  /** Two stores that agree on ids and statuses have the same pending count. */
  lemma PendingCountByStatus(a: map<Id, Task>, b: map<Id, Task>)
    requires a.Keys == b.Keys
    requires forall k :: k in a ==> a[k].status == b[k].status
    ensures PendingCount(a) == PendingCount(b)
  {
    assert (set k | k in a && IsPending(a[k])) == (set k | k in b && IsPending(b[k]));
  }

  /**
   * The afterCreate hook: the creation mail goes out when the technician
   * exists and has an address; only a successful send sets `emailSent`.
   * Every failure is swallowed and the row is kept as created.
   */
  function AfterCreate(t: Task, technicians: map<Id, Technician>, mailOk: bool): (r: Task)
    ensures r == t.(emailSent := r.emailSent)
    ensures r.emailSent <==> t.emailSent || (HasMail(technicians, t.technicianId) && mailOk)
  {
    if !HasMail(technicians, t.technicianId) then t
    else if mailOk then t.(emailSent := true)
    else t
  }

  /** Body of POST /api/tasks; absent keys are `None`. */
  datatype TaskInput = TaskInput(
    description: Option<string>,
    dueDate: Option<int>,
    clientId: Option<Id>,
    technicianId: Option<Id>,
    kind: Option<string>,
    status: Option<string>,
    reason: Option<string>,
    emailSent: Option<bool>)

  /** The submitted type and status after defaulting and enum validation. */
  function InputKind(input: TaskInput): Option<TaskKind> {
    if input.kind.None? then Some(PlainTask) else ParseKind(input.kind.value)
  }

  function InputStatus(input: TaskInput): Option<TaskStatus> {
    if input.status.None? then Some(Upcoming) else ParseStatus(input.status.value)
  }

  /** The body passes model validation: required fields present, enum values known. */
  predicate InputValid(input: TaskInput) {
    input.description.Some? && input.dueDate.Some? && input.technicianId.Some?
    && InputKind(input).Some? && InputStatus(input).Some?
  }

  /**
   * POST /api/tasks. A plain task may not name a client (400). Otherwise the
   * row is built from the body, with every further key (status, reason,
   * emailSent) passed through, defaults applied, and the creation hook run.
   * A validation failure of the insert is answered with 500.
   */
  function CreateTask(tasks: map<Id, Task>, technicians: map<Id, Technician>,
                      input: TaskInput, newId: Id, mailOk: bool): (r: Result<map<Id, Task>>)
    requires newId !in tasks
    ensures input.kind == Some("task") && input.clientId.Some? ==> r == Err(400)
    ensures !(input.kind == Some("task") && input.clientId.Some?) && !InputValid(input) ==> r == Err(500)
    ensures r.Ok? <==> !(input.kind == Some("task") && input.clientId.Some?) && InputValid(input)
    ensures r.Ok? ==> r.value.Keys == tasks.Keys + {newId}
    ensures r.Ok? ==> forall k :: k in tasks ==> r.value[k] == tasks[k]
    ensures r.Ok? ==>
      var t := r.value[newId];
      && t.description == input.description.value
      && t.dueDate == input.dueDate.value
      && t.technicianId == input.technicianId.value
      && t.clientId == input.clientId
      && t.reason == input.reason
      && KindName(t.kind) == input.kind.GetOr("task")
      && StatusName(t.status) == input.status.GetOr("upcoming")
      && (t.emailSent <==> input.emailSent == Some(true)
                           || (HasMail(technicians, t.technicianId) && mailOk))
  {
    if input.kind == Some("task") && input.clientId.Some? then Err(400)
    else if !InputValid(input) then Err(500)
    else
      var row := Task(
        input.description.value,
        input.dueDate.value,
        if input.kind == Some("task") then None else input.clientId,
        input.technicianId.value,
        InputKind(input).value,
        InputStatus(input).value,
        input.reason,
        input.emailSent.GetOr(false));
      Ok(tasks[newId := AfterCreate(row, technicians, mailOk)])
  }

  /** A body naming only the required fields yields an upcoming plain task. */
  lemma CreateDefaults(tasks: map<Id, Task>, technicians: map<Id, Technician>,
                       description: string, dueDate: int, tid: Id, newId: Id, mailOk: bool)
    requires newId !in tasks
    ensures
      var r := CreateTask(tasks, technicians,
        TaskInput(Some(description), Some(dueDate), None, Some(tid), None, None, None, None), newId, mailOk);
      && r.Ok?
      && r.value[newId].kind == PlainTask
      && r.value[newId].status == Upcoming
      && r.value[newId].clientId == None
      && r.value[newId].reason == None
      && (r.value[newId].emailSent <==> HasMail(technicians, tid) && mailOk)
  {
  }

  /**
   * The list-time rule: a service whose due date has passed and which is not
   * completed is marked missed. Plain tasks are never touched.
   */
  function AutoMiss(t: Task, now: int): (r: Task)
    ensures r == t.(status := r.status)
    ensures r.status == (if t.kind == Service && t.dueDate < now && t.status != Completed
                         then Missed else t.status)
  {
    if t.kind == Service && t.dueDate < now && t.status != Completed then t.(status := Missed) else t
  }

  /** At a fixed time the rule is idempotent and never leaves completed or missed. */
  lemma AutoMissStable(t: Task, now: int)
    ensures AutoMiss(AutoMiss(t, now), now) == AutoMiss(t, now)
    ensures IsTerminal(t.status) ==> AutoMiss(t, now).status == t.status
    ensures t.kind == PlainTask ==> AutoMiss(t, now) == t
  {
  }

  /** The rows GET /api/tasks selects: all, or those of the given technician. */
  predicate Selected(t: Task, technicianId: Option<Id>) {
    technicianId.None? || t.technicianId == technicianId.value
  }

  datatype Listing = Listing(tasks: map<Id, Task>, listed: map<Id, Task>)

  /**
   * GET /api/tasks: the selected rows, each passed through the overdue-service
   * rule and written back; rows outside the selection are not touched.
   */
  function ListTasks(tasks: map<Id, Task>, technicianId: Option<Id>, now: int): (r: Listing)
    ensures forall k :: k in r.listed <==> k in tasks && Selected(tasks[k], technicianId)
    ensures forall k :: k in r.listed ==> r.listed[k] == AutoMiss(tasks[k], now)
    ensures r.tasks.Keys == tasks.Keys
    ensures forall k :: k in tasks && !Selected(tasks[k], technicianId) ==> r.tasks[k] == tasks[k]
    ensures forall k :: k in r.listed ==> r.tasks[k] == r.listed[k]
  {
    var listed := map k | k in tasks && Selected(tasks[k], technicianId) :: AutoMiss(tasks[k], now);
    Listing(map k | k in tasks :: if k in listed then listed[k] else tasks[k], listed)
  }

  /** Listing twice at the same time changes nothing further. */
  lemma {:induction false} ListTasksIdempotent(tasks: map<Id, Task>, technicianId: Option<Id>, now: int)
    ensures
      var once := ListTasks(tasks, technicianId, now);
      ListTasks(once.tasks, technicianId, now) == once
  {
    var once := ListTasks(tasks, technicianId, now);
    var twice := ListTasks(once.tasks, technicianId, now);
    forall k | k in tasks
      ensures Selected(once.tasks[k], technicianId) == Selected(tasks[k], technicianId)
      ensures twice.tasks[k] == once.tasks[k]
    {
      if Selected(tasks[k], technicianId) {
        AutoMissStable(tasks[k], now);
      }
    }
    assert twice.listed == once.listed;
    assert twice.tasks == once.tasks;
  }

  /**
   * Body of PUT /api/tasks/:id. Keys that are absent are `None`; for the
   * nullable columns `Some(None)` is an explicit null.
   */
  datatype TaskPatch = TaskPatch(
    description: Option<string>,
    dueDate: Option<int>,
    clientId: Option<Option<Id>>,
    technicianId: Option<Id>,
    kind: Option<string>,
    status: Option<string>,
    reason: Option<Option<string>>,
    emailSent: Option<bool>)

  /** Enum validation of the patch. */
  predicate PatchValid(p: TaskPatch) {
    (p.kind.None? || ParseKind(p.kind.value).Some?)
    && (p.status.None? || ParseStatus(p.status.value).Some?)
  }

  /** Instance `update`: every supplied key is written, every absent key kept. */
  function ApplyPatch(t: Task, p: TaskPatch): (r: Task)
    requires PatchValid(p)
    ensures r.description == p.description.GetOr(t.description)
    ensures r.dueDate == p.dueDate.GetOr(t.dueDate)
    ensures r.clientId == p.clientId.GetOr(t.clientId)
    ensures r.technicianId == p.technicianId.GetOr(t.technicianId)
    ensures p.kind.Some? ==> KindName(r.kind) == p.kind.value
    ensures p.kind.None? ==> r.kind == t.kind
    ensures p.status.Some? ==> StatusName(r.status) == p.status.value
    ensures p.status.None? ==> r.status == t.status
    ensures r.reason == p.reason.GetOr(t.reason)
    ensures r.emailSent == p.emailSent.GetOr(t.emailSent)
  {
    Task(
      p.description.GetOr(t.description),
      p.dueDate.GetOr(t.dueDate),
      p.clientId.GetOr(t.clientId),
      p.technicianId.GetOr(t.technicianId),
      if p.kind.Some? then ParseKind(p.kind.value).value else t.kind,
      if p.status.Some? then ParseStatus(p.status.value).value else t.status,
      p.reason.GetOr(t.reason),
      p.emailSent.GetOr(t.emailSent))
  }

  /** The handler's log-only warning: status 'missed' with a falsy reason. */
  predicate MissedWithoutReason(p: TaskPatch) {
    p.status == Some("missed") && (p.reason.None? || p.reason.value.None? || p.reason.value.value == "")
  }

  datatype Updated = Updated(tasks: map<Id, Task>, warned: bool)

  /**
   * PUT /api/tasks/:id: 404 for an unknown id; otherwise the body is applied
   * unconditionally (no transition guard, no compare-and-swap), an invalid
   * enum value failing with 400. A missing reason for 'missed' only warns.
   */
  function UpdateTask(tasks: map<Id, Task>, id: Id, p: TaskPatch): (r: Result<Updated>)
    ensures id !in tasks ==> r == Err(404)
    ensures id in tasks && !PatchValid(p) ==> r == Err(400)
    ensures r.Ok? <==> id in tasks && PatchValid(p)
    ensures r.Ok? ==> r.value.tasks == tasks[id := ApplyPatch(tasks[id], p)]
    ensures r.Ok? ==> (r.value.warned <==> MissedWithoutReason(p))
  {
    if id !in tasks then Err(404)
    else if !PatchValid(p) then Err(400)
    else Ok(Updated(tasks[id := ApplyPatch(tasks[id], p)], MissedWithoutReason(p)))
  }

  /** The status-only body used by the pages. */
  function StatusPatch(s: TaskStatus): TaskPatch {
    TaskPatch(None, None, None, None, None, Some(StatusName(s)), None, None)
  }

  /** There is no transition guard: any stored task can be moved to any status. */
  lemma UpdateAnyTransition(tasks: map<Id, Task>, id: Id, target: TaskStatus)
    requires id in tasks
    ensures
      var r := UpdateTask(tasks, id, StatusPatch(target));
      r.Ok? && r.value.tasks[id] == tasks[id].(status := target)
  {
    EnumNamesRoundTrip(target, PlainTask);
  }

  /** Editing the due date without naming emailSent keeps the flag, even when it is set. */
  lemma RescheduleKeepsEmailSent(tasks: map<Id, Task>, id: Id, p: TaskPatch)
    requires id in tasks && PatchValid(p) && p.emailSent.None?
    ensures UpdateTask(tasks, id, p).Ok?
    ensures UpdateTask(tasks, id, p).value.tasks[id].emailSent == tasks[id].emailSent
  {
  }
}

=== FILE: text.dfy ===
/**
 * The JavaScript string operations the application relies on: `trim`,
 * `toLowerCase`, `includes`, `startsWith`, `split` on one character and
 * `join`. A string is a sequence of Unicode scalar values; JavaScript counts
 * UTF-16 code units instead, which differ only for characters outside the
 * Basic Multilingual Plane.
 */
module Text {
  import opened Tables

  /** ECMAScript WhiteSpace and LineTerminator code points, which `trim` strips. */
  predicate IsSpace(c: char) {
    c == ' ' || ('\t' <= c <= '\r') || c == '\U{00A0}' || c == '\U{1680}'
    || ('\U{2000}' <= c <= '\U{200A}') || c == '\U{2028}' || c == '\U{2029}'
    || c == '\U{202F}' || c == '\U{205F}' || c == '\U{3000}' || c == '\U{FEFF}'
  }

  /** Every character is white space (the empty string included). */
  predicate Blank(s: string) {
    forall i :: 0 <= i < |s| ==> IsSpace(s[i])
  }

  /** `trimStart`: the longest suffix that does not start with white space. */
  function TrimStart(s: string): (r: string)
    ensures |r| <= |s| && r == s[|s| - |r|..]
    ensures r == [] || !IsSpace(r[0])
    decreases |s|
  {
    if |s| > 0 && IsSpace(s[0]) then TrimStart(s[1..]) else s
  }

  /** What `trimStart` removes is white space. */
  lemma {:induction false} TrimStartDropsBlank(s: string)
    ensures Blank(s[..|s| - |TrimStart(s)|])
    decreases |s|
  {
    if |s| > 0 && IsSpace(s[0]) {
      TrimStartDropsBlank(s[1..]);
      assert TrimStart(s) == TrimStart(s[1..]);
      var k := |s| - |TrimStart(s)|;
      var rest := s[1..][..k - 1];
      forall i | 0 <= i < k
        ensures IsSpace(s[..k][i])
      {
        if i > 0 {
          assert s[..k][i] == rest[i - 1];
        }
      }
    }
  }

  /** `trimEnd`: the longest prefix that does not end with white space. */
  function TrimEnd(s: string): (r: string)
    ensures |r| <= |s| && r == s[..|r|]
    ensures r == [] || !IsSpace(r[|r| - 1])
    decreases |s|
  {
    if |s| > 0 && IsSpace(s[|s| - 1]) then TrimEnd(s[..|s| - 1]) else s
  }

  /** What `trimEnd` removes is white space. */
  lemma {:induction false} TrimEndDropsBlank(s: string)
    ensures Blank(s[|TrimEnd(s)|..])
    decreases |s|
  {
    if |s| > 0 && IsSpace(s[|s| - 1]) {
      TrimEndDropsBlank(s[..|s| - 1]);
      var k := |TrimEnd(s)|;
      assert forall i :: k <= i < |s| - 1 ==> s[i] == s[..|s| - 1][k..][i - k];
    }
  }

  /** `trim`: white space removed from both ends. */
  function Trim(s: string): string {
    TrimEnd(TrimStart(s))
  }

  /** Trimming removes only white space: any other character is in the trimmed text iff it is in the text. */
  lemma TrimKeepsNonSpace(s: string, c: char)
    requires !IsSpace(c)
    ensures c in Trim(s) <==> c in s
  {
    if c in s {
      var i :| 0 <= i < |s| && s[i] == c;
      TrimKeepsAt(s, i);
    }
    if c in Trim(s) {
      TrimAddsNothing(s, c);
    }
  }

  /** A character of the text that is not white space survives trimming, shifted by what `trimStart` cut. */
  lemma TrimKeepsAt(s: string, i: nat)
    requires i < |s| && !IsSpace(s[i])
    ensures var j := i - (|s| - |TrimStart(s)|);
            0 <= j < |Trim(s)| && Trim(s)[j] == s[i]
  {
    var t := TrimStart(s);
    TrimStartKeeps(s, i);
    var j := i - (|s| - |t|);
    assert t[j] == s[i];
    TrimEndKeeps(t, j);
  }

  /** Every character of the trimmed text comes from the text. */
  lemma TrimAddsNothing(s: string, c: char)
    requires c in Trim(s)
    ensures c in s
  {
    var t := TrimStart(s);
    var r := TrimEnd(t);
    var j :| 0 <= j < |r| && r[j] == c;
    assert t[j] == c;
    assert s[|s| - |t| + j] == c;
  }

  /** A character that is not white space is never cut by `trimStart`. */
  lemma TrimStartKeeps(s: string, i: nat)
    requires i < |s| && !IsSpace(s[i])
    ensures i >= |s| - |TrimStart(s)|
  {
    var a := |s| - |TrimStart(s)|;
    TrimStartDropsBlank(s);
    forall k | 0 <= k < a ensures IsSpace(s[k]) {
      assert s[..a][k] == s[k];
    }
  }

  /** A character that is not white space is never cut by `trimEnd`. */
  lemma TrimEndKeeps(t: string, i: nat)
    requires i < |t| && !IsSpace(t[i])
    ensures i < |TrimEnd(t)|
  {
    var b := |TrimEnd(t)|;
    TrimEndDropsBlank(t);
    forall k | b <= k < |t| ensures IsSpace(t[k]) {
      assert t[b..][k - b] == t[k];
    }
  }

  /** `s.trim() === ''` holds exactly for blank strings. */
  lemma TrimEmptyIffBlank(s: string)
    ensures Trim(s) == [] <==> Blank(s)
  {
    var t := TrimStart(s);
    TrimStartDropsBlank(s);
    if !Blank(s) {
      var i :| 0 <= i < |s| && !IsSpace(s[i]);
      assert i >= |s| - |t|;
      assert t[0] == s[|s| - |t|];
      TrimEndDropsBlank(t);
    }
  }

  /** Non-empty, with no white space at either end. */
  predicate EdgeClean(s: string) {
    |s| >= 1 && !IsSpace(s[0]) && !IsSpace(s[|s| - 1])
  }

  /** A string with no white space at either end is its own trim, also after one leading space. */
  lemma TrimClean(s: string)
    requires EdgeClean(s)
    ensures Trim(s) == s && Trim(" " + s) == s
  {
    assert (" " + s)[1..] == s;
    assert TrimStart(" " + s) == TrimStart(s) == s;
  }

  /** A clean string, alone or after one space, trims to itself. */
  lemma TrimPiece(piece: string, s: string, first: bool)
    requires EdgeClean(s)
    requires piece == if first then s else " " + s
    ensures Trim(piece) == s
  {
    TrimClean(s);
  }

  /** The first piece as it is, every later piece after one space: the pieces of a ", "-joined text. */
  function Padded(xs: seq<string>): (r: seq<string>)
    requires |xs| >= 1
    ensures |r| == |xs|
  {
    [xs[0]] + Spaced(xs[1..])
  }

  lemma PaddedAt(xs: seq<string>, i: nat)
    requires i < |xs|
    ensures Padded(xs)[i] == if i == 0 then xs[0] else " " + xs[i]
  {
    if i > 0 {
      SpacedAt(xs[1..], i - 1);
    }
  }

  /** One padded piece of clean strings trims to the string. */
  lemma TrimPaddedAt(xs: seq<string>, i: nat)
    requires i < |xs| && EdgeClean(xs[i])
    ensures Trim(Padded(xs)[i]) == xs[i]
  {
    PaddedAt(xs, i);
    TrimPiece(Padded(xs)[i], xs[i], i == 0);
  }

  /** Trimming the padded pieces of clean strings gives the strings back. */
  lemma TrimPaddedClean(xs: seq<string>)
    requires |xs| >= 1
    requires forall i :: 0 <= i < |xs| ==> EdgeClean(xs[i])
    ensures TrimAll(Padded(xs)) == xs
  {
    var padded := Padded(xs);
    forall i | 0 <= i < |xs| ensures Trim(padded[i]) == xs[i] {
      TrimPaddedAt(xs, i);
    }
    MapSeqPointwise(padded, xs, Trim);
  }

  /**
   * The capital letters whose lower-case form is one character, in Basic Latin,
   * Latin-1 Supplement and Latin Extended-A (U+0000..U+017F), the blocks that
   * hold the Czech alphabet. U+0130 (capital I with dot above) is not one of
   * them: its lower-case form is two characters.
   */
  predicate IsUpper(c: char) {
    ('A' <= c <= 'Z')
    || ('\U{00C0}' <= c <= '\U{00DE}' && c != '\U{00D7}')
    || (('\U{0100}' <= c <= '\U{012F}' || '\U{0132}' <= c <= '\U{0137}' || '\U{014A}' <= c <= '\U{0177}')
        && (c as int) % 2 == 0)
    || (('\U{0139}' <= c <= '\U{0148}' || '\U{0179}' <= c <= '\U{017E}') && (c as int) % 2 == 1)
    || c == '\U{0178}'
  }

  /**
   * The Unicode lower-case mapping of one character, on U+0000..U+017F: a
   * capital letter becomes its small letter (32 code points up in ASCII and
   * Latin-1, the next code point in Latin Extended-A, and Y with diaeresis
   * becomes U+00FF); every other character is kept.
   */
  function LowerChar(c: char): (r: char)
    ensures 'A' <= c <= 'Z' ==> 'a' <= r <= 'z'
    ensures IsUpper(c) ==> r != c && !IsUpper(r)
    ensures !IsUpper(c) ==> r == c
    ensures r as int < 128 <==> c as int < 128
  {
    if 'A' <= c <= 'Z' || ('\U{00C0}' <= c <= '\U{00DE}' && c != '\U{00D7}') then (c as int + 32) as char
    else if c == '\U{0178}' then '\U{00FF}'
    else if IsUpper(c) then (c as int + 1) as char
    else c
  }

  /** `toLowerCase`, character by character. */
  function Lower(s: string): (r: string)
    ensures |r| == |s|
    ensures forall i :: 0 <= i < |s| ==> r[i] == LowerChar(s[i])
  {
    seq(|s|, i requires 0 <= i < |s| => LowerChar(s[i]))
  }

  /** Lowering is idempotent: searching lower-cased text lower-cased again changes nothing. */
  lemma LowerIdempotent(s: string)
    ensures Lower(Lower(s)) == Lower(s)
  {
  }

  /** Capital and small Czech letters meet under lowering: `"Černý"` lowers to `"černý"`. */
  lemma LowerCzech()
    ensures Lower("\U{010C}ern\U{00FD}") == "\U{010D}ern\U{00FD}"
    ensures Lower("\U{017D}LU\U{0164}OU\U{010C}K\U{00DD}") == "\U{017E}lu\U{0165}ou\U{010D}k\U{00FD}"
  {
  }

  /** Lower-casing works character by character, so it distributes over concatenation. */
  lemma LowerAppend(a: string, b: string)
    ensures Lower(a + b) == Lower(a) + Lower(b)
  {
  }

  /** Lower-casing never produces or removes an ASCII character that is not a letter. */
  lemma LowerKeepsOther(s: string, c: char)
    requires c as int < 128 && !('A' <= c <= 'Z') && !('a' <= c <= 'z')
    ensures c in Lower(s) <==> c in s
  {
    if c in Lower(s) {
      var i :| 0 <= i < |s| && Lower(s)[i] == c;
      assert s[i] == c;
    }
    if c in s {
      var i :| 0 <= i < |s| && s[i] == c;
      assert Lower(s)[i] == c;
    }
  }

  /** `s.includes(sub)`: `sub` occurs at some position of `s`. */
  predicate Contains(s: string, sub: string) {
    exists i :: 0 <= i <= |s| - |sub| && OccursAt(s, sub, i)
  }

  /** `sub` occurs in `s` starting at position `i`. */
  predicate OccursAt(s: string, sub: string, i: int) {
    0 <= i <= |s| - |sub| && s[i..i + |sub|] == sub
  }

  /** `s.startsWith(p)`. */
  predicate StartsWith(s: string, p: string) {
    |p| <= |s| && s[..|p|] == p
  }

  /** Everything contains the empty string, and every string contains itself. */
  lemma ContainsTrivia(s: string)
    ensures Contains(s, [])
    ensures Contains(s, s)
  {
    assert OccursAt(s, [], 0);
    assert OccursAt(s, s, 0);
  }

  /** Position of the first occurrence of `c`. */
  function IndexOf(s: string, c: char): (k: nat)
    requires c in s
    ensures k < |s| && s[k] == c
    ensures c !in s[..k]
  {
    if s[0] == c then 0 else 1 + IndexOf(s[1..], c)
  }

  /**
   * `s.split(sep)` for a one-character separator: the pieces between
   * separators, empty pieces kept, so the result is never empty.
   */
  function Split(s: string, sep: char): (parts: seq<string>)
    ensures |parts| >= 1
    ensures forall i :: 0 <= i < |parts| ==> sep !in parts[i]
    decreases |s|
  {
    if sep !in s then [s]
    else
      var k := IndexOf(s, sep);
      [s[..k]] + Split(s[k + 1..], sep)
  }

  /** `parts.join(sep)`. */
  function Join(parts: seq<string>, sep: string): string
    decreases |parts|
  {
    if |parts| == 0 then []
    else if |parts| == 1 then parts[0]
    else parts[0] + sep + Join(parts[1..], sep)
  }

  /** Splitting on a character and joining with it gives back the string. */
  lemma {:induction false} JoinSplit(s: string, sep: char)
    ensures Join(Split(s, sep), [sep]) == s
    decreases |s|
  {
    if sep in s {
      var k := IndexOf(s, sep);
      var rest := Split(s[k + 1..], sep);
      JoinSplit(s[k + 1..], sep);
      assert Split(s, sep) == [s[..k]] + rest;
      assert ([s[..k]] + rest)[1..] == rest;
      assert s == s[..k] + [sep] + s[k + 1..];
    }
  }

  /** Splitting at a first separator preceded by a separator-free piece. */
  lemma SplitAt(a: string, sep: char, b: string)
    requires sep !in a
    ensures Split(a + [sep] + b, sep) == [a] + Split(b, sep)
  {
    var s := a + [sep] + b;
    assert s[..|a|] == a;
    assert s[|a|] == sep;
    IndexOfAt(s, sep, |a|);
    assert s[|a| + 1..] == b;
  }

  /** Joining separator-free pieces and splitting again gives back the pieces. */
  lemma {:induction false} SplitJoin(parts: seq<string>, sep: char)
    requires |parts| >= 1
    requires forall i :: 0 <= i < |parts| ==> sep !in parts[i]
    ensures Split(Join(parts, [sep]), sep) == parts
    decreases |parts|
  {
    if |parts| > 1 {
      var rest := parts[1..];
      assert forall i :: 0 <= i < |rest| ==> sep !in rest[i];
      SplitJoin(rest, sep);
      SplitAt(parts[0], sep, Join(rest, [sep]));
      assert parts == [parts[0]] + rest;
    }
  }

  lemma IndexOfAt(s: string, c: char, k: nat)
    requires k < |s| && s[k] == c && c !in s[..k]
    ensures c in s && IndexOf(s, c) == k
  {
    assert s[k] in s;
  }

  /** Splitting at a separator splits each side on its own. */
  lemma {:induction false} SplitConcat(a: string, sep: char, b: string)
    ensures Split(a + [sep] + b, sep) == Split(a, sep) + Split(b, sep)
    decreases |a|
  {
    if sep !in a {
      SplitAt(a, sep, b);
      assert Split(a, sep) == [a];
    } else {
      var k := IndexOf(a, sep);
      SplitConcat(a[k + 1..], sep, b);
      SplitConcatStep(a, sep, b);
    }
  }

  /** One step of `SplitConcat`: from the text after the first separator of `a` to `a` itself. */
  lemma SplitConcatStep(a: string, sep: char, b: string)
    requires sep in a
    requires var rest := a[IndexOf(a, sep) + 1..];
             Split(rest + [sep] + b, sep) == Split(rest, sep) + Split(b, sep)
    ensures Split(a + [sep] + b, sep) == Split(a, sep) + Split(b, sep)
  {
    var k := IndexOf(a, sep);
    var rest := a[k + 1..];
    var s := a + [sep] + b;
    FirstSeparatorKept(a, sep, b);
    SplitFirst(s, sep);
    SplitFirst(a, sep);
    PrependAppend(a[..k], Split(rest, sep), Split(b, sep));
  }

  /** Unfolds `Split` once at its first separator. */
  lemma SplitFirst(s: string, sep: char)
    requires sep in s
    ensures Split(s, sep) == [s[..IndexOf(s, sep)]] + Split(s[IndexOf(s, sep) + 1..], sep)
  {
  }

  lemma PrependAppend<T>(p: T, xs: seq<T>, zs: seq<T>)
    ensures [p] + (xs + zs) == ([p] + xs) + zs
  {
  }

  /** The first separator of `a` is also the first of `a + [sep] + b`. */
  lemma FirstSeparatorKept(a: string, sep: char, b: string)
    requires sep in a
    ensures var s := a + [sep] + b;
            var k := IndexOf(a, sep);
            sep in s && IndexOf(s, sep) == k && s[..k] == a[..k] && s[k + 1..] == a[k + 1..] + [sep] + b
  {
    var s := a + [sep] + b;
    var k := IndexOf(a, sep);
    assert s[..k] == a[..k];
    IndexOfAt(s, sep, k);
    assert s[k + 1..] == a[k + 1..] + [sep] + b;
  }

  /** Joining one more piece appends the separator and the piece. */
  lemma {:induction false} JoinAppend(parts: seq<string>, x: string, sep: string)
    requires |parts| >= 1
    ensures Join(parts + [x], sep) == Join(parts, sep) + sep + x
    decreases |parts|
  {
    if |parts| > 1 {
      assert (parts + [x])[1..] == parts[1..] + [x];
      JoinAppend(parts[1..], x, sep);
    }
  }

  /** `pieces.map(op => op.trim())`. */
  function TrimAll(pieces: seq<string>): seq<string> {
    MapSeq(pieces, Trim)
  }

  /** Every piece preceded by a space. */
  function Spaced(xs: seq<string>): (r: seq<string>)
    ensures |r| == |xs|
    decreases |xs|
  {
    if xs == [] then [] else [" " + xs[0]] + Spaced(xs[1..])
  }

  /** The piece at each position of `Spaced`. */
  lemma {:induction false} SpacedAt(xs: seq<string>, i: nat)
    requires i < |xs|
    ensures Spaced(xs)[i] == " " + xs[i]
    decreases i
  {
    if i > 0 {
      SpacedAt(xs[1..], i - 1);
    }
  }

  /** Prefixing the first piece prefixes the joined text. */
  lemma JoinPrefixFirst(p: string, a: string, rest: seq<string>, sep: string)
    ensures Join([p + a] + rest, sep) == p + Join([a] + rest, sep)
  {
    var xs := [p + a] + rest;
    var ys := [a] + rest;
    assert xs[1..] == rest && ys[1..] == rest;
  }

  /** Joining with ", " is joining with ',' after padding every later piece with a space. */
  lemma {:induction false} JoinCommaSpace(parts: seq<string>)
    requires |parts| >= 1
    ensures Join(parts, ", ") == Join(Padded(parts), [','])
    decreases |parts|
  {
    if |parts| >= 2 {
      var tail := parts[1..];
      JoinCommaSpace(tail);
      assert Spaced(tail) == [" " + tail[0]] + Spaced(tail[1..]);
      JoinPrefixFirst(" ", tail[0], Spaced(tail[1..]), [',']);
      assert tail[1..] == parts[2..];
      var padded := [parts[0]] + Spaced(tail);
      assert padded[1..] == Spaced(tail);
    }
  }

}

=== FILE: tickets.dfy ===
/**
 * Support tickets: creation by clients, the two listings, reading and
 * updating with the ownership rule, and the chat messages of a ticket.
 *
 * Every handler first runs the role middleware of its route; `now` is the
 * insert time that becomes `createdAt`.
 */
module Tickets {
  import opened Tables
  import opened Text
  import opened Access
  import opened Topics
  import opened Sorting
  import KnowHows
  import ClientModel

  datatype TicketStatus = Open | InProgress | Resolved | Closed

  function TicketStatusName(s: TicketStatus): string {
    match s
    case Open => "open"
    case InProgress => "in_progress"
    case Resolved => "resolved"
    case Closed => "closed"
  }

  /** Enum validation of a submitted ticket status. */
  function ParseTicketStatus(s: string): (r: Option<TicketStatus>)
    ensures r.Some? ==> TicketStatusName(r.value) == s
    ensures r.None? <==> s !in {"open", "in_progress", "resolved", "closed"}
  {
    if s == "open" then Some(Open)
    else if s == "in_progress" then Some(InProgress)
    else if s == "resolved" then Some(Resolved)
    else if s == "closed" then Some(Closed)
    else None
  }

  /** A Ticket row. `clientId` is NOT NULL; `knowHowId`, `technicianId` and `response` are nullable. */
  datatype Ticket = Ticket(
    topic: string,
    system: string,
    description: string,
    severity: int,
    status: TicketStatus,
    clientId: Id,
    knowHowId: Option<Id>,
    technicianId: Option<Id>,
    response: Option<string>,
    createdAt: int)

  /** A TicketMessage row; `sender` is checked against the column's enum. */
  datatype Message = Message(ticketId: Id, sender: string, text: string, createdAt: int)

  /** The values the `sender` column accepts. */
  const SenderEnum: set<string> := {"client", "admin", "user", "system"}

  /** The automatic message attached to a ticket created without a Know-How. */
  const NoKnowHowNotice: string := "Pro toto téma není dostupné žádné Know-How. Prosím, poskytněte podrobnější popis problému."

  datatype Desk = Desk(tickets: map<Id, Ticket>, messages: map<Id, Message>)

  /** The signed-in user: role and, for clients, the client id from the token. */
  datatype Caller = Caller(role: Role, clientId: Option<Id>)

  /** A JavaScript-truthy string: present and non-empty. */
  predicate Given(s: Option<string>) {
    s.Some? && s.value != ""
  }

  /** Body of POST /tickets. `knowHowId` is any number the client sent. */
  datatype TicketInput = TicketInput(
    topic: Option<string>,
    system: Option<string>,
    description: Option<string>,
    status: Option<string>,
    knowHowId: Option<int>)

  /** The Know-How id is truthy (present and non-zero). */
  predicate KnowHowGiven(input: TicketInput) {
    input.knowHowId.Some? && input.knowHowId.value != 0
  }

  /**
   * POST /tickets (clients only). Topic and system are required and the
   * topic must exist (400); a given Know-How id must exist (400). The
   * ticket takes the topic's severity, the caller's client id, and the
   * defaults '' for the description, 'open' for the status and null for
   * the Know-How. A bad status or a missing client id fails the insert
   * (500). Exactly when no Know-How was given, one system message is added.
   */
  function CreateTicket(desk: Desk, topics: map<Id, Topic>, knowHows: map<Id, KnowHows.KnowHow>,
                        caller: Caller, input: TicketInput, now: int, newId: Id, newMessageId: Id)
    : (r: Result<Desk>)
    requires newId !in desk.tickets && newMessageId !in desk.messages
    ensures caller.role != ClientRole ==> r == Err(403)
    ensures caller.role == ClientRole && (!Given(input.topic) || !Given(input.system)) ==> r == Err(400)
    ensures (caller.role == ClientRole && Given(input.topic) && Given(input.system)
             && TopicByName(topics, input.topic.value).None?) ==> r == Err(400)
    ensures (caller.role == ClientRole && Given(input.topic) && Given(input.system)
             && TopicByName(topics, input.topic.value).Some? && KnowHowGiven(input)
             && (input.knowHowId.value <= 0 || input.knowHowId.value as Id !in knowHows)) ==> r == Err(400)
    ensures r.Ok? || r in {Err(400), Err(403), Err(500)}
    ensures r.Ok? <==>
      && caller.role == ClientRole && Given(input.topic) && Given(input.system)
      && TopicByName(topics, input.topic.value).Some?
      && (KnowHowGiven(input) ==> input.knowHowId.value > 0 && input.knowHowId.value as Id in knowHows)
      && ParseTicketStatus(if Given(input.status) then input.status.value else "open").Some?
      && caller.clientId.Some?
      && SeverityOk(topics[TopicByName(topics, input.topic.value).value].severity)
    ensures r.Ok? ==> caller.role == ClientRole && Given(input.topic) && Given(input.system)
    ensures r.Ok? ==> r.value.tickets.Keys == desk.tickets.Keys + {newId}
    ensures r.Ok? ==> forall k :: k in desk.tickets ==> r.value.tickets[k] == desk.tickets[k]
    ensures r.Ok? ==> var t := r.value.tickets[newId];
                      t.topic == input.topic.value && t.system == input.system.value
                      && Some(t.clientId) == caller.clientId
                      && TopicByName(topics, t.topic).Some?
                      && t.severity == topics[TopicByName(topics, t.topic).value].severity
                      && t.description == (if Given(input.description) then input.description.value else "")
                      && TicketStatusName(t.status) == (if Given(input.status) then input.status.value else "open")
                      && t.createdAt == now && t.response.None? && t.technicianId.None?
    ensures r.Ok? ==> (r.value.tickets[newId].knowHowId.Some? <==> KnowHowGiven(input))
    ensures r.Ok? && KnowHowGiven(input) ==> r.value.tickets[newId].knowHowId.value == input.knowHowId.value
                                              && input.knowHowId.value in knowHows
    ensures r.Ok? ==> (if KnowHowGiven(input)
                       then r.value.messages == desk.messages
                       else r.value.messages == desk.messages[newMessageId := Message(newId, "system", NoKnowHowNotice, now)])
  {
    if caller.role != ClientRole then Err(403)
    else if !Given(input.topic) || !Given(input.system) then Err(400)
    else match TopicByName(topics, input.topic.value)
      case None => Err(400)
      case Some(tid) =>
        var linked := KnowHowGiven(input);
        if linked && (input.knowHowId.value <= 0 || input.knowHowId.value as Id !in knowHows) then Err(400)
        else
          var status := ParseTicketStatus(if Given(input.status) then input.status.value else "open");
          if status.None? || caller.clientId.None? || !SeverityOk(topics[tid].severity) then Err(500)
          else
            var t := Ticket(input.topic.value, input.system.value,
                            if Given(input.description) then input.description.value else "",
                            topics[tid].severity, status.value, caller.clientId.value,
                            if linked then Some(input.knowHowId.value as Id) else None,
                            None, None, now);
            Ok(Desk(desk.tickets[newId := t],
                    if linked then desk.messages
                    else desk.messages[newMessageId := Message(newId, "system", NoKnowHowNotice, now)]))
  }

  /** The system notice uses a sender the column accepts, so it never fails the request. */
  lemma NoticeSenderAllowed()
    ensures "system" in SenderEnum
  {
  }

  /** Read access to one ticket: staff always, a client only to their own. */
  predicate CanSee(caller: Caller, t: Ticket) {
    caller.role != ClientRole || caller.clientId == Some(t.clientId)
  }

  /** GET /tickets/:id: 404 for an unknown ticket, 403 for another client's ticket. */
  function GetTicket(desk: Desk, caller: Caller, id: Id): (r: Result<Ticket>)
    ensures caller.role == UserRole ==> r == Err(403)
    ensures caller.role != UserRole && id !in desk.tickets ==> r == Err(404)
    ensures r.Ok? <==> caller.role != UserRole && id in desk.tickets && CanSee(caller, desk.tickets[id])
    ensures r.Ok? ==> r.value == desk.tickets[id]
    ensures r.Ok? || r in {Err(403), Err(404)}
  {
    if !Includes(Everyone, caller.role) then Err(403)
    else if id !in desk.tickets then Err(404)
    else if !CanSee(caller, desk.tickets[id]) then Err(403)
    else Ok(desk.tickets[id])
  }

  /** A client can never read a ticket of another client. */
  lemma ClientsSeeOnlyOwnTickets(desk: Desk, caller: Caller, id: Id)
    requires caller.role == ClientRole && id in desk.tickets
    requires caller.clientId != Some(desk.tickets[id].clientId)
    ensures GetTicket(desk, caller, id) == Err(403)
  {
  }

  /**
   * PUT /tickets/:id. After the role and ownership checks, a truthy status
   * replaces the old one (the column rejects values outside its enum, 500)
   * and a truthy response replaces the old one; nothing else changes.
   */
  function UpdateTicket(desk: Desk, caller: Caller, id: Id, status: Option<string>, response: Option<string>)
    : (r: Result<Desk>)
    ensures r.Ok? <==> caller.role != UserRole && id in desk.tickets && CanSee(caller, desk.tickets[id])
                       && (Given(status) ==> ParseTicketStatus(status.value).Some?)
    ensures r.Ok? || r in {Err(403), Err(404), Err(500)}
    ensures r.Ok? ==> r.value.messages == desk.messages && r.value.tickets.Keys == desk.tickets.Keys
    ensures r.Ok? ==> forall k :: k in desk.tickets && k != id ==> r.value.tickets[k] == desk.tickets[k]
    ensures r.Ok? ==> var old_ := desk.tickets[id];
                      var new_ := r.value.tickets[id];
                      new_ == old_.(status := new_.status, response := new_.response)
                      && (Given(status) ==> TicketStatusName(new_.status) == status.value)
                      && (!Given(status) ==> new_.status == old_.status)
                      && new_.response == (if Given(response) then response else old_.response)
  {
    if !Includes(Everyone, caller.role) then Err(403)
    else if id !in desk.tickets then Err(404)
    else
      var t := desk.tickets[id];
      if !CanSee(caller, t) then Err(403)
      else
        var parsed := if Given(status) then ParseTicketStatus(status.value) else Some(t.status);
        if parsed.None? then Err(500)
        else
          var t' := t.(status := parsed.value, response := if Given(response) then response else t.response);
          Ok(desk.(tickets := desk.tickets[id := t']))
  }

  /** An update with neither field leaves the desk as it was. */
  lemma EmptyTicketUpdateNoChange(desk: Desk, caller: Caller, id: Id)
    requires caller.role != UserRole && id in desk.tickets && CanSee(caller, desk.tickets[id])
    ensures UpdateTicket(desk, caller, id, None, None) == Ok(desk)
  {
    assert desk.tickets[id := desk.tickets[id]] == desk.tickets;
  }

  /**
   * PUT /tickets/:id/status (staff only): a missing status is 400, checked
   * before the lookup; then 404, and a status outside the enum fails (500).
   */
  function SetTicketStatus(desk: Desk, caller: Caller, id: Id, status: Option<string>): (r: Result<Desk>)
    ensures !Includes(Staff, caller.role) ==> r == Err(403)
    ensures Includes(Staff, caller.role) && !Given(status) ==> r == Err(400)
    ensures r.Ok? <==> Includes(Staff, caller.role) && Given(status) && id in desk.tickets
                       && ParseTicketStatus(status.value).Some?
    ensures r.Ok? ==> r.value == desk.(tickets := desk.tickets[id := desk.tickets[id].(status := ParseTicketStatus(status.value).value)])
  {
    if !Includes(Staff, caller.role) then Err(403)
    else if !Given(status) then Err(400)
    else if id !in desk.tickets then Err(404)
    else match ParseTicketStatus(status.value)
      case None => Err(500)
      case Some(s) => Ok(desk.(tickets := desk.tickets[id := desk.tickets[id].(status := s)]))
  }

  /** Clients cannot use the staff status endpoint, even on their own tickets. */
  lemma ClientsCannotSetStatus(desk: Desk, caller: Caller, id: Id, status: Option<string>)
    requires caller.role == ClientRole
    ensures SetTicketStatus(desk, caller, id, status) == Err(403)
  {
  }

  /** The messages of one ticket. */
  function MessagesOf(messages: map<Id, Message>, ticketId: Id): (r: map<Id, Message>)
    ensures forall k :: k in r <==> k in messages && messages[k].ticketId == ticketId
    ensures forall k :: k in r ==> r[k] == messages[k]
  {
    Where(messages, (m: Message) => m.ticketId == ticketId)
  }

  /** GET /tickets/:id/messages: the ticket's messages, under the same access rule as reading the ticket. */
  function ListMessages(desk: Desk, caller: Caller, id: Id): (r: Result<map<Id, Message>>)
    ensures r.Ok? <==> GetTicket(desk, caller, id).Ok?
    ensures r.Err? ==> r.status == GetTicket(desk, caller, id).status
    ensures r.Ok? ==> r.value == MessagesOf(desk.messages, id)
  {
    match GetTicket(desk, caller, id)
    case Err(code) => Err(code)
    case Ok(_) => Ok(MessagesOf(desk.messages, id))
  }

  /** The chat handler's message check: present and not blank after `trim`. */
  predicate MessageGiven(message: Option<string>) {
    message.Some? && Trim(message.value) != ""
  }

  /**
   * POST /tickets/:id/messages as written: after the role check a blank
   * message is 400; then 404 and 403. The sender is 'client' for clients
   * and 'technician' for everyone else, and the insert fails (500) when the
   * sender is not in the column's enum.
   */
  function PostMessageAsWritten(desk: Desk, caller: Caller, id: Id, message: Option<string>, now: int,
                                newMessageId: Id): (r: Result<Desk>)
    requires newMessageId !in desk.messages
    ensures r.Ok? ==> caller.role == ClientRole
  {
    PostMessageWith(desk, caller, id, message, now, newMessageId, "technician")
  }

  /** Staff chat messages always fail as written: 'technician' is not a sender the column accepts. */
  lemma StaffMessagesFailAsWritten(desk: Desk, caller: Caller, id: Id, message: string, now: int,
                                   newMessageId: Id)
    requires newMessageId !in desk.messages
    requires (caller.role == Admin || caller.role == TechnicianRole) && id in desk.tickets && Trim(message) != ""
    ensures PostMessageAsWritten(desk, caller, id, Some(message), now, newMessageId) == Err(500)
  {
    assert "technician" != "client" && "technician" != "admin" && "technician" != "user" && "technician" != "system";
    assert "technician" !in SenderEnum;
    assert MessageGiven(Some(message));
    assert Includes(Everyone, caller.role) && CanSee(caller, desk.tickets[id]);
  }

  /**
   * The chat handler with the staff sender as a parameter. The result
   * holds the new message under `newMessageId`.
   */
  function PostMessageWith(desk: Desk, caller: Caller, id: Id, message: Option<string>, now: int,
                           newMessageId: Id, staffSender: string): (r: Result<Desk>)
    requires newMessageId !in desk.messages
    ensures !Includes(Everyone, caller.role) ==> r == Err(403)
    ensures Includes(Everyone, caller.role) && !MessageGiven(message) ==> r == Err(400)
    ensures r.Ok? ==> GetTicket(desk, caller, id).Ok? && MessageGiven(message)
    ensures r.Ok? ==> r.value.tickets == desk.tickets
    ensures r.Ok? ==> var sender := if caller.role == ClientRole then "client" else staffSender;
                      sender in SenderEnum
                      && r.value.messages == desk.messages[newMessageId := Message(id, sender, message.value, now)]
    ensures (GetTicket(desk, caller, id).Ok? && MessageGiven(message)
             && (if caller.role == ClientRole then "client" else staffSender) in SenderEnum) ==> r.Ok?
  {
    if !Includes(Everyone, caller.role) then Err(403)
    else if !MessageGiven(message) then Err(400)
    else if id !in desk.tickets then Err(404)
    else if !CanSee(caller, desk.tickets[id]) then Err(403)
    else
      var sender := if caller.role == ClientRole then "client" else staffSender;
      if sender !in SenderEnum then Err(500)
      else Ok(desk.(messages := desk.messages[newMessageId := Message(id, sender, message.value, now)]))
  }

  /** The staff sender the column accepts and the chat view shows as the technician side. */
  const StaffSender: string := "admin"

  /** POST /tickets/:id/messages with a staff sender the column accepts. */
  function PostMessage(desk: Desk, caller: Caller, id: Id, message: Option<string>, now: int,
                       newMessageId: Id): (r: Result<Desk>)
    requires newMessageId !in desk.messages
    ensures r.Ok? <==> GetTicket(desk, caller, id).Ok? && MessageGiven(message)
    ensures r.Ok? ==> newMessageId in r.value.messages && r.value.messages[newMessageId].sender == (if caller.role == ClientRole then "client" else StaffSender)
  {
    PostMessageWith(desk, caller, id, message, now, newMessageId, StaffSender)
  }

  /** With the corrected sender every permitted, non-blank message is stored, from staff and clients alike. */
  lemma EveryPermittedMessageIsStored(desk: Desk, caller: Caller, id: Id, message: string, now: int,
                                      newMessageId: Id)
    requires newMessageId !in desk.messages
    requires GetTicket(desk, caller, id).Ok? && Trim(message) != ""
    ensures PostMessage(desk, caller, id, Some(message), now, newMessageId).Ok?
    ensures var m := PostMessage(desk, caller, id, Some(message), now, newMessageId).value.messages[newMessageId];
            m.sender in SenderEnum && m.ticketId == id && m.text == message
  {
  }

  /**
   * The chat round trip: after a message is posted, whoever may read the
   * ticket lists exactly the earlier messages plus the new one.
   */
  lemma PostedMessageIsListed(desk: Desk, caller: Caller, reader: Caller, id: Id, message: string, now: int,
                              newMessageId: Id)
    requires newMessageId !in desk.messages
    requires PostMessage(desk, caller, id, Some(message), now, newMessageId).Ok?
    requires GetTicket(desk, reader, id).Ok?
    ensures var after := PostMessage(desk, caller, id, Some(message), now, newMessageId).value;
            var listed := ListMessages(after, reader, id);
            && listed.Ok?
            && listed.value == MessagesOf(desk.messages, id)[newMessageId := after.messages[newMessageId]]
            && listed.value[newMessageId].text == message
  {
    var after := PostMessage(desk, caller, id, Some(message), now, newMessageId).value;
    assert GetTicket(after, reader, id) == GetTicket(desk, reader, id);
    var listed := MessagesOf(after.messages, id);
    var expected := MessagesOf(desk.messages, id)[newMessageId := after.messages[newMessageId]];
    assert listed.Keys == expected.Keys;
    assert forall k :: k in listed ==> listed[k] == expected[k];
  }

  /** A listing row: the ticket and its id. */
  datatype Row = Row(id: Id, ticket: Ticket)

  /** The rows for the given ids, in that order. */
  function RowsFor(tickets: map<Id, Ticket>, ids: seq<Id>): (r: seq<Row>)
    requires forall k :: k in ids ==> k in tickets
    ensures |r| == |ids|
    ensures forall row :: row in r <==> row.id in ids && row.id in tickets && tickets[row.id] == row.ticket
    decreases |ids|
  {
    if ids == [] then []
    else
      assert forall k :: k in ids[1..] ==> k in ids;
      [Row(ids[0], tickets[ids[0]])] + RowsFor(tickets, ids[1..])
  }

  /** The rows of a table, in id order. */
  function RowsOf(tickets: map<Id, Ticket>): (r: seq<Row>)
    ensures forall row :: row in r <==> row.id in tickets && tickets[row.id] == row.ticket
    ensures |r| == |tickets|
  {
    assert |tickets.Keys| == |tickets|;
    RowsFor(tickets, SortedIds(tickets.Keys))
  }

  /** `ORDER BY severity ASC, createdAt ASC`. */
  function StaffKey(row: Row): Rank {
    Rank(row.ticket.severity, row.ticket.createdAt)
  }

  /** `ORDER BY createdAt DESC`. */
  function NewestFirst(row: Row): Rank {
    Rank(-row.ticket.createdAt, 0)
  }

  /** GET /tickets (staff only): every ticket, most severe (lowest number) first, then oldest first. */
  function StaffList(desk: Desk, caller: Caller): (r: Result<seq<Row>>)
    ensures !Includes(Staff, caller.role) <==> r == Err(403)
    ensures r.Ok? <==> Includes(Staff, caller.role)
    ensures r.Ok? ==> SortedBy(r.value, StaffKey)
    ensures r.Ok? ==> multiset(r.value) == multiset(RowsOf(desk.tickets))
    ensures r.Ok? ==> forall row :: row in r.value <==> row.id in desk.tickets && desk.tickets[row.id] == row.ticket
  {
    if !Includes(Staff, caller.role) then Err(403)
    else
      var rows := SortBy(RowsOf(desk.tickets), StaffKey);
      SortByKeepsMembers(RowsOf(desk.tickets), StaffKey);
      Ok(rows)
  }

  /** GET /tickets/my (clients only): the caller's tickets, newest first. */
  function MyTickets(desk: Desk, caller: Caller): (r: Result<seq<Row>>)
    ensures caller.role != ClientRole ==> r == Err(403)
    ensures caller.role == ClientRole && caller.clientId.None? ==> r == Err(500)
    ensures r.Ok? <==> caller.role == ClientRole && caller.clientId.Some?
    ensures r.Ok? ==> SortedBy(r.value, NewestFirst)
    ensures r.Ok? ==> forall row :: row in r.value <==>
              row.id in desk.tickets && desk.tickets[row.id] == row.ticket && caller.clientId == Some(row.ticket.clientId)
  {
    if caller.role != ClientRole then Err(403)
    else if caller.clientId.None? then Err(500)
    else
      var cid := caller.clientId.value;
      var own := Filter(RowsOf(desk.tickets), (row: Row) => row.ticket.clientId == cid);
      var rows := SortBy(own, NewestFirst);
      SortByKeepsMembers(own, NewestFirst);
      Ok(rows)
  }

  /** The client listing agrees with single reads: a listed ticket is one the client may open. */
  lemma MyTicketsAreReadable(desk: Desk, caller: Caller, row: Row)
    requires MyTickets(desk, caller).Ok? && row in MyTickets(desk, caller).value
    ensures GetTicket(desk, caller, row.id) == Ok(row.ticket)
  {
  }
  /**
   * GET /tickets/topics, behind `authorizeRole(['client', 'admin',
   * 'technician'])`: the token must carry a client id (400) of an existing
   * client (404). The Know-How join is optional, so every topic is listed
   * whatever the client's system.
   */
  function TopicsForClient(topics: map<Id, Topic>, clients: map<Id, ClientModel.Client>, caller: Caller)
    : (r: Result<map<Id, Topic>>)
    ensures caller.role == UserRole ==> r == Err(403)
    ensures caller.role != UserRole && caller.clientId.None? ==> r == Err(400)
    ensures caller.role != UserRole && caller.clientId.Some? && caller.clientId.value !in clients ==> r == Err(404)
    ensures r.Ok? <==> caller.role != UserRole && caller.clientId.Some? && caller.clientId.value in clients
    ensures r.Ok? ==> r.value == topics
  {
    RouteListsAdmit(caller.role);
    Guarded(Everyone, caller.role,
      if caller.clientId.None? then Err(400)
      else if caller.clientId.value !in clients then Err(404)
      else Ok(topics))
  }

  /** Every topic a client can pick in the form is one a ticket can be created with. */
  lemma ListedTopicsAreAccepted(desk: Desk, topics: map<Id, Topic>, clients: map<Id, ClientModel.Client>,
                                knowHows: map<Id, KnowHows.KnowHow>, caller: Caller, t: Id,
                                system: string, now: int, newId: Id, newMessageId: Id)
    requires newId !in desk.tickets && newMessageId !in desk.messages
    requires TopicsForClient(topics, clients, caller).Ok? && t in TopicsForClient(topics, clients, caller).value
    requires WellFormed(topics) && caller.role == ClientRole && topics[t].name != "" && system != ""
    ensures var input := TicketInput(Some(topics[t].name), Some(system), None, None, None);
            var r := CreateTicket(desk, topics, knowHows, caller, input, now, newId, newMessageId);
            r.Ok? && r.value.tickets[newId].severity == topics[t].severity
  {
    TopicByNameUnique(topics, topics[t].name, t);
  }
}

=== FILE: topics.dfy ===
/**
 * The topic registry behind ticket triage: each topic has a unique name
 * and a severity between 1 and 10, which tickets inherit. The topic
 * router runs `authorizeRole(['admin'])` in front of every handler.
 */
module Topics {
  import opened Tables
  import opened Access

  datatype Topic = Topic(name: string, severity: int)

  const MinSeverity: int := 1
  const MaxSeverity: int := 10

  predicate SeverityOk(s: int) {
    MinSeverity <= s <= MaxSeverity
  }

  /** The registry invariant: names unique, severities in range. */
  predicate WellFormed(topics: map<Id, Topic>) {
    (forall a, b :: a in topics && b in topics && topics[a].name == topics[b].name ==> a == b)
    && (forall k :: k in topics ==> SeverityOk(topics[k].severity))
  }

  /** `Topic.findOne({ where: { name } })`. */
  function TopicByName(topics: map<Id, Topic>, name: string): (r: Option<Id>)
    ensures r.Some? ==> r.value in topics && topics[r.value].name == name
    ensures r.None? <==> forall k :: k in topics ==> topics[k].name != name
  {
    FirstWhere(topics, (t: Topic) => t.name == name)
  }

  /** On a well-formed registry a name identifies at most one topic. */
  lemma TopicByNameUnique(topics: map<Id, Topic>, name: string, k: Id)
    requires WellFormed(topics) && k in topics && topics[k].name == name
    ensures TopicByName(topics, name) == Some(k)
  {
  }

  /**
   * POST /topics: a missing severity or one outside 1..10 is 400, a name
   * in use is 400. A missing name cannot be looked up (500).
   */
  function CreateTopic(caller: Role, topics: map<Id, Topic>, name: Option<string>, severity: Option<int>, newId: Id)
    : (r: Result<map<Id, Topic>>)
    requires newId !in topics
    ensures caller != Admin <==> r == Err(403)
    ensures caller == Admin && (severity.None? || !SeverityOk(severity.value)) ==> r == Err(400)
    ensures r.Ok? <==> && caller == Admin && severity.Some? && SeverityOk(severity.value)
                       && name.Some? && TopicByName(topics, name.value).None?
    ensures r.Ok? || r in {Err(400), Err(403), Err(500)}
    ensures r.Ok? ==> r.value == topics[newId := Topic(name.value, severity.value)]
  {
    RouteListsAdmit(caller);
    Guarded(AdminsOnly, caller,
      if severity.None? || !SeverityOk(severity.value) then Err(400)
      else if name.None? then Err(500)
      else if TopicByName(topics, name.value).Some? then Err(400)
      else Ok(topics[newId := Topic(name.value, severity.value)]))
  }

  /**
   * PUT /topics/:id: 404 for an unknown topic. A non-empty name must not
   * belong to another topic (400); keeping its own name is allowed. A
   * supplied severity must be in range (400). Nothing is saved unless all
   * checks pass.
   */
  function UpdateTopic(caller: Role, topics: map<Id, Topic>, id: Id, name: Option<string>, severity: Option<int>)
    : (r: Result<map<Id, Topic>>)
    ensures caller != Admin <==> r == Err(403)
    ensures caller == Admin && id !in topics <==> r == Err(404)
    ensures r.Ok? || r in {Err(400), Err(403), Err(404)}
    ensures caller == Admin && id in topics && severity.Some? && !SeverityOk(severity.value) ==> r == Err(400)
    ensures caller == Admin && id in topics && name.Some? && name.value != "" ==>
              var holder := TopicByName(topics, name.value);
              holder.Some? && holder != Some(id) ==> r == Err(400)
    ensures r.Ok? <==> && caller == Admin && id in topics
                       && (severity.None? || SeverityOk(severity.value))
                       && (name.None? || name.value == "" || TopicByName(topics, name.value) in {None, Some(id)})
    ensures r.Ok? ==> r.value.Keys == topics.Keys
    ensures r.Ok? ==> forall k :: k in topics && k != id ==> r.value[k] == topics[k]
    ensures r.Ok? ==> r.value[id].name == (if name.Some? && name.value != "" then name.value else topics[id].name)
    ensures r.Ok? ==> r.value[id].severity == severity.GetOr(topics[id].severity)
  {
    RouteListsAdmit(caller);
    Guarded(AdminsOnly, caller,
      if id !in topics then Err(404)
      else
        var t := topics[id];
        var renamed := name.Some? && name.value != "";
        if renamed && TopicByName(topics, name.value).Some? && TopicByName(topics, name.value) != Some(id) then Err(400)
        else if severity.Some? && !SeverityOk(severity.value) then Err(400)
        else Ok(topics[id := Topic(if renamed then name.value else t.name, severity.GetOr(t.severity))]))
  }

  /** DELETE /topics/:id: the shared delete rule, behind the router's admin guard. */
  function DeleteTopic(caller: Role, topics: map<Id, Topic>, id: Id): (r: Result<map<Id, Topic>>)
    ensures caller != Admin <==> r == Err(403)
    ensures caller == Admin && id !in topics <==> r == Err(404)
    ensures r.Ok? <==> caller == Admin && id in topics
    ensures r.Ok? ==> r.value.Keys == topics.Keys - {id}
    ensures r.Ok? ==> forall k :: k in r.value ==> r.value[k] == topics[k]
  {
    RouteListsAdmit(caller);
    Guarded(AdminsOnly, caller, Destroy(topics, id))
  }

  /** On a well-formed registry, renaming a topic to a name another topic holds is refused. */
  lemma RenameClashRefused(topics: map<Id, Topic>, id: Id, other: Id, name: string, severity: Option<int>)
    requires WellFormed(topics) && id in topics && other in topics && other != id
    requires topics[other].name == name && name != ""
    ensures UpdateTopic(Admin, topics, id, Some(name), severity) == Err(400)
  {
    TopicByNameUnique(topics, name, other);
  }

  /** Create, update and delete all preserve the registry invariant. */
  lemma HandlersKeepWellFormed(caller: Role, topics: map<Id, Topic>, id: Id, newId: Id, name: Option<string>, severity: Option<int>)
    requires WellFormed(topics) && newId !in topics
    ensures var r := CreateTopic(caller, topics, name, severity, newId); r.Ok? ==> WellFormed(r.value)
    ensures var r := UpdateTopic(caller, topics, id, name, severity); r.Ok? ==> WellFormed(r.value)
    ensures var r := DeleteTopic(caller, topics, id); r.Ok? ==> WellFormed(r.value)
  {
    var u := UpdateTopic(caller, topics, id, name, severity);
    if u.Ok? && name.Some? && name.value != "" {
      var found := TopicByName(topics, name.value);
      assert found.None? || found == Some(id);
    }
  }
}

=== FILE: user_model.dfy ===
/**
 * The User record, its password hook and the `createUser` helper.
 *
 * bcrypt is opaque: `hash` stands for `bcrypt.hash(_, 10)`. The hook only
 * looks at the prefix of the stored password.
 */
module UserModel {
  import opened Tables
  import opened Text
  import opened Access

  /** A User row. `username` is NOT NULL and unique. */
  datatype User = User(
    username: string,
    password: string,
    role: Role,
    technicianId: Option<Id>,
    mustChangePassword: bool)

  /** The bcrypt version prefixes the hook recognises. */
  predicate IsHashed(p: string) {
    StartsWith(p, "$2a$") || StartsWith(p, "$2b$")
  }

  /**
   * `beforeCreate`: a password that already carries a bcrypt prefix is
   * stored as given, anything else is hashed.
   */
  function StoredPassword(p: string, hash: string -> string): (r: string)
    ensures IsHashed(p) ==> r == p
    ensures !IsHashed(p) ==> r == hash(p)
  {
    if IsHashed(p) then p else hash(p)
  }

  /**
   * Hash once: whenever the hash function yields bcrypt strings, running
   * the hook on its own output changes nothing, so a password hashed by the
   * caller (as the registration handlers do) is not hashed twice.
   */
  lemma HookHashesOnce(p: string, hash: string -> string)
    requires IsHashed(hash(p))
    ensures IsHashed(StoredPassword(p, hash))
    ensures StoredPassword(StoredPassword(p, hash), hash) == StoredPassword(p, hash)
  {
  }

  /** The username is not held by any existing user. */
  predicate UsernameFree(users: map<Id, User>, name: string) {
    forall k :: k in users ==> users[k].username != name
  }

  /** Usernames are unique across the table. */
  predicate UniqueUsernames(users: map<Id, User>) {
    forall a, b :: a in users && b in users && users[a].username == users[b].username ==> a == b
  }

  /**
   * `User.createUser(username, password, role = 'user', technicianId = null)`
   * followed by the insert. An absent argument takes its default; a missing
   * username or password, a role outside the enum, or a taken username makes
   * the insert fail (500). `mustChangePassword` takes its default, false.
   */
  function CreateUser(users: map<Id, User>, username: Option<string>, password: Option<string>,
                      role: Option<string>, technicianId: Option<Id>, newId: Id,
                      hash: string -> string): (r: Result<map<Id, User>>)
    requires newId !in users
    ensures r.Ok? || r == Err(500)
    ensures r.Ok? <==> username.Some? && password.Some? && UsernameFree(users, username.value)
                       && ParseRole(role.GetOr("user")).Some?
    ensures r.Ok? ==> r.value.Keys == users.Keys + {newId}
    ensures r.Ok? ==> forall k :: k in users ==> r.value[k] == users[k]
    ensures r.Ok? ==> r.value[newId].username == username.value
    ensures r.Ok? ==> r.value[newId].password == StoredPassword(password.value, hash)
    ensures r.Ok? ==> RoleName(r.value[newId].role) == role.GetOr("user")
    ensures r.Ok? ==> r.value[newId].technicianId == technicianId
    ensures r.Ok? ==> !r.value[newId].mustChangePassword
  {
    var parsed := ParseRole(role.GetOr("user"));
    if username.None? || password.None? || parsed.None? || !UsernameFree(users, username.value) then Err(500)
    else Ok(users[newId := User(username.value, StoredPassword(password.value, hash), parsed.value,
                                technicianId, false)])
  }

  /** Creating a user keeps usernames unique. */
  lemma CreateUserKeepsUnique(users: map<Id, User>, username: Option<string>, password: Option<string>,
                              role: Option<string>, technicianId: Option<Id>, newId: Id,
                              hash: string -> string)
    requires newId !in users && UniqueUsernames(users)
    ensures var r := CreateUser(users, username, password, role, technicianId, newId, hash);
            r.Ok? ==> UniqueUsernames(r.value)
  {
  }

  /** With every argument but the credentials left out, a plain user without a technician is made. */
  lemma CreateUserDefaults(users: map<Id, User>, username: string, password: string, newId: Id,
                           hash: string -> string)
    requires newId !in users && UsernameFree(users, username)
    ensures var r := CreateUser(users, Some(username), Some(password), None, None, newId, hash);
            r.Ok? && r.value[newId].role == UserRole && r.value[newId].technicianId == None
            && !r.value[newId].mustChangePassword
  {
  }
}

=== FILE: users.dfy ===
/**
 * The user request handlers: create, password change by an admin, role
 * change, delete, forgot-password, self-service change-password, login and
 * the two technician assignments.
 *
 * `hash` is `bcrypt.hash`, `matches(plain, stored)` is `bcrypt.compare`,
 * `temp` the temporary password cut from a UUID, and `mailOk` the outcome
 * of the mail transport. Technicians are known by the set of their ids.
 */
module UserRoutes {
  import opened Tables
  import opened Access
  import opened UserModel
  import opened ClientModel
  import ClientRoutes

  /**
   * POST /users/create, behind `authorizeRole('admin')`: a supplied
   * technician must exist (400); then `createUser` inserts the row.
   */
  function CreateUserRoute(caller: Role, users: map<Id, User>, technicians: set<Id>, username: Option<string>,
                           password: Option<string>, role: Option<string>, technicianId: Option<Id>,
                           newId: Id, hash: string -> string): (r: Result<map<Id, User>>)
    requires newId !in users
    ensures caller != Admin <==> r == Err(403)
    ensures caller == Admin && technicianId.Some? && technicianId.value !in technicians <==> r == Err(400)
    ensures r.Ok? || r in {Err(400), Err(403), Err(500)}
    ensures r.Ok? <==> caller == Admin && (technicianId.None? || technicianId.value in technicians)
                       && username.Some? && password.Some? && UsernameFree(users, username.value)
                       && ParseRole(role.GetOr("user")).Some?
    ensures r.Ok? ==> r == CreateUser(users, username, password, role, technicianId, newId, hash)
    ensures r.Ok? ==> r.value[newId].technicianId.None? || r.value[newId].technicianId.value in technicians
  {
    AdminStringAdmitsOnlyAdmin(caller);
    Guarded(AdminText, caller,
      if technicianId.Some? && technicianId.value !in technicians then Err(400)
      else CreateUser(users, username, password, role, technicianId, newId, hash))
  }

  /**
   * PUT /users/:id/password, behind `authorizeRole("admin")`: an admin
   * sets a new (hashed) password; 404 for an unknown user. A body without a
   * password makes the hashing throw (500).
   */
  function SetPassword(caller: Role, users: map<Id, User>, id: Id, password: Option<string>,
                       hash: string -> string): (r: Result<map<Id, User>>)
    ensures caller != Admin <==> r == Err(403)
    ensures caller == Admin && id !in users <==> r == Err(404)
    ensures caller == Admin && id in users && password.None? <==> r == Err(500)
    ensures r.Ok? <==> caller == Admin && id in users && password.Some?
    ensures r.Ok? ==> r.value == users[id := users[id].(password := hash(password.value))]
  {
    AdminStringAdmitsOnlyAdmin(caller);
    Guarded(AdminText, caller,
      if id !in users then Err(404)
      else if password.None? then Err(500)
      else Ok(users[id := users[id].(password := hash(password.value))]))
  }

  /**
   * PUT /users/:id/role, behind `authorizeRole('admin')`: a role outside the
   * enum is refused by the column (500).
   */
  function SetRole(caller: Role, users: map<Id, User>, id: Id, role: string): (r: Result<map<Id, User>>)
    ensures caller != Admin <==> r == Err(403)
    ensures caller == Admin && id !in users <==> r == Err(404)
    ensures caller == Admin && id in users && ParseRole(role).None? <==> r == Err(500)
    ensures r.Ok? <==> caller == Admin && id in users && ParseRole(role).Some?
    ensures r.Ok? ==> r.value.Keys == users.Keys && RoleName(r.value[id].role) == role
    ensures r.Ok? ==> r.value[id] == users[id].(role := r.value[id].role)
    ensures r.Ok? ==> forall k :: k in users && k != id ==> r.value[k] == users[k]
  {
    AdminStringAdmitsOnlyAdmin(caller);
    Guarded(AdminText, caller,
      if id !in users then Err(404)
      else match ParseRole(role)
        case None => Err(500)
        case Some(parsed) => Ok(users[id := users[id].(role := parsed)]))
  }

  /** DELETE /users/:id, behind `authorizeRole('admin')`: the shared delete rule. */
  function DeleteUser(caller: Role, users: map<Id, User>, id: Id): (r: Result<map<Id, User>>)
    ensures caller != Admin <==> r == Err(403)
    ensures caller == Admin && id !in users <==> r == Err(404)
    ensures r.Ok? <==> caller == Admin && id in users
    ensures r.Ok? ==> r.value.Keys == users.Keys - {id}
    ensures r.Ok? ==> forall k :: k in r.value ==> r.value[k] == users[k]
  {
    AdminStringAdmitsOnlyAdmin(caller);
    Guarded(AdminText, caller, Destroy(users, id))
  }

  /**
   * POST /users/forgot-password. A missing e-mail is 400. An e-mail that
   * belongs to no client, or to a client without an account, gets the same
   * 200 answer as a real reset and changes nothing. A linked account whose
   * user row is gone is a 500. Otherwise the account gets the hashed
   * temporary password and must change it; the mail is sent after the
   * write, so a failed mail still leaves the reset in place.
   */
  function ForgotPassword(users: map<Id, User>, clients: map<Id, Client>, email: Option<string>,
                          temp: string, hash: string -> string, mailOk: bool): (r: Reply<map<Id, User>>)
    ensures (email.None? || email.value == "") ==> r == Reply(400, users)
    ensures r.status in {200, 400, 500}
    ensures r.state.Keys == users.Keys
    ensures email.Some? && email.value != "" ==>
              var holder := ClientRoutes.ClientByEmail(clients, email.value);
              && (holder.None? || clients[holder.value].userId.None? ==> r == Reply(200, users))
              && (holder.Some? && clients[holder.value].userId.Some? ==>
                    var uid := clients[holder.value].userId.value;
                    && (uid !in users ==> r == Reply(500, users))
                    && (uid in users ==>
                          && r.state == users[uid := users[uid].(password := hash(temp), mustChangePassword := true)]
                          && (r.status == 200 <==> mailOk)
                          && (r.status == 500 <==> !mailOk)))
    ensures r.state != users ==> exists k :: k in clients && clients[k].email == email.value
                                   && clients[k].userId.Some? && clients[k].userId.value in users
                                   && r.state == users[clients[k].userId.value :=
                                        users[clients[k].userId.value].(password := hash(temp),
                                                                        mustChangePassword := true)]
  {
    if email.None? || email.value == "" then Reply(400, users)
    else
      var found := FirstWhere(clients, (c: Client) => c.email == email.value);
      if found.None? || clients[found.value].userId.None? then Reply(200, users)
      else
        var uid := clients[found.value].userId.value;
        if uid !in users then Reply(500, users)
        else Reply(if mailOk then 200 else 500,
                   users[uid := users[uid].(password := hash(temp), mustChangePassword := true)])
  }

  /** The reset cannot be used to learn which e-mails exist: unknown and unlinked e-mails get 200. */
  lemma ForgotPasswordHidesAccounts(users: map<Id, User>, clients: map<Id, Client>, email: string,
                                    temp: string, hash: string -> string, mailOk: bool)
    requires email != ""
    requires forall k :: k in clients && clients[k].email == email ==> clients[k].userId.None?
    ensures ForgotPassword(users, clients, Some(email), temp, hash, mailOk) == Reply(200, users)
  {
  }

  /**
   * POST /users/validate-email: 200 when some client has exactly this
   * e-mail, 404 otherwise. An absent e-mail cannot be put in the lookup's
   * condition, which throws (500).
   */
  function ValidateEmail(clients: map<Id, Client>, email: Option<string>): (status: int)
    ensures status in {200, 404, 500}
    ensures status == 500 <==> email.None?
    ensures status == 200 <==> email.Some? && exists k :: k in clients && clients[k].email == email.value
  {
    if email.None? then 500
    else if FirstWhere(clients, (c: Client) => c.email == email.value).Some? then 200
    else 404
  }

  /**
   * The check and registration by e-mail agree: an address the check
   * rejects with 404 is rejected with 404 by the registration, and the
   * other way round.
   */
  lemma ValidateAgreesWithRegistration(s: ClientRoutes.Stores, email: string, newUserId: Id, generated: string,
                                       hash: string -> string, mailOk: bool)
    requires newUserId !in s.users && email != ""
    ensures ValidateEmail(s.clients, Some(email)) == 404
            <==> ClientRoutes.RegisterByEmail(s, Some(email), newUserId, generated, hash, mailOk).status == 404
  {
  }

  /**
   * PUT /users/change-password for the signed-in user. An empty new password
   * is refused before anything is read. A user who must change the password
   * needs no old one and the flag is cleared. Otherwise the old password is
   * required (400) and must match (401).
   */
  function ChangePassword(users: map<Id, User>, userId: Id, oldPassword: Option<string>,
                          newPassword: Option<string>, matches: (string, string) -> bool,
                          hash: string -> string): (r: Result<map<Id, User>>)
    ensures (newPassword.None? || newPassword.value == "") ==> r == Err(400)
    ensures r.Ok? || r in {Err(400), Err(401), Err(404)}
    ensures r.Ok? ==> userId in users && newPassword.Some? && newPassword.value != ""
    ensures newPassword.Some? && newPassword.value != "" && userId !in users ==> r == Err(404)
    ensures newPassword.Some? && newPassword.value != "" && userId in users && !users[userId].mustChangePassword ==>
              && (oldPassword.None? || oldPassword.value == "" ==> r == Err(400))
              && (var wrong := oldPassword.Some? && oldPassword.value != ""
                                 && !matches(oldPassword.value, users[userId].password);
                  wrong ==> r == Err(401))
    ensures r.Ok? <==> newPassword.Some? && newPassword.value != "" && userId in users
                       && (users[userId].mustChangePassword
                           || (oldPassword.Some? && oldPassword.value != ""
                               && matches(oldPassword.value, users[userId].password)))
    ensures r.Ok? ==> r.value.Keys == users.Keys
    ensures r.Ok? ==> forall k :: k in users && k != userId ==> r.value[k] == users[k]
    ensures r.Ok? ==> r.value[userId].password == hash(newPassword.value) && !r.value[userId].mustChangePassword
    ensures r.Ok? ==> r.value[userId] == users[userId].(password := hash(newPassword.value), mustChangePassword := false)
    ensures r.Ok? && !users[userId].mustChangePassword ==>
              oldPassword.Some? && oldPassword.value != "" && matches(oldPassword.value, users[userId].password)
  {
    if newPassword.None? || newPassword.value == "" then Err(400)
    else if userId !in users then Err(404)
    else
      var u := users[userId];
      if u.mustChangePassword then Ok(users[userId := u.(password := hash(newPassword.value), mustChangePassword := false)])
      else if oldPassword.None? || oldPassword.value == "" then Err(400)
      else if !matches(oldPassword.value, u.password) then Err(401)
      else Ok(users[userId := u.(password := hash(newPassword.value))])
  }

  /** After a reset, the temporary-password state lets the user set a new password without the old one. */
  lemma ResetThenChange(users: map<Id, User>, clients: map<Id, Client>, email: string, temp: string,
                        newPassword: string, matches: (string, string) -> bool, hash: string -> string,
                        uid: Id)
    requires email != "" && newPassword != ""
    requires var r := ForgotPassword(users, clients, Some(email), temp, hash, true);
             r.state != users && uid in users && r.state[uid].mustChangePassword
    ensures var r := ForgotPassword(users, clients, Some(email), temp, hash, true);
            var c := ChangePassword(r.state, uid, None, Some(newPassword), matches, hash);
            c.Ok? && !c.value[uid].mustChangePassword && c.value[uid].password == hash(newPassword)
  {
  }

  /**
   * After a reset, the account holder signs in with the mailed temporary
   * password, and the token tells the front end that it must be changed.
   */
  lemma ResetThenLogin(users: map<Id, User>, clients: map<Id, Client>, email: string, temp: string,
                       hash: string -> string, mailOk: bool, matches: (string, string) -> bool, uid: Id)
    requires email != "" && temp != "" && matches(temp, hash(temp))
    requires UniqueUsernames(users) && uid in users && users[uid].username != ""
    requires var holder := ClientRoutes.ClientByEmail(clients, email);
             holder.Some? && clients[holder.value].userId == Some(uid)
    ensures var r := ForgotPassword(users, clients, Some(email), temp, hash, mailOk);
            var login := Login(r.state, clients, Some(users[uid].username), Some(temp), matches);
            login.Ok? && login.value.id == uid && login.value.mustChangePassword == Some(true)
  {
    var r := ForgotPassword(users, clients, Some(email), temp, hash, mailOk);
    assert r.state[uid].username == users[uid].username;
    assert UserByName(r.state, users[uid].username) == Some(uid);
  }

  /** A user without the flag who gives a wrong old password gets 401 and nothing changes. */
  lemma WrongOldPasswordRefused(users: map<Id, User>, userId: Id, given: string, newPassword: string,
                                matches: (string, string) -> bool, hash: string -> string)
    requires userId in users && !users[userId].mustChangePassword
    requires given != "" && newPassword != "" && !matches(given, users[userId].password)
    ensures ChangePassword(users, userId, Some(given), Some(newPassword), matches, hash) == Err(401)
  {
  }

  /** The claims signed into the login token. Optional claims are absent when `None`. */
  datatype Payload = Payload(
    id: Id,
    role: Role,
    technicianId: Option<Id>,
    clientId: Option<Id>,
    mustChangePassword: Option<bool>)

  /** The user with exactly this username, if any. */
  function UserByName(users: map<Id, User>, username: string): (r: Option<Id>)
    ensures r.Some? ==> r.value in users && users[r.value].username == username
    ensures r.None? <==> forall k :: k in users ==> users[k].username != username
  {
    FirstWhere(users, (u: User) => u.username == username)
  }

  /** The client row linked to a user account (`User.hasOne(Client)`). */
  function LinkedClient(clients: map<Id, Client>, userId: Id): (r: Option<Id>)
    ensures r.Some? ==> r.value in clients && clients[r.value].userId == Some(userId)
    ensures r.None? <==> forall k :: k in clients ==> clients[k].userId != Some(userId)
  {
    FirstWhere(clients, (c: Client) => c.userId == Some(userId))
  }

  /**
   * POST /users/login: missing credentials are 400, an unknown username
   * 404, a wrong password 401; otherwise the token payload. It carries
   * `clientId` iff the user is a client with a linked client row, and
   * `mustChangePassword` iff the flag is set.
   */
  function Login(users: map<Id, User>, clients: map<Id, Client>, username: Option<string>,
                 password: Option<string>, matches: (string, string) -> bool): (r: Result<Payload>)
    ensures r.Ok? || r in {Err(400), Err(401), Err(404)}
    ensures (username.None? || username.value == "" || password.None? || password.value == "") ==> r == Err(400)
    ensures username.Some? && username.value != "" && password.Some? && password.value != "" ==>
              var found := UserByName(users, username.value);
              && (found.None? ==> r == Err(404))
              && (found.Some? && !matches(password.value, users[found.value].password) ==> r == Err(401))
              && (r.Ok? <==> found.Some? && matches(password.value, users[found.value].password))
    ensures r.Ok? ==> UserByName(users, username.value) == Some(r.value.id)
    ensures r.Ok? ==> matches(password.value, users[r.value.id].password)
    ensures r.Ok? ==> r.value.role == users[r.value.id].role && r.value.technicianId == users[r.value.id].technicianId
    ensures r.Ok? ==> (r.value.clientId.Some? <==>
                        users[r.value.id].role == ClientRole && LinkedClient(clients, r.value.id).Some?)
    ensures r.Ok? && r.value.clientId.Some? ==> r.value.clientId.value in clients
                                                && clients[r.value.clientId.value].userId == Some(r.value.id)
    ensures r.Ok? ==> (r.value.mustChangePassword.Some? <==> users[r.value.id].mustChangePassword)
    ensures r.Ok? ==> r.value.mustChangePassword != Some(false)
  {
    if username.None? || username.value == "" || password.None? || password.value == "" then Err(400)
    else match UserByName(users, username.value)
      case None => Err(404)
      case Some(uid) =>
        var u := users[uid];
        if !matches(password.value, u.password) then Err(401)
        else
          var linked := LinkedClient(clients, uid);
          Ok(Payload(uid, u.role, u.technicianId,
                     if u.role == ClientRole && linked.Some? then linked else None,
                     if u.mustChangePassword then Some(true) else None))
  }

  /** Once an admin deletes an account, signing in under its name answers 404. */
  lemma DeletedUserCannotLogin(users: map<Id, User>, clients: map<Id, Client>, id: Id, password: string,
                               matches: (string, string) -> bool)
    requires id in users && users[id].username != "" && password != "" && UniqueUsernames(users)
    ensures var r := DeleteUser(Admin, users, id);
            r.Ok? && Login(r.value, clients, Some(users[id].username), Some(password), matches) == Err(404)
  {
    var after := DeleteUser(Admin, users, id).value;
    assert UserByName(after, users[id].username).None? by {
      forall k | k in after ensures after[k].username != users[id].username {
        assert k in users && k != id;
      }
    }
  }

  /** After an admin sets a password, the user signs in with it. */
  lemma SetPasswordThenLogin(users: map<Id, User>, clients: map<Id, Client>, id: Id, password: string,
                             hash: string -> string, matches: (string, string) -> bool)
    requires id in users && users[id].username != "" && UniqueUsernames(users)
    requires password != "" && matches(password, hash(password))
    ensures var r := SetPassword(Admin, users, id, Some(password), hash);
            var login := Login(r.value, clients, Some(users[id].username), Some(password), matches);
            r.Ok? && login.Ok? && login.value.id == id
  {
    var r := SetPassword(Admin, users, id, Some(password), hash).value;
    assert r[id].username == users[id].username;
    assert UserByName(r, users[id].username) == Some(id);
  }

  /**
   * A role change decides what the user may do from the next sign-in on:
   * the new token carries the new role, and a route list admits the user
   * exactly when it names that role.
   */
  lemma SetRoleChangesAccess(caller: Role, users: map<Id, User>, clients: map<Id, Client>, id: Id, role: string,
                             username: string, password: string, matches: (string, string) -> bool,
                             names: seq<string>)
    requires SetRole(caller, users, id, role).Ok?
    requires var login := Login(users, clients, Some(username), Some(password), matches);
             login.Ok? && login.value.id == id
    ensures var after := SetRole(caller, users, id, role).value;
            var login := Login(after, clients, Some(username), Some(password), matches);
            && login.Ok? && login.value.id == id && RoleName(login.value.role) == role
            && (Authorize(RoleList(names), login.value.role).Ok? <==> role in names)
  {
    var after := SetRole(caller, users, id, role).value;
    assert after[id].username == users[id].username && after[id].password == users[id].password;
    assert UserByName(after, username) == Some(id) by {
      forall k | k in after && after[k].username == username ensures id <= k {
        assert users[k].username == username;
      }
    }
  }

  /**
   * PUT /users/:id, behind `authorizeRole('admin')`. `technicianId` is `None` when absent and `Some(None)`
   * when sent as null. A supplied technician must exist (400). An empty or
   * absent username or role keeps the old value; a defined technicianId
   * replaces the old one, null included. A role outside the enum or a taken
   * username fails on save (500).
   */
  function UpdateUser(caller: Role, users: map<Id, User>, technicians: set<Id>, id: Id, username: Option<string>,
                      role: Option<string>, technicianId: Option<Option<Id>>): (r: Result<map<Id, User>>)
    ensures caller != Admin <==> r == Err(403)
    ensures caller == Admin && id !in users <==> r == Err(404)
    ensures caller == Admin && id in users && technicianId.Some? && technicianId.value.Some? && technicianId.value.value !in technicians
            <==> r == Err(400)
    ensures r.Ok? || r in {Err(400), Err(403), Err(404), Err(500)}
    ensures r.Ok? ==> caller == Admin
    ensures caller == Admin && id in users && (technicianId.None? || technicianId.value.None? || technicianId.value.value in technicians) ==>
              var name := if username.Some? && username.value != "" then username.value else users[id].username;
              var roleOk := role.None? || role.value == "" || ParseRole(role.value).Some?;
              (r.Ok? <==> roleOk && forall k :: k in users && k != id ==> users[k].username != name)
    ensures r.Ok? ==> r.value.Keys == users.Keys
    ensures r.Ok? ==> forall k :: k in users && k != id ==> r.value[k] == users[k]
    ensures r.Ok? ==> r.value[id].username == (if username.Some? && username.value != "" then username.value else users[id].username)
    ensures r.Ok? ==> (if role.Some? && role.value != "" then RoleName(r.value[id].role) == role.value
                       else r.value[id].role == users[id].role)
    ensures r.Ok? ==> r.value[id].technicianId == technicianId.GetOr(users[id].technicianId)
    ensures r.Ok? ==> r.value[id].password == users[id].password
                      && r.value[id].mustChangePassword == users[id].mustChangePassword
  {
    AdminStringAdmitsOnlyAdmin(caller);
    Guarded(AdminText, caller,
      if id !in users then Err(404)
      else if technicianId.Some? && technicianId.value.Some? && technicianId.value.value !in technicians then Err(400)
      else
        var u := users[id];
        var name := if username.Some? && username.value != "" then username.value else u.username;
        var parsed := if role.Some? && role.value != "" then ParseRole(role.value) else Some(u.role);
        if parsed.None? then Err(500)
        else if exists k :: k in users && k != id && users[k].username == name then Err(500)
        else Ok(users[id := u.(username := name, role := parsed.value,
                               technicianId := technicianId.GetOr(u.technicianId))]))
  }

  /** An update that keeps the username, with unique usernames before, keeps them unique. */
  lemma UpdateUserKeepsUnique(caller: Role, users: map<Id, User>, technicians: set<Id>, id: Id, username: Option<string>,
                              role: Option<string>, technicianId: Option<Option<Id>>)
    requires UniqueUsernames(users)
    ensures var r := UpdateUser(caller, users, technicians, id, username, role, technicianId);
            r.Ok? ==> UniqueUsernames(r.value)
  {
  }

  /**
   * PUT /users/:id/assign-technician, behind `authorizeRole('admin')`: the
   * technician is required (400), the user must exist (404) and so must the
   * technician (400).
   */
  function AssignTechnician(caller: Role, users: map<Id, User>, technicians: set<Id>, id: Id,
                            technicianId: Option<Id>): (r: Result<map<Id, User>>)
    ensures caller != Admin <==> r == Err(403)
    ensures caller == Admin && technicianId.None? ==> r == Err(400)
    ensures caller == Admin && technicianId.Some? && id !in users <==> r == Err(404)
    ensures r.Ok? <==> caller == Admin && technicianId.Some? && id in users && technicianId.value in technicians
    ensures r.Ok? ==> r.value == users[id := users[id].(technicianId := technicianId)]
  {
    AdminStringAdmitsOnlyAdmin(caller);
    Guarded(AdminText, caller,
      if technicianId.None? then Err(400)
      else if id !in users then Err(404)
      else if technicianId.value !in technicians then Err(400)
      else Ok(users[id := users[id].(technicianId := technicianId)]))
  }

  /** Every technician reference the handlers write points at an existing technician. */
  lemma TechnicianReferencesExist(caller: Role, users: map<Id, User>, technicians: set<Id>, id: Id,
                                  technicianId: Option<Id>)
    ensures var r := AssignTechnician(caller, users, technicians, id, technicianId);
            r.Ok? ==> r.value[id].technicianId.value in technicians
    ensures var r := UpdateUser(caller, users, technicians, id, None, None, Some(technicianId));
            r.Ok? && r.value[id].technicianId.Some? ==> r.value[id].technicianId.value in technicians
  {
  }
}

=== FILE: warehouse.dfy ===
/**
 * The material store: create, update with the non-negative quantity check,
 * and delete. Prices are floating point in the system and are whole
 * numbers here; a field the request leaves out is `None`.
 */
module Warehouse {
  import opened Tables

  datatype Item = Item(name: Option<string>, price: Option<int>, quantity: Option<int>)

  /** POST /warehouse: the item is stored as sent. */
  function CreateItem(items: map<Id, Item>, name: Option<string>, price: Option<int>, quantity: Option<int>,
                      newId: Id): (r: map<Id, Item>)
    requires newId !in items
    ensures r.Keys == items.Keys + {newId}
    ensures forall k :: k in items ==> r[k] == items[k]
    ensures r[newId].name == name && r[newId].price == price && r[newId].quantity == quantity
  {
    items[newId := Item(name, price, quantity)]
  }

  /**
   * PUT /warehouse/:id: a negative quantity is 400 before the item is
   * looked up, an unknown id is 404. The update writes the supplied fields;
   * a field left out keeps its value, and a missing quantity passes the check.
   */
  function UpdateItem(items: map<Id, Item>, id: Id, name: Option<string>, price: Option<int>,
                      quantity: Option<int>): (r: Result<map<Id, Item>>)
    ensures quantity.Some? && quantity.value < 0 <==> r == Err(400)
    ensures (quantity.None? || quantity.value >= 0) && id !in items <==> r == Err(404)
    ensures r.Ok? <==> (quantity.None? || quantity.value >= 0) && id in items
    ensures r.Ok? ==> r.value.Keys == items.Keys
    ensures r.Ok? ==> forall k :: k in items && k != id ==> r.value[k] == items[k]
    ensures r.Ok? ==> r.value[id].name == (if name.Some? then name else items[id].name)
    ensures r.Ok? ==> r.value[id].price == (if price.Some? then price else items[id].price)
    ensures r.Ok? ==> r.value[id].quantity == (if quantity.Some? then quantity else items[id].quantity)
  {
    if quantity.Some? && quantity.value < 0 then Err(400)
    else if id !in items then Err(404)
    else
      var it := items[id];
      Ok(items[id := Item(if name.Some? then name else it.name,
                          if price.Some? then price else it.price,
                          if quantity.Some? then quantity else it.quantity)])
  }

  /** An update never stores a negative quantity: a store without one stays without one. */
  lemma UpdateKeepsStockNonNegative(items: map<Id, Item>, id: Id, name: Option<string>, price: Option<int>,
                                    quantity: Option<int>)
    requires forall k :: k in items && items[k].quantity.Some? ==> items[k].quantity.value >= 0
    ensures var r := UpdateItem(items, id, name, price, quantity);
            r.Ok? ==> forall k :: k in r.value && r.value[k].quantity.Some? ==> r.value[k].quantity.value >= 0
  {
  }

  /** Sending back an item's own fields leaves the store as it was. */
  lemma UpdateWithSameValues(items: map<Id, Item>, id: Id)
    requires id in items
    requires items[id].quantity.None? || items[id].quantity.value >= 0
    ensures var it := items[id];
            UpdateItem(items, id, it.name, it.price, it.quantity) == Ok(items)
  {
    var it := items[id];
    assert items[id := it] == items;
  }

  /**
   * Create and update agree: an item can be updated right after it is
   * created, and sending its own values back changes nothing. A negative
   * quantity is stored by the create but refused by the update.
   */
  lemma CreateThenUpdateSame(items: map<Id, Item>, name: Option<string>, price: Option<int>,
                             quantity: Option<int>, newId: Id)
    requires newId !in items
    ensures var made := CreateItem(items, name, price, quantity, newId);
            var r := UpdateItem(made, newId, name, price, quantity);
            (quantity.None? || quantity.value >= 0 <==> r == Ok(made))
            && (quantity.Some? && quantity.value < 0 <==> r == Err(400))
  {
    var made := CreateItem(items, name, price, quantity, newId);
    assert made[newId := made[newId]] == made;
  }

  /** After a delete, updating the same item with a valid quantity is 404. */
  lemma UpdateAfterDelete(items: map<Id, Item>, id: Id, name: Option<string>, price: Option<int>, q: int)
    requires id in items && q >= 0
    ensures UpdateItem(Destroy(items, id).value, id, name, price, Some(q)) == Err(404)
  {
  }
}
